=== FILE: README.md ===
# qudi-cbs core rules in Dafny

This project models the small deterministic rules of the qudi-cbs microscope-control
software: the serpentine probe grid and its metric lookup, the ROI list, the injection
sequence editor, the laser intensity dict and the filter-wheel interlock, the valve
positioners, the filter-wheel angle table, the FPGA and DAQ conversions, the celesta
laser commands, the flowboard and brightfield dummies, the camera geometry rules, the
name validator, the fluidics GUI time trace, and the helpers of the HiM, PALM, autofocus
and 3D-scanner modules.

Each source file has its own Dafny module, written as pure functions over immutable
datatypes. Rules shared by several files are factored into modules of their own:
`Labels` (the numbered `'laser{i+1}'` dicts), `FilterwheelInterface` (the filter dict of
both wheels), `LaserControlInterface` (the laser channel configuration),
`ValvePositioner` (the valve configuration), `PyDateTime` (the ROI creation time) and
`Numeric` (truncation, rounding and clamping). Python's insertion-ordered `dict` is a sequence of pairs (module `PyDict`).
The string operations the code uses (`str(n)`, `int(s)`, `zfill`, `join`, `split`,
`replace`) are in module `Text`. Python exceptions are the `Err` case of `Result`
(module `Wrappers`).

Hardware reads and other values the code gets from outside are parameters of the
model. These include a driver's return code, the motor angle, an analog input, the
clock, the PID output, the camera image and a directory listing. Hardware writes are
returned as lists of the calls made.

Python's `int()` truncates toward zero; `Numeric.Trunc` models this explicitly. Floats
are exact `real`s. Where the code rounds (`np.round`, which rounds half to even), the
rounding is written out.

## Model

| member | source | states |
|---|---|---|
| Positioning.GridLength | logic/positioning_logic.py:74-79 | The sorted grid has num_x*num_y points when both sizes are positive, and none otherwise. |
| Positioning.GridSpec | logic/positioning_logic.py:76-79 | Point i of the y-sorted serpentine grid is the closed-form point of probe i+1. |
| Positioning.PositionToCoordinatesSpec | logic/positioning_logic.py:67-85 | IndexError exactly when both sizes are negative (the positive product overruns the empty grid). Otherwise the result is the closed-form probe map, which is empty for a non-positive size. |
| Positioning.ProbeMapKeys | logic/positioning_logic.py:74-85 | For positive sizes, the map holds exactly num_x*num_y entries keyed 1, 2, ... in order. |
| Positioning.ProbeMapGet | logic/positioning_logic.py:83-84 | Looking up probe k in 1..n finds its serpentine grid point; any other key is absent. |
| Positioning.ProbeAtCoordOf | logic/positioning_logic.py:76-84 | Every probe 1..num_x*num_y lies on the grid, and the inverse formula returns the probe number (injective). |
| Positioning.CoordOfProbeAt | logic/positioning_logic.py:76-84 | Every grid point is the point of exactly one probe in 1..num_x*num_y (surjective). |
| Positioning.ConsecutiveProbesAdjacent | logic/positioning_logic.py:76-79 | Consecutive probes are grid neighbours: the same row with x differing by one, or the same x one row up. |
| Positioning.RowDirection | logic/positioning_logic.py:76-79 | Within a row, the next probe has x+1 on even rows and x-1 on odd rows. |
| Positioning.GetCoordinates | logic/positioning_logic.py:193-199 | KeyError exactly when the probe is not in the dict; otherwise the pair stored for it. |
| Positioning.XYPairsDistinct | logic/positioning_logic.py:213-220 | Different probes of the grid have different metric xy positions, so inverting the dict loses none. |
| Positioning.SetOriginLookup | logic/positioning_logic.py:209-223 | After set_origin, the metric position origin + coords*delta of probe k looks up k. |
| Positioning.SetOriginOffGrid | logic/positioning_logic.py:209-223 | A metric position that is no probe's position is absent from the lookup. |
| Positioning.SafeMovesReachTarget | logic/positioning_logic.py:120-140 | From any start, the three moves (z to safety, then xy, then z) end at the target, and xy moves only at the safety height. |
| Positioning.MoveStage | logic/positioning_logic.py:104-146 | A position not of length 3 moves nothing and leaves the flag as it was. Otherwise the stage ends at the position via the safety height, and the moving flag ends false. |
| Positioning.MoveToTarget | logic/positioning_logic.py:158-191 | An unknown probe gives KeyError and a missing origin gives TypeError, both with no move and the moving flag left set (it is raised before the lookup). Otherwise the stage ends at (ox + cx*dx, oy + cy*dy, oz) with the flag cleared, every xy move made at the safety height. |
| Positioning.MoveToTargetLooksUpBack | logic/positioning_logic.py:171-175 | Moving to probe k of the computed grid lands on the xy position that the set_origin lookup maps back to k. |
| RoiList.ToPos3 | logic/roi_logic.py:296-301 | A ROI position is accepted exactly when it has three coordinates, and is then stored unchanged; any other length is a ValueError. |
| RoiList.Broadcast | logic/roi_logic.py:111-112 | Subtracting the zero origin accepts exactly 1- and 3-element positions: three coordinates are kept, a single one is repeated three times, any other length is a ValueError. |
| RoiList.RoiNameInjective | logic/roi_logic.py:173-176 | Different indices give different generated names 'ROI_' + zfill(3), so a generated name identifies its index. |
| RoiList.New | logic/roi_logic.py:55-109 | The constructor fails (ValueError) exactly when a non-empty creation time does not parse, and otherwise keeps the instant strptime reads from it. A missing or empty time means now, and a missing or empty name becomes the default name of the creation time. The given ROIs are stored by name: the stored names are exactly the given ones, without duplicates. |
| RoiList.NewStoresRois | logic/roi_logic.py:72-74 | A given ROI whose name no later ROI repeats is found under its name with its position; a later ROI of the same name replaces it. |
| RoiList.NewReadsUnpadded | logic/roi_logic.py:101-107 | A creation time with unpadded fields, a space-padded day and a one-digit fraction builds a list with that instant. |
| RoiList.AddRoi | logic/roi_logic.py:167-180 | Only a position of length other than 1 or 3 fails. The ROI is stored under the name of index count+1, at the position minus the zero origin (one coordinate is broadcast to all three), and every other name keeps its position. The key set grows by that name, which may already be present. |
| RoiList.AddRoiFresh | logic/roi_logic.py:167-180 | The intended add_roi stores the broadcast position under a generated name absent from the list, appended at the end, and keeps the list valid. |
| RoiList.DeleteRoi | logic/roi_logic.py:205-211 | KeyError exactly when the name is absent. Otherwise only that name leaves the key set, the count drops by one and every other ROI keeps its position. |
| RoiList.GetRoiPosition | logic/roi_logic.py:138-143 | KeyError exactly when the name is absent; otherwise the position stored under that name. |
| RoiList.SetRoiPosition | logic/roi_logic.py:146-151 | An unknown name is a KeyError and a position of length other than 1 or 3 a ValueError; a known name with a 1- or 3-element position succeeds. The names, their order and every other ROI are unchanged. |
| RoiList.RoiFromDict | logic/roi_logic.py:266-308 | Rebuilding a ROI succeeds exactly for a 3-element position with a non-empty name. A missing position is a TypeError, a wrong length a ValueError, and a missing name an AttributeError (the generic-name branch reads a missing attribute). |
| RoiList.RoisFromDict | logic/roi_logic.py:245-246 | The list rebuilds exactly when every ROI does, one for one and in order. Otherwise the error is that of the first ROI that fails, all ROIs before it rebuilding. |
| RoiList.RoisFromDictAllOk | logic/roi_logic.py:233-246 | ROIs written by to_dict all read back, giving the same names and positions in order. |
| RoiList.FromDictToDict | logic/roi_logic.py:233-257 | from_dict(to_dict(l)) rebuilds l exactly: its name, its creation time through the text format, and every ROI in order. |
| RoiList.AddRoiOverwritesAfterDelete | logic/roi_logic.py:167-180 | With ROI_001 and ROI_002 present, deleting ROI_001 and adding a ROI stores the new one as ROI_002 and overwrites the old position. |
| RoiList.SetThenGetRoiPosition | logic/roi_logic.py:138-151 | For a present name and a 1- or 3-element position the set succeeds, and reading the position back gives the new coordinates (the single one three times). |
| RoiLogic.SetActiveRoi | logic/roi_logic.py:498-513 | None or '' clears the active ROI, a listed name becomes active, and an unknown name changes nothing. The active ROI stays a listed one. |
| RoiLogic.DeleteRoi | logic/roi_logic.py:458-485 | An empty list, or no name and no active ROI, changes nothing. An unknown name is a KeyError. Otherwise exactly that name is removed; if it was active, the first remaining ROI (or none) becomes active. |
| RoiLogic.DeleteAllRoi | logic/roi_logic.py:488-493 | Afterwards no ROI remains and none is active; the list keeps its name and creation time. |
| RoiLogic.AddRoiAsWritten | logic/roi_logic.py:424-443 | add_roi as written always raises TypeError (it passes name= to a method that takes only position). |
| RoiLogic.AddRoi | logic/roi_logic.py:424-454 | The intended add_roi fails exactly for a position (given or from the stage) of length other than 1 or 3. Otherwise it appends one new name, and that name becomes active. |
| RoiLogic.AddThenDeleteRoi | logic/roi_logic.py:424-485 | Adding a ROI and then deleting the active ROI restores the original ROI dict. |
| RoiLogic.RenameRoiList | logic/roi_logic.py:529-535 | An empty name is refused with no change. Any other name replaces the list name and leaves the ROIs and the active ROI alone. |
| RoiLogic.MoveStage | logic/roi_logic.py:553-567 | The stage moves exactly when the position has three coordinates, and then to those coordinates. |
| RoiLogic.GoToRoi | logic/roi_logic.py:539-551 | No name and no active ROI moves nothing. An unknown name is a KeyError. Otherwise the stage moves to the position stored for the name. |
| RoiLogic.ResetRoiList | logic/roi_logic.py:580-589 | The new list is empty, created now, has the default name of now, and no ROI is active. |
| RoiLogic.LoadRoiList | logic/roi_logic.py:622-642 | No path changes nothing. Otherwise it succeeds exactly when from_dict does, installs that list, and makes its first ROI (if any) active. |
| RoiLogic.SaveThenLoad | logic/roi_logic.py:599-654 | Saving the session's list and loading it back gives the same list, with the active ROI one of its ROIs. |
| Scanner3D.InRange | logic/scanner_3D_logic.py:41-49 | A value is in range exactly when clamping it into the bounds leaves it unchanged (a bound of None does not clamp). Two present bounds of an admitting range are ordered. |
| Scanner3D.AxisRanges | logic/scanner_3D_logic.py:120-125 | At activation the scan ranges form an ordered dict with the keys x, y, z, in that order. |
| Scanner3D.InitialPosition | logic/scanner_3D_logic.py:132-136 | The recorded position has the keys x, y, z, a, in that order. |
| Scanner3D.CheckIfPosInRange | logic/scanner_3D_logic.py:254-266 | KeyError exactly for an axis with no range. The code is 0 exactly when the axis's range holds the position, and -1 otherwise. |
| Scanner3D.InitialPositionInRange | logic/scanner_3D_logic.py:120-136 | For ordered hardware ranges, every ranged axis of the activation position passes its range check. |
| Scanner3D.UpdateCurrentPosition | logic/scanner_3D_logic.py:814-828 | The recorded axes and their order are kept. An axis present in both takes the update's value, and any other axis keeps its value; axes new to the position are not added. |
| Scanner3D.UpdateIdempotent | logic/scanner_3D_logic.py:814-828 | Applying the same update twice records what applying it once records. |
| Scanner3D.MoveWith | logic/scanner_3D_logic.py:830-853 | For any failure test, a move returns the recorded position together with its outcome: the recorded axes and their order are kept, the code is 0 or -1, and the only error is KeyError. |
| Scanner3D.MoveToPositionAsWritten | logic/scanner_3D_logic.py:830-853 | move_to_position as written, where only a positive code counts as failure; it keeps the recorded axes and their order, also when it raises KeyError, and KeyError is its only error. |
| Scanner3D.MoveToPosition | logic/scanner_3D_logic.py:830-861 | move_to_position with the documented code convention, where a negative code is a failure; it keeps the recorded axes and their order, also when it raises KeyError, and KeyError is its only error. |
| Scanner3D.MoveSpec | logic/scanner_3D_logic.py:830-853 | Whatever the outcome, a recorded value changes only for a requested axis whose range admits the value and whose move passed, so axes moved before a failure or a KeyError stay recorded. Code 0 means every admitted requested axis holds its value. Code -1 names a requested axis whose move failed and that kept its value. KeyError names a requested, recorded axis without a range that kept its value. |
| Scanner3D.MoveRecordsOnlySuccess | logic/scanner_3D_logic.py:830-861 | With the intended test and whatever the outcome, a changed axis was requested, lies in its range, and its move returned a code that is not negative. |
| Scanner3D.MoveAsWrittenIgnoresFailure | logic/scanner_3D_logic.py:842-845 | With a move that returns -1, the as-written call records the new value and returns 0. The intended call returns -1 and records nothing. |
| Scanner3D.MoveAxisWithoutRange | logic/scanner_3D_logic.py:132-136 | Moving axis "a" away from its activation value raises KeyError with nothing moved, because "a" is recorded but has no scan range. |
| Scanner3D.MoveKeyErrorKeepsEarlierAxes | logic/scanner_3D_logic.py:838-844 | A request for x = 5 and then a = 1 from the activation position moves and records x, then raises KeyError for a, returning the record with x at 5. |
| Scanner3D.UnrangedRaises | logic/scanner_3D_logic.py:838-841 | A request for one recorded axis that has no range, at a new value, raises KeyError and leaves the record unchanged. |
| Scanner3D.Outside | logic/scanner_3D_logic.py:627-632 | Six out-of-range flags, one per image bound; none is set exactly when all six bounds lie in their axes' ranges. |
| Scanner3D.ShortSide | logic/scanner_3D_logic.py:647-652 | The shorter side gets between 2 and max(resolution, 2) points, and above 2 exactly the whole part of resolution * short / long. |
| Scanner3D.GridPointsSpec | logic/scanner_3D_logic.py:646-652 | The longer side gets max(resolution, 2) points and the shorter side between 2 and that many. Only two empty sides fail, with ZeroDivisionError. |
| Scanner3D.InitializeImageAsWritten | logic/scanner_3D_logic.py:614-644 | As written, an image is refused exactly when all six bounds are out of range, or x2 < x1, or y2 < y1. |
| Scanner3D.InitializeImage | logic/scanner_3D_logic.py:614-652 | As intended, an image is refused exactly when any bound is out of range, or x2 < x1, or y2 < y1. An accepted image gets the aspect-preserving grid; only two empty sides fail. |
| Scanner3D.InitializeImageAsWrittenAcceptsOutside | logic/scanner_3D_logic.py:627-633 | An image whose x start lies outside the x range is accepted as written and refused as intended. |
| Scanner3D.NpyLineField | logic/scanner_3D_logic.py:970-979 | The padded line number is str(line).zfill(4): all digits, parsing back to the line, and exactly 4 characters below 10000. |
| Scanner3D.NpyPathsDistinct | logic/scanner_3D_logic.py:962-979 | Different line numbers from 0 up save to different file paths. |
| ThorlabsWheel.Angle | hardware/wheels/thorlabs_fast_filter_wheel.py:107-111 | Every table angle lies in [0, 360). Only position 1 is at 0, and every other position lies between 360/n and 360 - 360/n. |
| ThorlabsWheel.PositionDict | hardware/wheels/thorlabs_fast_filter_wheel.py:100-112 | The table has keys 1..n, in order, each with its angle; it is empty for n <= 0. |
| ThorlabsWheel.AnglesApart | hardware/wheels/thorlabs_fast_filter_wheel.py:107-111 | Two different positions are at least 360/n degrees apart. |
| ThorlabsWheel.AnglesDistinct | hardware/wheels/thorlabs_fast_filter_wheel.py:150 | The table angles are distinct, so inverting the table loses no position. |
| ThorlabsWheel.LookUpSpec | hardware/wheels/thorlabs_fast_filter_wheel.py:150-156 | The inverted-table lookup returns the position at that angle. It returns 0 exactly when no position has that angle. |
| ThorlabsWheel.GetPosition | hardware/wheels/thorlabs_fast_filter_wheel.py:146-156 | As written: the position whose table angle equals the rounded motor angle, or 0 exactly when no table angle equals it. |
| ThorlabsWheel.SetPosition | hardware/wheels/thorlabs_fast_filter_wheel.py:158-172 | A target above n gives -1 and no move. A target below 1 is a KeyError. Otherwise the motor goes to the target's table angle and the code is 0. |
| ThorlabsWheel.SetThenGetWholeAngle | hardware/wheels/thorlabs_fast_filter_wheel.py:146-172 | When the target's angle is a whole number of degrees, moving there reads back as the target. |
| ThorlabsWheel.ReadsPositionAt | hardware/wheels/thorlabs_fast_filter_wheel.py:146-156 | A motor angle that rounds to the whole-degree angle of position i+1 reads as i+1. |
| ThorlabsWheel.AngleInjective | hardware/wheels/thorlabs_fast_filter_wheel.py:107-111 | Equal table angles belong to the same position. |
| ThorlabsWheel.SetThenGetSevenFilters | hardware/wheels/thorlabs_fast_filter_wheel.py:149-156 | With 7 filters, moving to position 2 (308.57... degrees) reads back 0, because 309 is not a table angle. |
| ThorlabsWheel.GetPositionRounded | hardware/wheels/thorlabs_fast_filter_wheel.py:146-156 | The intended get_position returns the first position whose rounded angle matches the rounded motor angle, or 0 exactly when none does. |
| ThorlabsWheel.RoundedApart | hardware/wheels/thorlabs_fast_filter_wheel.py:107-111 | With at most 180 filters, different positions round to different whole degrees. |
| ThorlabsWheel.SetThenGetRounded | hardware/wheels/thorlabs_fast_filter_wheel.py:146-172 | With at most 180 filters, moving to any position and reading it back with the intended get_position gives that position. |
| Validators.Run | gui/validators.py:23-24 | The leading match is the longest prefix of allowed characters (word characters in the Unicode sense of `\w`, plus the path separators for the path pattern): it is all allowed and is followed by the end or by a character the pattern refuses. |
| Validators.Skip | gui/validators.py:66-73 | search starts at the first allowed character, accented letters and other non-ASCII word characters included, or at the end when there is none. |
| Validators.Validate | gui/validators.py:31-64 | Acceptable exactly for an empty input that is allowed to be empty, or a non-empty input of allowed characters, which is returned as is. Intermediate exactly for an empty input that is not allowed. Otherwise Invalid with the leading match, which stops before a refused character. The cursor is kept. Non-ASCII word characters such as "é" count as allowed. |
| Validators.Fixup | gui/validators.py:66-73 | fixup returns a run of allowed characters, and returns "" exactly when the text has no allowed character. |
| Validators.FixupMaximal | gui/validators.py:66-73 | The run fixup returns starts at the first allowed character and ends at the end or at a refused character. |
| Validators.RunFrom | gui/validators.py:66-73 | The leading match of a suffix is the slice of the whole text that starts there and is maximal. |
| Validators.FixupValidates | gui/validators.py:31-73 | A non-empty fixup result passes validate as Acceptable, unchanged. |
| Validators.RunAll | gui/validators.py:57-62 | A string of allowed characters is its own leading match, so validate accepts it. |
| Validators.FixupIdempotent | gui/validators.py:66-73 | Fixing up a fixed-up text changes nothing. |
| Validators.PathAcceptsNames | gui/validators.py:23-64 | Every text the name validator accepts, the path validator accepts too. |
| ValvePositioner.ValveDict | hardware/valve/valve_dummy.py:100-120 | IndexError exactly when a configuration list is shorter than num_valves. Otherwise the dict holds exactly the IDs of the first num_valves valves, each once. |
| ValvePositioner.MaxOutputs | hardware/valve/valve_dummy.py:152 | An incomplete configuration is an IndexError, and an ID that names none of the first num_valves valves a KeyError. |
| ValvePositioner.MaxOutputsOf | hardware/valve/valve_dummy.py:100-120 | With distinct IDs, valve i's ID finds valve i's number of outputs. |
| ValveDummy.SetValvePosition | hardware/valve/valve_dummy.py:143-159 | An address not in the ID list changes nothing, and a failing outputs lookup raises as get_valve_dict does. A target above the valve's outputs changes nothing; any other target is stored for that address and nothing else changes. |
| ValveDummy.GetValvePosition | hardware/valve/valve_dummy.py:131-141 | An address not in the ID list gives None. A configured valve never set raises KeyError; otherwise its stored position. |
| ValveDummy.SetThenGet | hardware/valve/valve_dummy.py:131-159 | With distinct IDs, a target within valve i's outputs reads back after it is set. |
| ValveDummy.ActivateFirst | hardware/valve/valve_dummy.py:86-90 | Activating k valves keeps the configuration. Activating k valves is activating k-1 and then setting valve k-1 to the initial position. |
| ValveDummy.Activate | hardware/valve/valve_dummy.py:86-90 | on_activate keeps the configuration. |
| ValveDummy.ActivateSets | hardware/valve/valve_dummy.py:86-90 | With distinct IDs and at least one output per valve, activation succeeds and every configured valve reads position 1. |
| ValveDummy.ActivateFirstSets | hardware/valve/valve_dummy.py:86-90 | Under the same conditions, each of the first k valves reads position 1 after the first k are set. |
| ValveDummy.ActivateFirstOk | hardware/valve/valve_dummy.py:86-90 | Setting the first k valves to position 1 succeeds. |
| ValveDummy.ActivatedReads | hardware/valve/valve_dummy.py:86-90 | After the first k valves are set, valve i < k reads position 1. |
| ValveDummy.KeepsEarlier | hardware/valve/valve_dummy.py:143-159 | Setting valve j leaves the reading of an earlier valve i as it was. |
| ValveDummy.GetStatus | hardware/valve/valve_dummy.py:122-129 | The status dict has exactly the IDs of the whole ID list as keys, each reporting 'Y'. |
| ValveDummy.LastWithKey | hardware/valve/valve_dummy.py:127-128 | Building a dict from pairs that all carry 'Y' gives 'Y' for every key that occurs. |
| ValveDummy.SetOtherValve | hardware/valve/valve_dummy.py:131-159 | Setting one valve leaves the reading of every other address as it was. |
| ValveDummy.StoresWhenHamiltonMoves | hardware/valve/valve_dummy.py:143-159 | The dummy fails exactly when the Hamilton driver fails for the same configuration. It stores the target exactly when the driver would send a move command, and otherwise changes nothing. |
| AutofocusCamera.ThresholdImage | logic/autofocus_logic_camera.py:253-261 | The mask has the image's shape. A pixel is 254 where the image is above the threshold and 0 elsewhere, provided the threshold is below 254; the second pass also clears the 254s otherwise. |
| AutofocusCamera.MaskTotal | logic/autofocus_logic_camera.py:253-261 | The mask sums to 254 times the number of pixels above a threshold below 254, and to 0 for a threshold at 254 or above. |
| AutofocusCamera.CheckSignal | logic/autofocus_logic_camera.py:123-134 | The signal check passes exactly when some pixel lies above the threshold 150 (one such pixel already adds 254 >= 50 to the mask sum). |
| AutofocusCamera.ColumnSums | logic/autofocus_logic_camera.py:269 | The X projection has one sum per column. |
| AutofocusCamera.ColumnSumsColumn | logic/autofocus_logic_camera.py:269 | Entry c of the X projection is the sum of column c, over all rows. |
| AutofocusCamera.RowSums | logic/autofocus_logic_camera.py:270 | The Y projection has one sum per row, each the sum of that row. |
| AutofocusCamera.ProjectionTotals | logic/autofocus_logic_camera.py:269-271 | Both projections sum to the image total, so the two halves of the division guard agree. |
| AutofocusCamera.MomentBounds | logic/autofocus_logic_camera.py:272-273 | With no negative weights, sum(idx * xs) lies between 0 and (n - 1) * sum(xs). |
| AutofocusCamera.CentroidInImage | logic/autofocus_logic_camera.py:263-276 | For an image without negative pixels, the centroid lies inside the image: x in [0, width - 1] and y in [0, height - 1]. |
| AutofocusCamera.WeightsInRange | logic/autofocus_logic_camera.py:269-273 | The centre of mass of non-negative weights lies within their index ranges. |
| AutofocusCamera.NoSpotCentroid | logic/autofocus_logic_camera.py:123-134 | When the signal check fails, the mask is empty and the centroid falls back to (0, 0). |
| AutofocusCamera.ReadDetectorSignal | logic/autofocus_logic_camera.py:109-121 | The reference-axis coordinate of the centroid lies inside the image for an image without negative pixels, and is 0 when no spot is detected. |
| AutofocusCamera.InitPid | logic/autofocus_logic_camera.py:136-144 | init_pid clears the stability flag and the iteration count and keeps the output history. |
| AutofocusCamera.Push | logic/autofocus_logic_camera.py:164 | The new output ends the history. For a history of at least ten, the rest is entries 1..9 (Python's clamped slice); for a shorter history, everything after the first entry. |
| AutofocusCamera.FitSlopeOfLine | logic/autofocus_logic_camera.py:176-177 | On outputs lying exactly on a line a + b*i, the fitted change p(9) - p(0) is 9b. |
| AutofocusCamera.CheckStabilization | logic/autofocus_logic_camera.py:169-183 | The returned flag is the stored flag. Iterations and history are unchanged, and the flag is untouched for 10 iterations or fewer. |
| AutofocusCamera.ReadPidOutput | logic/autofocus_logic_camera.py:153-165 | The output is returned with the new flag. The iteration count grows by one, and the history drops its oldest entry and ends with the output. |
| AutofocusCamera.RunHistory | logic/autofocus_logic_camera.py:153-165 | After a run of outputs, the history is the last ten of (old history + outputs), and the iteration count grows by the number of outputs. |
| AutofocusCamera.StableAfterInit | logic/autofocus_logic_camera.py:136-183 | After init_pid and n outputs, the count is n, the history is the last ten outputs once n >= 10, and the focus is stable exactly when n > 10 and the fit over the last ten changes by less than 10. |
| Brightfield.ClampIntensity | hardware/brightfield_dummy.py:46 | The clamped request lies in [0, 99]: unchanged when already there, 0 below and 99 above. |
| Brightfield.LedControl | hardware/brightfield_dummy.py:41-48 | The code is 0 and the stored intensity lies in 0..99. It is the truncated request when that is in range, 0 at or below 0, and 99 at or above 99. |
| Brightfield.LedControlKeepsInRange | hardware/brightfield_dummy.py:41-48 | A whole-number request in 0..99 is stored unchanged. |
| Brightfield.LedControlIdempotent | hardware/brightfield_dummy.py:41-48 | Sending the stored intensity again leaves it unchanged. |
| Brightfield.LedControlMonotone | hardware/brightfield_dummy.py:41-48 | A brighter request never stores a dimmer LED. |
| CameraDummy.StartLiveAcquisition | hardware/camera/camera_dummy.py:101-108 | With live support the camera becomes live, not acquiring, and not ready; without it nothing changes. |
| CameraDummy.StartSingleAcquisition | hardware/camera/camera_dummy.py:110-121 | The call succeeds exactly when the camera is not live. A refusal changes nothing; a success ends not acquiring, and the camera is ready. |
| CameraDummy.StopAcquisition | hardware/camera/camera_dummy.py:123-129 | Afterwards the camera is ready, and only the live and acquiring flags changed. |
| CameraDummy.SetExposure | hardware/camera/camera_dummy.py:145-153 | The exposure is stored and returned, and nothing else changes. |
| CameraDummy.SetGain | hardware/camera/camera_dummy.py:162-170 | The gain is stored and returned, and nothing else changes. |
| CameraDummy.StartMovieAcquisition | hardware/camera/camera_dummy.py:211-224 | The call always succeeds and sets the frame count; only the live and acquiring flags and the frame count may change. With live support the camera is live and not acquiring; without it only the frame count changes. |
| CameraDummy.FinishMovieAcquisition | hardware/camera/camera_dummy.py:226-235 | The call always succeeds; the frame count is back to 1 and the camera is ready, and every other field (exposure, gain, image, progress, frame transfer) is unchanged. |
| CameraDummy.PollCounts | hardware/camera/camera_dummy.py:282-291 | From a counter of 0, k < n polls report 1..k and leave the counter at k. |
| CameraDummy.Poll | hardware/camera/camera_dummy.py:282-291 | k polls give k answers and touch only the counter and the live flag. Live display is never switched back on, the last answer is the counter left behind unless it reached the movie length (then the counter is reset and live display ends), and a counter inside the movie stays inside it. |
| CameraDummy.MovieProgress | hardware/camera/camera_dummy.py:211-291 | After starting a movie of n frames from counter 0, n polls report 1, 2, ..., n, and leave the counter at 0 with the camera not live. |
| CameraDummy.SetImage | hardware/camera/camera_dummy.py:252-256 | The code is 0. The image size is (rows, columns) = (|vend - vstart| + 1, |hend - hstart| + 1), and only the size changes. |
| CameraDummy.SetImageAgreesWithIxon | hardware/camera/camera_dummy.py:252-256 | Without binning, the dummy's image size for a region equals the size the iXon driver computes for it. |
| CameraDummy.KineticTime | hardware/camera/camera_dummy.py:274-280 | The kinetic time exceeds the exposure, by 0.123 s with frame transfer and 0.765421 s without. |
| CameraDummy.SetFrameTransfer | hardware/camera/camera_dummy.py:294-299 | Mode 1 switches frame transfer on and mode 0 off. Any other mode changes nothing, and no other field changes. |
| CameraDummy.SetImageSymmetric | hardware/camera/camera_dummy.py:252-256 | The image size depends only on the ends of each range, not on which end comes first: swapping start and end gives the same camera. |
| Celesta.WavelengthLine | hardware/laser/lumencor_celesta.py:78-79 | With distinct wavelengths, configured wavelength i drives line i and is allowed exactly as configured. |
| Celesta.LineOfWavelength | hardware/laser/lumencor_celesta.py:79 | With distinct wavelengths, wavelength i (i < 7) looks up line i. |
| Celesta.CheckOfWavelength | hardware/laser/lumencor_celesta.py:78 | With distinct wavelengths, wavelength i looks up its own allowed flag. |
| Celesta.SetLine | hardware/laser/lumencor_celesta.py:144-148 | One loop step raises exactly when the wavelength is unknown, or allowed with a line outside the levels. It keeps the number of levels. |
| Celesta.SetLines | hardware/laser/lumencor_celesta.py:143-148 | The loop succeeds exactly when there are at least as many values as wavelengths and every wavelength is accepted. It keeps the number of levels. |
| Celesta.SetLinesUntouched | hardware/laser/lumencor_celesta.py:143-148 | A line that no allowed requested wavelength drives keeps its level. |
| Celesta.SetLinesLastWins | hardware/laser/lumencor_celesta.py:143-148 | A line takes the value of the last allowed requested wavelength that drives it. |
| Celesta.ReadLevels | hardware/laser/lumencor_celesta.py:101-119 | The levels read from an answer are at most as many as its words. |
| Celesta.ReadBackLevels | hardware/laser/lumencor_celesta.py:101-119 | Levels written as space-separated decimals read back as the same levels. |
| Celesta.SetLaserlineIntensity | hardware/laser/lumencor_celesta.py:136-152 | The command is sent exactly when the loop succeeds. It is "SET MULCHINT " followed by the updated levels. |
| Celesta.SetLaserlineOnOff | hardware/laser/lumencor_celesta.py:154-170 | The command is sent exactly when the loop succeeds. It is "SET MULCH " followed by the updated states. |
| Celesta.IntensityReadsBack | hardware/laser/lumencor_celesta.py:101-152 | After a set, reading the sent levels back gives the new intensity on the target line. Every line that no allowed requested wavelength drives keeps its old level. |
| Celesta.NonNegativeLevels | hardware/laser/lumencor_celesta.py:143-148 | Levels that start non-negative and are set to non-negative values stay non-negative. |
| Celesta.SetTtl | hardware/laser/lumencor_celesta.py:126-134 | The command is "SET TTLENABLE " followed by 1 to allow external trigger control and 0 to forbid it. |
| Celesta.CommandUrl | hardware/laser/lumencor_celesta.py:182 | The URL is the service prefix followed by a query with no spaces. |
| Celesta.CommandUrlDecodes | hardware/laser/lumencor_celesta.py:182 | A command without '%' decodes back from its URL query unchanged. |
| Celesta.StopAllIsAllOff | hardware/laser/lumencor_celesta.py:121-124 | The stop_all command is "SET MULCH " followed by a zero for each of the seven lines. |
| Celesta.DeactivateAsWritten | hardware/laser/lumencor_celesta.py:86-90 | As written, deactivation can only fail with AttributeError (zero_all is not defined). |
| Celesta.DeactivateAsWrittenSendsNothing | hardware/laser/lumencor_celesta.py:86-90 | As written, deactivation never completes, so no line is switched off and TTL control is not disabled. |
| Celesta.Deactivate | hardware/laser/lumencor_celesta.py:86-90 | Intended deactivation sends two commands: one setting all seven lines to 0, then TTL disable. |
| PyDateTime.PadSpec | logic/roi_logic.py:97-98 | A field printed with width w digits (n < 10^w) has exactly w digits and reads back as n. |
| PyDateTime.DefaultListName | logic/roi_logic.py:84-85 | The default ROI list name starts with 'roilist_' and has at least one more character. |
| PyDateTime.DefaultListNameFields | logic/roi_logic.py:84-85 | The default name of a valid instant is 31 characters: "roilist_", then year, month and day, "_", hour and minute, "_", second, "_" and microseconds, each zero padded at a fixed offset. |
| PyDateTime.DefaultListNameInjective | logic/roi_logic.py:84-85 | Two valid instants with the same default list name are equal, so the name identifies the creation time. |
| PyDateTime.Parse | logic/roi_logic.py:101-107 | Parsed text yields a valid instant whose year is the four digits that open the text. |
| PyDateTime.ShortField | logic/roi_logic.py:105 | A one- or two-digit field (%m, %H, %M, %S) ends before the next non-digit, lies in its range, and a third digit or a missing first digit is refused. |
| PyDateTime.ShortFieldSpec | logic/roi_logic.py:105 | The value of a short field is the decimal number its digits spell. |
| PyDateTime.DayField | logic/roi_logic.py:105 | %d reads like the other short fields where a digit stands, and elsewhere succeeds exactly on a space followed by one digit 1-9. |
| PyDateTime.Fraction | logic/roi_logic.py:105 | %f reads exactly one to six digits, giving microseconds below one million. |
| PyDateTime.FractionScales | logic/roi_logic.py:105 | A short fraction counts in units of its last digit: its digits times 10^(6 - length) microseconds. |
| PyDateTime.SpaceRun | logic/roi_logic.py:105 | The space of the format consumes the whole run of whitespace that starts there. |
| PyDateTime.ParseDate | logic/roi_logic.py:105 | A date that reads opens with exactly four year digits and a dash, gives the year those digits spell, a month in 1..12 and a day in 1..31. |
| PyDateTime.ParseClock | logic/roi_logic.py:105 | A clock that reads gives an hour in 0..23, a minute in 0..59 and a second in 0..61 (the bounds of the strptime fields; datetime itself then refuses 60 and 61). |
| PyDateTime.ParseUnpadded | logic/roi_logic.py:105 | "2021-1- 5 9:3:7.5" reads as 2021-01-05 09:03:07.500000. |
| PyDateTime.FormatDateFields | logic/roi_logic.py:97-98 | The text form holds year, month and day at their fixed offsets, separated by '-'. |
| PyDateTime.FormatTimeFields | logic/roi_logic.py:97-98 | The text form holds hour, minute, second and microsecond at their fixed offsets, with ' ', ':' and '.' between them. |
| PyDateTime.ParseFormat | logic/roi_logic.py:97-109 | strptime of the strftime text of a valid instant gives back the same instant. |
| PyDateTime.FormatInjective | logic/roi_logic.py:97-98 | Two valid instants with the same text form are equal. |
| DummyWheel.SetPosition | hardware/wheels/dummy_filter_wheel.py:96-113 | The code is 0 exactly for a target in 1..n, which is then stored. Any other target gives -1 and changes nothing. Setting the position the wheel already reports changes nothing and returns code 0. |
| DummyWheel.SetThenGet | hardware/wheels/dummy_filter_wheel.py:96-113 | After an accepted set (a target from 1 to the number of filters), get_position returns the target. |
| ExpConfig.InitDefaultConfigDict | logic/experiment_configurator_logic.py:110-120 | the six settings take the defaults shown on the user interface at start-up (exposure 0.05, gain 0, one frame, filter 1, an empty imaging sequence, the default save path); every other entry reads as before; the key set is the old one plus the six; a well-formed dict stays well-formed |
| ExpConfig.Activate | logic/experiment_configurator_logic.py:65-71 | the placeholder 'Select your experiment..' is put in front of the configured experiments, which follow unchanged; the dict's imaging sequence agrees with the empty list model |
| ExpConfig.UpdateEntry | logic/experiment_configurator_logic.py:123-141 | the changed setting reads the new value and no other setting changes; the imaging list and the experiment list are untouched, so the dict and the list model stay in agreement |
| ExpConfig.UpdateFilterPos | logic/experiment_configurator_logic.py:143-146 | the stored filter position is the zero-based combobox index plus one; the dict and the list model stay in agreement |
| ExpConfig.AddEntry | logic/experiment_configurator_logic.py:148-156 | the (light source, intensity) pair is appended at the end of the list model, the dict's imaging sequence mirrors the list, and no other setting changes |
| ExpConfig.DeleteEntry | logic/experiment_configurator_logic.py:159-166 | IndexError exactly when the row is beyond the list; otherwise exactly that row is removed, the others keep their order, the dict mirrors the list and no other setting changes |
| ExpConfig.AddThenDelete | logic/experiment_configurator_logic.py:148-166 | deleting the row just added succeeds and gives back the imaging sequence as it was |
| ExpConfig.LoadConfigFile | logic/experiment_configurator_logic.py:96-108 | An empty file (no mapping) is a TypeError exactly when the configuration has a key to look up; with no keys nothing is read and the result is empty. Otherwise the keys and their order are kept, no key is added, and each key takes the file's value or None when the file lacks it. |
| ExpConfig.LoadSaved | logic/experiment_configurator_logic.py:77-108 | loading the dict saved from a configuration with the same keys restores exactly that dict |
| FilterwheelInterface.FilterDict | hardware/wheels/dummy_filter_wheel.py:115-140 | IndexError exactly when the position or allowed-laser list is shorter than the name list; otherwise one entry per configured filter, in order, keyed 'filter1', 'filter2', ..., whose label repeats the key and whose name, position and lasers are the filter's configured ones; the keys are distinct |
| FilterwheelInterface.FilterDictGet | hardware/wheels/dummy_filter_wheel.py:115-140 | looking up 'filter{n}' for n from 1 to the number of filters finds the n-th configured filter |
| FilterwheelLogic.SetPosition | logic/filterwheel_logic.py:69-85 | while the lasers are on, nothing changes, nothing is sent to the wheel and no signal is emitted; with them off, the intensities are reset, the position is sent, and the new-filter signal carries the position exactly when the wheel answers 0 |
| FilterwheelLogic.ChangeThenOnWritesZero | logic/filterwheel_logic.py:69-85 | after a filter change, switching the lasers on writes 0 V to every laser line, so no intensity chosen under the previous filter survives |
| FilterwheelLogic.SetPositionDummy | logic/filterwheel_logic.py:69-85 | With the dummy wheel behind it: while the lasers are on, the wheel gets no target and the lasers are untouched. With them off, a target from 1 to the number of filters is reached and announced, and any other target leaves the wheel as it was and announces nothing. |
| Flowboard.ActivateAsWritten | hardware/microfluidics/flowboard_dummy.py:65-75 | as written, activation stores pressure 0 in mbar with range 350 under the list positions 0..n-1 of the pressure channels, and unit ul/min with range (-11000, 11000) under the positions of the sensor channels; pressures stored under any other key are untouched |
| Flowboard.Activate | hardware/microfluidics/flowboard_dummy.py:65-75 | as intended, every configured pressure channel ID reads pressure 0, unit mbar and range 350, every configured sensor ID reads unit ul/min and range (-11000, 11000), and the pressure of any other key is untouched |
| Flowboard.Fill | hardware/microfluidics/flowboard_dummy.py:68-75 | assigning one value to each listed key in turn: a listed key reads the value, any other key reads as before, and a well-formed dict stays well-formed |
| Flowboard.SetPressure | hardware/microfluidics/flowboard_dummy.py:84-98 | setting pressures changes nothing but the stored pressures, and the pressure dict stays well-formed |
| Flowboard.SetPressureGet | hardware/microfluidics/flowboard_dummy.py:84-98 | for a request with one value per channel, a channel takes the requested value exactly when it is a configured channel and the value is at most 350 mbar, and keeps its pressure otherwise |
| Flowboard.Subset | hardware/microfluidics/flowboard_dummy.py:107-119 | the query answer holds exactly the configured channels among those queried, each with its stored value; a queried configured channel that has no stored value is exactly the KeyError case |
| Flowboard.ActivateAsWrittenMissesId | hardware/microfluidics/flowboard_dummy.py:65-119 | as written, a board whose only pressure channel has ID 1 raises KeyError when the pressure of channel 1 is read after activation |
| Flowboard.ActivateThenGet | hardware/microfluidics/flowboard_dummy.py:65-119 | after the intended activation, any non-empty query succeeds and every configured channel in it reads pressure 0 |
| FluidicsGui.UpdateValid | gui/fluidics/fluidics_gui.py:556-576 | a well-formed timetrace (equal lengths, at most 100 samples, consecutive times) stays well-formed after a sample: it grows by one up to 100 samples and then keeps that length, the new pressure and flowrate come last, and the time axis advances by one |
| FluidicsGui.FeedKeepsLastWindow | gui/fluidics/fluidics_gui.py:540-576 | after n samples fed into the traces a new measurement starts with, the traces show exactly the last min(n, 100) samples in arrival order, at times max(0, n - 100) to n - 1 |
| FluidicsGui.ChangeValvePosition | gui/fluidics/fluidics_gui.py:656-666 | for a combobox number inside both lists, the signal carries that valve's ID and the combobox index plus one; a number that Python's indexing (negative indices included) rejects in either list raises IndexError |
| FluidicsGui.BoxOf | gui/fluidics/fluidics_gui.py:676-688 | exactly the letters 'a' to 'e' have a combobox, the k-th letter having combobox k |
| FluidicsGui.UpdateComboboxIndex | gui/fluidics/fluidics_gui.py:668-688 | an unknown valve letter changes no combobox; a known one sets only its own combobox, to the position less one; a missing combobox raises IndexError |
| FluidicsGui.ShowThenChange | gui/fluidics/fluidics_gui.py:656-688 | when the valve IDs are 'a', 'b', ... in combobox order, showing a valve's position and reading its combobox back sends that same valve and position |
| Hamamatsu.Round4 | hardware/camera/hamamatsu/hamamatsu.py:182-185 | `int(x / 4) * 4` is a multiple of 4 that lies between 0 and x, less than 4 away from x (truncation toward zero, also for negative x) |
| Hamamatsu.Round4Idempotent | hardware/camera/hamamatsu/hamamatsu.py:182-185 | truncating an already truncated coordinate changes nothing |
| Hamamatsu.SetImage | hardware/camera/hamamatsu/hamamatsu.py:168-196 | the subarray position and size are multiples of 4; it starts at the truncated start and ends at the truncated end in each direction; the code is 0 when the camera accepted the writes and -1 otherwise |
| Hamamatsu.SubarrayWithinRegion | hardware/camera/hamamatsu/hamamatsu.py:168-196 | for a region on the sensor, the subarray starts at or before the requested start and ends at or before the requested end, loses less than 4 pixels at each end, and has a non-negative size |
| Hamamatsu.AlignedRegionExact | hardware/camera/hamamatsu/hamamatsu.py:168-196 | a region whose bounds are already multiples of 4 is set exactly, with code 0 |
| Hamamatsu.SetGain | hardware/camera/hamamatsu/hamamatsu.py:146-153 | setting the gain never succeeds on this camera |
| Hamamatsu.Round4Fixed | hardware/camera/hamamatsu/hamamatsu.py:182-185 | A coordinate that is already a multiple of 4 is kept. |
| HamiltonValve.Letter | hardware/valve/hamilton_valve.py:108-110 | valve n of the chain (from 0) is addressed by the character with code n + 97, a lower-case letter for the first 26 valves |
| HamiltonValve.InitCommands | hardware/valve/hamilton_valve.py:101-110 | activation first writes "1a\r", then "<letter>LXR\r" for each valve in chain order, one command per valve |
| HamiltonValve.GetStatus | hardware/valve/hamilton_valve.py:147-158 | each valve's answer is stored under its letter; any key that is not a valve letter keeps its status; a well-formed status dict stays well-formed |
| HamiltonValve.DirectionIsShorterWay | hardware/valve/hamilton_valve.py:189-192 | for two outputs of the valve, the direction digit is '1' exactly when turning down is strictly shorter than turning up, so the valve takes the shorter way round and turns up on a tie |
| HamiltonValve.MoveCommand | hardware/valve/hamilton_valve.py:190-192 | the command is the address, "LP", the direction digit, the target in decimal and "R\r" |
| HamiltonValve.SetValvePosition | hardware/valve/hamilton_valve.py:175-196 | an address outside the daisy chain writes nothing; a target above the valve's number of outputs writes nothing; any other target writes the move command with the direction digit of the start and target positions; a failed lookup of the number of outputs propagates its error |
| HamiltonValve.SetValvePositionInRange | hardware/valve/hamilton_valve.py:175-196 | with distinct valve IDs, moving a valve to one of its outputs from one of its outputs always writes a command, and its direction digit is '1' exactly when turning down is the shorter way |
| HamiltonValve.LetterInjective | hardware/valve/hamilton_valve.py:108-110 | Different valves of the chain get different address letters. |
| HimTask.LightsourceCode | logic/tasks/HiM_task_RAMM.py:514 | the lightsource table knows exactly 'BF', '405 nm', '488 nm', '561 nm' and '640 nm', each with a code below the five slots |
| HimTask.Codes | logic/tasks/HiM_task_RAMM.py:516-517 | the lookup succeeds exactly when every lightsource of the imaging sequence is in the table, and then gives each step's code in order; otherwise KeyError |
| HimTask.PadToSlots | logic/tasks/HiM_task_RAMM.py:518-524 | a list of fewer than five values is filled with zeros on the right up to five, and a longer one is kept; the original values stay in front |
| HimTask.Wavelengths | logic/tasks/HiM_task_RAMM.py:514-520 | KeyError exactly when a lightsource is unknown; otherwise the list holds each step's code in order followed by zeros, and is five long unless the sequence is longer |
| HimTask.Intensities | logic/tasks/HiM_task_RAMM.py:522-524 | each step's intensity in order, followed by zeros, five long unless the sequence is longer |
| HimTask.SlotsReadBack | logic/tasks/HiM_task_RAMM.py:514-524 | the first `num_laserlines` slots give the imaging sequence back: each wavelength slot names its step's lightsource and each intensity slot holds its intensity |
| HimTask.BufferByProduct | logic/tasks/HiM_task_RAMM.py:539-540 | the inverted buffer dict is well-formed; when no product is in two valves, each product finds its valve; a product in no valve is not found |
| HimTask.InsertProbe | logic/tasks/HiM_task_RAMM.py:542 | putting a probe at a new position into an ascending probe list keeps it ascending and adds exactly that probe |
| HimTask.SortedProbes | logic/tasks/HiM_task_RAMM.py:541-542 | the probe list is strictly ascending by position and is a permutation of the probe dict's items |
| HimTask.SortedProbesPositions | logic/tasks/HiM_task_RAMM.py:541-542 | the probe list has one entry per probe, each position once, and every position finds the same probe name as in the probe dict |
| HimTask.Incubate | logic/tasks/HiM_task_RAMM.py:196-202 | an incubation of t seconds sleeps `t // 30` intervals of 30 s, fewer when the run is aborted (none from the abort on), then the remainder below 30 s; without abort the sleeps add up to t, and they never exceed t |
| HimTask.StartPosition | logic/tasks/HiM_task_RAMM.py:547-562 | an uncentered scan starts at the current position; a centered one starts `n // 2` steps below it, for both even and odd numbers of planes |
| HimTask.Prefix | logic/tasks/HiM_task_RAMM.py:587 | the folder prefix is at least three digits and reads back as the number of existing folders plus one |
| HimTask.FolderName | logic/tasks/HiM_task_RAMM.py:591 | the folder name is the prefix followed by "_HiM_" and the sample name |
| HimTask.FileName | logic/tasks/HiM_task_RAMM.py:612 | the file name is "scan", the prefix, the probe and "<roi>.<format>" joined with underscores |
| HimTask.FileNameFields | logic/tasks/HiM_task_RAMM.py:587-612 | when probe, ROI and format hold no underscore, the file name splits on '_' into exactly four fields: "scan", a digit string reading back as the folder count plus one, the probe, and "<roi>.<format>" |
| HimTask.RunTaskStep | logic/tasks/HiM_task_RAMM.py:117-429 | a step succeeds exactly when the counter is inside the probe list; then the counter goes up by one, the needle goes to that probe's position, and the run goes on while probes are left; otherwise IndexError |
| HimTask.RunTask | logic/tasks/HiM_task_RAMM.py:117-429 | without a first stage position no probe is visited; otherwise every probe position is visited exactly once in list order, and an empty probe list raises IndexError at the first step |
| HimTask.VisitsAscending | logic/tasks/HiM_task_RAMM.py:117-137 | running over the sorted probe list visits the positions of the probe dict in strictly ascending order, each one, and nothing else |
| HimTask.LightsourceTable | logic/tasks/HiM_task_RAMM.py:514 | The lightsource table is one-to-one: a name has a code exactly when that code names it back. |
| HimTask.FocalPlaneCentered | logic/tasks/HiM_task_RAMM.py:547-562 | In a centered stack of n planes the current position is plane n // 2, so it is one of the planes; odd n puts as many planes below it as above, even n one more below. |
| HimTask.PrefixInjective | logic/tasks/HiM_task_RAMM.py:587 | Different folder counts give different folder prefixes, so each new folder gets its own. |
| Ixon.CInt | hardware/camera/andor/iXon897_ultra.py:777-778 | `c_int(x).value` lies in the signed 32-bit range, equals x when x already does, and differs from x by a multiple of 2^32 |
| Ixon.SetImageRegion | hardware/camera/andor/iXon897_ultra.py:764-793 | when the SDK refuses, nothing changes; when it accepts, a zero binning raises ZeroDivisionError, and otherwise the region is stored as 32-bit values and the image is `int((end - start + 1) / bin)` pixels in each direction, with every other setting kept |
| Ixon.SetImageWholeBins | hardware/camera/andor/iXon897_ultra.py:789-790 | for a positive binning and a region inside the 32-bit range, the image width and height count exactly the whole bins that fit in the region |
| Ixon.SetImage | hardware/camera/andor/iXon897_ultra.py:289-306 | the code is 0 exactly when the SDK accepts the region and -1 otherwise, and the camera state is that of the region setter |
| Ixon.BufferSize | hardware/camera/andor/iXon897_ultra.py:555-583 | data is read exactly for an image read in single-scan, kinetic or run-till-abort mode, and for a single-track or FVB read in single-scan or kinetic mode; a kinetic series reads `scans` frames, the other modes one frame, a frame being width x height values for an image read and width values for a track read |
| Ixon.SetAcquisitionMode | hardware/camera/andor/iXon897_ultra.py:820-838 | the code is 0 exactly when the mode is one of the SDK's acquisition modes and the SDK accepts it, and then the mode is stored; otherwise the code is -1 and nothing changes |
| Ixon.SetTriggerMode | hardware/camera/andor/iXon897_ultra.py:742-762 | the code is 0 exactly when the mode is one of the SDK's trigger modes and the SDK accepts it, and then the mode is stored; otherwise the code is -1 and nothing changes |
| Ixon.SetReadMode | hardware/camera/andor/iXon897_ultra.py:715-740 | an unknown read mode gives -1 and changes nothing; a known one gives 0 and is stored exactly when the SDK accepts it; the acquisition mode and number of scans never change, and a mode other than IMAGE changes nothing but the read mode |
| Ixon.ImageModeKeepsSize | hardware/camera/andor/iXon897_ultra.py:724-728 | switching to the IMAGE read mode resets the region to the full current image, which keeps a width and height that fit in 32 bits |
| Ixon.SetExposure | hardware/camera/andor/iXon897_ultra.py:233-245 | the exposure is stored, and success reported, exactly when the SDK accepts it; on refusal nothing changes |
| Ixon.SetGain | hardware/camera/andor/iXon897_ultra.py:256-268 | the EM gain is stored, and success reported, exactly when the SDK accepts it; on refusal nothing changes |
| Ixon.OpenShutter | hardware/camera/andor/iXon897_ultra.py:357-362 | the shutter is open afterwards exactly when it already was or the SDK accepted the command, and nothing else changes |
| Ixon.StartSingleAcquisition | hardware/camera/andor/iXon897_ultra.py:352-374 | during a live acquisition it reports failure and only the shutter may change; otherwise it reports the SDK's answer to the start, the camera stays marked acquiring exactly when the start fails, and an accepted mode switch leaves it in single scan |
| Ixon.StartLiveAcquisition | hardware/camera/andor/iXon897_ultra.py:376-399 | the camera is live and not acquiring, the result is the SDK's answer to the start, and an accepted mode switch leaves it in run-till-abort mode |
| Ixon.StopAcquisition | hardware/camera/andor/iXon897_ultra.py:401-413 | the result is the SDK's answer to the abort; live and acquiring are cleared when the abort succeeds and kept when it fails |
| Ixon.StartMovieAcquisition | hardware/camera/andor/iXon897_ultra.py:416-444 | the camera is live and not acquiring, takes n frames, keeps its exposure, and reports the SDK's answer to the start; an accepted mode switch leaves it in kinetic mode |
| Ixon.FinishMovieAcquisition | hardware/camera/andor/iXon897_ultra.py:446-457 | afterwards one scan is taken, the camera is neither live nor acquiring, the result is always success, and an accepted switch restores a known default acquisition mode |
| Ixon.MovieBufferThenFinish | hardware/camera/andor/iXon897_ultra.py:416-583 | in image read mode a movie of n frames reads n images' worth of values; after it is finished, with single scan as the default, one image is read again |
| Labels.Numbered | hardware/daq/dummy_daq.py:61 | a numbered label starts with its prefix and carries at least one more character |
| Labels.NumberedInjective | hardware/daq/dummy_daq.py:59-68 | two numbers give the same label only when they are equal, so the labels of one configuration never collide |
| Labels.NumberedPairs | hardware/daq/dummy_daq.py:59-68 | one (label, entry) pair per configured entry, in configuration order, entry i under the label numbered i + 1 |
| Labels.NumberedDict | hardware/daq/dummy_daq.py:57-70 | assigning the labels one after the other builds a dict with distinct keys that holds every entry once, in configuration order, each under its own label |
| Labels.NumberedDictGet | hardware/fpga/ni_fpga.py:258-275 | label n (from 1 to the number of entries) finds entry n - 1; label 0 or a label past the end finds nothing |
| LaserControl.InitIntensityDict | logic/lasercontrol_logic.py:108-121 | the intensity dict has the laser dict's keys in the same order, each mapped to the initial value; it is well-formed when the laser dict is |
| LaserControl.Activate | logic/lasercontrol_logic.py:78-86 | after activation the lasers are off, the laser dict is the controller's, and every laser line has intensity 0 and nothing else has one |
| LaserControl.ResetIntensityDict | logic/lasercontrol_logic.py:123-133 | every intensity becomes 0, and the keys and their order stay; a dict already at 0 is returned unchanged, so resetting twice is resetting once |
| LaserControl.LineWrites | logic/lasercontrol_logic.py:173-181 | the lines are written in laser-dict order, each with its intensity (scaled for a DAQ), up to the first line with no intensity or (for a DAQ) no voltage range; KeyError is raised exactly when such a line exists, and otherwise every line is written |
| LaserControl.ApplyVoltage | logic/lasercontrol_logic.py:163-182 | the lasers count as on afterwards; a DAQ line gets intensity * range maximum / 100 volts and an FPGA line its intensity in percent, one write per line in dict order, without error when every line has an intensity; another controller type writes nothing |
| LaserControl.VoltageOff | logic/lasercontrol_logic.py:195-203 | the lasers count as off, every line gets 0, one write per line in dict order, and the intensities are kept |
| LaserControl.UpdateIntensityDict | logic/lasercontrol_logic.py:135-157 | the key reads the new intensity and every other key keeps its own; with the lasers off nothing is written; with them on the intensities are applied at once, without a KeyError when the state is consistent; consistency is kept |
| LaserControl.StopLaserOutput | logic/lasercontrol_logic.py:352-357 | afterwards the lasers are off; lasers that were on are switched off as voltage_off does, and lasers already off see nothing happen, so a second stop writes nothing |
| LaserControl.ActivateValid | logic/lasercontrol_logic.py:78-86 | Activation from a well-formed laser dict (with a voltage range on every DAQ line) gives a consistent state: both dicts well-formed and every laser line holding an intensity. |
| LaserControl.UpdateThenApply | logic/lasercontrol_logic.py:135-182 | On a DAQ, the intensity just set for a line is what switching the lasers on writes to it: intensity * range maximum / 100 V on that line's channel. |
| LaserControl.OffThenOnRestores | logic/lasercontrol_logic.py:163-203 | Switching off keeps the intensities, so switching on again right away writes what switching on wrote before and reaches the same state. |
| Merfish.AddEntry | logic/merfish_logic.py:118-134 | the valve number (or probe position) now holds the name, replacing any earlier name so each number is used once; every other number keeps its name; the list model is rebuilt so that it mirrors the dict and shows the new row |
| Merfish.DeleteEntry | logic/merfish_logic.py:124-141 | a row beyond the list raises IndexError; for a list model that mirrors its dict, the selected row's number leaves the dict, only that row leaves the list model, and the two still mirror each other |
| Merfish.AppendStep | logic/merfish_logic.py:144-176 | the step list and its sequence model each grow by one step at the end, numbered one past the model's length, with the earlier steps unchanged; list and model stay in sync |
| Merfish.AddInjectionStep | logic/merfish_logic.py:143-162 | a Hybridization or Photobleaching step with product, volume, flowrate and no time is appended to that procedure's sequence only; any other procedure changes nothing; a consistent editor stays consistent |
| Merfish.AddIncubationStep | logic/merfish_logic.py:177-198 | a waiting step with only a time is appended to that procedure's sequence only; any other procedure changes nothing; a consistent editor stays consistent |
| Merfish.DeleteStep | logic/merfish_logic.py:200-212 | a row beyond the model raises IndexError and changes nothing; for a synced sequence, exactly that row leaves both the step list and the model, which stay in sync |
| Merfish.DeleteHybridizationStep | logic/merfish_logic.py:200-205 | deleting a hybridization step changes only the hybridization sequence, as the step deletion does, and raises what it raises |
| Merfish.DeletePhotobleachingStep | logic/merfish_logic.py:207-212 | deleting a photobleaching step changes only the photobleaching sequence, as the step deletion does, and raises what it raises |
| Merfish.DeleteHybridizationAll | logic/merfish_logic.py:214-217 | the hybridization list and model are both emptied, nothing else changes, and a consistent editor stays consistent |
| Merfish.DeletePhotobleachingAllAsWritten | logic/merfish_logic.py:219-222 | as written, the photobleaching model is emptied but the step list keeps its steps, because the list is assigned to a misspelt attribute |
| Merfish.DeletePhotobleachingAll | logic/merfish_logic.py:219-222 | as intended, the photobleaching list and model are both emptied, nothing else changes, and a consistent editor stays consistent |
| Merfish.LoadInjectionsAsWritten | logic/merfish_logic.py:224-253 | as written, a complete document replaces the dicts and step lists and rebuilds the buffer and probe models, but the loaded steps are appended to the rows the step models already show |
| Merfish.LoadInjections | logic/merfish_logic.py:224-253 | as intended, a complete document replaces the buffers, probes and both step lists, and every model shows exactly the loaded data; a document without 'buffer' changes nothing |
| Merfish.SaveInjections | logic/merfish_logic.py:255-259 | the saved document holds all four entries |
| Merfish.LoadSavedInjections | logic/merfish_logic.py:224-259 | loading what was saved from a consistent editor restores exactly that editor, whatever the editor showed before |
| Merfish.AddedStepIsLast | logic/merfish_logic.py:143-162 | On a consistent editor, adding a Hybridization step appends exactly one step, numbered one past the previous count, with the given product, volume and flowrate and no time. |
| Merfish.DeletePhotobleachingAllDesyncs | logic/merfish_logic.py:219-222 | As written, deleting all photobleaching steps of a non-empty sequence leaves the list model and the step list out of step. |
| Merfish.LoadInjectionsAsWrittenDesyncs | logic/merfish_logic.py:224-253 | As written, loading a complete document into an editor that already shows a hybridization step leaves the model longer than the loaded list. |
| NiDaq.GetDict | hardware/daq/national_instruments_daq.py:450-471 | IndexError exactly when fewer output channels than wavelengths are configured; otherwise one well-formed entry per wavelength, in order, keyed 'laser1', 'laser2', ..., holding its label, wavelength, output channel and the common analog output range |
| NiDaq.GetDictConfigured | hardware/daq/national_instruments_daq.py:123-126 | when the channel-count check at activation finds no mismatch, the laser dict is built and 'laser{n}' finds the n-th wavelength with the n-th channel |
| NiDaq.MovePiezo | hardware/daq/national_instruments_daq.py:533-544 | a voltage is written exactly for a position from 0 to 90, and it is the position divided by 10, so it lies between 0 and 9 V |
| NiDaq.RinsingPump | hardware/daq/national_instruments_daq.py:546-556 | the voltage is written exactly when it lies from -10 to 10 V, and unchanged |
| NiDaq.SendTriggerAndControlAi | hardware/daq/national_instruments_daq.py:494-522 | without an analog input task nothing is written and nothing returned; otherwise the trigger line goes 0, 1, 0, and the result is 0 exactly when the input read exceeds 2.5 V and -1 exactly when it does not |
| NiDaq.TriggerEndsLow | hardware/daq/national_instruments_daq.py:494-522 | With an analog input task, the trigger line is left low whatever the input reads. |
| NiFpga.ConvertValue | hardware/fpga/ni_fpga.py:284-293 | the register value never exceeds 32767, is non-negative for a non-negative percentage, is the truncation of value / 100 * 32767 from 0 to 100 percent, and is 32767 from 100 percent on |
| NiFpga.ConvertValueMonotone | hardware/fpga/ni_fpga.py:284-293 | a larger percentage never gives a smaller register value |
| NiFpga.RegisterIndex | hardware/fpga/ni_fpga.py:245-254 | the channel selects the first of the four laser registers with its name, or none when no laser register has it |
| NiFpga.ApplyVoltage | hardware/fpga/ni_fpga.py:234-255 | the update register is written last, every time; a channel naming a laser register first writes that register (the first match) with the converted value of the voltage, negative voltages counting as 0; any other channel writes only the update register; every laser value is between 0 and 32767 |
| NiFpga.GetDict | hardware/fpga/ni_fpga.py:258-275 | IndexError exactly when fewer registers than wavelengths are configured; otherwise one well-formed entry per wavelength, in order, keyed 'laser1', 'laser2', ..., holding its label, wavelength and register, without a voltage range |
| NiFpga.NegativeIsOff | hardware/fpga/ni_fpga.py:234-255 | A negative percentage writes what 0 % writes, so a laser register written for it gets 0. |
| PalmTask.Matching | logic/tasks/multicolor_scan_task_PALM.py:409-415 | the positions of the inner dicts holding the searched value, listed in increasing order, each exactly once |
| PalmTask.NestedEntries | logic/tasks/multicolor_scan_task_PALM.py:397-415 | the only errors are KeyError (a matching inner dict without the entry key) and TypeError (a value held twice, so several items reach `list.append`) |
| PalmTask.NestedEntriesSpec | logic/tasks/multicolor_scan_task_PALM.py:397-415 | the lookup succeeds exactly when every inner dict holding the value holds it once and has the entry key, and then returns the entry of each such inner dict, in iteration order, one per match |
| PalmTask.ImagingSequence | logic/tasks/multicolor_scan_task_PALM.py:246-250 | the sequence is built exactly when the label lookup succeeds for every wavelength; then step i holds the labels found for wavelength i followed by its intensity, one step per raw entry, in order |
| PalmTask.Forbidden | logic/tasks/multicolor_scan_task_PALM.py:263-267 | the forbidden labels are exactly 'laser{i+1}' for the lasers the filter blocks |
| PalmTask.NoneUsed | logic/tasks/multicolor_scan_task_PALM.py:268-273 | the loop reports the lasers allowed exactly when no forbidden label heads a step of the sequence |
| PalmTask.ControlUserParameters | logic/tasks/multicolor_scan_task_PALM.py:259-273 | a filter position missing from the filter dict raises KeyError; otherwise the lasers are allowed exactly when no step of the sequence starts with the label of a laser the selected filter blocks |
| PalmTask.ForbiddenUsed | logic/tasks/multicolor_scan_task_PALM.py:259-273 | both directions: no forbidden label heads a step exactly when no blocked laser's label heads a step |
| PalmTask.AllowedLabels | logic/tasks/multicolor_scan_task_PALM.py:259-273 | when every step starts with a laser label 'laserK', the check passes exactly when the filter lets through every laser K of the sequence that its list covers |
| PalmTask.RunTaskStep | logic/tasks/multicolor_scan_task_PALM.py:94-107 | when the laser check failed, nothing moves and the run ends; otherwise the counter goes up by one, the piezo goes to start + counter * z step (the counter before the step), and the run goes on exactly while planes are left |
| PalmTask.RunTask | logic/tasks/multicolor_scan_task_PALM.py:94-154 | when the laser check failed no plane is visited; otherwise the planes at start, start + z step, ... are visited in order, one per plane, and one even when the number of planes is not positive |
| PalmTask.AcquirePlane | logic/tasks/multicolor_scan_task_PALM.py:117-152 | Every image attempt is at a step of the sequence, starting at step 0; after a missed trigger the same step is repeated and after a successful one the next step follows. A finished plane had exactly frames * steps successful triggers, the last attempt being one. A trigger that answers None (no analog input task, or a controller that is not a DAQ) stops the plane with TypeError at that attempt; when the trigger results run out first, fewer succeeded. |
| PalmTask.Known | hardware/daq/national_instruments_daq.py:494-521 | The trigger results before the first None, in order: each one is the code the trigger returned, and a None follows them unless all were read. |
| PalmTask.AcquireFrame | logic/tasks/multicolor_scan_task_PALM.py:120-152 | One pass over the steps, after the attempts of the earlier passes: a finished pass adds exactly one successful trigger per step and ends on a success. An unfinished one stops with TypeError at a None result, or used up all trigger results with fewer successes. Earlier attempts are kept. |

## Left out

- Serial, TCP, HTTP, yaml, numpy file and logging calls: the model returns the command strings, the dicts that would be saved or the list of writes made, and takes every answer of a device (a return code, an analog input, a motor angle, a status reply) as a parameter.
- Qt signals, widgets and timers: a signal is modelled as the value it would carry; widget state beyond the values the code reads back is not modelled. A Qt model index is taken to be its row number.
- Threads, `time.sleep` and the waiting loops of the HiM and PALM scripts (the incubation waits, the wait for the analog input in the PALM scan, `wait_until_finished`): only the decision each loop makes is modelled.
- Random data: `get_acquired_data` and `_data_generator` of the camera dummy, and `get_flowrate` of the flowboard dummy (`np.random.normal`), are not modelled.
- Floating point: floats are exact reals, so float rounding is not modelled. For example, the filter-wheel angle `-360/n*i` is computed exactly.
- The class-level dicts shared between instances of a Python class are modelled as fields of one value.
- AutofocusCamera.ReadPidOutput: models only the branch with `do_stabilization_check=True`. The PID output itself and the camera image are parameters, and the pixel index arrays are taken to be `0..width-1`.
- AutofocusCamera: the PID controller and the fitting of the polynomial are not modelled beyond the exact least-squares slope over the ten stored outputs.
- RoiLogic: `get_roi_position` (logic/roi_logic.py:515-527) passes straight through to `RoiList.GetRoiPosition` and has no member of its own.
- FilterwheelLogic: `get_position` and `get_filter_dict` pass straight through to the wheel, and the disable/enable actions only touch the user interface.
- Scanner3D.MoveToPosition: the hardware move (`change_single_output_position`) is the parameter `hw`, so the driver's own write of the position is not modelled. The voltage ramps, the image cube and the logging are not modelled either.
- Ixon: the reshaping of the data array, the `hasattr` checks and the data returned by `get_acquired_data` beyond its buffer size are not modelled.
- Hamamatsu.SetImage: ignores the binning arguments, as the driver does; the SDK property calls are not modelled.
- HamiltonValve.Letter: requires `n + 97 < 0xD800`, because a Dafny `char` is a Unicode scalar value; Python's `chr` accepts larger code points.
- Flowboard: only the pressure, unit and range getters are modelled (through the generic `Flowboard.Subset`); the flow-rate sensor getters are not.
- HimTask: the abort flag (modelled only as `Incubate`'s abort point), the directory listing (a parameter), the metadata files and the logging are not modelled.
- PalmTask: the string conversions of the laser names and the wait loop on the analog input are not modelled.
- NiFpga.ApplyVoltage: requires the five registers (the four laser registers and the update register) that activation binds (hardware/fpga/ni_fpga.py:120-124).
- ExpConfig: `save_to_exp_config_file` creates a directory and writes a file; only the dict it saves is modelled, through `ExpConfig.LoadSaved`.
- PyDateTime.Parse: reads only the ASCII digits 0-9, while the `\d` of strptime's patterns also matches the other Unicode decimal digits; the locale-dependent parts of strptime are not used by this format.
- PyDateTime.Format: prints a year below 1000 with four digits, as Python documents for `%Y`; some C libraries print such years without padding.
- RoiList.Broadcast: a position is a sequence of reals; a scalar position, which numpy would also broadcast, is not modelled.
- Validators: which non-ASCII characters are alphanumeric in the Unicode database is a parameter of the pattern (the set `wide`), not a table in the model.
- Celesta.ReadLevels: `str.split()` and `str.isdigit()` are Unicode-aware, but the model splits only on ASCII whitespace and keeps only words of ASCII digits. Words of other Unicode digits, which Python would read or would fail on in `int`, are dropped.
- ThorlabsWheel.SetPosition: the motor is taken to have reached the commanded angle when the call returns, although `move_to` does not pass `blocking=True` to the motor (hardware/wheels/thorlabs_fast_filter_wheel.py:128-133). A reading taken during the travel is not modelled.
- The other files of the repository are not part of this model: the remaining task scripts repeat the helpers of the HiM and PALM tasks, and the remaining GUI files only wire widgets. The other drivers wrap foreign libraries, and the focus, DAQ-ramp and FPGA-autofocus logic depends on physical feedback. The interface files are abstract.

## Findings

| source | as written | input that shows it | evidently intended | confidence | as-written member | corrected member |
|---|---|---|---|---|---|---|
| logic/roi_logic.py:167-180 | `add_roi` names the new ROI `'ROI_' + zfill3(len(rois)+1)` and stores it under that name | a list holding ROI_001 and ROI_002; delete ROI_001, then add: the new ROI is named ROI_002 and replaces the existing one | a new ROI gets a name not yet in the list, so the list grows by one | not executed | RoiList.AddRoi, RoiList.AddRoiOverwritesAfterDelete | RoiList.AddRoiFresh |
| logic/roi_logic.py:424-443 | `RoiLogic.add_roi` calls `RegionOfInterestList.add_roi(position, name=...)`, a keyword the list method does not take | any call: Python raises TypeError | the position (or the stage position) is added to the list and becomes the active ROI | not executed | RoiLogic.AddRoiAsWritten | RoiLogic.AddRoi |
| logic/merfish_logic.py:219-222 | `delete_photobl_all` clears the model but assigns the misspelt attribute `photobleachin_list` | an editor with at least one photobleaching step: the step list is kept while its model is emptied | both the model and the photobleaching list are emptied | not executed | Merfish.DeletePhotobleachingAllAsWritten, Merfish.DeletePhotobleachingAllDesyncs | Merfish.DeletePhotobleachingAll |
| logic/scanner_3D_logic.py:627-633 | `initialize_image` rejects the image range only when every one of the six bounds lies outside the scanner range (`and`) | scanner range [0,10] on every axis and image x range [-5,5]: the image is accepted with 100 x 100 points | reject the image when any bound lies outside the scanner range (`or`) | not executed | Scanner3D.InitializeImageAsWritten, Scanner3D.InitializeImageAsWrittenAcceptsOutside | Scanner3D.InitializeImage, Scanner3D.GridPointsSpec |
| logic/scanner_3D_logic.py:842-845 | `move_to_position` records the new axis value when `0 < ret`, yet the hardware returns 0 on success and -1 on failure | a move of x to 5.0 that the hardware refuses (-1): x is recorded as 5.0 and the call returns 0 | record the value only when the move succeeds, and report the failure | not executed | Scanner3D.MoveToPositionAsWritten, Scanner3D.MoveAsWrittenIgnoresFailure | Scanner3D.MoveToPosition, Scanner3D.MoveRecordsOnlySuccess, Scanner3D.MoveSpec |
| hardware/wheels/thorlabs_fast_filter_wheel.py:149-156 | `get_position` compares the rounded motor angle with the unrounded table angle | a wheel with 7 positions: after `set_position(2)` the motor stands at 360-360/7, rounds to 309, and `get_position` returns 0 | look up the position whose rounded angle equals the rounded motor angle | not executed | ThorlabsWheel.GetPosition, ThorlabsWheel.SetThenGetSevenFilters | ThorlabsWheel.GetPositionRounded, ThorlabsWheel.SetThenGetRounded |
| hardware/microfluidics/flowboard_dummy.py:65-75 | `on_activate` keys the pressure and unit dicts by the index of each channel, not by its ID | one channel with ID 1: its pressure is stored under 0, so `get_pressure([1])` raises KeyError | every configured channel ID starts at pressure 0 in 'mbar' | not executed | Flowboard.ActivateAsWritten, Flowboard.ActivateAsWrittenMissesId | Flowboard.Activate, Flowboard.ActivateThenGet |
| logic/merfish_logic.py:224-253 | `load_injections` rebuilds the buffer and probe models but appends the loaded steps to the step models already shown | an editor already showing a hybridization step: after loading, its model has one row more than its step list | every model is rebuilt from the loaded data, so each model mirrors its list | not executed | Merfish.LoadInjectionsAsWritten, Merfish.LoadInjectionsAsWrittenDesyncs | Merfish.LoadInjections, Merfish.LoadSavedInjections |
| hardware/laser/lumencor_celesta.py:86-90 | `on_deactivate` calls `self.zero_all()`, which the class does not define | any deactivation: AttributeError, so neither the lines nor the TTL are switched off | switch every line off and disable TTL control | not executed | Celesta.DeactivateAsWritten, Celesta.DeactivateAsWrittenSendsNothing | Celesta.Deactivate |

=== FILE: autofocus.dfy ===
/**
 * The camera-based autofocus (logic/autofocus_logic_camera.py): the camera image is
 * thresholded into a mask, the spot counts as detected when the mask holds enough signal,
 * its centroid is the masked intensity's centre of mass, and a PID loop drives the focus
 * while the last ten PID outputs decide, by the slope of a straight-line fit, whether the
 * focus is stable.
 */
module AutofocusCamera {

  // ---- images ----

  /** The grey-level threshold of the spot. */
  const Threshold := 150
  /** The value of a mask pixel above the threshold. */
  const MaskOn := 254
  /** The least mask sum that counts as a detected spot. */
  const MinSignal := 50

  /** A camera image as rows of pixels (numpy axis 0 is the row, axis 1 the column). */
  type Image = seq<seq<int>>

  /** Every row has `width` pixels: a numpy array is rectangular. */
  predicate Rect(im: Image, width: nat)
  {
    forall r :: 0 <= r < |im| ==> |im[r]| == width
  }

  function Sum(xs: seq<int>): int
  {
    if xs == [] then 0 else Sum(xs[..|xs| - 1]) + xs[|xs| - 1]
  }

  /** The sum of every pixel of an image (`np.sum`). */
  function Total(im: Image): int
  {
    if im == [] then 0 else Total(im[..|im| - 1]) + Sum(im[|im| - 1])
  }

  /** How many pixels of a row lie above the threshold `t`. */
  function CountRow(row: seq<int>, t: int): nat
  {
    if row == [] then 0 else CountRow(row[..|row| - 1], t) + (if row[|row| - 1] > t then 1 else 0)
  }

  /** How many pixels of the image lie above the threshold `t`. */
  function CountAbove(im: Image, t: int): nat
  {
    if im == [] then 0 else CountAbove(im[..|im| - 1], t) + CountRow(im[|im| - 1], t)
  }

  /**
   * calculate_threshold_image: a copy of the image in which the pixels above the threshold
   * are first set to 254 and then the pixels at or below it to 0 (the second pass sees the
   * first pass's 254s).
   */
  function ThresholdImage(im: Image, t: int): (mask: Image)
    ensures |mask| == |im|
    ensures forall r :: 0 <= r < |im| ==> |mask[r]| == |im[r]|
    ensures forall r, c :: 0 <= r < |im| && 0 <= c < |im[r]| ==>
      mask[r][c] == (if im[r][c] > t && MaskOn > t then MaskOn else 0)
  {
    var raised := seq(|im|, r requires 0 <= r < |im| =>
      seq(|im[r]|, c requires 0 <= c < |im[r]| => if im[r][c] > t then MaskOn else im[r][c]));
    seq(|raised|, r requires 0 <= r < |raised| =>
      seq(|raised[r]|, c requires 0 <= c < |raised[r]| => if raised[r][c] <= t then 0 else raised[r][c]))
  }

  /** A row of the mask sums to 254 per pixel above the threshold. */
  lemma {:induction false} MaskRowSum(row: seq<int>, mrow: seq<int>, t: int)
    requires t < MaskOn && |mrow| == |row|
    requires forall c :: 0 <= c < |row| ==> mrow[c] == (if row[c] > t then MaskOn else 0)
    ensures Sum(mrow) == MaskOn * CountRow(row, t)
  {
    if row != [] {
      var n := |row| - 1;
      MaskRowSum(row[..n], mrow[..n], t);
    }
  }

  /** Below 254, the mask sums to 254 per pixel above the threshold; at 254 or more it is empty. */
  lemma {:induction false} MaskTotal(im: Image, t: int)
    ensures Total(ThresholdImage(im, t)) == if t < MaskOn then MaskOn * CountAbove(im, t) else 0
  {
    var mask := ThresholdImage(im, t);
    if im != [] {
      var n := |im| - 1;
      MaskTotal(im[..n], t);
      var init := ThresholdImage(im[..n], t);
      assert mask[..n] == init by {
        forall r | 0 <= r < n ensures mask[r] == init[r] {
          assert |mask[r]| == |init[r]|;
          forall c | 0 <= c < |mask[r]| ensures mask[r][c] == init[r][c] { }
        }
      }
      if t < MaskOn {
        MaskRowSum(im[n], mask[n], t);
      } else {
        ZeroSum(mask[n]);
      }
    }
  }

  lemma {:induction false} ZeroSum(xs: seq<int>)
    requires forall i :: 0 <= i < |xs| ==> xs[i] == 0
    ensures Sum(xs) == 0
  {
    if xs != [] {
      ZeroSum(xs[..|xs| - 1]);
    }
  }

  /**
   * autofocus_check_signal: False when the mask sums to less than 50, which happens exactly
   * when no pixel lies above the threshold (one such pixel already adds 254).
   */
  function CheckSignal(im: Image): (ok: bool)
    ensures ok <==> CountAbove(im, Threshold) > 0
  {
    MaskTotal(im, Threshold);
    !(Total(ThresholdImage(im, Threshold)) < MinSignal)
  }

  // ---- centroid ----

  /** The pixel-by-pixel product `im * mask`. */
  function Product(im: Image, mask: Image): (w: Image)
    requires |mask| == |im| && forall r :: 0 <= r < |im| ==> |mask[r]| == |im[r]|
    ensures |w| == |im| && forall r :: 0 <= r < |im| ==> |w[r]| == |im[r]|
  {
    seq(|im|, r requires 0 <= r < |im| => seq(|im[r]|, c requires 0 <= c < |im[r]| => im[r][c] * mask[r][c]))
  }

  function Zeros(n: nat): (z: seq<int>)
    ensures |z| == n && forall i :: 0 <= i < n ==> z[i] == 0
  {
    seq(n, _ => 0)
  }

  function Add(a: seq<int>, b: seq<int>): (s: seq<int>)
    requires |a| == |b|
    ensures |s| == |a| && forall i :: 0 <= i < |a| ==> s[i] == a[i] + b[i]
  {
    seq(|a|, i requires 0 <= i < |a| => a[i] + b[i])
  }

  /** `np.sum(w, 0)`: the sum of each column, the projection along X. */
  function ColumnSums(w: Image, width: nat): (xs: seq<int>)
    requires Rect(w, width)
    ensures |xs| == width
  {
    if w == [] then Zeros(width) else Add(ColumnSums(w[..|w| - 1], width), w[|w| - 1])
  }

  /** Column `c` of an image, top to bottom. */
  function Column(w: Image, width: nat, c: nat): (col: seq<int>)
    requires Rect(w, width) && c < width
    ensures |col| == |w| && forall r :: 0 <= r < |w| ==> col[r] == w[r][c]
  {
    seq(|w|, r requires 0 <= r < |w| => w[r][c])
  }

  /** Each entry of the X projection is the sum of its column. */
  lemma {:induction false} ColumnSumsColumn(w: Image, width: nat, c: nat)
    requires Rect(w, width) && c < width
    ensures ColumnSums(w, width)[c] == Sum(Column(w, width, c))
  {
    if w != [] {
      var n := |w| - 1;
      ColumnSumsColumn(w[..n], width, c);
      assert Column(w, width, c)[..n] == Column(w[..n], width, c);
    }
  }

  /** `np.sum(w, 1)`: the sum of each row, the projection along Y. */
  function RowSums(w: Image): (ys: seq<int>)
    ensures |ys| == |w| && forall r :: 0 <= r < |w| ==> ys[r] == Sum(w[r])
  {
    seq(|w|, r requires 0 <= r < |w| => Sum(w[r]))
  }

  /** `sum(idx * xs)` with `idx = linspace(0, n - 1, n)`: the first moment about index 0. */
  function Moment(xs: seq<int>): int
  {
    if xs == [] then 0 else Moment(xs[..|xs| - 1]) + (|xs| - 1) * xs[|xs| - 1]
  }

  /**
   * calculate_centroid: the centre of mass of the masked image along each axis, or (0, 0)
   * when either projection sums to zero.
   */
  function Centroid(im: Image, mask: Image, width: nat): (real, real)
    requires Rect(im, width) && |mask| == |im| && forall r :: 0 <= r < |im| ==> |mask[r]| == |im[r]|
  {
    var w := Product(im, mask);
    var imX, imY := ColumnSums(w, width), RowSums(w);
    if Sum(imX) != 0 && Sum(imY) != 0 then
      (Moment(imX) as real / Sum(imX) as real, Moment(imY) as real / Sum(imY) as real)
    else (0.0, 0.0)
  }

  lemma {:induction false} SumAdd(a: seq<int>, b: seq<int>)
    requires |a| == |b|
    ensures Sum(Add(a, b)) == Sum(a) + Sum(b)
  {
    if a != [] {
      var n := |a| - 1;
      SumAdd(a[..n], b[..n]);
      assert Add(a, b)[..n] == Add(a[..n], b[..n]);
    }
  }

  /** Both projections of an image hold its total, so the two halves of the guard agree. */
  lemma {:induction false} ProjectionTotals(w: Image, width: nat)
    requires Rect(w, width)
    ensures Sum(ColumnSums(w, width)) == Total(w) == Sum(RowSums(w))
  {
    if w == [] {
      ZeroSum(Zeros(width));
    } else {
      var n := |w| - 1;
      ProjectionTotals(w[..n], width);
      SumAdd(ColumnSums(w[..n], width), w[n]);
      assert RowSums(w)[..n] == RowSums(w[..n]);
    }
  }

  /** With no negative entries, the first moment lies between 0 and (n - 1) times the sum. */
  lemma {:induction false} MomentBounds(xs: seq<int>)
    requires forall i :: 0 <= i < |xs| ==> xs[i] >= 0
    ensures 0 <= Sum(xs) && 0 <= Moment(xs) <= (|xs| - 1) * Sum(xs)
  {
    if xs != [] {
      var n := |xs| - 1;
      var init := xs[..n];
      MomentBounds(init);
      assert (n - 1) * Sum(init) <= n * Sum(init);
      assert n * Sum(xs) == n * Sum(init) + n * xs[n];
    }
  }

  lemma {:induction false} ColumnSumsNonNegative(w: Image, width: nat)
    requires Rect(w, width) && forall r, c :: 0 <= r < |w| && 0 <= c < width ==> w[r][c] >= 0
    ensures forall c :: 0 <= c < width ==> ColumnSums(w, width)[c] >= 0
  {
    if w != [] {
      ColumnSumsNonNegative(w[..|w| - 1], width);
    }
  }

  lemma {:induction false} SumNonNegative(xs: seq<int>)
    requires forall i :: 0 <= i < |xs| ==> xs[i] >= 0
    ensures Sum(xs) >= 0
  {
    if xs != [] {
      SumNonNegative(xs[..|xs| - 1]);
    }
  }

  lemma QuotientRange(m: int, s: int, top: int)
    requires 0 < s && 0 <= m <= top * s
    ensures 0.0 <= m as real / s as real <= top as real
  {
    assert m as real <= top as real * s as real;
  }

  /**
   * For an image without negative pixels, the centroid lies inside the image: its X between
   * 0 and width - 1 and its Y between 0 and height - 1.
   */
  lemma CentroidInImage(im: Image, width: nat, t: int)
    requires im != [] && width >= 1
    requires Rect(im, width) && forall r, c :: 0 <= r < |im| && 0 <= c < width ==> im[r][c] >= 0
    ensures var (x0, y0) := Centroid(im, ThresholdImage(im, t), width);
      0.0 <= x0 <= (width - 1) as real && 0.0 <= y0 <= (|im| - 1) as real
  {
    var mask := ThresholdImage(im, t);
    var w := Product(im, mask);
    forall r, c | 0 <= r < |w| && 0 <= c < width ensures w[r][c] >= 0 {
      assert w[r][c] == im[r][c] * mask[r][c];
      assert mask[r][c] >= 0;
    }
    WeightsInRange(w, width);
    var imX, imY := ColumnSums(w, width), RowSums(w);
    assert Centroid(im, mask, width) == if Sum(imX) != 0 && Sum(imY) != 0
      then (Moment(imX) as real / Sum(imX) as real, Moment(imY) as real / Sum(imY) as real)
      else (0.0, 0.0);
  }

  /** The centre of mass of weights without negative entries lies within their index ranges. */
  lemma WeightsInRange(w: Image, width: nat)
    requires Rect(w, width) && forall r, c :: 0 <= r < |w| && 0 <= c < width ==> w[r][c] >= 0
    ensures var imX, imY := ColumnSums(w, width), RowSums(w);
      Sum(imX) != 0 && Sum(imY) != 0 ==>
        0.0 <= Moment(imX) as real / Sum(imX) as real <= (width - 1) as real
        && 0.0 <= Moment(imY) as real / Sum(imY) as real <= (|w| - 1) as real
  {
    var imX, imY := ColumnSums(w, width), RowSums(w);
    ColumnSumsNonNegative(w, width);
    forall r | 0 <= r < |w| ensures imY[r] >= 0 {
      SumNonNegative(w[r]);
    }
    MomentBounds(imX);
    MomentBounds(imY);
    if Sum(imX) != 0 && Sum(imY) != 0 {
      QuotientRange(Moment(imX), Sum(imX), width - 1);
      QuotientRange(Moment(imY), Sum(imY), |w| - 1);
    }
  }

  /** When the signal check fails, the mask is empty and the centroid falls back to (0, 0). */
  lemma NoSpotCentroid(im: Image, width: nat)
    requires Rect(im, width) && !CheckSignal(im)
    ensures Centroid(im, ThresholdImage(im, Threshold), width) == (0.0, 0.0)
  {
    var mask := ThresholdImage(im, Threshold);
    var w := Product(im, mask);
    NoneAbove(im, Threshold);
    forall r | 0 <= r < |w| ensures Sum(w[r]) == 0 {
      ZeroSum(w[r]);
    }
    ZeroSum(RowSums(w));
  }

  /**
   * read_detector_signal: the centroid coordinate along the reference axis (X or Y) of the
   * thresholded latest image. For an image without negative pixels it lies inside the
   * image, and it is 0 when no spot is detected.
   */
  function ReadDetectorSignal(im: Image, width: nat, refAxisX: bool): (s: real)
    requires Rect(im, width)
    ensures im != [] && width >= 1 && (forall r, c :: 0 <= r < |im| && 0 <= c < width ==> im[r][c] >= 0) ==>
      0.0 <= s <= (if refAxisX then width - 1 else |im| - 1) as real
    ensures !CheckSignal(im) ==> s == 0.0
  {
    CentroidFacts(im, width);
    var (x0, y0) := Centroid(im, ThresholdImage(im, Threshold), width);
    if refAxisX then x0 else y0
  }

  /** The two facts about the centroid of the thresholded image that the signal reader relies on. */
  lemma CentroidFacts(im: Image, width: nat)
    requires Rect(im, width)
    ensures var (x0, y0) := Centroid(im, ThresholdImage(im, Threshold), width);
      (im != [] && width >= 1 && (forall r, c :: 0 <= r < |im| && 0 <= c < width ==> im[r][c] >= 0) ==>
         0.0 <= x0 <= (width - 1) as real && 0.0 <= y0 <= (|im| - 1) as real)
      && (!CheckSignal(im) ==> x0 == 0.0 && y0 == 0.0)
  {
    if im != [] && width >= 1 && (forall r, c :: 0 <= r < |im| && 0 <= c < width ==> im[r][c] >= 0) {
      CentroidInImage(im, width, Threshold);
    }
    if !CheckSignal(im) {
      NoSpotCentroid(im, width);
    }
  }

  /** No pixel lies above the threshold when none is counted. */
  lemma {:induction false} NoneAbove(im: Image, t: int)
    requires CountAbove(im, t) == 0
    ensures forall r, c :: 0 <= r < |im| && 0 <= c < |im[r]| ==> im[r][c] <= t
  {
    if im != [] {
      var n := |im| - 1;
      NoneAbove(im[..n], t);
      NoneAboveRow(im[n], t);
      assert forall r :: 0 <= r < n ==> im[..n][r] == im[r];
    }
  }

  lemma {:induction false} NoneAboveRow(row: seq<int>, t: int)
    requires CountRow(row, t) == 0
    ensures forall c :: 0 <= c < |row| ==> row[c] <= t
  {
    if row != [] {
      NoneAboveRow(row[..|row| - 1], t);
    }
  }

  // ---- PID output history and stability ----

  /** The number of recent PID outputs kept for the stability fit. */
  const HistoryLength := 10
  /** Stability is judged only after more than this many iterations. */
  const MinIterations := 10
  /** The largest fitted change over the history that still counts as stable. */
  const MaxSlope := 10.0

  /** The iteration count, the last PID outputs (oldest first) and the stability flag. */
  datatype Autofocus = Autofocus(iterations: int, history: seq<real>, stable: bool)

  /** The class defaults: no iteration, ten zero outputs, not stable. */
  const Initial := Autofocus(0, seq(HistoryLength, _ => 0.0), false)

  /** init_pid: the stability flag and the iteration count start again; the history stays. */
  function InitPid(a: Autofocus): (r: Autofocus)
    ensures !r.stable && r.iterations == 0 && r.history == a.history
  {
    a.(stable := false, iterations := 0)
  }

  /** `np.concatenate((h[1:10], [out]))`, with Python's clamped slice bounds. */
  function Push(h: seq<real>, out: real): (r: seq<real>)
    ensures |r| >= 1 && r[|r| - 1] == out
    ensures |h| >= HistoryLength ==> r == h[1..HistoryLength] + [out]
    ensures 1 <= |h| <= HistoryLength ==> r == h[1..] + [out]
  {
    var lo := if |h| < 1 then |h| else 1;
    var hi := if |h| < HistoryLength then |h| else HistoryLength;
    h[lo..hi] + [out]
  }

  function Abs(x: real): real { if x < 0.0 then -x else x }

  /**
   * `p(9) - p(0)` for the least-squares line `p` through the points (i, h[i]), i = 0..9:
   * nine times the slope sum((i - 4.5) * h[i]) / sum((i - 4.5)^2), the latter being 82.5.
   */
  function FitSlope(h: seq<real>): real
    requires |h| == HistoryLength
  {
    9.0 * (-4.5 * h[0] - 3.5 * h[1] - 2.5 * h[2] - 1.5 * h[3] - 0.5 * h[4]
           + 0.5 * h[5] + 1.5 * h[6] + 2.5 * h[7] + 3.5 * h[8] + 4.5 * h[9]) / 82.5
  }

  /** The fit recovers a straight line exactly: on h[i] = a + b * i the change over 9 steps is 9b. */
  lemma FitSlopeOfLine(h: seq<real>, a: real, b: real)
    requires |h| == HistoryLength && forall i :: 0 <= i < HistoryLength ==> h[i] == a + b * i as real
    ensures FitSlope(h) == 9.0 * b
  {
    assert h[0] == a && h[1] == a + b && h[2] == a + 2.0 * b && h[3] == a + 3.0 * b && h[4] == a + 4.0 * b;
    assert h[5] == a + 5.0 * b && h[6] == a + 6.0 * b && h[7] == a + 7.0 * b && h[8] == a + 8.0 * b;
    assert h[9] == a + 9.0 * b;
  }

  /**
   * check_stabilization: after more than 10 iterations the focus is stable exactly when the
   * fitted change over the history is below 10 in size; before, the flag is left as it is.
   */
  function CheckStabilization(a: Autofocus): (r: (Autofocus, bool))
    requires |a.history| == HistoryLength
    ensures r.1 == r.0.stable && r.0.iterations == a.iterations && r.0.history == a.history
    ensures a.iterations <= MinIterations ==> r.0.stable == a.stable
  {
    if a.iterations > MinIterations then
      var stable := Abs(FitSlope(a.history)) < MaxSlope;
      (a.(stable := stable), stable)
    else (a, a.stable)
  }

  /**
   * read_pid_output with the stability check: the PID's output (computed by the external
   * PID controller from the centroid) is appended to the history, the iteration counted,
   * and the stability checked.
   */
  function ReadPidOutput(a: Autofocus, output: real): (r: (Autofocus, real, bool))
    requires |a.history| == HistoryLength
    ensures r.1 == output && r.2 == r.0.stable
    ensures r.0.iterations == a.iterations + 1
    ensures |r.0.history| == HistoryLength && r.0.history == a.history[1..] + [output]
  {
    var counted := a.(iterations := a.iterations + 1, history := Push(a.history, output));
    var (checked, stable) := CheckStabilization(counted);
    (checked, output, stable)
  }

  /** The state after a run of PID outputs, each read with the stability check. */
  function Run(a: Autofocus, outputs: seq<real>): (r: Autofocus)
    requires |a.history| == HistoryLength
    ensures |r.history| == HistoryLength
  {
    if outputs == [] then a
    else ReadPidOutput(Run(a, outputs[..|outputs| - 1]), outputs[|outputs| - 1]).0
  }

  /** The history always holds the ten most recent outputs, counting the old history before the run. */
  lemma {:induction false} RunHistory(a: Autofocus, outputs: seq<real>)
    requires |a.history| == HistoryLength
    ensures Run(a, outputs).history == (a.history + outputs)[|outputs|..]
    ensures Run(a, outputs).iterations == a.iterations + |outputs|
  {
    if outputs != [] {
      var n := |outputs| - 1;
      RunHistory(a, outputs[..n]);
      assert a.history + outputs[..n] == (a.history + outputs)[..|a.history| + n];
    }
  }

  /**
   * After init_pid, the focus counts as stable only after more than 10 iterations, and then
   * exactly when the fit over the last ten outputs, all read since the init, changes by
   * less than 10.
   */
  lemma {:induction false} StableAfterInit(a: Autofocus, outputs: seq<real>)
    requires |a.history| == HistoryLength
    ensures var r := Run(InitPid(a), outputs);
      var n := |outputs|;
      r.iterations == n
      && (n >= HistoryLength ==> r.history == outputs[n - HistoryLength..])
      && (r.stable <==> n > MinIterations && Abs(FitSlope(outputs[n - HistoryLength..])) < MaxSlope)
  {
    var n := |outputs|;
    var init := InitPid(a);
    RunHistory(init, outputs);
    var r := Run(init, outputs);
    if n >= HistoryLength {
      assert (a.history + outputs)[n..] == outputs[n - HistoryLength..];
    }
    if n > 0 {
      StableAfterInit(a, outputs[..n - 1]);
      var prev := Run(init, outputs[..n - 1]);
      assert r == ReadPidOutput(prev, outputs[n - 1]).0;
      StableStep(prev, outputs[n - 1]);
    }
  }

  /** One reading decides the flag anew after more than 10 iterations and keeps it before. */
  lemma StableStep(a: Autofocus, output: real)
    requires |a.history| == HistoryLength
    ensures var r := ReadPidOutput(a, output).0;
      r.stable == if a.iterations + 1 > MinIterations then Abs(FitSlope(r.history)) < MaxSlope else a.stable
  {
  }
}

=== FILE: brightfield.dfy ===
/**
 * The dummy brightfield LED (hardware/brightfield_dummy.py): the requested intensity is
 * clamped to 0..99 and truncated to an integer before it is stored.
 */
module Brightfield {
  import Numeric

  /** The highest LED intensity. */
  const MaxIntensity := 99

  datatype Brightfield = Brightfield(currentIntensity: int)

  /** `min(max(x, 0), 99)` on a float. */
  function ClampIntensity(x: real): (r: real)
    ensures 0.0 <= r <= MaxIntensity as real
    ensures 0.0 <= x <= MaxIntensity as real ==> r == x
    ensures x < 0.0 ==> r == 0.0
    ensures x > MaxIntensity as real ==> r == MaxIntensity as real
  {
    if x < 0.0 then 0.0 else if x > MaxIntensity as real then MaxIntensity as real else x
  }

  /**
   * led_control: stores `int(min(max(intens, 0), 99))` and returns the error code 0.
   */
  function LedControl(b: Brightfield, intens: real): (r: (Brightfield, int))
    ensures r.1 == 0
    ensures 0 <= r.0.currentIntensity <= MaxIntensity
    ensures 0.0 <= intens <= MaxIntensity as real ==>
      r.0.currentIntensity as real <= intens < r.0.currentIntensity as real + 1.0
    ensures intens <= 0.0 ==> r.0.currentIntensity == 0
    ensures intens >= MaxIntensity as real ==> r.0.currentIntensity == MaxIntensity
  {
    (b.(currentIntensity := Numeric.Trunc(ClampIntensity(intens))), 0)
  }

  /** An intensity that is a whole number in range is stored unchanged. */
  lemma LedControlKeepsInRange(b: Brightfield, n: int)
    requires 0 <= n <= MaxIntensity
    ensures LedControl(b, n as real).0.currentIntensity == n
  {
    Numeric.TruncInt(n);
  }

  /** Sending the stored intensity again leaves it as it is. */
  lemma LedControlIdempotent(b: Brightfield, intens: real)
    ensures var once := LedControl(b, intens).0;
      LedControl(once, once.currentIntensity as real).0 == once
  {
    var once := LedControl(b, intens).0;
    LedControlKeepsInRange(once, once.currentIntensity);
  }

  /** A brighter request never stores a dimmer LED. */
  lemma LedControlMonotone(b: Brightfield, x: real, y: real)
    requires x <= y
    ensures LedControl(b, x).0.currentIntensity <= LedControl(b, y).0.currentIntensity
  {
    Numeric.TruncMonotone(ClampIntensity(x), ClampIntensity(y));
  }
}

=== FILE: camera_dummy.dfy ===
/**
 * The dummy camera (hardware/camera/camera_dummy.py): the live and acquiring flags, the
 * image size set from a sensor region, and the frame counter of a movie acquisition.
 */
module CameraDummy {
  import Ixon

  /** Image size as (rows, columns); `progress` counts the frames reported during a movie. */
  datatype CameraDummy = CameraDummy(
    supportLive: bool, live: bool, acquiring: bool, exposure: real, gain: real,
    imageSize: (int, int), nFrames: int, progress: int, frameTransfer: bool)

  /** get_ready_state: ready when neither live nor acquiring. */
  predicate Ready(cam: CameraDummy)
  {
    !(cam.live || cam.acquiring)
  }

  /** start_live_acquisition: live (and not acquiring) when live display is supported. */
  function StartLiveAcquisition(cam: CameraDummy): (r: CameraDummy)
    ensures cam.supportLive ==> r.live && !r.acquiring && !Ready(r)
    ensures !cam.supportLive ==> r == cam
  {
    if cam.supportLive then cam.(live := true, acquiring := false) else cam
  }

  /**
   * start_single_acquisition: refused (False) while live; otherwise an acquisition of one
   * exposure that ends with the camera not acquiring.
   */
  function StartSingleAcquisition(cam: CameraDummy): (r: (CameraDummy, bool))
    ensures r.1 <==> !cam.live
    ensures cam.live ==> r.0 == cam
    ensures !cam.live ==> r.0 == cam.(acquiring := false) && Ready(r.0)
  {
    if cam.live then (cam, false) else (cam.(acquiring := false), true)
  }

  /** stop_acquisition: neither live nor acquiring, so the camera is ready. */
  function StopAcquisition(cam: CameraDummy): (r: CameraDummy)
    ensures Ready(r)
    ensures r.(live := cam.live, acquiring := cam.acquiring) == cam
  {
    cam.(live := false, acquiring := false)
  }

  /** set_exposure: stores the exposure and reports it back. */
  function SetExposure(cam: CameraDummy, exposure: real): (r: (CameraDummy, real))
    ensures r.1 == exposure && r.0.exposure == exposure
    ensures r.0.(exposure := cam.exposure) == cam
  {
    (cam.(exposure := exposure), exposure)
  }

  /** set_gain: stores the gain and reports it back. */
  function SetGain(cam: CameraDummy, gain: real): (r: (CameraDummy, real))
    ensures r.1 == gain && r.0.gain == gain
    ensures r.0.(gain := cam.gain) == cam
  {
    (cam.(gain := gain), gain)
  }

  /** start_movie_acquisition: a movie of `n` frames, live when supported; always True. */
  function StartMovieAcquisition(cam: CameraDummy, n: int): (r: (CameraDummy, bool))
    ensures r.1 && r.0.nFrames == n && r.0.progress == cam.progress
    ensures cam.supportLive ==> r.0.live && !r.0.acquiring
    ensures !cam.supportLive ==> r.0 == cam.(nFrames := n)
    ensures r.0.(live := cam.live, acquiring := cam.acquiring, nFrames := cam.nFrames) == cam
  {
    var c := if cam.supportLive then cam.(live := true, acquiring := false) else cam;
    (c.(nFrames := n), true)
  }

  /** finish_movie_acquisition: back to one frame, neither live nor acquiring; always True. */
  function FinishMovieAcquisition(cam: CameraDummy): (r: (CameraDummy, bool))
    ensures r.1 && r.0.nFrames == 1 && Ready(r.0)
    ensures r.0.(live := cam.live, acquiring := cam.acquiring, nFrames := cam.nFrames) == cam
  {
    (cam.(live := false, acquiring := false, nFrames := 1), true)
  }

  /**
   * get_progress: counts one more frame; the frame that reaches the movie length is
   * reported as that length, resets the counter and ends the live display.
   */
  function GetProgress(cam: CameraDummy): (r: (CameraDummy, int))
    ensures cam.progress + 1 == cam.nFrames ==> r.1 == cam.nFrames && r.0 == cam.(live := false, progress := 0)
    ensures cam.progress + 1 != cam.nFrames ==> r.1 == cam.progress + 1 && r.0 == cam.(progress := cam.progress + 1)
  {
    var p := cam.progress + 1;
    if p == cam.nFrames then (cam.(live := false, progress := 0), cam.nFrames)
    else (cam.(progress := p), p)
  }

  /**
   * The answers of `k` successive get_progress calls: only the counter and the live flag
   * change, live is never switched on, the counter follows the last answer (0 after the
   * answer that was the movie length), and a counter below the movie length stays below it.
   */
  function Poll(cam: CameraDummy, k: nat): (r: (CameraDummy, seq<int>))
    ensures |r.1| == k
    ensures k == 0 ==> r.0 == cam
    ensures r.0.(live := cam.live, progress := cam.progress) == cam
    ensures r.0.live ==> cam.live
    ensures k > 0 ==> if r.1[k - 1] == cam.nFrames then r.0.progress == 0 && !r.0.live else r.0.progress == r.1[k - 1]
    ensures 0 <= cam.progress < cam.nFrames ==> 0 <= r.0.progress < cam.nFrames
  {
    if k == 0 then (cam, [])
    else
      var (c, answers) := Poll(cam, k - 1);
      var (c1, a) := GetProgress(c);
      (c1, answers + [a])
  }

  /** From a counter of 0, k polls below the movie length report 1..k and leave the counter at k. */
  lemma {:induction false} PollCounts(cam: CameraDummy, k: nat)
    requires cam.progress == 0 && k < cam.nFrames
    ensures var (c, answers) := Poll(cam, k);
      c == cam.(progress := k) && forall i :: 0 <= i < k ==> answers[i] == i + 1
  {
    if k > 0 {
      PollCounts(cam, k - 1);
    }
  }

  /**
   * Polling a fresh movie of n frames (counter at 0) n times reports 1, 2, ..., n, and the
   * last report leaves the counter at 0 and the camera no longer live.
   */
  lemma MovieProgress(cam: CameraDummy, n: int)
    requires n >= 1 && cam.progress == 0
    ensures var movie := StartMovieAcquisition(cam, n).0;
      var (c, answers) := Poll(movie, n as nat);
      answers == seq(n, i requires 0 <= i < n => i + 1) && c.progress == 0 && !c.live
  {
    var movie := StartMovieAcquisition(cam, n).0;
    PollCounts(movie, (n - 1) as nat);
    var (c, answers) := Poll(movie, n as nat);
    assert answers == Poll(movie, (n - 1) as nat).1 + [n];
  }

  /** set_image: the region's size as (rows, columns), whichever way round its ends are given; code 0. */
  function SetImage(cam: CameraDummy, hbin: int, vbin: int, hstart: int, hend: int, vstart: int, vend: int)
    : (r: (CameraDummy, int))
    ensures r.1 == 0 && r.0.imageSize.0 >= 1 && r.0.imageSize.1 >= 1
    ensures vstart <= vend ==> r.0.imageSize.0 == vend - vstart + 1
    ensures hstart <= hend ==> r.0.imageSize.1 == hend - hstart + 1
    ensures r.0.(imageSize := cam.imageSize) == cam
  {
    var rows := if vend >= vstart then vend - vstart + 1 else vstart - vend + 1;
    var cols := if hend >= hstart then hend - hstart + 1 else hstart - hend + 1;
    (cam.(imageSize := (rows, cols)), 0)
  }

  /** Swapping the ends of the region gives the same image size. */
  lemma SetImageSymmetric(cam: CameraDummy, hstart: int, hend: int, vstart: int, vend: int)
    ensures SetImage(cam, 1, 1, hstart, hend, vstart, vend) == SetImage(cam, 1, 1, hend, hstart, vend, vstart)
  {
  }

  /**
   * Without binning, the dummy reports the image size the iXon camera computes for the
   * same region (rows are the iXon's height, columns its width).
   */
  lemma SetImageAgreesWithIxon(cam: CameraDummy, ixon: Ixon.Ixon, hstart: int, hend: int, vstart: int, vend: int)
    requires 0 <= hstart <= hend < 0x8000_0000 && 0 <= vstart <= vend < 0x8000_0000
    ensures var i := Ixon.SetImageRegion(ixon, 1, 1, hstart, hend, vstart, vend, true);
      i.Ok? && SetImage(cam, 1, 1, hstart, hend, vstart, vend).0.imageSize == (i.value.height, i.value.width)
  {
    Ixon.SetImageWholeBins(ixon, 1, 1, hstart, hend, vstart, vend);
  }

  /** get_kinetic_time: the exposure plus a fixed readout time, shorter with frame transfer. */
  function KineticTime(cam: CameraDummy): (t: real)
    ensures t > cam.exposure
    ensures cam.frameTransfer ==> t - cam.exposure == 0.123
    ensures !cam.frameTransfer ==> t - cam.exposure == 0.765421
  {
    if cam.frameTransfer then cam.exposure + 0.123 else cam.exposure + 0.765421
  }

  /** _set_frame_transfer: 1 switches frame transfer on, 0 off, anything else changes nothing. */
  function SetFrameTransfer(cam: CameraDummy, mode: int): (r: CameraDummy)
    ensures mode == 1 ==> r.frameTransfer
    ensures mode == 0 ==> !r.frameTransfer
    ensures mode != 0 && mode != 1 ==> r == cam
    ensures r.(frameTransfer := cam.frameTransfer) == cam
  {
    if mode == 1 then cam.(frameTransfer := true)
    else if mode == 0 then cam.(frameTransfer := false)
    else cam
  }
}

=== FILE: celesta.dfy ===
/**
 * The Lumencor celesta laser source (hardware/laser/lumencor_celesta.py): configured
 * wavelengths map to the seven laser lines in order, only allowed lines may be changed,
 * and every request is a text command sent as an HTTP query.
 */
module Celesta {
  import opened Wrappers
  import PyDict
  import Text

  /** The source has seven laser lines, numbered 0 to 6. */
  const LineCount := 7

  /** `dict(zip(wavelengths, allowed_wavelengths))`: whether each wavelength may be set. */
  function LaserCheck(wavelengths: seq<string>, allowed: seq<bool>): (d: PyDict.Dict<string, bool>)
    ensures PyDict.Valid(d)
  {
    PyDict.FromPairs(CheckPairs(wavelengths, allowed))
  }

  /** `dict(zip(wavelengths, range(7)))`: the line of each of the first seven wavelengths. */
  function LaserLines(wavelengths: seq<string>): (d: PyDict.Dict<string, nat>)
    ensures PyDict.Valid(d)
  {
    PyDict.FromPairs(LinePairs(wavelengths))
  }

  function LinePairs(wavelengths: seq<string>): (ps: seq<(string, nat)>)
    ensures |ps| == if |wavelengths| < LineCount then |wavelengths| else LineCount
    ensures forall i :: 0 <= i < |ps| ==> ps[i] == (wavelengths[i], i)
  {
    var n := if |wavelengths| < LineCount then |wavelengths| else LineCount;
    seq(n, (i: nat) requires i < n => (wavelengths[i], i))
  }

  function CheckPairs(wavelengths: seq<string>, allowed: seq<bool>): (ps: seq<(string, bool)>)
    ensures |ps| == if |wavelengths| < |allowed| then |wavelengths| else |allowed|
    ensures forall i :: 0 <= i < |ps| ==> ps[i] == (wavelengths[i], allowed[i])
  {
    var n := if |wavelengths| < |allowed| then |wavelengths| else |allowed|;
    seq(n, i requires 0 <= i < n => (wavelengths[i], allowed[i]))
  }

  /** With distinct wavelengths, the i-th configured wavelength drives line i and is allowed as configured. */
  lemma WavelengthLine(wavelengths: seq<string>, allowed: seq<bool>, i: nat)
    requires forall a, b :: 0 <= a < b < |wavelengths| ==> wavelengths[a] != wavelengths[b]
    requires i < |wavelengths| && i < LineCount && i < |allowed|
    ensures PyDict.Get(LaserLines(wavelengths), wavelengths[i]) == Some(i)
    ensures PyDict.Get(LaserCheck(wavelengths, allowed), wavelengths[i]) == Some(allowed[i])
  {
    LineOfWavelength(wavelengths, i);
    CheckOfWavelength(wavelengths, allowed, i);
  }

  lemma LineOfWavelength(wavelengths: seq<string>, i: nat)
    requires forall a, b :: 0 <= a < b < |wavelengths| ==> wavelengths[a] != wavelengths[b]
    requires i < |wavelengths| && i < LineCount
    ensures PyDict.Get(LaserLines(wavelengths), wavelengths[i]) == Some(i)
  {
    var lp := LinePairs(wavelengths);
    assert forall j :: i < j < |lp| ==> lp[j].0 != lp[i].0 by {
      forall j | i < j < |lp| ensures lp[j].0 != lp[i].0 {
        assert wavelengths[i] != wavelengths[j];
      }
    }
    PyDict.FromPairsGet(lp, i);
  }

  lemma CheckOfWavelength(wavelengths: seq<string>, allowed: seq<bool>, i: nat)
    requires forall a, b :: 0 <= a < b < |wavelengths| ==> wavelengths[a] != wavelengths[b]
    requires i < |wavelengths| && i < |allowed|
    ensures PyDict.Get(LaserCheck(wavelengths, allowed), wavelengths[i]) == Some(allowed[i])
  {
    var cp := CheckPairs(wavelengths, allowed);
    assert forall j :: i < j < |cp| ==> cp[j].0 != cp[i].0 by {
      forall j | i < j < |cp| ensures cp[j].0 != cp[i].0 {
        assert wavelengths[i] != wavelengths[j];
      }
    }
    PyDict.FromPairsGet(cp, i);
  }

  /** The wavelength `w` is allowed and drives line `j`. */
  predicate Routes(check: PyDict.Dict<string, bool>, lines: PyDict.Dict<string, nat>, w: string, j: nat)
  {
    PyDict.Get(check, w) == Some(true) && PyDict.Get(lines, w) == Some(j)
  }

  /** Setting `w` raises nothing: it is configured, and if allowed its line is one of the `size` lines. */
  predicate Accepts(check: PyDict.Dict<string, bool>, lines: PyDict.Dict<string, nat>, size: nat, w: string)
  {
    PyDict.Get(check, w).Some?
    && (PyDict.Get(check, w).value ==> PyDict.Get(lines, w).Some? && PyDict.Get(lines, w).value < size)
  }

  /** One iteration of the loop: an allowed wavelength's line takes the value, any other is skipped. */
  function SetLine(check: PyDict.Dict<string, bool>, lines: PyDict.Dict<string, nat>, levels: seq<int>, w: string, v: int)
    : (r: Result<seq<int>>)
    ensures r.Ok? <==> Accepts(check, lines, |levels|, w)
    ensures r.Ok? ==> |r.value| == |levels|
  {
    match PyDict.Get(check, w)
    case None => Err(KeyError)
    case Some(allowed) =>
      if !allowed then Ok(levels)
      else
        match PyDict.Get(lines, w)
        case None => Err(KeyError)
        case Some(line) => if line >= |levels| then Err(IndexError) else Ok(levels[line := v])
  }

  /**
   * The loop of set_laserline_intensity and set_laserline_on_off: value n goes to the line
   * of wavelength n when that wavelength is allowed. A value list shorter than the
   * wavelength list, or an unknown wavelength, raises.
   */
  function SetLines(check: PyDict.Dict<string, bool>, lines: PyDict.Dict<string, nat>, levels: seq<int>,
                    wavelengths: seq<string>, values: seq<int>): (r: Result<seq<int>>)
    ensures r.Ok? <==> |wavelengths| <= |values| && forall n :: 0 <= n < |wavelengths| ==> Accepts(check, lines, |levels|, wavelengths[n])
    ensures r.Ok? ==> |r.value| == |levels|
    decreases |wavelengths|
  {
    if wavelengths == [] then Ok(levels)
    else
      var last := |wavelengths| - 1;
      var prev := SetLines(check, lines, levels, wavelengths[..last], values);
      if prev.Err? then prev
      else if last >= |values| then Err(IndexError)
      else SetLine(check, lines, prev.value, wavelengths[last], values[last])
  }

  /** A line no allowed requested wavelength drives keeps its level. */
  lemma {:induction false} SetLinesUntouched(check: PyDict.Dict<string, bool>, lines: PyDict.Dict<string, nat>,
                                             levels: seq<int>, wavelengths: seq<string>, values: seq<int>, j: nat)
    requires SetLines(check, lines, levels, wavelengths, values).Ok? && j < |levels|
    requires forall n :: 0 <= n < |wavelengths| ==> !Routes(check, lines, wavelengths[n], j)
    ensures SetLines(check, lines, levels, wavelengths, values).value[j] == levels[j]
    decreases |wavelengths|
  {
    if wavelengths != [] {
      var last := |wavelengths| - 1;
      SetLinesUntouched(check, lines, levels, wavelengths[..last], values, j);
      assert !Routes(check, lines, wavelengths[last], j);
    }
  }

  /** A line takes the value of the last allowed requested wavelength that drives it. */
  lemma {:induction false} SetLinesLastWins(check: PyDict.Dict<string, bool>, lines: PyDict.Dict<string, nat>,
                                            levels: seq<int>, wavelengths: seq<string>, values: seq<int>, n: nat, j: nat)
    requires SetLines(check, lines, levels, wavelengths, values).Ok?
    requires n < |wavelengths| && Routes(check, lines, wavelengths[n], j)
    requires forall m :: n < m < |wavelengths| ==> !Routes(check, lines, wavelengths[m], j)
    ensures j < |levels| && SetLines(check, lines, levels, wavelengths, values).value[j] == values[n]
    decreases |wavelengths|
  {
    var last := |wavelengths| - 1;
    if n < last {
      SetLinesSnoc(check, lines, levels, wavelengths, values, last);
      var init := wavelengths[..last];
      assert init[n] == wavelengths[n];
      assert forall m :: n < m < |init| ==> !Routes(check, lines, init[m], j) by {
        forall m | n < m < |init| ensures !Routes(check, lines, init[m], j) {
          assert init[m] == wavelengths[m];
        }
      }
      SetLinesLastWins(check, lines, levels, init, values, n, j);
      assert !Routes(check, lines, wavelengths[last], j);
    } else {
      SetLinesSnoc(check, lines, levels, wavelengths, values, n);
    }
  }

  /** The loop over all wavelengths is the loop over all but the last, then the last one. */
  lemma SetLinesSnoc(check: PyDict.Dict<string, bool>, lines: PyDict.Dict<string, nat>,
                     levels: seq<int>, wavelengths: seq<string>, values: seq<int>, n: nat)
    requires n + 1 == |wavelengths| && SetLines(check, lines, levels, wavelengths, values).Ok?
    ensures SetLines(check, lines, levels, wavelengths[..n], values).Ok? && n < |values|
    ensures SetLines(check, lines, levels, wavelengths, values)
      == SetLine(check, lines, SetLines(check, lines, levels, wavelengths[..n], values).value, wavelengths[n], values[n])
  {
  }

  /** `' '.join(map(str, levels))`. */
  function LevelsText(levels: seq<int>): string
  {
    Text.Join(seq(|levels|, i requires 0 <= i < |levels| => Text.IntToString(levels[i])), " ")
  }

  /** get_laserline_intensity and get_laserline_state: the decimal words of the answer. */
  function ReadLevels(message: string): (levels: seq<nat>)
    ensures |levels| <= |Text.Split(message)|
  {
    Text.DigitWords(Text.Split(message))
  }

  /** Levels written in the command format read back as the same levels. */
  lemma ReadBackLevels(levels: seq<nat>)
    ensures ReadLevels(LevelsText(levels)) == levels
  {
    var words := Text.Decimals(levels);
    assert seq(|levels|, i requires 0 <= i < |levels| => Text.IntToString(levels[i])) == words;
    Text.SplitJoin(words);
    Text.DigitWordsOfNats(levels);
  }

  /**
   * set_laserline_intensity: the current levels are read from the source's answer, the
   * allowed requested lines are changed, and all seven levels are sent back.
   */
  function SetLaserlineIntensity(check: PyDict.Dict<string, bool>, lines: PyDict.Dict<string, nat>, answer: string,
                                 wavelengths: seq<string>, intensities: seq<int>): (r: Result<string>)
    ensures SetLines(check, lines, ReadLevels(answer), wavelengths, intensities).Ok? <==> r.Ok?
    ensures r.Ok? ==>
      |r.value| >= 13 && r.value[..13] == "SET MULCHINT "
      && r.value[13..] == LevelsText(SetLines(check, lines, ReadLevels(answer), wavelengths, intensities).value)
  {
    match SetLines(check, lines, ReadLevels(answer), wavelengths, intensities)
    case Err(e) => Err(e)
    case Ok(levels) => Ok("SET MULCHINT " + LevelsText(levels))
  }

  /** set_laserline_on_off: as set_laserline_intensity, with the on/off states and "SET MULCH". */
  function SetLaserlineOnOff(check: PyDict.Dict<string, bool>, lines: PyDict.Dict<string, nat>, answer: string,
                             wavelengths: seq<string>, states: seq<int>): (r: Result<string>)
    ensures SetLines(check, lines, ReadLevels(answer), wavelengths, states).Ok? <==> r.Ok?
    ensures r.Ok? ==>
      |r.value| >= 10 && r.value[..10] == "SET MULCH "
      && r.value[10..] == LevelsText(SetLines(check, lines, ReadLevels(answer), wavelengths, states).value)
  {
    match SetLines(check, lines, ReadLevels(answer), wavelengths, states)
    case Err(e) => Err(e)
    case Ok(levels) => Ok("SET MULCH " + LevelsText(levels))
  }

  /**
   * After setting an allowed configured wavelength to a non-negative intensity, reading the
   * levels back from the command gives that intensity on its line and the old level on every
   * line no allowed requested wavelength drives.
   */
  lemma IntensityReadsBack(check: PyDict.Dict<string, bool>, lines: PyDict.Dict<string, nat>, answer: string,
                           wavelengths: seq<string>, intensities: seq<nat>, n: nat, j: nat)
    requires SetLaserlineIntensity(check, lines, answer, wavelengths, intensities).Ok?
    requires n < |wavelengths| && Routes(check, lines, wavelengths[n], j)
    requires forall m :: n < m < |wavelengths| ==> !Routes(check, lines, wavelengths[m], j)
    ensures var back := ReadLevels(SetLaserlineIntensity(check, lines, answer, wavelengths, intensities).value[13..]);
      j < |back| && back[j] == intensities[n]
      && forall k :: 0 <= k < |back| && k < |ReadLevels(answer)| && (forall m :: 0 <= m < |wavelengths| ==> !Routes(check, lines, wavelengths[m], k))
           ==> back[k] == ReadLevels(answer)[k]
  {
    var current := ReadLevels(answer);
    var levels := SetLines(check, lines, current, wavelengths, intensities).value;
    SetLinesLastWins(check, lines, current, wavelengths, intensities, n, j);
    forall k | 0 <= k < |levels| && (forall m :: 0 <= m < |wavelengths| ==> !Routes(check, lines, wavelengths[m], k))
      ensures levels[k] == current[k]
    {
      SetLinesUntouched(check, lines, current, wavelengths, intensities, k);
    }
    var naturals := NonNegativeLevels(check, lines, current, wavelengths, intensities);
    ReadBackLevels(naturals);
  }

  /** Levels that start and are set non-negative stay non-negative. */
  lemma NonNegativeLevels(check: PyDict.Dict<string, bool>, lines: PyDict.Dict<string, nat>, current: seq<nat>,
                          wavelengths: seq<string>, values: seq<nat>) returns (levels: seq<nat>)
    requires SetLines(check, lines, current, wavelengths, values).Ok?
    ensures levels == SetLines(check, lines, current, wavelengths, values).value
    decreases |wavelengths|
  {
    if wavelengths == [] {
      levels := current;
    } else {
      var last := |wavelengths| - 1;
      var prev := NonNegativeLevels(check, lines, current, wavelengths[..last], values);
      var r := SetLine(check, lines, prev, wavelengths[last], values[last]);
      assert forall i :: 0 <= i < |r.value| ==> r.value[i] >= 0;
      levels := r.value;
    }
  }

  /** set_ttl: allow or forbid external trigger control. */
  function SetTtl(ttlState: bool): (cmd: string)
    ensures |cmd| == 15 && cmd[..14] == "SET TTLENABLE "
    ensures cmd[14] == (if ttlState then '1' else '0')
  {
    if ttlState then "SET TTLENABLE 1" else "SET TTLENABLE 0"
  }

  /** stop_all: every line off. */
  const StopAll := "SET MULCH 0 0 0 0 0 0 0"

  /** The URL of a command: spaces are sent as "%20". */
  function CommandUrl(ip: string, command: string): (url: string)
    ensures |url| >= |"http://" + ip + "/service/?command="|
    ensures url[..|"http://" + ip + "/service/?command="|] == "http://" + ip + "/service/?command="
    ensures ' ' !in url[|"http://" + ip + "/service/?command="|..]
  {
    "http://" + ip + "/service/?command=" + Text.EncodeSpaces(command)
  }

  /** A command without '%' is received as it was written. */
  lemma CommandUrlDecodes(ip: string, command: string)
    requires '%' !in command
    ensures Text.DecodeSpaces(CommandUrl(ip, command)[|"http://" + ip + "/service/?command="|..]) == command
  {
    var prefix := "http://" + ip + "/service/?command=";
    assert CommandUrl(ip, command)[|prefix|..] == Text.EncodeSpaces(command);
    Text.DecodeEncodeSpaces(command);
  }

  /**
   * on_deactivate as written: its first call, `self.zero_all()`, names a method the class
   * does not define, so deactivation raises AttributeError before any command is sent.
   */
  function DeactivateAsWritten(): (r: Result<seq<string>>)
    ensures r.Err? ==> r.error == AttributeError
  {
    Err(AttributeError)
  }

  /** The as-written deactivation never switches the lines off nor disables TTL control. */
  lemma DeactivateAsWrittenSendsNothing()
    ensures !DeactivateAsWritten().Ok?
  {
  }

  /** `sep.join` with one more part at the end. */
  lemma JoinSnoc(parts: seq<string>, p: string, sep: string)
    requires parts != []
    ensures Text.Join(parts + [p], sep) == Text.Join(parts, sep) + sep + p
  {
    assert (parts + [p])[..|parts|] == parts;
  }

  /** The stop_all command is "SET MULCH " followed by a zero level for each of the seven lines. */
  lemma StopAllIsAllOff()
    ensures StopAll == "SET MULCH " + LevelsText(seq(LineCount, _ => 0))
  {
    var off: seq<int> := seq(LineCount, _ => 0);
    var words := seq(|off|, i requires 0 <= i < |off| => Text.IntToString(off[i]));
    assert Text.IntToString(0) == "0";
    var w1: seq<string> := ["0"];
    assert Text.Join(w1, " ") == "0";
    var w2 := w1 + ["0"];
    JoinSnoc(w1, "0", " ");
    assert Text.Join(w2, " ") == "0 0";
    var w3 := w2 + ["0"];
    JoinSnoc(w2, "0", " ");
    assert Text.Join(w3, " ") == "0 0 0";
    var w4 := w3 + ["0"];
    JoinSnoc(w3, "0", " ");
    assert Text.Join(w4, " ") == "0 0 0 0";
    var w5 := w4 + ["0"];
    JoinSnoc(w4, "0", " ");
    assert Text.Join(w5, " ") == "0 0 0 0 0";
    var w6 := w5 + ["0"];
    JoinSnoc(w5, "0", " ");
    assert Text.Join(w6, " ") == "0 0 0 0 0 0";
    var w7 := w6 + ["0"];
    JoinSnoc(w6, "0", " ");
    assert words == w7;
    assert Text.Join(words, " ") == "0 0 0 0 0 0 0";
    assert LevelsText(off) == "0 0 0 0 0 0 0";
  }

  /** on_deactivate as intended: all lines off (stop_all), then TTL control disabled. */
  function Deactivate(): (cmds: seq<string>)
    ensures |cmds| == 2 && cmds[1] == SetTtl(false)
    ensures |cmds[0]| >= 10 && cmds[0][..10] == "SET MULCH "
    ensures ReadLevels(cmds[0][10..]) == seq(LineCount, _ => 0)
  {
    StopAllIsAllOff();
    ReadBackLevels(seq(LineCount, _ => 0));
    [StopAll, SetTtl(false)]
  }
}

=== FILE: datetime.dfy ===
/**
 * The part of Python's `datetime` the ROI list uses: a calendar instant, its text form
 * '%Y-%m-%d %H:%M:%S.%f', reading that form back, and the default list name
 * 'roilist_%Y%m%d_%H%M_%S_%f'.
 */
module PyDateTime {
  import opened Wrappers
  import Text

  datatype DateTime = DateTime(year: int, month: int, day: int,
                               hour: int, minute: int, second: int, microsecond: int)

  predicate IsLeap(y: int) { (y % 4 == 0 && y % 100 != 0) || y % 400 == 0 }

  function DaysInMonth(y: int, m: int): int
  {
    if m == 2 then (if IsLeap(y) then 29 else 28)
    else if m == 4 || m == 6 || m == 9 || m == 11 then 30
    else 31
  }

  /** The instants `datetime` accepts (MINYEAR 1 to MAXYEAR 9999). */
  predicate Valid(t: DateTime)
  {
    1 <= t.year <= 9999 && 1 <= t.month <= 12 && 1 <= t.day <= DaysInMonth(t.year, t.month)
    && 0 <= t.hour < 24 && 0 <= t.minute < 60 && 0 <= t.second < 60
    && 0 <= t.microsecond < 1000000
  }

  /** A field printed with `width` digits, zero padded (`%m`, `%d`, `%f`, ...). */
  function Pad(n: int, width: nat): string
  {
    Text.ZFill(Text.NatToString(if n < 0 then 0 else n), width)
  }

  lemma PadSpec(n: nat, width: nat)
    requires width >= 1 && n < Text.Pow10(width)
    ensures |Pad(n, width)| == width
    ensures Text.AllDigits(Pad(n, width)) && Text.ParseDigits(Pad(n, width)) == n
  {
    Text.NatToStringLength(n, width);
    Text.ZFillNat(n, width);
  }

  lemma PadLength(n: int, width: nat)
    requires width >= 1 && 0 <= n < Text.Pow10(width)
    ensures |Pad(n, width)| == width
  {
    Text.NatToStringLength(n, width);
  }

  /** `%Y-%m-%d` */
  function DatePart(t: DateTime): string
  {
    Pad(t.year, 4) + "-" + Pad(t.month, 2) + "-" + Pad(t.day, 2)
  }

  /** `%H:%M:%S` */
  function TimePart(t: DateTime): string
  {
    Pad(t.hour, 2) + ":" + Pad(t.minute, 2) + ":" + Pad(t.second, 2)
  }

  /** `t.strftime('%Y-%m-%d %H:%M:%S.%f')`. */
  function Format(t: DateTime): string
  {
    DatePart(t) + " " + TimePart(t) + "." + Pad(t.microsecond, 6)
  }

  /** `t.strftime('roilist_%Y%m%d_%H%M_%S_%f')`: the default name of a ROI list. */
  function DefaultListName(t: DateTime): (s: string)
    ensures |s| > 8 && s[..8] == "roilist_"
  {
    var fields := Pad(t.year, 4) + Pad(t.month, 2) + Pad(t.day, 2) + "_"
      + Pad(t.hour, 2) + Pad(t.minute, 2) + "_" + Pad(t.second, 2) + "_" + Pad(t.microsecond, 6);
    var s := "roilist_" + fields;
    assert s[..8] == "roilist_";
    s
  }

  lemma Pow10Values()
    ensures Text.Pow10(2) == 100 && Text.Pow10(4) == 10000 && Text.Pow10(6) == 1000000
  {
    assert Text.Pow10(1) == 10;
    assert Text.Pow10(3) == 1000;
    assert Text.Pow10(5) == 100000;
  }

  /**
   * The characters `\s` matches in a str pattern: the ASCII controls 9 to 13 and 28 to 31,
   * the space, and the Unicode space and separator characters.
   */
  predicate IsReSpace(c: char)
  {
    (9 <= c as int <= 13) || (28 <= c as int <= 32) || c as int == 0x85 || c as int == 0xA0
    || c as int == 0x1680 || (0x2000 <= c as int <= 0x200A) || c as int == 0x2028
    || c as int == 0x2029 || c as int == 0x202F || c as int == 0x205F || c as int == 0x3000
  }

  predicate AllReSpace(t: string)
  {
    forall k :: 0 <= k < |t| ==> IsReSpace(t[k])
  }

  /** The length of the run of whitespace starting at `i` (what `\s+` consumes). */
  function SpaceRun(s: string, i: nat): (n: nat)
    requires i <= |s|
    ensures i + n <= |s| && AllReSpace(s[i..i + n])
    ensures i + n < |s| ==> !IsReSpace(s[i + n])
    decreases |s| - i
  {
    if i < |s| && IsReSpace(s[i]) then
      var n := SpaceRun(s, i + 1);
      assert s[i..i + 1 + n] == [s[i]] + s[i + 1..i + 1 + n];
      1 + n
    else 0
  }

  /** Whether `s` has a digit at position `i`. */
  predicate DigitAt(s: string, i: int)
  {
    0 <= i < |s| && Text.IsDigit(s[i])
  }

  /**
   * A field `%m`, `%d`, `%H`, `%M` or `%S` at `i`: strptime's alternatives accept one or
   * two digits ("7", "07", "12") whose value lies from `lo` to `hi`, and the field must
   * take the whole run of digits since a separator follows it. Gives the value and the
   * position after the field.
   */
  function ShortField(s: string, i: nat, lo: int, hi: int): (r: Option<(int, nat)>)
    ensures r.Some? ==> i < r.value.1 <= i + 2 && r.value.1 <= |s| && lo <= r.value.0 <= hi
    ensures r.Some? ==> !DigitAt(s, r.value.1)
    ensures !DigitAt(s, i) || (DigitAt(s, i + 1) && DigitAt(s, i + 2)) ==> r.None?
  {
    if !DigitAt(s, i) then None
    else if DigitAt(s, i + 1) then
      if DigitAt(s, i + 2) then None
      else
        var v := 10 * Text.DigitValue(s[i]) + Text.DigitValue(s[i + 1]);
        if lo <= v <= hi then Some((v, i + 2)) else None
    else
      var v := Text.DigitValue(s[i]) as int;
      if lo <= v <= hi then Some((v, i + 1)) else None
  }

  /** The value of a short field is `int()` of the digits it takes. */
  lemma ShortFieldSpec(s: string, i: nat, lo: int, hi: int)
    requires ShortField(s, i, lo, hi).Some?
    ensures var (v, e) := ShortField(s, i, lo, hi).value;
      Text.AllDigits(s[i..e]) && v == Text.ParseDigits(s[i..e])
  {
    var e := ShortField(s, i, lo, hi).value.1;
    var t := s[i..e];
    assert Text.ParseDigits([s[i]]) == Text.DigitValue(s[i]) by {
      assert [s[i]][..0] == [];
    }
    if e == i + 2 {
      assert t[..1] == [s[i]] && t[1] == s[i + 1];
    } else {
      assert t == [s[i]];
    }
  }

  /** `%d`, which also accepts a space-padded day (" 5"). */
  function DayField(s: string, i: nat): (r: Option<(int, nat)>)
    ensures r.Some? ==> i < r.value.1 <= |s| && 1 <= r.value.0 <= 31
    ensures DigitAt(s, i) ==> r == ShortField(s, i, 1, 31)
    ensures !DigitAt(s, i) ==> (r.Some? <==> i + 1 < |s| && s[i] == ' ' && '1' <= s[i + 1] <= '9')
  {
    if i + 1 < |s| && s[i] == ' ' && '1' <= s[i + 1] <= '9' then Some((Text.DigitValue(s[i + 1]) as int, i + 2))
    else ShortField(s, i, 1, 31)
  }

  /**
   * `%f`: one to six digits, padded on the right with zeros to six and read as the
   * microseconds.
   */
  function Fraction(f: string): (r: Option<int>)
    ensures r.Some? <==> 1 <= |f| <= 6 && Text.AllDigits(f)
    ensures r.Some? ==> 0 <= r.value < 1000000
  {
    if 1 <= |f| <= 6 && Text.AllDigits(f) then
      var g := f + Text.Zeros(6 - |f|);
      Text.ParseTrailingZeros(f, 6 - |f|);
      Text.ParseBelow(g);
      Pow10Values();
      Some(Text.ParseDigits(g))
    else None
  }

  /** A fraction of k digits gives the first k of the six digits of the microseconds. */
  lemma FractionScales(f: string)
    requires 1 <= |f| <= 6 && Text.AllDigits(f)
    ensures Fraction(f) == Some(Text.ParseDigits(f) * Text.Pow10(6 - |f|))
    ensures |f| == 6 ==> Fraction(f) == Some(Text.ParseDigits(f))
  {
    var n := 6 - |f|;
    FractionPadded(f);
    Text.ParseTrailingZeros(f, n);
    if n == 0 {
      assert Text.Pow10(0) == 1;
    }
  }

  lemma FractionPadded(f: string)
    requires 1 <= |f| <= 6 && Text.AllDigits(f)
    ensures Fraction(f) == Some(Text.ParseDigits(f + Text.Zeros(6 - |f|)))
  {
  }

  /** `%Y-%m-%d`: the year, month and day, and the position after the day. */
  function ParseDate(s: string): (r: Option<(int, int, int, nat)>)
    ensures r.Some? ==> r.value.3 <= |s| && 1 <= r.value.1 <= 12 && 1 <= r.value.2 <= 31
    ensures r.Some? ==> |s| >= 5 && Text.AllDigits(s[..4]) && r.value.0 == Text.ParseDigits(s[..4]) && s[4] == '-'
  {
    if |s| < 5 || !Text.AllDigits(s[..4]) || s[4] != '-' then None
    else match ShortField(s, 5, 1, 12)
      case None => None
      case Some((month, i)) =>
        if i >= |s| || s[i] != '-' then None
        else match DayField(s, i + 1)
          case None => None
          case Some((day, j)) => Some((Text.ParseDigits(s[..4]), month, day, j))
  }

  /** `%H:%M:%S.%f` from position `p` to the end: hour, minute, second and microseconds. */
  function ParseClock(s: string, p: nat): (r: Option<(int, int, int, int)>)
    requires p <= |s|
    ensures r.Some? ==> 0 <= r.value.0 <= 23 && 0 <= r.value.1 <= 59 && 0 <= r.value.2 <= 61
  {
    match ShortField(s, p, 0, 23)
    case None => None
    case Some((hour, k)) =>
      if k >= |s| || s[k] != ':' then None
      else match ShortField(s, k + 1, 0, 59)
        case None => None
        case Some((minute, l)) =>
          if l >= |s| || s[l] != ':' then None
          else match ShortField(s, l + 1, 0, 61)
            case None => None
            case Some((second, m)) =>
              if m >= |s| || s[m] != '.' then None
              else match Fraction(s[m + 1..])
                case None => None
                case Some(micro) => Some((hour, minute, second, micro))
  }

  /**
   * `datetime.strptime(s, '%Y-%m-%d %H:%M:%S.%f')`; `None` where Python raises ValueError.
   * The year takes exactly four digits, the other fields one or two (the day may also be a
   * space and one digit), the space of the format matches any run of whitespace, the
   * fraction one to six digits, and nothing may follow it; the fields must then make a
   * valid instant.
   */
  function Parse(s: string): (r: Option<DateTime>)
    ensures r.Some? ==> Valid(r.value)
    ensures r.Some? ==> ParseDate(s).Some? && r.value.year == ParseDate(s).value.0
  {
    match ParseDate(s)
    case None => None
    case Some(d) => Assemble(d, ClockAfter(s, d.3))
  }

  /** The clock after the run of whitespace that starts at `j`; `None` when there is no such run. */
  function ClockAfter(s: string, j: nat): (r: Option<(int, int, int, int)>)
    requires j <= |s|
    ensures r.Some? ==> SpaceRun(s, j) > 0 && r == ParseClock(s, j + SpaceRun(s, j))
  {
    var w := SpaceRun(s, j);
    if w == 0 then None else ParseClock(s, j + w)
  }

  /** The instant made of the date and clock fields read, when both were read and it is valid. */
  function Assemble(d: (int, int, int, nat), c: Option<(int, int, int, int)>): (r: Option<DateTime>)
    ensures r.Some? <==> c.Some? && Valid(DateTime(d.0, d.1, d.2, c.value.0, c.value.1, c.value.2, c.value.3))
    ensures r.Some? ==> r.value == DateTime(d.0, d.1, d.2, c.value.0, c.value.1, c.value.2, c.value.3)
  {
    match c
    case None => None
    case Some((hour, minute, second, micro)) =>
      var t := DateTime(d.0, d.1, d.2, hour, minute, second, micro);
      if Valid(t) then Some(t) else None
  }

  /** strptime reads unpadded fields, a space-padded day and a short fraction. */
  lemma ParseUnpadded(s: string)
    requires s == "2021-1- 5 9:3:7.5"
    ensures Parse(s) == Some(DateTime(2021, 1, 5, 9, 3, 7, 500000))
  {
    UnpaddedDate(s);
    assert s[9] == ' ' && s[10] == '9' && s[9..10] == " ";
    SpaceRunOf(s, 9, 1);
    UnpaddedClock(s);
    ParseOfStages(s, DateTime(2021, 1, 5, 9, 3, 7, 500000), 9, 1);
  }

  /** Parse gives the instant its stages read, when that instant is valid. */
  lemma ParseOfStages(s: string, t: DateTime, j: nat, w: nat)
    requires ParseDate(s) == Some((t.year, t.month, t.day, j))
    requires j + w <= |s| && SpaceRun(s, j) == w && w > 0
    requires ParseClock(s, j + w) == Some((t.hour, t.minute, t.second, t.microsecond))
    requires Valid(t)
    ensures Parse(s) == Some(t)
  {
    assert ClockAfter(s, j) == Some((t.hour, t.minute, t.second, t.microsecond));
  }

  lemma UnpaddedDate(s: string)
    requires s == "2021-1- 5 9:3:7.5"
    ensures ParseDate(s) == Some((2021, 1, 5, 9))
  {
    assert s[..4] == "2021";
    assert Text.ParseDigits("2021") == 2021 by {
      assert "2021"[..3] == "202" && "202"[..2] == "20" && "20"[..1] == "2" && "2"[..0] == "";
    }
    assert ShortField(s, 5, 1, 12) == Some((1, 6));
    assert DayField(s, 7) == Some((5, 9));
  }

  lemma UnpaddedClock(s: string)
    requires s == "2021-1- 5 9:3:7.5"
    ensures ParseClock(s, 10) == Some((9, 3, 7, 500000))
  {
    UnpaddedClockFields(s);
    assert s[16..] == "5";
    FractionScales("5");
    assert Text.ParseDigits("5") == 5 by { assert "5"[..0] == ""; }
    assert Text.Pow10(5) == 100000 by { Pow10Values(); }
    ClockOfFields(s, 10, 9, 11, 3, 13, 7, 15, 500000);
  }

  lemma UnpaddedClockFields(s: string)
    requires s == "2021-1- 5 9:3:7.5"
    ensures ShortField(s, 10, 0, 23) == Some((9, 11))
    ensures ShortField(s, 12, 0, 59) == Some((3, 13))
    ensures ShortField(s, 14, 0, 61) == Some((7, 15))
  {
  }

  /** ParseClock assembled from the fields it reads and the separators between them. */
  lemma ClockOfFields(s: string, p: nat, hour: int, k: nat, minute: int, l: nat, second: int, m: nat, micro: int)
    requires p <= |s| && ShortField(s, p, 0, 23) == Some((hour, k)) && k < |s| && s[k] == ':'
    requires ShortField(s, k + 1, 0, 59) == Some((minute, l)) && l < |s| && s[l] == ':'
    requires ShortField(s, l + 1, 0, 61) == Some((second, m)) && m < |s| && s[m] == '.'
    requires Fraction(s[m + 1..]) == Some(micro)
    ensures ParseClock(s, p) == Some((hour, minute, second, micro))
  {
  }

  /** A run of `n` whitespace characters ended by another character or the end is what SpaceRun measures. */
  lemma SpaceRunOf(s: string, i: nat, n: nat)
    requires i + n <= |s| && AllReSpace(s[i..i + n]) && (i + n < |s| ==> !IsReSpace(s[i + n]))
    ensures SpaceRun(s, i) == n
  {
  }

  lemma DatePartFields(t: DateTime)
    requires Valid(t)
    ensures var a := DatePart(t);
      |a| == 10 && a[0..4] == Pad(t.year, 4) && a[4] == '-' && a[5..7] == Pad(t.month, 2)
      && a[7] == '-' && a[8..10] == Pad(t.day, 2)
  {
    Pow10Values();
    PadLength(t.year, 4);
    PadLength(t.month, 2);
    PadLength(t.day, 2);
  }

  lemma TimePartFields(t: DateTime)
    requires Valid(t)
    ensures var a := TimePart(t);
      |a| == 8 && a[0..2] == Pad(t.hour, 2) && a[2] == ':' && a[3..5] == Pad(t.minute, 2)
      && a[5] == ':' && a[6..8] == Pad(t.second, 2)
  {
    Pow10Values();
    PadLength(t.hour, 2);
    PadLength(t.minute, 2);
    PadLength(t.second, 2);
  }

  lemma FormatParts(t: DateTime)
    requires Valid(t)
    ensures var s := Format(t);
      |s| == 26 && s[0..10] == DatePart(t) && s[10] == ' ' && s[11..19] == TimePart(t)
      && s[19] == '.' && s[20..26] == Pad(t.microsecond, 6)
  {
    Pow10Values();
    DatePartFields(t);
    TimePartFields(t);
    PadLength(t.microsecond, 6);
    var d, tp, m := DatePart(t), TimePart(t), Pad(t.microsecond, 6);
    var s := Format(t);
    assert s == (d + " ") + (tp + ".") + m;
    assert s[0..10] == d;
    assert s[11..19] == tp;
    assert s[20..26] == m;
  }

  /** The date fields and separators of the text form, at their fixed offsets. */
  lemma FormatDateFields(t: DateTime)
    requires Valid(t)
    ensures var s := Format(t);
      |s| == 26 && s[0..4] == Pad(t.year, 4) && s[4] == '-' && s[5..7] == Pad(t.month, 2)
      && s[7] == '-' && s[8..10] == Pad(t.day, 2) && s[10] == ' '
  {
    var s := Format(t);
    FormatParts(t);
    DatePartFields(t);
    assert s[0..4] == s[0..10][0..4];
    assert s[5..7] == s[0..10][5..7];
    assert s[8..10] == s[0..10][8..10];
    assert s[4] == s[0..10][4] && s[7] == s[0..10][7];
  }

  /** The time fields and separators of the text form, at their fixed offsets. */
  lemma FormatTimeFields(t: DateTime)
    requires Valid(t)
    ensures var s := Format(t);
      |s| == 26 && s[11..13] == Pad(t.hour, 2) && s[13] == ':' && s[14..16] == Pad(t.minute, 2)
      && s[16] == ':' && s[17..19] == Pad(t.second, 2) && s[19] == '.' && s[20..26] == Pad(t.microsecond, 6)
  {
    var s := Format(t);
    FormatParts(t);
    TimePartFields(t);
    assert s[11..13] == s[11..19][0..2];
    assert s[14..16] == s[11..19][3..5];
    assert s[17..19] == s[11..19][6..8];
    assert s[13] == s[11..19][2] && s[16] == s[11..19][5];
  }

  /** A two-digit zero-padded field followed by a non-digit reads back as its number. */
  lemma ShortFieldOfPad(s: string, i: nat, n: int, lo: int, hi: int)
    requires i + 2 <= |s| && s[i..i + 2] == Pad(n, 2) && lo <= n <= hi && 0 <= n < 100
    requires !DigitAt(s, i + 2)
    ensures ShortField(s, i, lo, hi) == Some((n, i + 2))
  {
    Pow10Values();
    PadSpec(n, 2);
    var t := s[i..i + 2];
    assert t[0] == s[i] && t[1] == s[i + 1] && t[..1] == [s[i]];
    assert Text.ParseDigits([s[i]]) == Text.DigitValue(s[i]) by {
      assert [s[i]][..0] == [];
    }
    assert Text.ParseDigits(t) == Text.ParseDigits(t[..1]) * 10 + Text.DigitValue(t[1]);
  }

  /** The text form of a valid instant reads back as the same instant. */
  lemma ParseFormat(t: DateTime)
    requires Valid(t)
    ensures Parse(Format(t)) == Some(t)
  {
    var s := Format(t);
    FormatDateReads(t);
    FormatParts(t);
    assert s[10..11] == " ";
    SpaceRunOf(s, 10, 1);
    FormatClockReads(t);
    ParseOfStages(s, t, 10, 1);
  }

  lemma FormatDateReads(t: DateTime)
    requires Valid(t)
    ensures ParseDate(Format(t)) == Some((t.year, t.month, t.day, 10))
  {
    var s := Format(t);
    Pow10Values();
    FormatDateFields(t);
    PadSpec(t.year, 4);
    assert s[..4] == s[0..4];
    ShortFieldOfPad(s, 5, t.month, 1, 12);
    ShortFieldOfPad(s, 8, t.day, 1, 31);
  }

  lemma FormatClockReads(t: DateTime)
    requires Valid(t)
    ensures ParseClock(Format(t), 11) == Some((t.hour, t.minute, t.second, t.microsecond))
  {
    var s := Format(t);
    Pow10Values();
    FormatTimeFields(t);
    ShortFieldOfPad(s, 11, t.hour, 0, 23);
    ShortFieldOfPad(s, 14, t.minute, 0, 59);
    ShortFieldOfPad(s, 17, t.second, 0, 61);
    PadSpec(t.microsecond, 6);
    assert s[20..] == s[20..26];
    FractionScales(s[20..]);
  }

  /** The fields of the default list name, at their fixed offsets. */
  lemma DefaultListNameFields(t: DateTime)
    requires Valid(t)
    ensures var s := DefaultListName(t);
      |s| == 31 && s[..8] == "roilist_" && s[8..12] == Pad(t.year, 4) && s[12..14] == Pad(t.month, 2)
      && s[14..16] == Pad(t.day, 2) && s[16] == '_' && s[17..19] == Pad(t.hour, 2)
      && s[19..21] == Pad(t.minute, 2) && s[21] == '_' && s[22..24] == Pad(t.second, 2)
      && s[24] == '_' && s[25..31] == Pad(t.microsecond, 6)
  {
    Pow10Values();
    PadLength(t.year, 4);
    PadLength(t.month, 2);
    PadLength(t.day, 2);
    PadLength(t.hour, 2);
    PadLength(t.minute, 2);
    PadLength(t.second, 2);
    PadLength(t.microsecond, 6);
    NameLayout(Pad(t.year, 4), Pad(t.month, 2), Pad(t.day, 2), Pad(t.hour, 2), Pad(t.minute, 2),
               Pad(t.second, 2), Pad(t.microsecond, 6));
  }

  lemma NameLayout(y: string, mo: string, d: string, h: string, mi: string, se: string, us: string)
    requires |y| == 4 && |mo| == 2 && |d| == 2 && |h| == 2 && |mi| == 2 && |se| == 2 && |us| == 6
    ensures var s := "roilist_" + (y + mo + d + "_" + h + mi + "_" + se + "_" + us);
      |s| == 31 && s[..8] == "roilist_" && s[8..12] == y && s[12..14] == mo && s[14..16] == d
      && s[16] == '_' && s[17..19] == h && s[19..21] == mi && s[21] == '_' && s[22..24] == se
      && s[24] == '_' && s[25..31] == us
  {
    var s := "roilist_" + (y + mo + d + "_" + h + mi + "_" + se + "_" + us);
    var date := y + mo + d;
    assert s == ("roilist_" + date) + ("_" + h + mi) + ("_" + se) + ("_" + us);
    assert s[8..16] == date;
    assert date[0..4] == y && date[4..6] == mo && date[6..8] == d;
    assert s[16..21] == "_" + h + mi;
    assert s[21..24] == "_" + se;
    assert s[24..31] == "_" + us;
  }

  /** A field printed with `width` digits determines its value. */
  lemma PadInjective(m: int, n: int, width: nat)
    requires width >= 1 && 0 <= m < Text.Pow10(width) && 0 <= n < Text.Pow10(width)
    requires Pad(m, width) == Pad(n, width)
    ensures m == n
  {
    PadSpec(m, width);
    PadSpec(n, width);
  }

  /** Two valid instants with the same default list name are equal. */
  lemma DefaultListNameInjective(a: DateTime, b: DateTime)
    requires Valid(a) && Valid(b) && DefaultListName(a) == DefaultListName(b)
    ensures a == b
  {
    Pow10Values();
    DefaultListNameFields(a);
    DefaultListNameFields(b);
    var s := DefaultListName(a);
    PadInjective(a.year, b.year, 4);
    PadInjective(a.month, b.month, 2);
    PadInjective(a.day, b.day, 2);
    PadInjective(a.hour, b.hour, 2);
    PadInjective(a.minute, b.minute, 2);
    PadInjective(a.second, b.second, 2);
    PadInjective(a.microsecond, b.microsecond, 6);
  }

  /** Two instants with the same text form are the same instant. */
  lemma FormatInjective(a: DateTime, b: DateTime)
    requires Valid(a) && Valid(b) && Format(a) == Format(b)
    ensures a == b
  {
    ParseFormat(a);
    ParseFormat(b);
  }
}

=== FILE: dummy_wheel.dfy ===
/** The dummy filter wheel (hardware/wheels/dummy_filter_wheel.py): a position from 1 to n. */
module DummyWheel {

  /** The configured number of filters and the current position. */
  datatype DummyWheel = DummyWheel(numFilters: int, position: int)

  /** The configuration warning at activation: a list whose length is not the number of filters. */
  predicate ConfigIncomplete(w: DummyWheel, names: nat, positions: nat, allowed: nat)
  {
    names != w.numFilters || positions != w.numFilters || allowed != w.numFilters
  }

  /** get_position. */
  function GetPosition(w: DummyWheel): int
  {
    w.position
  }

  /**
   * set_position: a target in 1..n is stored and the code is 0; any other target gives
   * -1 and leaves the position alone.
   */
  function SetPosition(w: DummyWheel, target: int): (r: (DummyWheel, int))
    ensures r.0.numFilters == w.numFilters
    ensures r.1 == 0 <==> 1 <= target <= w.numFilters
    ensures r.1 == 0 ==> r.0.position == target
    ensures r.1 != 0 ==> r.1 == -1 && r.0 == w
    ensures 1 <= w.position <= w.numFilters && target == w.position ==> r == (w, 0)
  {
    if 1 <= target <= w.numFilters then (w.(position := target), 0)
    else (w, -1)
  }

  /** After an accepted set, reading the position gives the target back. */
  lemma SetThenGet(w: DummyWheel, target: int)
    requires 1 <= target <= w.numFilters
    ensures GetPosition(SetPosition(w, target).0) == target
  {
  }
}

=== FILE: expconfig.dfy ===
/**
 * The experiment configurator (logic/experiment_configurator_logic.py): a dict of
 * experiment settings with defaults, updated entry by entry from the user interface,
 * merged from a configuration file, and an imaging sequence edited through a list model
 * that the dict mirrors.
 */
module ExpConfig {
  import opened Wrappers
  import PyDict

  /** A value stored in the configuration dict, as read from or written to a YAML file. */
  datatype Value = RealValue(r: real) | IntValue(i: int) | StrValue(s: string)
                 | Sequence(items: seq<(string, int)>) | NoneValue

  /**
   * A key of the configuration dict: the six the configurator writes ('exposure', 'gain',
   * 'num_frames', 'filter_pos', 'imaging_sequence', 'save_path') and any other string.
   */
  datatype Key = Exposure | Gain | NumFrames | FilterPos | ImagingSequence | SavePath | OtherKey(name: string)

  type ConfigDict = PyDict.Dict<Key, Value>

  const Placeholder: string := "Select your experiment.."

  const DefaultExposure: real := 0.05
  const DefaultGain: int := 0
  const DefaultFrames: int := 1
  const DefaultFilter: int := 1

  /** The experiment list, the settings, and the items of the imaging-sequence list model. */
  datatype ExpConfig = ExpConfig(experiments: seq<string>, config: ConfigDict, sequence: seq<(string, int)>)

  /** The dict's imaging sequence is the one the list model shows. */
  predicate InSync(c: ExpConfig)
  {
    PyDict.Get(c.config, ImagingSequence) == Some(Sequence(c.sequence))
  }

  /**
   * init_default_config_dict: exposure 0.05, gain 0, one frame, filter 1, an empty imaging
   * sequence and the default save path; any other entry is kept.
   */
  function InitDefaultConfigDict(config: ConfigDict, defaultPath: string): (r: ConfigDict)
    ensures PyDict.Get(r, Exposure) == Some(RealValue(DefaultExposure))
    ensures PyDict.Get(r, Gain) == Some(IntValue(DefaultGain))
    ensures PyDict.Get(r, NumFrames) == Some(IntValue(DefaultFrames))
    ensures PyDict.Get(r, FilterPos) == Some(IntValue(DefaultFilter))
    ensures PyDict.Get(r, ImagingSequence) == Some(Sequence([]))
    ensures PyDict.Get(r, SavePath) == Some(StrValue(defaultPath))
    ensures forall k :: k !in DefaultKeys ==> PyDict.Get(r, k) == PyDict.Get(config, k)
    ensures PyDict.KeySet(r) == PyDict.KeySet(config) + DefaultKeys
    ensures PyDict.Valid(config) ==> PyDict.Valid(r)
  {
    var ps := Defaults(defaultPath);
    var r := PyDict.SetAll(config, ps);
    DefaultsKeySet(defaultPath);
    forall k | k !in DefaultKeys ensures PyDict.Get(r, k) == PyDict.Get(config, k) {
      PyDict.SetAllOther(config, ps, k);
    }
    DefaultsGet(config, defaultPath);
    r
  }

  lemma DefaultsKeySet(defaultPath: string)
    ensures PyDict.KeySet(Defaults(defaultPath)) == DefaultKeys
  {
    var ps := Defaults(defaultPath);
    assert ps[0].0 == Exposure && ps[1].0 == Gain && ps[2].0 == NumFrames;
    assert ps[3].0 == FilterPos && ps[4].0 == ImagingSequence && ps[5].0 == SavePath;
  }

  lemma DefaultsGet(config: ConfigDict, defaultPath: string)
    ensures var r := PyDict.SetAll(config, Defaults(defaultPath));
      PyDict.Get(r, Exposure) == Some(RealValue(DefaultExposure))
      && PyDict.Get(r, Gain) == Some(IntValue(DefaultGain))
      && PyDict.Get(r, NumFrames) == Some(IntValue(DefaultFrames))
      && PyDict.Get(r, FilterPos) == Some(IntValue(DefaultFilter))
      && PyDict.Get(r, ImagingSequence) == Some(Sequence([]))
      && PyDict.Get(r, SavePath) == Some(StrValue(defaultPath))
  {
    DefaultGet(config, defaultPath, 0);
    DefaultGet(config, defaultPath, 1);
    DefaultGet(config, defaultPath, 2);
    DefaultGet(config, defaultPath, 3);
    DefaultGet(config, defaultPath, 4);
    DefaultGet(config, defaultPath, 5);
  }

  lemma DefaultGet(config: ConfigDict, defaultPath: string, i: nat)
    requires i < 6
    ensures PyDict.Get(PyDict.SetAll(config, Defaults(defaultPath)), Defaults(defaultPath)[i].0)
      == Some(Defaults(defaultPath)[i].1)
  {
    PyDict.SetAllLast(config, Defaults(defaultPath), i);
  }

  /** The default entries, in the order they are assigned. */
  function Defaults(defaultPath: string): seq<(Key, Value)>
  {
    [(Exposure, RealValue(DefaultExposure)), (Gain, IntValue(DefaultGain)), (NumFrames, IntValue(DefaultFrames)),
     (FilterPos, IntValue(DefaultFilter)), (ImagingSequence, Sequence([])), (SavePath, StrValue(defaultPath))]
  }

  const DefaultKeys: set<Key> := {Exposure, Gain, NumFrames, FilterPos, ImagingSequence, SavePath}

  /**
   * on_activate: the placeholder goes in front of the configured experiments, the list
   * model starts empty and the dict takes its defaults.
   */
  function Activate(experiments: seq<string>, config: ConfigDict, defaultPath: string): (c: ExpConfig)
    ensures |c.experiments| == |experiments| + 1
    ensures c.experiments[0] == Placeholder && c.experiments[1..] == experiments
    ensures InSync(c)
  {
    ExpConfig([Placeholder] + experiments, InitDefaultConfigDict(config, defaultPath), [])
  }

  /** update_exposure, update_gain, update_frames, update_save_path: one entry takes the value. */
  function UpdateEntry(c: ExpConfig, key: Key, v: Value): (r: ExpConfig)
    ensures PyDict.Get(r.config, key) == Some(v)
    ensures forall k :: k != key ==> PyDict.Get(r.config, k) == PyDict.Get(c.config, k)
    ensures r.sequence == c.sequence && r.experiments == c.experiments
    ensures key != ImagingSequence && InSync(c) ==> InSync(r)
  {
    c.(config := PyDict.Set(c.config, key, v))
  }

  /** update_filterpos: the combobox index counts from 0, filter positions from 1. */
  function UpdateFilterPos(c: ExpConfig, index: int): (r: ExpConfig)
    ensures PyDict.Get(r.config, FilterPos) == Some(IntValue(index + 1))
    ensures InSync(c) ==> InSync(r)
  {
    UpdateEntry(c, FilterPos, IntValue(index + 1))
  }

  /** add_entry_to_imaging_list: the entry goes last in the list model, and the dict follows. */
  function AddEntry(c: ExpConfig, lightsource: string, intensity: int): (r: ExpConfig)
    ensures r.sequence == c.sequence + [(lightsource, intensity)]
    ensures InSync(r)
    ensures forall k :: k != ImagingSequence ==> PyDict.Get(r.config, k) == PyDict.Get(c.config, k)
  {
    var items := c.sequence + [(lightsource, intensity)];
    ExpConfig(c.experiments, PyDict.Set(c.config, ImagingSequence, Sequence(items)), items)
  }

  /**
   * delete_entry_from_imaging_list: exactly the selected row goes, and the dict follows; a
   * row beyond the list raises IndexError.
   */
  function DeleteEntry(c: ExpConfig, row: nat): (r: Result<ExpConfig>)
    ensures r.Err? <==> row >= |c.sequence|
    ensures r.Ok? ==> r.value.sequence == c.sequence[..row] + c.sequence[row + 1..] && InSync(r.value)
    ensures r.Ok? ==> forall k :: k != ImagingSequence ==> PyDict.Get(r.value.config, k) == PyDict.Get(c.config, k)
  {
    if row >= |c.sequence| then Err(IndexError)
    else
      var items := c.sequence[..row] + c.sequence[row + 1..];
      Ok(ExpConfig(c.experiments, PyDict.Set(c.config, ImagingSequence, Sequence(items)), items))
  }

  /** Deleting the entry just added gives back the sequence as it was. */
  lemma AddThenDelete(c: ExpConfig, lightsource: string, intensity: int)
    ensures DeleteEntry(AddEntry(c, lightsource, intensity), |c.sequence|).Ok?
    ensures DeleteEntry(AddEntry(c, lightsource, intensity), |c.sequence|).value.sequence == c.sequence
  {
    var items := c.sequence + [(lightsource, intensity)];
    assert items[..|c.sequence|] == c.sequence;
  }

  /**
   * load_config_file: every key already in the dict takes the file's value, or None when
   * the file lacks it; no key is added, and the order stays. An empty file (no mapping)
   * raises TypeError at the first key tested against it, so an empty dict stays as it is.
   */
  function LoadConfigFile(config: ConfigDict, data: Option<ConfigDict>): (r: Result<ConfigDict>)
    ensures r.Err? <==> data.None? && config != []
    ensures r.Err? ==> r.error == TypeError
    ensures r.Ok? ==> PyDict.Keys(r.value) == PyDict.Keys(config) && PyDict.KeySet(r.value) == PyDict.KeySet(config)
    ensures r.Ok? ==> forall i :: 0 <= i < |config| ==>
      r.value[i].1 == PyDict.Get(data.value, config[i].0).GetOr(NoneValue)
    ensures config == [] ==> r == Ok([])
  {
    if config == [] then Ok([])
    else if data.None? then Err(TypeError)
    else
      var d := seq(|config|, i requires 0 <= i < |config| => (config[i].0, PyDict.Get(data.value, config[i].0).GetOr(NoneValue)));
      assert PyDict.Keys(d) == PyDict.Keys(config);
      PyDict.SameKeys(d, config);
      Ok(d)
  }

  /** Loading what was saved from a dict with the same keys restores that dict. */
  lemma LoadSaved(config: ConfigDict, saved: ConfigDict)
    requires PyDict.Valid(saved) && PyDict.Keys(config) == PyDict.Keys(saved)
    ensures LoadConfigFile(config, Some(saved)) == Ok(saved)
  {
    var r := LoadConfigFile(config, Some(saved)).value;
    assert |config| == |PyDict.Keys(config)| == |saved|;
    assert |r| == |PyDict.Keys(r)| == |saved|;
    forall i | 0 <= i < |saved| ensures r[i] == saved[i] {
      assert PyDict.Keys(config)[i] == PyDict.Keys(saved)[i] == PyDict.Keys(r)[i];
      PyDict.GetAt(saved, i);
    }
    assert r == saved;
  }
}

=== FILE: filterwheel_interface.dfy ===
/**
 * The filter dict every filter wheel driver builds from its configuration, shared here
 * because the dummy and the Thorlabs drivers build it the same way.
 */
module FilterwheelInterface {
  import opened Wrappers
  import PyDict
  import Labels

  /** One entry: 'label', 'name', 'position' and the 'lasers' allowed with this filter. */
  datatype FilterEntry = FilterEntry(labelName: string, name: string, position: int, lasers: seq<bool>)

  /**
   * get_filter_dict: 'filter{i+1}' maps to the i-th name, position and allowed-laser list,
   * one entry per configured name, in configuration order; a positions or allowed-laser
   * list shorter than the names raises IndexError.
   */
  function FilterDict(names: seq<string>, positions: seq<int>, allowed: seq<seq<bool>>)
    : (r: Result<PyDict.Dict<string, FilterEntry>>)
    ensures r.Err? <==> |positions| < |names| || |allowed| < |names|
    ensures r.Err? ==> r.error == IndexError
    ensures r.Ok? ==> PyDict.Valid(r.value) && |r.value| == |names|
    ensures r.Ok? ==> forall i :: 0 <= i < |names| ==>
      r.value[i] == (Labels.Numbered("filter", i + 1),
                     FilterEntry(Labels.Numbered("filter", i + 1), names[i], positions[i], allowed[i]))
  {
    if |positions| < |names| || |allowed| < |names| then Err(IndexError)
    else
      Ok(Labels.NumberedDict("filter", seq(|names|, i requires 0 <= i < |names| =>
        FilterEntry(Labels.Numbered("filter", i + 1), names[i], positions[i], allowed[i]))))
  }

  /** The key 'filter{n}' finds the n-th configured filter, for n from 1 to the number of names. */
  lemma FilterDictGet(names: seq<string>, positions: seq<int>, allowed: seq<seq<bool>>, n: nat)
    requires |positions| >= |names| && |allowed| >= |names|
    requires 1 <= n <= |names|
    ensures PyDict.Get(FilterDict(names, positions, allowed).value, Labels.Numbered("filter", n))
      == Some(FilterEntry(Labels.Numbered("filter", n), names[n - 1], positions[n - 1], allowed[n - 1]))
  {
    Labels.NumberedDictGet("filter", seq(|names|, i requires 0 <= i < |names| =>
      FilterEntry(Labels.Numbered("filter", i + 1), names[i], positions[i], allowed[i])), n);
  }
}

=== FILE: filterwheel_logic.dfy ===
/**
 * The filter-wheel logic (logic/filterwheel_logic.py): the wheel may only turn while the
 * lasers are off, and the laser intensities are zeroed before it turns, so that no laser
 * line stays set that the new filter may not allow.
 */
module FilterwheelLogic {
  import opened Wrappers
  import LaserControl
  import DummyWheel
  import PyDict

  /** What set_position does: the laser logic afterwards, the target sent to the wheel, the signal emitted. */
  datatype FilterChange = FilterChange(laser: LaserControl.LaserControl, wheelTarget: Option<int>, signal: Option<int>)

  /**
   * set_position: refused while the lasers are on (no reset, no move). Otherwise the
   * intensities are reset to 0, the wheel is asked to move, and the new-filter signal is
   * emitted only when the wheel answers 0 (`wheelAnswer`, the driver's error code).
   */
  function SetPosition(laser: LaserControl.LaserControl, position: int, wheelAnswer: int): (r: FilterChange)
    ensures laser.enabled ==> r == FilterChange(laser, None, None)
    ensures !laser.enabled ==>
      r.laser == laser.(intensity := LaserControl.ResetIntensityDict(laser.intensity))
      && r.wheelTarget == Some(position)
      && (r.signal == Some(position) <==> wheelAnswer == 0)
      && (r.signal.None? <==> wheelAnswer != 0)
  {
    if laser.enabled then FilterChange(laser, None, None)
    else
      var reset := laser.(intensity := LaserControl.ResetIntensityDict(laser.intensity));
      FilterChange(reset, Some(position), if wheelAnswer == 0 then Some(position) else None)
  }

  /**
   * The interlock with the dummy wheel: while the lasers are on the wheel keeps its
   * position; with the lasers off an accepted target is reached and announced.
   */
  lemma SetPositionDummy(laser: LaserControl.LaserControl, wheel: DummyWheel.DummyWheel, position: int)
    ensures var answer := DummyWheel.SetPosition(wheel, position).1;
      var r := SetPosition(laser, position, answer);
      (laser.enabled ==> r.wheelTarget.None? && r.laser == laser)
      && (!laser.enabled && 1 <= position <= wheel.numFilters ==>
            r.signal == Some(position) && DummyWheel.SetPosition(wheel, position).0.position == position)
      && (!laser.enabled && !(1 <= position <= wheel.numFilters) ==>
            r.signal.None? && DummyWheel.SetPosition(wheel, position).0 == wheel)
  {
  }

  /**
   * After a filter change, switching the lasers on writes 0 to every line: no intensity
   * chosen for the previous filter survives the change.
   */
  lemma ChangeThenOnWritesZero(laser: LaserControl.LaserControl, position: int, answer: int, i: nat)
    requires LaserControl.Valid(laser) && !laser.enabled && laser.controller != LaserControl.OtherController
    requires i < |laser.lasers|
    ensures var on := LaserControl.ApplyVoltage(SetPosition(laser, position, answer).laser).0;
      i < |on.writes| && on.writes[i].voltage == 0.0
  {
    var reset := SetPosition(laser, position, answer).laser;
    assert LaserControl.Valid(reset) by {
      PyDict.SameKeys(reset.intensity, laser.intensity);
    }
    var key := laser.lasers[i].0;
    assert key in PyDict.KeySet(reset.intensity);
    var v := PyDict.Get(reset.intensity, key).value;
    assert (key, v) in reset.intensity;
  }
}

=== FILE: flowboard.dfy ===
/**
 * The dummy flowboard (hardware/microfluidics/flowboard_dummy.py): pressure setpoints kept
 * in a dict instead of being sent to a pressure controller, with the channel and
 * maximum-pressure checks of the real driver.
 */
module Flowboard {
  import opened Wrappers
  import PyDict

  /** The highest accepted pressure setpoint, in mbar. */
  const MaxPressure := 350
  /** The flow range of a sensor, in ul/min, is -MaxFlow to MaxFlow. */
  const MaxFlow := 11000

  /** The configured channel IDs and the stored values, each dict keyed by channel. */
  datatype Flowboard = Flowboard(
    pressureIds: seq<int>, sensorIds: seq<int>,
    pressure: PyDict.Dict<int, real>, pressureUnit: PyDict.Dict<int, string>, pressureRange: PyDict.Dict<int, int>,
    sensorUnit: PyDict.Dict<int, string>, sensorRange: PyDict.Dict<int, (int, int)>)

  /** `for k in keys: d[k] = v`: the listed keys hold `v`, every other key is unchanged. */
  function Fill<V>(d: PyDict.Dict<int, V>, keys: seq<int>, v: V): (r: PyDict.Dict<int, V>)
    ensures forall k :: PyDict.Get(r, k) == if k in keys then Some(v) else PyDict.Get(d, k)
    ensures PyDict.Valid(d) ==> PyDict.Valid(r)
    decreases |keys|
  {
    if keys == [] then d
    else
      var init := keys[..|keys| - 1];
      assert forall k :: k in keys <==> k in init || k == keys[|keys| - 1] by {
        assert keys == init + [keys[|keys| - 1]];
      }
      PyDict.Set(Fill(d, init, v), keys[|keys| - 1], v)
  }

  /** After the fill, every listed key holds `v`. */
  lemma FillListed<V>(d: PyDict.Dict<int, V>, keys: seq<int>, v: V)
    ensures forall i :: 0 <= i < |keys| ==> PyDict.Get(Fill(d, keys, v), keys[i]) == Some(v)
  {
    forall i | 0 <= i < |keys| ensures PyDict.Get(Fill(d, keys, v), keys[i]) == Some(v) {
      assert keys[i] in keys;
    }
  }

  /** The indices 0 to n-1 of a list of length n. */
  function Indices(n: nat): (r: seq<int>)
    ensures |r| == n && forall i :: 0 <= i < n ==> r[i] == i
  {
    seq(n, i requires 0 <= i < n => i)
  }

  /**
   * on_activate as written: entries 0 to n-1 (the positions in the ID lists, not the IDs)
   * get pressure 0 in mbar with range MaxPressure, and sensors unit ul/min with range
   * (-MaxFlow, MaxFlow).
   */
  function ActivateAsWritten(fb: Flowboard): (r: Flowboard)
    ensures r.pressureIds == fb.pressureIds && r.sensorIds == fb.sensorIds
    ensures forall i :: 0 <= i < |fb.pressureIds| ==>
      PyDict.Get(r.pressure, i) == Some(0.0) && PyDict.Get(r.pressureUnit, i) == Some("mbar")
      && PyDict.Get(r.pressureRange, i) == Some(MaxPressure)
    ensures forall i :: 0 <= i < |fb.sensorIds| ==>
      PyDict.Get(r.sensorUnit, i) == Some("ul/min") && PyDict.Get(r.sensorRange, i) == Some((-MaxFlow, MaxFlow))
    ensures forall k :: (k < 0 || k >= |fb.pressureIds|) ==> PyDict.Get(r.pressure, k) == PyDict.Get(fb.pressure, k)
  {
    var pKeys, sKeys := Indices(|fb.pressureIds|), Indices(|fb.sensorIds|);
    assert forall k :: k in pKeys <==> 0 <= k < |fb.pressureIds| by {
      forall k | 0 <= k < |fb.pressureIds| ensures k in pKeys { assert pKeys[k] == k; }
    }
    assert forall k :: 0 <= k < |fb.sensorIds| ==> k in sKeys by {
      forall k | 0 <= k < |fb.sensorIds| ensures k in sKeys { assert sKeys[k] == k; }
    }
    fb.(pressure := Fill(fb.pressure, pKeys, 0.0),
        pressureUnit := Fill(fb.pressureUnit, pKeys, "mbar"),
        pressureRange := Fill(fb.pressureRange, pKeys, MaxPressure),
        sensorUnit := Fill(fb.sensorUnit, sKeys, "ul/min"),
        sensorRange := Fill(fb.sensorRange, sKeys, (-MaxFlow, MaxFlow)))
  }

  /**
   * on_activate as intended: the same initial values, stored under the configured
   * channel IDs that set_pressure and get_pressure use.
   */
  function Activate(fb: Flowboard): (r: Flowboard)
    ensures r.pressureIds == fb.pressureIds && r.sensorIds == fb.sensorIds
    ensures forall i :: 0 <= i < |fb.pressureIds| ==>
      PyDict.Get(r.pressure, fb.pressureIds[i]) == Some(0.0) && PyDict.Get(r.pressureUnit, fb.pressureIds[i]) == Some("mbar")
      && PyDict.Get(r.pressureRange, fb.pressureIds[i]) == Some(MaxPressure)
    ensures forall i :: 0 <= i < |fb.sensorIds| ==>
      PyDict.Get(r.sensorUnit, fb.sensorIds[i]) == Some("ul/min") && PyDict.Get(r.sensorRange, fb.sensorIds[i]) == Some((-MaxFlow, MaxFlow))
    ensures forall k :: k !in fb.pressureIds ==> PyDict.Get(r.pressure, k) == PyDict.Get(fb.pressure, k)
    ensures forall k :: k in fb.pressureIds ==> PyDict.Get(r.pressure, k) == Some(0.0)
  {
    var pressure := Fill(fb.pressure, fb.pressureIds, 0.0);
    var pressureUnit := Fill(fb.pressureUnit, fb.pressureIds, "mbar");
    var pressureRange := Fill(fb.pressureRange, fb.pressureIds, MaxPressure);
    var sensorUnit := Fill(fb.sensorUnit, fb.sensorIds, "ul/min");
    var sensorRange := Fill(fb.sensorRange, fb.sensorIds, (-MaxFlow, MaxFlow));
    FillListed(fb.pressure, fb.pressureIds, 0.0);
    FillListed(fb.pressureUnit, fb.pressureIds, "mbar");
    FillListed(fb.pressureRange, fb.pressureIds, MaxPressure);
    FillListed(fb.sensorUnit, fb.sensorIds, "ul/min");
    FillListed(fb.sensorRange, fb.sensorIds, (-MaxFlow, MaxFlow));
    Flowboard(fb.pressureIds, fb.sensorIds, pressure, pressureUnit, pressureRange, sensorUnit, sensorRange)
  }

  /**
   * set_pressure: each requested (channel, value) pair, in order, is stored when the
   * channel is configured and the value does not exceed MaxPressure, and skipped otherwise.
   */
  function SetPressure(fb: Flowboard, params: seq<(int, real)>): (r: Flowboard)
    ensures r.(pressure := fb.pressure) == fb
    ensures PyDict.Valid(fb.pressure) ==> PyDict.Valid(r.pressure)
    decreases |params|
  {
    if params == [] then fb
    else
      var prev := SetPressure(fb, params[..|params| - 1]);
      var (channel, value) := params[|params| - 1];
      if channel in fb.pressureIds && value <= MaxPressure as real then
        prev.(pressure := PyDict.Set(prev.pressure, channel, value))
      else prev
  }

  /** The request is accepted for channel k: configured, and at most MaxPressure. */
  predicate Accepted(fb: Flowboard, channel: int, value: real)
  {
    channel in fb.pressureIds && value <= MaxPressure as real
  }

  /**
   * For a request with one value per channel, a channel takes the requested value exactly
   * when it is accepted, and keeps its pressure otherwise.
   */
  lemma {:induction false} SetPressureGet(fb: Flowboard, params: seq<(int, real)>, k: int)
    requires PyDict.Valid(params)
    ensures var req := PyDict.Get(params, k);
      PyDict.Get(SetPressure(fb, params).pressure, k)
      == if req.Some? && Accepted(fb, k, req.value) then req else PyDict.Get(fb.pressure, k)
    decreases |params|
  {
    if params != [] {
      var init := params[..|params| - 1];
      var last := params[|params| - 1];
      assert PyDict.Valid(init) by {
        assert forall i :: 0 <= i < |init| ==> PyDict.Keys(init)[i] == PyDict.Keys(params)[i];
      }
      SetPressureGet(fb, init, k);
      if last.0 == k {
        PyDict.GetAt(params, |params| - 1);
        assert k !in PyDict.KeySet(init) by {
          forall i | 0 <= i < |init| ensures init[i].0 != k {
            assert PyDict.Keys(params)[i] != PyDict.Keys(params)[|params| - 1];
          }
        }
      } else {
        GetInit(params, k);
      }
    }
  }

  /** A key other than the last pair's is found the same way without the last pair. */
  lemma GetInit<V>(params: seq<(int, V)>, k: int)
    requires params != [] && params[|params| - 1].0 != k
    ensures PyDict.Get(params, k) == PyDict.Get(params[..|params| - 1], k)
  {
    var init := params[..|params| - 1];
    PyDict.FindAppend(init, params[|params| - 1], k);
    assert params == init + [params[|params| - 1]];
  }

  /** The configured channels among those listed. */
  function Listed(ids: seq<int>, channels: seq<int>): set<int>
  {
    set i | 0 <= i < |channels| && channels[i] in ids :: channels[i]
  }

  /** Some listed configured channel has no stored value. */
  predicate Unstored<V>(d: PyDict.Dict<int, V>, ids: seq<int>, channels: seq<int>)
  {
    exists i :: 0 <= i < |channels| && channels[i] in ids && channels[i] !in PyDict.KeySet(d)
  }

  /** Listing one more channel adds it when it is configured. */
  lemma ListedSnoc(ids: seq<int>, init: seq<int>, ch: int)
    ensures Listed(ids, init + [ch]) == Listed(ids, init) + (if ch in ids then {ch} else {})
  {
    var channels := init + [ch];
    forall k | k in Listed(ids, channels) ensures k in Listed(ids, init) + (if ch in ids then {ch} else {}) {
      var i :| 0 <= i < |channels| && channels[i] in ids && channels[i] == k;
      if i < |init| { assert init[i] == k; }
    }
    forall k | k in Listed(ids, init) ensures k in Listed(ids, channels) {
      var i :| 0 <= i < |init| && init[i] in ids && init[i] == k;
      assert channels[i] == k;
    }
    if ch in ids { assert channels[|init|] == ch; }
  }

  /** Listing one more channel adds a missing value exactly when it is configured and unstored. */
  lemma UnstoredSnoc<V>(d: PyDict.Dict<int, V>, ids: seq<int>, init: seq<int>, ch: int)
    ensures Unstored(d, ids, init + [ch]) <==> Unstored(d, ids, init) || (ch in ids && ch !in PyDict.KeySet(d))
  {
    var channels := init + [ch];
    if Unstored(d, ids, init) {
      var i :| 0 <= i < |init| && init[i] in ids && init[i] !in PyDict.KeySet(d);
      assert channels[i] == init[i];
    }
    if ch in ids && ch !in PyDict.KeySet(d) {
      assert channels[|init|] == ch;
    }
    if Unstored(d, ids, channels) {
      var i :| 0 <= i < |channels| && channels[i] in ids && channels[i] !in PyDict.KeySet(d);
      if i < |init| { assert init[i] == channels[i]; }
    }
  }

  /**
   * get_pressure (and get_pressure_unit, get_pressure_range) with a channel list: the
   * stored value of each listed configured channel, in list order; unconfigured channels
   * are skipped, and a configured channel with no stored value raises KeyError.
   */
  function Subset<V>(d: PyDict.Dict<int, V>, ids: seq<int>, channels: seq<int>): (r: Result<PyDict.Dict<int, V>>)
    ensures r.Ok? ==> PyDict.Valid(r.value)
    ensures r.Ok? ==> PyDict.KeySet(r.value) == Listed(ids, channels)
    ensures r.Ok? ==> forall k :: k in PyDict.KeySet(r.value) ==> PyDict.Get(r.value, k) == PyDict.Get(d, k)
    ensures r.Err? <==> Unstored(d, ids, channels)
    ensures r.Err? ==> r.error == KeyError
    decreases |channels|
  {
    if channels == [] then Ok([])
    else
      var init := channels[..|channels| - 1];
      var ch := channels[|channels| - 1];
      assert channels == init + [ch];
      ListedSnoc(ids, init, ch);
      UnstoredSnoc(d, ids, init, ch);
      var prev := Subset(d, ids, init);
      if prev.Err? then prev
      else if ch !in ids then prev
      else
        match PyDict.Get(d, ch)
        case None => Err(KeyError)
        case Some(v) => Ok(PyDict.Set(prev.value, ch, v))
  }

  /** get_pressure: with no channel list (None or empty), the whole pressure dict. */
  function GetPressure(fb: Flowboard, channels: seq<int>): (r: Result<PyDict.Dict<int, real>>)
    ensures channels == [] ==> r == Ok(fb.pressure)
    ensures channels != [] ==> r == Subset(fb.pressure, fb.pressureIds, channels)
  {
    if channels == [] then Ok(fb.pressure) else Subset(fb.pressure, fb.pressureIds, channels)
  }

  /**
   * As written, activation fills entries 0..n-1, so a board whose one channel has ID 1
   * (and no stored pressure yet) raises KeyError when that channel's pressure is read.
   */
  lemma ActivateAsWrittenMissesId(fb: Flowboard)
    requires fb.pressureIds == [1] && fb.pressure == []
    ensures GetPressure(ActivateAsWritten(fb), [1]) == Err(KeyError)
  {
    var a := ActivateAsWritten(fb);
    assert PyDict.Get(a.pressure, 1) == PyDict.Get(fb.pressure, 1);
    assert [1][0] == 1;
    assert Unstored(a.pressure, a.pressureIds, [1]);
  }

  /** After the intended activation, every configured channel in a query reads pressure 0. */
  lemma ActivateThenGet(fb: Flowboard, channels: seq<int>)
    requires channels != []
    ensures var r := GetPressure(Activate(fb), channels);
      r.Ok? && forall k :: k in PyDict.KeySet(r.value) ==> PyDict.Get(r.value, k) == Some(0.0)
  {
    var a := Activate(fb);
    assert a.pressureIds == fb.pressureIds;
    forall i | 0 <= i < |channels| && channels[i] in a.pressureIds ensures channels[i] in PyDict.KeySet(a.pressure) {
      assert PyDict.Get(a.pressure, channels[i]) == Some(0.0);
    }
    var r := Subset(a.pressure, a.pressureIds, channels);
    assert r.Ok?;
    forall k | k in PyDict.KeySet(r.value) ensures PyDict.Get(r.value, k) == Some(0.0) {
      var i :| 0 <= i < |channels| && channels[i] in a.pressureIds && channels[i] == k;
      assert PyDict.Get(r.value, k) == PyDict.Get(a.pressure, k);
    }
  }
}

=== FILE: fluidics_gui.dfy ===
/**
 * The fluidics control window (gui/fluidics/fluidics_gui.py): the pressure and flowrate
 * timetraces, a sliding window of the last 100 samples, and the valve comboboxes that show
 * and set valve positions (position p at combobox index p - 1).
 */
module FluidicsGui {
  import opened Wrappers

  /** The number of samples a timetrace shows. */
  const Window := 100

  /** The time axis and the two traces. */
  datatype Trace = Trace(t: seq<int>, flowrate: seq<real>, pressure: seq<real>)

  /** The empty traces a new measurement starts from. */
  const Empty := Trace([], [], [])

  /** The traces have one sample per time point, at most a window of them, on consecutive times. */
  predicate Valid(tr: Trace)
  {
    |tr.t| == |tr.flowrate| == |tr.pressure| <= Window
    && forall i :: 0 <= i < |tr.t| - 1 ==> tr.t[i + 1] == tr.t[i] + 1
  }

  /**
   * update_pressure_and_flowrate_timetrace: below 100 samples the new one is appended at
   * time `len(t)`; at 100 every trace shifts one to the left, the newest sample goes last
   * and the last time grows by one. Shifting an empty time axis raises IndexError.
   */
  function Update(tr: Trace, pressure: real, flowrate: real): (r: Result<Trace>)
    ensures |tr.flowrate| < Window ==> r == Ok(Trace(tr.t + [|tr.t|], tr.flowrate + [flowrate], tr.pressure + [pressure]))
    ensures |tr.flowrate| >= Window && (tr.t == [] || tr.pressure == []) ==> r == Err(IndexError)
    ensures |tr.flowrate| >= Window && tr.t != [] && tr.pressure != [] ==>
      r == Ok(Trace(tr.t[1..] + [tr.t[|tr.t| - 1] + 1], tr.flowrate[1..] + [flowrate], tr.pressure[1..] + [pressure]))
  {
    if |tr.flowrate| < Window then
      Ok(Trace(tr.t + [|tr.t|], tr.flowrate + [flowrate], tr.pressure + [pressure]))
    else if tr.t == [] || tr.pressure == [] then Err(IndexError)
    else
      Ok(Trace(tr.t[1..] + [tr.t[|tr.t| - 1] + 1], tr.flowrate[1..] + [flowrate], tr.pressure[1..] + [pressure]))
  }

  /**
   * Valid traces stay valid: they grow by one sample up to the window and then keep its
   * length, the newest sample is last, and the time axis advances by one.
   */
  lemma UpdateValid(tr: Trace, pressure: real, flowrate: real)
    requires Valid(tr) && (tr.t != [] ==> tr.t[0] == 0 || |tr.t| == Window)
    ensures var r := Update(tr, pressure, flowrate);
      r.Ok? && Valid(r.value)
      && |r.value.t| == (if |tr.t| < Window then |tr.t| + 1 else Window)
      && r.value.flowrate[|r.value.flowrate| - 1] == flowrate && r.value.pressure[|r.value.pressure| - 1] == pressure
      && (tr.t != [] ==> r.value.t[|r.value.t| - 1] == tr.t[|tr.t| - 1] + 1)
  {
    if tr.t != [] && |tr.t| < Window {
      LastTime(tr);
    }
  }

  /** Starting from 0 on consecutive times, the last time is the number of samples less one. */
  lemma {:induction false} LastTime(tr: Trace)
    requires Valid(tr) && tr.t != [] && tr.t[0] == 0
    ensures tr.t[|tr.t| - 1] == |tr.t| - 1
  {
    var k := 0;
    while k < |tr.t| - 1
      invariant 0 <= k <= |tr.t| - 1 && tr.t[k] == k
    {
      k := k + 1;
    }
  }

  /** The traces after the samples `ps` and `fs` are fed one after the other into empty traces. */
  function Feed(ps: seq<real>, fs: seq<real>): (r: Result<Trace>)
    requires |ps| == |fs|
  {
    if ps == [] then Ok(Empty)
    else
      match Feed(ps[..|ps| - 1], fs[..|fs| - 1])
      case Err(e) => Err(e)
      case Ok(tr) => Update(tr, ps[|ps| - 1], fs[|fs| - 1])
  }

  /** The traces show exactly the samples from `start` on, at times `start`, `start` + 1, ... */
  predicate Shows(tr: Trace, ps: seq<real>, fs: seq<real>, start: nat)
    requires |ps| == |fs| && start <= |ps|
  {
    Valid(tr) && tr.pressure == ps[start..] && tr.flowrate == fs[start..]
    && |tr.t| == |ps| - start && (|ps| > start ==> tr.t[0] == start)
  }

  /** The first sample of the window: 0 until the window is full, then n - 100. */
  function WindowStart(n: nat): (s: nat)
    ensures s <= n && n - s == (if n <= Window then n else Window)
  {
    if n <= Window then 0 else n - Window
  }

  /** One more sample moves a window showing the last samples on by one. */
  lemma FeedStep(tr: Trace, ps: seq<real>, fs: seq<real>)
    requires |ps| == |fs| > 0
    requires Shows(tr, ps[..|ps| - 1], fs[..|fs| - 1], WindowStart(|ps| - 1))
    ensures Update(tr, ps[|ps| - 1], fs[|fs| - 1]).Ok?
    ensures Shows(Update(tr, ps[|ps| - 1], fs[|fs| - 1]).value, ps, fs, WindowStart(|ps|))
  {
    var n := |ps| - 1;
    UpdateValid(tr, ps[n], fs[n]);
    WindowSlice(ps);
    WindowSlice(fs);
    if n >= Window {
      var r := Update(tr, ps[n], fs[n]).value;
      assert r.t[0] == tr.t[1] == tr.t[0] + 1;
    }
  }

  /** The window of the samples is the earlier window, less its oldest sample once full, plus the newest. */
  lemma WindowSlice(xs: seq<real>)
    requires xs != []
    ensures var n := |xs| - 1;
      var earlier := xs[..n][WindowStart(n)..];
      xs[WindowStart(n + 1)..] == (if n < Window then earlier else earlier[1..]) + [xs[n]]
  {
    var n := |xs| - 1;
    assert xs == xs[..n] + [xs[n]];
  }

  /**
   * After n samples the traces show exactly the last min(n, 100) of them, in order, at
   * the times max(0, n - 100) to n - 1.
   */
  lemma {:induction false} FeedKeepsLastWindow(ps: seq<real>, fs: seq<real>)
    requires |ps| == |fs|
    ensures Feed(ps, fs).Ok? && Shows(Feed(ps, fs).value, ps, fs, WindowStart(|ps|))
  {
    var n := |ps|;
    if n > 0 {
      FeedKeepsLastWindow(ps[..n - 1], fs[..n - 1]);
      FeedStep(Feed(ps[..n - 1], fs[..n - 1]).value, ps, fs);
    }
  }

  /** `xs[i]` with Python's negative indices; None where Python raises IndexError. */
  function PyIndex(len: nat, i: int): (r: Option<nat>)
    ensures r.Some? ==> r.value < len
    ensures r.Some? <==> -(len as int) <= i < len
  {
    if 0 <= i < len then Some(i)
    else if -(len as int) <= i < 0 then Some((len as int + i) as nat)
    else None
  }

  /**
   * change_valve_position: the valve shown in combobox `valveNum` is sent to the position
   * after the combobox's index (indices count from 0, positions from 1).
   */
  function ChangeValvePosition(boxes: seq<int>, valveIds: seq<string>, valveNum: int): (r: Result<(string, int)>)
    ensures 0 <= valveNum < |boxes| && valveNum < |valveIds| ==> r == Ok((valveIds[valveNum], boxes[valveNum] + 1))
    ensures PyIndex(|boxes|, valveNum).None? || PyIndex(|valveIds|, valveNum).None? ==> r == Err(IndexError)
  {
    match PyIndex(|boxes|, valveNum)
    case None => Err(IndexError)
    case Some(b) =>
      match PyIndex(|valveIds|, valveNum)
      case None => Err(IndexError)
      case Some(v) => Ok((valveIds[v], boxes[b] + 1))
  }

  /** The combobox of each daisy-chain letter the window knows ('a' to 'e'). */
  function BoxOf(valveId: string): (r: Option<nat>)
    ensures r.Some? <==> valveId in ["a", "b", "c", "d", "e"]
    ensures r.Some? ==> r.value < 5 && valveId == [('a' as int + r.value) as char]
  {
    if valveId == "a" then Some(0)
    else if valveId == "b" then Some(1)
    else if valveId == "c" then Some(2)
    else if valveId == "d" then Some(3)
    else if valveId == "e" then Some(4)
    else None
  }

  /**
   * update_combobox_index: the combobox of valve 'a' to 'e' shows position p at index
   * p - 1; any other valve ID changes nothing. Fewer comboboxes raise IndexError.
   */
  function UpdateComboboxIndex(boxes: seq<int>, valveId: string, valvePos: int): (r: Result<seq<int>>)
    ensures BoxOf(valveId).None? ==> r == Ok(boxes)
    ensures BoxOf(valveId).Some? && BoxOf(valveId).value < |boxes| ==>
      r == Ok(boxes[BoxOf(valveId).value := valvePos - 1])
    ensures BoxOf(valveId).Some? && BoxOf(valveId).value >= |boxes| ==> r == Err(IndexError)
  {
    match BoxOf(valveId)
    case None => Ok(boxes)
    case Some(i) => if i < |boxes| then Ok(boxes[i := valvePos - 1]) else Err(IndexError)
  }

  /**
   * When the valve IDs are the letters 'a', 'b', ... in combobox order, showing a valve's
   * position and then reading its combobox sends that same position back.
   */
  lemma ShowThenChange(boxes: seq<int>, valveIds: seq<string>, k: nat, valvePos: int)
    requires k < 5 && k < |boxes| && k < |valveIds| && valveIds[k] == [('a' as int + k) as char]
    ensures var shown := UpdateComboboxIndex(boxes, valveIds[k], valvePos);
      shown.Ok? && ChangeValvePosition(shown.value, valveIds, k) == Ok((valveIds[k], valvePos))
  {
    var id := valveIds[k];
    assert id in ["a", "b", "c", "d", "e"] by {
      if k == 0 { assert id == "a"; }
      else if k == 1 { assert id == "b"; }
      else if k == 2 { assert id == "c"; }
      else if k == 3 { assert id == "d"; }
      else { assert id == "e"; }
    }
    var i := BoxOf(id).value;
    assert [('a' as int + i) as char] == [('a' as int + k) as char];
    assert ('a' as int + i) as char == ('a' as int + k) as char;
  }
}

=== FILE: hamamatsu.dfy ===
/**
 * The Hamamatsu camera driver (hardware/camera/hamamatsu/hamamatsu.py): the sensor
 * subarray is set from a region whose ends are truncated to multiples of 4, and the gain
 * cannot be set.
 */
module Hamamatsu {
  import Numeric

  /** `int(x / 4) * 4`: x truncated toward zero to a multiple of 4. */
  function Round4(x: int): (r: int)
    ensures r % 4 == 0
    ensures x >= 0 ==> 0 <= r <= x < r + 4
    ensures x < 0 ==> r - 4 < x <= r <= 0
  {
    Numeric.TruncDiv(x, 4) * 4
  }

  /** A multiple of 4 is kept as it is. */
  lemma Round4Fixed(x: int)
    requires x % 4 == 0
    ensures Round4(x) == x
  {
  }

  /** Truncating twice is truncating once. */
  lemma Round4Idempotent(x: int)
    ensures Round4(Round4(x)) == Round4(x)
  {
    Round4Fixed(Round4(x));
  }

  /** The property writes of set_image, in order: position then size of the subarray. */
  datatype Subarray = Subarray(hpos: int, vpos: int, hsize: int, vsize: int)

  /**
   * set_image: the subarray starts at the truncated starts and spans up to the truncated
   * ends; the code is 0, or -1 when the camera raised on any of the calls (`accepted` is
   * false). The binning is not used.
   */
  function SetImage(hbin: int, vbin: int, hstart: int, hend: int, vstart: int, vend: int, accepted: bool)
    : (r: (Subarray, int))
    ensures r.1 == (if accepted then 0 else -1)
    ensures r.0.hpos % 4 == 0 && r.0.vpos % 4 == 0 && r.0.hsize % 4 == 0 && r.0.vsize % 4 == 0
    ensures r.0.hpos == Round4(hstart) && r.0.hpos + r.0.hsize == Round4(hend)
    ensures r.0.vpos == Round4(vstart) && r.0.vpos + r.0.vsize == Round4(vend)
  {
    var hs, vs, ve, he := Round4(hstart), Round4(vstart), Round4(vend), Round4(hend);
    (Subarray(hs, vs, he - hs, ve - vs), if accepted then 0 else -1)
  }

  /**
   * For a region on the sensor (non-negative coordinates, start before end), the
   * subarray starts at or before the requested start, ends at or before the requested end,
   * and loses less than 4 pixels at each end.
   */
  lemma SubarrayWithinRegion(hstart: int, hend: int, vstart: int, vend: int)
    requires 0 <= hstart <= hend && 0 <= vstart <= vend
    ensures var s := SetImage(1, 1, hstart, hend, vstart, vend, true).0;
      hstart - 4 < s.hpos <= hstart && hend - 4 < s.hpos + s.hsize <= hend && s.hsize >= 0
      && vstart - 4 < s.vpos <= vstart && vend - 4 < s.vpos + s.vsize <= vend && s.vsize >= 0
  {
    Numeric.TruncMonotone(hstart as real / 4.0, hend as real / 4.0);
    Numeric.TruncMonotone(vstart as real / 4.0, vend as real / 4.0);
  }

  /** A region already aligned to multiples of 4 is set exactly. */
  lemma AlignedRegionExact(hstart: int, hend: int, vstart: int, vend: int)
    requires hstart % 4 == 0 && hend % 4 == 0 && vstart % 4 == 0 && vend % 4 == 0
    ensures SetImage(1, 1, hstart, hend, vstart, vend, true) == (Subarray(hstart, vstart, hend - hstart, vend - vstart), 0)
  {
    Round4Fixed(hstart);
    Round4Fixed(hend);
    Round4Fixed(vstart);
    Round4Fixed(vend);
  }

  /** set_gain: the gain of this camera cannot be set; always False. */
  function SetGain(gain: int): (ok: bool)
    ensures !ok
  {
    false
  }
}

=== FILE: hamilton_valve.dfy ===
/**
 * The Hamilton MVP valve positioner daisy chain (hardware/valve/hamilton_valve.py): the
 * letter addressing of the valves, the range check before a move, the choice of the
 * rotation direction, and the move command sent over the serial line.
 */
module HamiltonValve {
  import opened Wrappers
  import PyDict
  import Text
  import opened ValvePositioner

  /** `chr(n + 97)`: valve n of the chain (from 0) answers to 'a', 'b', 'c', ... */
  function Letter(n: nat): (c: char)
    requires n + 97 < 0xD800
    ensures c as int == n + 97
    ensures n < 26 ==> 'a' <= c <= 'z'
  {
    (n + 97) as char
  }

  lemma LetterInjective(m: nat, n: nat)
    requires m + 97 < 0xD800 && n + 97 < 0xD800 && Letter(m) == Letter(n)
    ensures m == n
  {
  }

  /** The commands written at activation: "1a\r", then "<letter>LXR\r" for each valve. */
  function InitCommands(numValves: nat): (cmds: seq<string>)
    requires numValves + 97 <= 0xD800
    ensures |cmds| == numValves + 1 && cmds[0] == "1a\r"
    ensures forall n :: 0 <= n < numValves ==> cmds[n + 1] == [Letter(n)] + "LXR\r"
  {
    ["1a\r"] + seq(numValves, n requires 0 <= n < numValves => [Letter(n)] + "LXR\r")
  }

  /**
   * get_status: valve n's status is read with "<letter>F\r" and stored under its letter;
   * `answers` are the valves' answers in order. Any other key keeps its status.
   */
  function GetStatus(state: PyDict.Dict<char, string>, answers: seq<string>): (r: PyDict.Dict<char, string>)
    requires |answers| + 97 <= 0xD800
    ensures forall n :: 0 <= n < |answers| ==> PyDict.Get(r, Letter(n)) == Some(answers[n])
    ensures forall k :: (forall n :: 0 <= n < |answers| ==> k != Letter(n)) ==> PyDict.Get(r, k) == PyDict.Get(state, k)
    ensures PyDict.Valid(state) ==> PyDict.Valid(r)
  {
    var ps := seq(|answers|, n requires 0 <= n < |answers| => (Letter(n), answers[n]));
    forall n | 0 <= n < |answers| ensures PyDict.Get(PyDict.SetAll(state, ps), Letter(n)) == Some(answers[n]) {
      forall j | n < j < |ps| ensures ps[j].0 != ps[n].0 {
        if ps[j].0 == ps[n].0 { LetterInjective(j, n); }
      }
      PyDict.SetAllLast(state, ps, n);
    }
    forall k | forall n :: 0 <= n < |answers| ==> k != Letter(n)
      ensures PyDict.Get(PyDict.SetAll(state, ps), k) == PyDict.Get(state, k)
    {
      assert k !in PyDict.KeySet(ps);
      PyDict.SetAllOther(state, ps, k);
    }
    PyDict.SetAll(state, ps)
  }

  /**
   * The direction digit: '1' when the start lies above the target by less than half the
   * outputs, or below it by more than half; '0' otherwise.
   */
  function Direction(start: int, target: int, maxPos: int): (d: char)
    ensures d == '0' || d == '1'
  {
    var dist := if target - start < 0 then start - target else target - start;
    if (start > target && (dist as real) < maxPos as real / 2.0)
       || (start < target && (dist as real) > maxPos as real / 2.0)
    then '1' else '0'
  }

  /** Steps needed to turn from `start` down to `target` on a wheel of `maxPos` outputs. */
  function StepsDown(start: int, target: int, maxPos: int): int
    requires maxPos > 0
  {
    (start - target) % maxPos
  }

  /** Steps needed to turn from `start` up to `target` on a wheel of `maxPos` outputs. */
  function StepsUp(start: int, target: int, maxPos: int): int
    requires maxPos > 0
  {
    (target - start) % maxPos
  }

  /**
   * For two outputs of the wheel, the direction digit is '1' exactly when turning down
   * is strictly shorter than turning up: the valve takes the shorter way round, and turns
   * up when both ways are equally long.
   */
  lemma DirectionIsShorterWay(start: int, target: int, maxPos: int)
    requires 1 <= start <= maxPos && 1 <= target <= maxPos
    ensures Direction(start, target, maxPos) == '1' <==> StepsDown(start, target, maxPos) < StepsUp(start, target, maxPos)
  {
    var dist := if target - start < 0 then start - target else target - start;
    if start > target {
      ModOfBelow(start - target, maxPos);
      ModOfNegative(target - start, maxPos);
    } else if start < target {
      ModOfBelow(target - start, maxPos);
      ModOfNegative(start - target, maxPos);
    }
  }

  lemma ModOfBelow(a: int, m: int)
    requires 0 <= a < m
    ensures a % m == a
  {
  }

  lemma ModOfNegative(a: int, m: int)
    requires -m < a < 0
    ensures a % m == a + m
  {
  }

  /** The move command: address, "LP", the direction digit, the target, "R\r". */
  function MoveCommand(address: string, direction: char, target: int): (cmd: string)
    ensures |cmd| == |address| + 3 + |Text.IntToString(target)| + 2
    ensures cmd[..|address|] == address
    ensures cmd[|address|..|address| + 3] == "LP" + [direction]
    ensures cmd[|cmd| - 2..] == "R\r"
  {
    address + "LP" + [direction] + Text.IntToString(target) + "R\r"
  }

  /**
   * set_valve_position: an address not in the daisy chain writes nothing; otherwise the
   * position is read (`startPos`, the valve's answer) and the number of outputs looked up;
   * a target above it writes nothing, any other target writes the move command with the
   * direction digit of the shorter way.
   */
  function SetValvePosition(c: ValveConfig, address: string, target: int, startPos: int)
    : (r: Result<Option<string>>)
    ensures address !in c.ids ==> r == Ok(None)
    ensures address in c.ids && MaxOutputs(c, address).Err? ==> r == Err(MaxOutputs(c, address).error)
    ensures address in c.ids && MaxOutputs(c, address).Ok? ==>
      var maxPos := MaxOutputs(c, address).value;
      (target > maxPos ==> r == Ok(None))
      && (target <= maxPos ==> r == Ok(Some(MoveCommand(address, Direction(startPos, target, maxPos), target))))
  {
    if address !in c.ids then Ok(None)
    else
      match MaxOutputs(c, address)
      case Err(e) => Err(e)
      case Ok(maxPos) =>
        if target > maxPos then Ok(None)
        else Ok(Some(MoveCommand(address, Direction(startPos, target, maxPos), target)))
  }

  /**
   * With distinct IDs, a move of valve i to an output in range is always sent, and it
   * turns the shorter way.
   */
  lemma SetValvePositionInRange(c: ValveConfig, i: nat, target: int, startPos: int)
    requires DistinctIds(c) && i < Count(c)
    requires 1 <= startPos <= c.outputs[i] && 1 <= target <= c.outputs[i]
    ensures var r := SetValvePosition(c, c.ids[i], target, startPos);
      r.Ok? && r.value.Some?
      && (r.value.value[|c.ids[i]| + 2] == '1'
          <==> StepsDown(startPos, target, c.outputs[i]) < StepsUp(startPos, target, c.outputs[i]))
  {
    MaxOutputsOf(c, i);
    DirectionIsShorterWay(startPos, target, c.outputs[i]);
    var cmd := MoveCommand(c.ids[i], Direction(startPos, target, c.outputs[i]), target);
    assert cmd[|c.ids[i]|..|c.ids[i]| + 3][2] == cmd[|c.ids[i]| + 2];
  }
}

=== FILE: him_task.dfy ===
/**
 * The Hi-M experiment task on the RAMM setup (logic/tasks/HiM_task_RAMM.py): the imaging
 * settings derived from the user's imaging sequence, the probe list and buffer lookup read
 * from the injections file, the incubation wait, the z-stack start position, the file
 * naming, and the cycle over the probes.
 */
module HimTask {
  import opened Wrappers
  import PyDict
  import Text

  // ---- imaging settings ----

  /** The FPGA bitfile takes exactly five wavelength and five intensity slots. */
  const Slots := 5

  /** The lightsource table `{'BF': 0, '405 nm': 1, '488 nm': 2, '561 nm': 3, '640 nm': 4}`. */
  function LightsourceCode(name: string): (c: Option<nat>)
    ensures c.Some? ==> c.value < Slots
  {
    if name == "BF" then Some(0)
    else if name == "405 nm" then Some(1)
    else if name == "488 nm" then Some(2)
    else if name == "561 nm" then Some(3)
    else if name == "640 nm" then Some(4)
    else None
  }

  /** The lightsource a code of the table stands for. */
  function LightsourceName(code: nat): Option<string>
  {
    if code == 0 then Some("BF")
    else if code == 1 then Some("405 nm")
    else if code == 2 then Some("488 nm")
    else if code == 3 then Some("561 nm")
    else if code == 4 then Some("640 nm")
    else None
  }

  /** The table is one-to-one: every code names its lightsource and every name its code. */
  lemma LightsourceTable(name: string, code: nat)
    ensures LightsourceCode(name) == Some(code) <==> LightsourceName(code) == Some(name)
  {
  }

  /** A list filled with `zero` on the right up to the five slots. */
  function PadToSlots<T>(xs: seq<T>, zero: T): (r: seq<T>)
    ensures |r| == if |xs| >= Slots then |xs| else Slots
    ensures r[..|xs|] == xs
    ensures forall i :: |xs| <= i < |r| ==> r[i] == zero
  {
    if |xs| >= Slots then xs else xs + seq(Slots - |xs|, _ => zero)
  }

  /** The codes of the lightsources, in order; KeyError at the first unknown name. */
  function Codes(sequence: seq<(string, int)>): (r: Result<seq<nat>>)
    ensures r.Ok? <==> forall i :: 0 <= i < |sequence| ==> LightsourceCode(sequence[i].0).Some?
    ensures r.Err? ==> r.error == KeyError
    ensures r.Ok? ==>
      |r.value| == |sequence|
      && forall i :: 0 <= i < |sequence| ==> Some(r.value[i]) == LightsourceCode(sequence[i].0)
  {
    if sequence == [] then Ok([])
    else
      match LightsourceCode(sequence[0].0)
      case None => Err(KeyError)
      case Some(c) =>
        var rest := Codes(sequence[1..]);
        if rest.Err? then rest
        else
          assert forall i :: 1 <= i < |sequence| ==> sequence[i] == sequence[1..][i - 1];
          Ok([c] + rest.value)
  }

  /**
   * The wavelength slots: the code of each lightsource of the imaging sequence, then zeros
   * up to five slots; an unknown lightsource raises KeyError.
   */
  function Wavelengths(sequence: seq<(string, int)>): (r: Result<seq<nat>>)
    ensures r.Ok? <==> forall i :: 0 <= i < |sequence| ==> LightsourceCode(sequence[i].0).Some?
    ensures r.Ok? ==>
      |r.value| == (if |sequence| >= Slots then |sequence| else Slots)
      && (forall i :: 0 <= i < |sequence| ==> Some(r.value[i]) == LightsourceCode(sequence[i].0))
      && (forall i :: |sequence| <= i < |r.value| ==> r.value[i] == 0)
  {
    var codes := Codes(sequence);
    if codes.Err? then Err(codes.error)
    else
      var r := PadToSlots(codes.value, 0);
      assert forall i :: 0 <= i < |sequence| ==> r[i] == r[..|sequence|][i];
      Ok(r)
  }

  /** The intensity slots: the intensity of each step of the imaging sequence, then zeros. */
  function Intensities(sequence: seq<(string, int)>): (r: seq<int>)
    ensures |r| == if |sequence| >= Slots then |sequence| else Slots
    ensures forall i :: 0 <= i < |sequence| ==> r[i] == sequence[i].1
    ensures forall i :: |sequence| <= i < |r| ==> r[i] == 0
  {
    var xs := seq(|sequence|, i requires 0 <= i < |sequence| => sequence[i].1);
    var r := PadToSlots(xs, 0);
    assert forall i :: 0 <= i < |sequence| ==> r[i] == r[..|sequence|][i];
    r
  }

  /**
   * The first `num_laserlines` slots give the imaging sequence back: each wavelength slot
   * names its lightsource and each intensity slot holds its intensity.
   */
  lemma SlotsReadBack(sequence: seq<(string, int)>, i: nat)
    requires Wavelengths(sequence).Ok? && i < |sequence|
    ensures LightsourceName(Wavelengths(sequence).value[i]) == Some(sequence[i].0)
    ensures Intensities(sequence)[i] == sequence[i].1
  {
    LightsourceTable(sequence[i].0, Wavelengths(sequence).value[i]);
  }

  // ---- injections ----

  /** The buffer dict inverted, to find a valve by the product it holds. */
  function BufferByProduct(buffers: PyDict.Dict<int, string>): (r: PyDict.Dict<string, int>)
    ensures PyDict.Valid(r)
    ensures PyDict.Distinct(PyDict.Values(buffers)) ==>
      forall i :: 0 <= i < |buffers| ==> PyDict.Get(r, buffers[i].1) == Some(buffers[i].0)
    ensures forall p :: (forall i :: 0 <= i < |buffers| ==> buffers[i].1 != p) ==> PyDict.Get(r, p) == None
  {
    InvertLookup(buffers);
    PyDict.Invert(buffers)
  }

  lemma InvertLookup(buffers: PyDict.Dict<int, string>)
    ensures var r := PyDict.Invert(buffers);
      (PyDict.Distinct(PyDict.Values(buffers)) ==>
        forall i :: 0 <= i < |buffers| ==> PyDict.Get(r, buffers[i].1) == Some(buffers[i].0))
      && forall p :: (forall i :: 0 <= i < |buffers| ==> buffers[i].1 != p) ==> PyDict.Get(r, p) == None
  {
    var r := PyDict.Invert(buffers);
    if PyDict.Distinct(PyDict.Values(buffers)) {
      forall i | 0 <= i < |buffers| ensures PyDict.Get(r, buffers[i].1) == Some(buffers[i].0) {
        PyDict.InvertGet(buffers, i);
      }
    }
    forall p | forall i :: 0 <= i < |buffers| ==> buffers[i].1 != p
      ensures PyDict.Get(r, p) == None
    {
      PyDict.InvertMissing(buffers, p);
    }
  }

  /** The probes in strictly ascending order of their position. */
  predicate Ascending(s: seq<(int, string)>)
  {
    forall i, j :: 0 <= i < j < |s| ==> s[i].0 < s[j].0
  }

  /** A probe put into its place in an ascending list of probes at other positions. */
  function InsertProbe(p: (int, string), s: seq<(int, string)>): (r: seq<(int, string)>)
    requires Ascending(s) && forall i :: 0 <= i < |s| ==> s[i].0 != p.0
    ensures Ascending(r)
    ensures multiset(r) == multiset(s) + multiset{p}
  {
    if s == [] then [p]
    else if p.0 < s[0].0 then [p] + s
    else
      var rest := InsertProbe(p, s[1..]);
      InsertAbove(p, s, rest);
      assert s == [s[0]] + s[1..];
      [s[0]] + rest
  }

  /** The first probe of an ascending list stays below a rest it is put in front of. */
  lemma InsertAbove(p: (int, string), s: seq<(int, string)>, rest: seq<(int, string)>)
    requires s != [] && Ascending(s) && s[0].0 < p.0
    requires Ascending(rest) && multiset(rest) == multiset(s[1..]) + multiset{p}
    ensures Ascending([s[0]] + rest)
  {
    forall q | q in rest ensures s[0].0 < q.0 {
      assert q in multiset(rest);
      if q != p {
        assert q in multiset(s[1..]);
        var j :| 0 <= j < |s[1..]| && s[1..][j] == q;
        assert s[j + 1] == q;
      }
    }
    var r := [s[0]] + rest;
    forall i, j | 0 <= i < j < |r| ensures r[i].0 < r[j].0 {
      if i == 0 { assert r[j] == rest[j - 1] && r[j] in rest; }
      else { assert r[i] == rest[i - 1] && r[j] == rest[j - 1]; }
    }
  }

  /**
   * `sorted(probe_dict.items())`: the probes, each once, by ascending position (the
   * positions are the keys of a dict, so no two tuples compare on their names).
   */
  function SortedProbes(probes: PyDict.Dict<int, string>): (r: seq<(int, string)>)
    requires PyDict.Valid(probes)
    ensures Ascending(r)
    ensures multiset(r) == multiset(probes)
  {
    if probes == [] then []
    else
      var n := |probes| - 1;
      var init := probes[..n];
      assert PyDict.Keys(init) == PyDict.Keys(probes)[..n];
      var sorted := SortedProbes(init);
      forall i | 0 <= i < |sorted| ensures sorted[i].0 != probes[n].0 {
        assert sorted[i] in multiset(init);
        var j :| 0 <= j < n && init[j] == sorted[i];
        assert PyDict.Keys(probes)[j] != PyDict.Keys(probes)[n];
      }
      assert probes == init + [probes[n]];
      InsertProbe(probes[n], sorted)
  }

  /** The probe list holds exactly the probes of the probe dict, each position once. */
  lemma SortedProbesPositions(probes: PyDict.Dict<int, string>)
    requires PyDict.Valid(probes)
    ensures var r := SortedProbes(probes);
      |r| == |probes| && PyDict.Valid(r) && PyDict.KeySet(r) == PyDict.KeySet(probes)
      && forall k :: PyDict.Get(r, k) == PyDict.Get(probes, k)
  {
    var r := SortedProbes(probes);
    assert |r| == |multiset(r)| == |multiset(probes)| == |probes|;
    SameMembers(r, probes);
    AscendingValid(r);
    forall k ensures PyDict.Get(r, k) == PyDict.Get(probes, k) {
      SameGet(r, probes, k);
    }
    assert PyDict.KeySet(r) == PyDict.KeySet(probes) by {
      forall k ensures k in PyDict.KeySet(r) <==> k in PyDict.KeySet(probes) {
        SameGet(r, probes, k);
      }
    }
  }

  lemma SameMembers(a: seq<(int, string)>, b: seq<(int, string)>)
    requires multiset(a) == multiset(b)
    ensures forall q :: q in a <==> q in b
  {
    forall q ensures q in a <==> q in b {
      assert q in a <==> q in multiset(a);
      assert q in b <==> q in multiset(b);
    }
  }

  lemma AscendingValid(s: seq<(int, string)>)
    requires Ascending(s)
    ensures PyDict.Valid(s)
  {
    forall i, j | 0 <= i < j < |s| ensures PyDict.Keys(s)[i] != PyDict.Keys(s)[j] {
      assert s[i].0 < s[j].0;
    }
  }

  /** Two valid dicts with the same pairs look every key up alike. */
  lemma SameGet(a: PyDict.Dict<int, string>, b: PyDict.Dict<int, string>, k: int)
    requires PyDict.Valid(a) && PyDict.Valid(b) && forall q :: q in a <==> q in b
    ensures PyDict.Get(a, k) == PyDict.Get(b, k)
  {
    var x, y := PyDict.Get(a, k), PyDict.Get(b, k);
    if x.Some? {
      assert (k, x.value) in b;
      var i :| 0 <= i < |b| && b[i] == (k, x.value);
      assert k in PyDict.KeySet(b);
    }
    if y.Some? {
      assert (k, y.value) in a;
      var i :| 0 <= i < |a| && a[i] == (k, y.value);
      assert k in PyDict.KeySet(a);
    }
    if x.Some? && y.Some? {
      ValidValue(b, k, x.value, y.value);
    }
  }

  /** A valid dict holds one value per key. */
  lemma ValidValue(d: PyDict.Dict<int, string>, k: int, v: string, w: string)
    requires PyDict.Valid(d) && (k, v) in d && (k, w) in d
    ensures v == w
  {
    var i :| 0 <= i < |d| && d[i] == (k, v);
    var j :| 0 <= j < |d| && d[j] == (k, w);
    assert PyDict.Keys(d)[i] == PyDict.Keys(d)[j];
  }

  // ---- incubation ----

  function Sum(xs: seq<int>): int
  {
    if xs == [] then 0 else Sum(xs[..|xs| - 1]) + xs[|xs| - 1]
  }

  /** The incubation waits in intervals of 30 s and then the remainder. */
  const Interval := 30

  /**
   * The sleeps of an incubation step of `t` seconds: `t // 30` intervals of 30 s, each
   * skipped from the interval `abortAt` on (when the run was aborted), then `t % 30` s.
   */
  method Incubate(t: int, abortAt: nat) returns (sleeps: seq<int>)
    ensures var intervals := if t / Interval <= 0 then 0 else if abortAt < t / Interval then abortAt else t / Interval;
      |sleeps| == intervals + 1
    ensures forall i :: 0 <= i < |sleeps| - 1 ==> sleeps[i] == Interval
    ensures 0 <= sleeps[|sleeps| - 1] < Interval
    ensures t >= 0 && abortAt >= t / Interval ==> Sum(sleeps) == t
    ensures t >= 0 ==> Sum(sleeps) <= t
  {
    var numSteps := t / Interval;
    var remainder := t % Interval;
    sleeps := [];
    var i := 0;
    while i < numSteps
      invariant numSteps <= 0 ==> i == 0
      invariant numSteps > 0 ==> 0 <= i <= numSteps
      invariant |sleeps| == if i < abortAt then i else abortAt
      invariant forall j :: 0 <= j < |sleeps| ==> sleeps[j] == Interval
      invariant Sum(sleeps) == Interval * |sleeps|
    {
      if i < abortAt {
        sleeps := sleeps + [Interval];
      }
      i := i + 1;
    }
    assert Sum(sleeps + [remainder]) == Sum(sleeps) + remainder by {
      assert (sleeps + [remainder])[..|sleeps|] == sleeps;
    }
    sleeps := sleeps + [remainder];
  }

  // ---- z stack ----

  /**
   * calculate_start_position: the scan starts at the current position, or, centered, n/2
   * steps below it for an even number n of planes and (n-1)/2 steps below for an odd one.
   */
  function StartPosition(centered: bool, numPlanes: int, zStep: real, current: real): (start: real)
    ensures !centered ==> start == current
    ensures centered ==> start == current - (numPlanes / 2) as real * zStep
  {
    if centered then
      if numPlanes % 2 == 0 then current - numPlanes as real / 2.0 * zStep
      else
        assert numPlanes == 2 * (numPlanes / 2) + 1;
        current - (numPlanes - 1) as real / 2.0 * zStep
    else current
  }

  /**
   * In a centered stack of n >= 1 planes at start + k * step (k from 0 to n-1) the current
   * position is one of the planes, with as many planes above it as below for odd n and one
   * more below than above for even n.
   */
  lemma FocalPlaneCentered(numPlanes: int, zStep: real, current: real)
    requires numPlanes >= 1
    ensures var k := numPlanes / 2;
      var start := StartPosition(true, numPlanes, zStep, current);
      0 <= k < numPlanes && start + k as real * zStep == current
      && k - (numPlanes - 1 - k) == (if numPlanes % 2 == 0 then 1 else 0)
  {
  }

  // ---- file names ----

  /** The folder prefix: the number of dated folders already there plus one, zero-padded to 3 digits. */
  function Prefix(numberDirs: nat): (p: string)
    ensures |p| >= 3 && Text.AllDigits(p) && Text.ParseDigits(p) == numberDirs + 1
  {
    Text.ZFillNat(numberDirs + 1, 3);
    Text.ZFill(Text.NatToString(numberDirs + 1), 3)
  }

  /** Each new folder gets a prefix of its own. */
  lemma PrefixInjective(m: nat, n: nat)
    requires Prefix(m) == Prefix(n)
    ensures m == n
  {
  }

  /** create_directory: the folder `<prefix>_HiM_<sample name>`. */
  function FolderName(prefix: string, sampleName: string): (s: string)
    ensures |s| == |prefix| + 5 + |sampleName|
    ensures s[..|prefix|] == prefix && s[|prefix|..] == "_HiM_" + sampleName
  {
    prefix + "_HiM_" + sampleName
  }

  /** get_complete_path: the file `scan_<prefix>_<probe>_<roi>.<format>`. */
  function FileName(prefix: string, probe: string, roi: string, fileFormat: string): (s: string)
    ensures s == Text.Join(["scan", prefix, probe, roi + "." + fileFormat], "_")
  {
    Text.JoinFront(["scan", prefix, probe, roi + "." + fileFormat], "_");
    Text.JoinFront(["scan", prefix, probe, roi + "." + fileFormat][1..], "_");
    Text.JoinFront(["scan", prefix, probe, roi + "." + fileFormat][1..][1..], "_");
    "scan_" + prefix + "_" + probe + "_" + roi + "." + fileFormat
  }

  /**
   * When probe, roi and format hold no underscore, the file name splits on '_' into its
   * fields, and the prefix field reads back as the folder count plus one.
   */
  lemma FileNameFields(numberDirs: nat, probe: string, roi: string, fileFormat: string)
    requires '_' !in probe && '_' !in roi && '_' !in fileFormat
    ensures var fields := Text.SplitOn(FileName(Prefix(numberDirs), probe, roi, fileFormat), '_');
      |fields| == 4 && fields[0] == "scan" && fields[2] == probe && fields[3] == roi + "." + fileFormat
      && Text.AllDigits(fields[1]) && Text.ParseDigits(fields[1]) == numberDirs + 1
  {
    var prefix := Prefix(numberDirs);
    assert forall i :: 0 <= i < |prefix| ==> prefix[i] != '_';
    var parts := ["scan", prefix, probe, roi + "." + fileFormat];
    assert '_' !in roi + "." + fileFormat;
    Text.SplitOnJoin(parts, '_');
  }

  // ---- the cycle over the probes ----

  /**
   * runTaskStep: the probe counter goes up by one and the needle moves to that probe's
   * position; the run goes on while the counter is below the number of probes. A counter
   * past the list raises IndexError.
   */
  function RunTaskStep(counter: nat, probes: seq<(int, string)>): (r: Result<(nat, int, bool)>)
    ensures r.Ok? <==> counter < |probes|
    ensures r.Err? ==> r.error == IndexError
    ensures r.Ok? ==> r.value == (counter + 1, probes[counter].0, counter + 1 < |probes|)
  {
    var c := counter + 1;
    if c - 1 >= |probes| then Err(IndexError)
    else Ok((c, probes[c - 1].0, c < |probes|))
  }

  /**
   * The run repeats its steps until one returns False: without a first stage position no
   * probe is visited; otherwise every probe is visited once, in list order, and an empty
   * probe list raises IndexError at the first step.
   */
  method RunTask(originSet: bool, probes: seq<(int, string)>) returns (r: Result<seq<int>>)
    ensures !originSet ==> r == Ok([])
    ensures originSet && probes == [] ==> r == Err(IndexError)
    ensures originSet && probes != [] ==> r == Ok(PyDict.Keys(probes))
  {
    if !originSet {
      return Ok([]);
    }
    var counter := 0;
    var visited := [];
    var more := true;
    while more
      invariant counter <= |probes|
      invariant visited == PyDict.Keys(probes)[..counter]
      invariant more ==> counter < |probes| || probes == []
      invariant !more ==> counter == |probes|
      invariant probes == [] ==> more
      decreases |probes| - counter, more
    {
      var step := RunTaskStep(counter, probes);
      if step.Err? {
        return Err(step.error);
      }
      var (c, position, goOn) := step.value;
      visited := visited + [position];
      counter, more := c, goOn;
    }
    assert PyDict.Keys(probes)[..counter] == PyDict.Keys(probes);
    return Ok(visited);
  }

  /** Running over the sorted probe list visits every position of the probe dict once, in ascending order. */
  lemma VisitsAscending(probes: PyDict.Dict<int, string>)
    requires PyDict.Valid(probes)
    ensures var order := PyDict.Keys(SortedProbes(probes));
      (forall i, j :: 0 <= i < j < |order| ==> order[i] < order[j])
      && (forall k :: k in order <==> k in PyDict.KeySet(probes))
  {
    var sorted := SortedProbes(probes);
    SortedProbesPositions(probes);
    forall k ensures k in PyDict.Keys(sorted) <==> k in PyDict.KeySet(probes) {
      PyDict.KeysMember(sorted, k);
    }
  }
}

=== FILE: ixon.dfy ===
/**
 * The Andor iXon Ultra 897 camera driver (hardware/camera/andor/iXon897_ultra.py): the
 * image geometry set on the sensor, the size of the acquisition buffer for each read and
 * acquisition mode, and the mode, exposure and acquisition-state bookkeeping around the
 * calls into the Andor SDK. Every SDK answer is a parameter: `true` stands for DRV_SUCCESS.
 */
module Ixon {
  import opened Wrappers
  import Numeric

  /** The read modes of the SDK, by name (the ReadMode enumeration). */
  const ReadModes: seq<string> := ["FVB", "MULTI_TRACK", "RANDOM_TRACK", "SINGLE_TRACK", "IMAGE"]
  /** The acquisition modes of the SDK, by name (the AcquisitionMode enumeration). */
  const AcquisitionModes: seq<string> := ["SINGLE_SCAN", "ACCUMULATE", "KINETICS", "FAST_KINETICS", "RUN_TILL_ABORT"]
  /** The trigger modes of the SDK, by name (the TriggerMode enumeration). */
  const TriggerModes: seq<string> := ["INTERNAL", "EXTERNAL", "EXTERNAL_START", "EXTERNAL_EXPOSURE", "SOFTWARE_TRIGGER", "EXTERNAL_CHARGE_SHIFTING"]

  /** The region set on the sensor: binning, inclusive start and end pixels. */
  datatype Region = Region(hbin: int, vbin: int, hstart: int, hend: int, vstart: int, vend: int)

  datatype Ixon = Ixon(
    region: Region, width: int, height: int,
    readMode: string, acquisitionMode: string, triggerMode: string, defaultAcquisitionMode: string,
    exposure: real, gain: int, scans: int, shutterOpen: bool, live: bool, acquiring: bool)

  /** `c_int(x).value`: x wrapped to a signed 32-bit integer. */
  function CInt(x: int): (r: int)
    ensures -0x8000_0000 <= r < 0x8000_0000
    ensures -0x8000_0000 <= x < 0x8000_0000 ==> r == x
    ensures (r - x) % 0x1_0000_0000 == 0
  {
    (x + 0x8000_0000) % 0x1_0000_0000 - 0x8000_0000
  }

  /**
   * _set_image: on success the region is stored (as 32-bit integers) and the image is
   * `int((end - start + 1) / bin)` pixels in each direction; a zero binning raises
   * ZeroDivisionError. On failure nothing changes.
   */
  function SetImageRegion(cam: Ixon, hbin: int, vbin: int, hstart: int, hend: int, vstart: int, vend: int, ok: bool)
    : (r: Result<Ixon>)
    ensures !ok ==> r == Ok(cam)
    ensures ok && (CInt(hbin) == 0 || CInt(vbin) == 0) ==> r == Err(ZeroDivisionError)
    ensures ok && r.Ok? ==>
      r.value.region == Region(CInt(hbin), CInt(vbin), CInt(hstart), CInt(hend), CInt(vstart), CInt(vend))
      && r.value.width == Numeric.TruncDiv(CInt(hend) - CInt(hstart) + 1, CInt(hbin))
      && r.value.height == Numeric.TruncDiv(CInt(vend) - CInt(vstart) + 1, CInt(vbin))
      && r.value.(region := cam.region, width := cam.width, height := cam.height) == cam
  {
    if !ok then Ok(cam)
    else
      var reg := Region(CInt(hbin), CInt(vbin), CInt(hstart), CInt(hend), CInt(vstart), CInt(vend));
      if reg.hbin == 0 || reg.vbin == 0 then Err(ZeroDivisionError)
      else Ok(cam.(region := reg,
                   width := Numeric.TruncDiv(reg.hend - reg.hstart + 1, reg.hbin),
                   height := Numeric.TruncDiv(reg.vend - reg.vstart + 1, reg.vbin)))
  }

  /** With a positive binning and end not before start, the width counts the whole bins. */
  lemma SetImageWholeBins(cam: Ixon, hbin: int, vbin: int, hstart: int, hend: int, vstart: int, vend: int)
    requires 0 < hbin < 0x8000_0000 && 0 < vbin < 0x8000_0000
    requires 0 <= hstart <= hend < 0x8000_0000 && 0 <= vstart <= vend < 0x8000_0000
    ensures var r := SetImageRegion(cam, hbin, vbin, hstart, hend, vstart, vend, true);
      r.Ok? && r.value.width * hbin <= hend - hstart + 1 < (r.value.width + 1) * hbin
      && r.value.height * vbin <= vend - vstart + 1 < (r.value.height + 1) * vbin
  {
    var r := SetImageRegion(cam, hbin, vbin, hstart, hend, vstart, vend, true);
    assert r.value.width == (hend - hstart + 1) / hbin;
    assert r.value.height == (vend - vstart + 1) / vbin;
    DivBounds(hend - hstart + 1, hbin);
    DivBounds(vend - vstart + 1, vbin);
  }

  lemma DivBounds(a: int, b: int)
    requires a >= 0 && b > 0
    ensures (a / b) * b <= a < (a / b + 1) * b
  {
    assert a == (a / b) * b + a % b;
    assert (a / b + 1) * b == (a / b) * b + b;
  }

  /** set_image: the error code 0 when the SDK accepted the region, -1 otherwise. */
  function SetImage(cam: Ixon, hbin: int, vbin: int, hstart: int, hend: int, vstart: int, vend: int, ok: bool)
    : (r: Result<(Ixon, int)>)
    ensures r.Ok? ==> (r.value.1 == 0 <==> ok) && (r.value.1 == 0 || r.value.1 == -1)
    ensures r.Ok? ==> Ok(r.value.0) == SetImageRegion(cam, hbin, vbin, hstart, hend, vstart, vend, ok)
    ensures r.Err? <==> SetImageRegion(cam, hbin, vbin, hstart, hend, vstart, vend, ok).Err?
  {
    match SetImageRegion(cam, hbin, vbin, hstart, hend, vstart, vend, ok)
    case Err(e) => Err(e)
    case Ok(c) => Ok((c, if ok then 0 else -1))
  }

  /** The values of one frame: a width x height image, or one row of `width` for a track read. */
  function FrameSize(readMode: string, width: int, height: int): int
  {
    if readMode == "IMAGE" then width * height else width
  }

  /**
   * get_acquired_data: the number of values read from the camera. An image read gives
   * one frame of width x height for a single scan or a live run, and `scans` frames for a
   * kinetic series; a track read (SINGLE_TRACK or FVB) gives `width` values per scan for
   * a single scan or a kinetic series. Any other combination reads nothing.
   */
  function BufferSize(readMode: string, acquisitionMode: string, width: int, height: int, scans: int): (r: Option<int>)
    ensures r.Some? <==>
      (readMode == "IMAGE" && acquisitionMode in ["SINGLE_SCAN", "KINETICS", "RUN_TILL_ABORT"])
      || ((readMode == "SINGLE_TRACK" || readMode == "FVB") && acquisitionMode in ["SINGLE_SCAN", "KINETICS"])
    ensures r.Some? && acquisitionMode == "KINETICS" ==> r.value == scans * FrameSize(readMode, width, height)
    ensures r.Some? && acquisitionMode != "KINETICS" ==> r.value == FrameSize(readMode, width, height)
  {
    if readMode == "IMAGE" then
      if acquisitionMode == "SINGLE_SCAN" then Some(width * height)
      else if acquisitionMode == "KINETICS" then Some(width * height * scans)
      else if acquisitionMode == "RUN_TILL_ABORT" then Some(width * height)
      else None
    else if readMode == "SINGLE_TRACK" || readMode == "FVB" then
      if acquisitionMode == "SINGLE_SCAN" then Some(width)
      else if acquisitionMode == "KINETICS" then Some(width * scans)
      else None
    else None
  }

  /**
   * _set_acquisition_mode: an unknown mode name is refused with -1; a known one is sent to
   * the SDK and stored, with code 0, only when the SDK accepts it.
   */
  function SetAcquisitionMode(cam: Ixon, mode: string, ok: bool): (r: (Ixon, int))
    ensures r.1 == 0 <==> mode in AcquisitionModes && ok
    ensures r.1 == 0 || r.1 == -1
    ensures r.1 == 0 ==> r.0 == cam.(acquisitionMode := mode)
    ensures r.1 == -1 ==> r.0 == cam
  {
    if mode in AcquisitionModes && ok then (cam.(acquisitionMode := mode), 0) else (cam, -1)
  }

  /** _set_trigger_mode: as _set_acquisition_mode, for the trigger modes. */
  function SetTriggerMode(cam: Ixon, mode: string, ok: bool): (r: (Ixon, int))
    ensures r.1 == 0 <==> mode in TriggerModes && ok
    ensures r.1 == 0 || r.1 == -1
    ensures r.1 == 0 ==> r.0 == cam.(triggerMode := mode)
    ensures r.1 == -1 ==> r.0 == cam
  {
    if mode in TriggerModes && ok then (cam.(triggerMode := mode), 0) else (cam, -1)
  }

  /**
   * _set_read_mode: an unknown mode is refused with -1 and changes nothing. For a known
   * mode, "IMAGE" first resets the region to the full current image (`imageOk` is the
   * SDK's answer to that); the mode is stored, with code 0, only when the SDK accepts it.
   */
  function SetReadMode(cam: Ixon, mode: string, ok: bool, imageOk: bool): (r: Result<(Ixon, int)>)
    ensures mode !in ReadModes ==> r == Ok((cam, -1))
    ensures r.Ok? ==> (r.value.1 == 0 <==> mode in ReadModes && ok)
    ensures r.Ok? && r.value.1 == 0 ==> r.value.0.readMode == mode
    ensures r.Ok? && r.value.1 != 0 ==> r.value.0.readMode == cam.readMode
    ensures r.Ok? ==> r.value.0.acquisitionMode == cam.acquisitionMode && r.value.0.scans == cam.scans
    ensures mode != "IMAGE" && r.Ok? ==> r.value.0.(readMode := cam.readMode) == cam
  {
    if mode !in ReadModes then Ok((cam, -1))
    else
      var reset := if mode == "IMAGE" then SetImageRegion(cam, 1, 1, 1, cam.width, 1, cam.height, imageOk) else Ok(cam);
      match reset
      case Err(e) => Err(e)
      case Ok(c) => if ok then Ok((c.(readMode := mode), 0)) else Ok((c, -1))
  }

  /** Switching to the image read mode keeps an image size that fits in 32 bits. */
  lemma ImageModeKeepsSize(cam: Ixon, ok: bool, imageOk: bool)
    requires 0 <= cam.width < 0x8000_0000 && 0 <= cam.height < 0x8000_0000
    ensures var r := SetReadMode(cam, "IMAGE", ok, imageOk);
      r.Ok? && r.value.0.width == cam.width && r.value.0.height == cam.height
  {
    assert "IMAGE" in ReadModes;
    Numeric.TruncInt(cam.width);
    Numeric.TruncInt(cam.height);
  }

  /** set_exposure: the exposure is stored, and True returned, only when the SDK accepts it. */
  function SetExposure(cam: Ixon, exposure: real, ok: bool): (r: (Ixon, bool))
    ensures r.1 == ok
    ensures ok ==> r.0 == cam.(exposure := exposure)
    ensures !ok ==> r.0 == cam
  {
    if ok then (cam.(exposure := exposure), true) else (cam, false)
  }

  /** set_gain: the EM gain is stored, and True returned, only when the SDK accepts it. */
  function SetGain(cam: Ixon, gain: int, ok: bool): (r: (Ixon, bool))
    ensures r.1 == ok
    ensures ok ==> r.0 == cam.(gain := gain)
    ensures !ok ==> r.0 == cam
  {
    if ok then (cam.(gain := gain), true) else (cam, false)
  }

  /** The shutter is opened if it was closed and the SDK accepts the command. */
  function OpenShutter(cam: Ixon, ok: bool): (r: Ixon)
    ensures r.shutterOpen == (cam.shutterOpen || ok)
    ensures r.(shutterOpen := cam.shutterOpen) == cam
  {
    if !cam.shutterOpen && ok then cam.(shutterOpen := true) else cam
  }

  /**
   * start_single_acquisition: refused (False) while live; otherwise the camera is marked
   * acquiring, switched to single scan and started, and acquiring is cleared only when the
   * start succeeds.
   */
  function StartSingleAcquisition(cam: Ixon, shutterOk: bool, modeOk: bool, startOk: bool): (r: (Ixon, bool))
    ensures cam.live ==> !r.1 && r.0 == OpenShutter(cam, shutterOk)
    ensures !cam.live ==> r.1 == startOk && r.0.acquiring == !startOk
    ensures !cam.live && modeOk ==> r.0.acquisitionMode == "SINGLE_SCAN"
  {
    var c := OpenShutter(cam, shutterOk);
    if c.live then (c, false)
    else
      var c1 := SetAcquisitionMode(c.(acquiring := true), "SINGLE_SCAN", modeOk).0;
      if !startOk then (c1, false) else (c1.(acquiring := false), true)
  }

  /** start_live_acquisition: live, not acquiring, in run-till-abort mode, started. */
  function StartLiveAcquisition(cam: Ixon, shutterOk: bool, modeOk: bool, startOk: bool): (r: (Ixon, bool))
    ensures r.0.live && !r.0.acquiring && r.1 == startOk
    ensures modeOk ==> r.0.acquisitionMode == "RUN_TILL_ABORT"
  {
    var c := OpenShutter(cam.(live := true, acquiring := false), shutterOk);
    (SetAcquisitionMode(c, "RUN_TILL_ABORT", modeOk).0, startOk)
  }

  /**
   * stop_acquisition: the acquisition is aborted and the default mode restored; live and
   * acquiring are cleared, and True returned, only when the abort succeeds.
   */
  function StopAcquisition(cam: Ixon, abortOk: bool, modeOk: bool): (r: (Ixon, bool))
    ensures r.1 == abortOk
    ensures abortOk ==> !r.0.live && !r.0.acquiring
    ensures !abortOk ==> r.0.live == cam.live && r.0.acquiring == cam.acquiring
  {
    var c := SetAcquisitionMode(cam, cam.defaultAcquisitionMode, modeOk).0;
    if abortOk then (c.(live := false, acquiring := false), true) else (c, false)
  }

  /**
   * start_movie_acquisition: live, a kinetic series of `nFrames` scans with the current
   * exposure, started.
   */
  function StartMovieAcquisition(cam: Ixon, nFrames: int, shutterOk: bool, modeOk: bool, exposureOk: bool, startOk: bool)
    : (r: (Ixon, bool))
    ensures r.0.live && !r.0.acquiring && r.0.scans == nFrames && r.1 == startOk
    ensures modeOk ==> r.0.acquisitionMode == "KINETICS"
    ensures r.0.exposure == cam.exposure
  {
    var c := OpenShutter(cam.(live := true, acquiring := false), shutterOk);
    var c1 := SetAcquisitionMode(c, "KINETICS", modeOk).0;
    var c2 := SetExposure(c1, c1.exposure, exposureOk).0;
    (c2.(scans := nFrames), startOk)
  }

  /**
   * finish_movie_acquisition: back to the default acquisition mode with one scan, neither
   * live nor acquiring; it always reports True.
   */
  function FinishMovieAcquisition(cam: Ixon, modeOk: bool): (r: (Ixon, bool))
    ensures r.1 && r.0.scans == 1 && !r.0.live && !r.0.acquiring
    ensures modeOk && cam.defaultAcquisitionMode in AcquisitionModes ==> r.0.acquisitionMode == cam.defaultAcquisitionMode
  {
    var c := SetAcquisitionMode(cam, cam.defaultAcquisitionMode, modeOk).0;
    (c.(scans := 1, live := false, acquiring := false), true)
  }

  /**
   * A movie of n frames in image mode fills a buffer of n images; once it is finished the
   * camera in its default single-scan mode reads one image again.
   */
  lemma MovieBufferThenFinish(cam: Ixon, n: int)
    requires cam.readMode == "IMAGE" && cam.defaultAcquisitionMode == "SINGLE_SCAN"
    ensures var movie := StartMovieAcquisition(cam, n, true, true, true, true).0;
      BufferSize(movie.readMode, movie.acquisitionMode, movie.width, movie.height, movie.scans)
        == Some(n * cam.width * cam.height)
    ensures var movie := StartMovieAcquisition(cam, n, true, true, true, true).0;
      var done := FinishMovieAcquisition(movie, true).0;
      BufferSize(done.readMode, done.acquisitionMode, done.width, done.height, done.scans)
        == Some(cam.width * cam.height)
  {
    var movie := StartMovieAcquisition(cam, n, true, true, true, true).0;
    assert movie.width == cam.width && movie.height == cam.height && movie.readMode == "IMAGE";
    assert "KINETICS" in AcquisitionModes && "SINGLE_SCAN" in AcquisitionModes;
    assert n * cam.width * cam.height == cam.width * cam.height * n;
  }
}

=== FILE: labels.dfy ===
/**
 * Numbered labels such as 'laser1', 'filter2', and the configuration dicts built from
 * them: `{'<prefix>{i+1}': entry_i for i, ... in enumerate(config)}`.
 */
module Labels {
  import opened Wrappers
  import Text
  import PyDict

  /** `'<prefix>{}'.format(n)`. */
  function Numbered(prefix: string, n: nat): (s: string)
    ensures |s| > |prefix| && s[..|prefix|] == prefix
  {
    prefix + Text.NatToString(n)
  }

  /** Different numbers give different labels. */
  lemma NumberedInjective(prefix: string, m: nat, n: nat)
    requires Numbered(prefix, m) == Numbered(prefix, n)
    ensures m == n
  {
    assert Numbered(prefix, m)[|prefix|..] == Text.NatToString(m);
    assert Numbered(prefix, n)[|prefix|..] == Text.NatToString(n);
    Text.NatToStringInjective(m, n);
  }

  lemma NumberedDistinct(prefix: string, m: nat, n: nat)
    requires m != n
    ensures Numbered(prefix, m) != Numbered(prefix, n)
  {
    if Numbered(prefix, m) == Numbered(prefix, n) { NumberedInjective(prefix, m, n); }
  }

  /** The label-entry pairs in configuration order, labels counting from 1. */
  function NumberedPairs<V>(prefix: string, entries: seq<V>): (ps: seq<(string, V)>)
    ensures |ps| == |entries|
    ensures forall i :: 0 <= i < |entries| ==> ps[i] == (Numbered(prefix, i + 1), entries[i])
  {
    seq(|entries|, i requires 0 <= i < |entries| => (Numbered(prefix, i + 1), entries[i]))
  }

  /**
   * The dict built by assigning label i+1 to entry i for each entry in turn: since the
   * labels are distinct, it holds every entry once, in configuration order.
   */
  function NumberedDict<V>(prefix: string, entries: seq<V>): (d: PyDict.Dict<string, V>)
    ensures PyDict.Valid(d)
    ensures d == NumberedPairs(prefix, entries)
  {
    var ps := NumberedPairs(prefix, entries);
    assert PyDict.Distinct(PyDict.Keys(ps)) by {
      forall i, j | 0 <= i < j < |ps| ensures PyDict.Keys(ps)[i] != PyDict.Keys(ps)[j] {
        NumberedDistinct(prefix, i + 1, j + 1);
      }
    }
    PyDict.FromPairsDistinct(ps);
    PyDict.FromPairs(ps)
  }

  /** Looking up label n (1-based) finds entry n-1, and nothing else is a key. */
  lemma NumberedDictGet<V>(prefix: string, entries: seq<V>, n: nat)
    ensures 1 <= n <= |entries| ==> PyDict.Get(NumberedDict(prefix, entries), Numbered(prefix, n)) == Some(entries[n - 1])
    ensures (n == 0 || n > |entries|) ==> PyDict.Get(NumberedDict(prefix, entries), Numbered(prefix, n)) == None
  {
    var d := NumberedDict(prefix, entries);
    if 1 <= n <= |entries| {
      PyDict.GetAt(d, n - 1);
    } else {
      NumberedAbsent(prefix, entries, n);
    }
  }

  lemma NumberedAbsent<V>(prefix: string, entries: seq<V>, n: nat)
    requires n == 0 || n > |entries|
    ensures Numbered(prefix, n) !in PyDict.KeySet(NumberedDict(prefix, entries))
  {
    var d := NumberedDict(prefix, entries);
    var key := Numbered(prefix, n);
    forall j | 0 <= j < |d| ensures d[j].0 != key {
      LabelAt(prefix, entries, j, n);
    }
  }

  lemma LabelAt<V>(prefix: string, entries: seq<V>, j: nat, n: nat)
    requires j < |entries| && j + 1 != n
    ensures NumberedDict(prefix, entries)[j].0 != Numbered(prefix, n)
  {
    NumberedDistinct(prefix, j + 1, n);
  }
}

=== FILE: lasercontrol.dfy ===
/**
 * The laser-control logic (logic/lasercontrol_logic.py): an intensity per laser line,
 * kept in a dict with the keys of the controller's laser dict, and the on/off switch that
 * writes those intensities (scaled for a DAQ, as percentages for an FPGA) to the lines.
 */
module LaserControl {
  import opened Wrappers
  import PyDict
  import opened LaserControlInterface

  /** The configured controller type: 'daq', 'fpga', or anything else (not covered). */
  datatype ControllerType = Daq | Fpga | OtherController

  datatype LaserControl = LaserControl(controller: ControllerType, enabled: bool,
                                       lasers: PyDict.Dict<string, LaserEntry>,
                                       intensity: PyDict.Dict<string, real>)

  /** Every laser line has an intensity, so switching on never fails. */
  predicate Covers(st: LaserControl)
  {
    PyDict.KeySet(st.lasers) <= PyDict.KeySet(st.intensity)
    && (st.controller == Daq ==> forall i :: 0 <= i < |st.lasers| ==> st.lasers[i].1.voltageRange.Some?)
  }

  predicate Valid(st: LaserControl)
  {
    PyDict.Valid(st.lasers) && PyDict.Valid(st.intensity) && Covers(st)
  }

  /**
   * init_intensity_dict: every key of the laser dict, in its order, mapped to `value`
   * (assigning the keys of a dict one after the other).
   */
  function InitIntensityDict(lasers: PyDict.Dict<string, LaserEntry>, value: real): (d: PyDict.Dict<string, real>)
    ensures PyDict.Keys(d) == PyDict.Keys(lasers) && PyDict.KeySet(d) == PyDict.KeySet(lasers)
    ensures forall i :: 0 <= i < |d| ==> d[i].1 == value
    ensures PyDict.Valid(lasers) ==> PyDict.Valid(d)
  {
    var d := seq(|lasers|, i requires 0 <= i < |lasers| => (lasers[i].0, value));
    assert PyDict.Keys(d) == PyDict.Keys(lasers);
    PyDict.SameKeys(d, lasers);
    d
  }

  /** on_activate: lasers off, the controller's laser dict, every intensity 0. */
  function Activate(controller: ControllerType, lasers: PyDict.Dict<string, LaserEntry>): (st: LaserControl)
    ensures !st.enabled && st.lasers == lasers
    ensures PyDict.KeySet(st.intensity) == PyDict.KeySet(lasers)
    ensures forall k :: k in PyDict.KeySet(lasers) ==> PyDict.Get(st.intensity, k) == Some(0.0)
  {
    var d := InitIntensityDict(lasers, 0.0);
    assert forall k :: k in PyDict.KeySet(lasers) ==> PyDict.Get(d, k) == Some(0.0) by {
      forall k | k in PyDict.KeySet(lasers) ensures PyDict.Get(d, k) == Some(0.0) {
        var r := PyDict.Get(d, k);
        assert (k, r.value) in d;
      }
    }
    LaserControl(controller, false, lasers, d)
  }

  /** reset_intensity_dict: every intensity becomes 0, the keys and their order stay. */
  function ResetIntensityDict(d: PyDict.Dict<string, real>): (r: PyDict.Dict<string, real>)
    ensures PyDict.Keys(r) == PyDict.Keys(d) && PyDict.KeySet(r) == PyDict.KeySet(d)
    ensures forall i :: 0 <= i < |r| ==> r[i].1 == 0.0
    ensures PyDict.Valid(d) ==> PyDict.Valid(r)
    ensures (forall i :: 0 <= i < |d| ==> d[i].1 == 0.0) ==> r == d
  {
    var r := seq(|d|, i requires 0 <= i < |d| => (d[i].0, 0.0));
    assert PyDict.Keys(r) == PyDict.Keys(d);
    PyDict.SameKeys(r, d);
    r
  }

  /** What an operation does: the new state and the calls made on the controller. */
  datatype Effect = Effect(state: LaserControl, writes: seq<Write>)

  function Scaled(controller: ControllerType, intensity: real, e: LaserEntry): real
    requires controller == Daq ==> e.voltageRange.Some?
  {
    if controller == Daq then intensity * e.voltageRange.value.1 / 100.0 else intensity
  }

  /**
   * The writes of apply_voltage over the laser lines in dict order, up to the first line
   * without an intensity (or, for a DAQ, without a voltage range), where KeyError is raised.
   */
  function LineWrites(controller: ControllerType, lasers: PyDict.Dict<string, LaserEntry>,
                      intensity: PyDict.Dict<string, real>): (r: (seq<Write>, Option<PyError>))
    requires controller != OtherController
    ensures |r.0| <= |lasers|
    ensures r.1.None? ==> |r.0| == |lasers|
    ensures forall i :: 0 <= i < |r.0| ==>
      lasers[i].0 in PyDict.KeySet(intensity)
      && (controller == Daq ==> lasers[i].1.voltageRange.Some?)
      && r.0[i] == Write(Scaled(controller, PyDict.Get(intensity, lasers[i].0).value, lasers[i].1), lasers[i].1.channel)
    ensures r.1.Some? <==> exists i :: 0 <= i < |lasers| && (lasers[i].0 !in PyDict.KeySet(intensity)
                                                            || (controller == Daq && lasers[i].1.voltageRange.None?))
  {
    if lasers == [] then ([], None)
    else
      var (key, e) := lasers[0];
      match PyDict.Get(intensity, key)
      case None => ([], Some(KeyError))
      case Some(v) =>
        if controller == Daq && e.voltageRange.None? then ([], Some(KeyError))
        else
          var rest := LineWrites(controller, lasers[1..], intensity);
          assert forall i :: 1 <= i < |lasers| ==> lasers[1..][i - 1] == lasers[i];
          ([Write(Scaled(controller, v, e), e.channel)] + rest.0, rest.1)
  }

  /**
   * apply_voltage: the lasers count as on; each line gets its intensity, scaled to
   * intensity * range_max / 100 volts for a DAQ and passed as a percentage to an FPGA;
   * another controller type writes nothing. A KeyError propagates to the caller.
   */
  function ApplyVoltage(st: LaserControl): (r: (Effect, Option<PyError>))
    ensures r.0.state == st.(enabled := true)
    ensures st.controller == OtherController ==> r.0.writes == [] && r.1.None?
    ensures Covers(st) && st.controller != OtherController ==>
      r.1.None? && |r.0.writes| == |st.lasers|
      && forall i :: 0 <= i < |st.lasers| ==>
           r.0.writes[i] == Write(Scaled(st.controller, PyDict.Get(st.intensity, st.lasers[i].0).value, st.lasers[i].1),
                                  st.lasers[i].1.channel)
  {
    if st.controller == OtherController then (Effect(st.(enabled := true), []), None)
    else
      var w := LineWrites(st.controller, st.lasers, st.intensity);
      (Effect(st.(enabled := true), w.0), w.1)
  }

  /** voltage_off: the lasers count as off and every line gets 0; intensities are kept. */
  function VoltageOff(st: LaserControl): (r: Effect)
    ensures r.state == st.(enabled := false)
    ensures |r.writes| == |st.lasers|
    ensures forall i :: 0 <= i < |st.lasers| ==> r.writes[i] == Write(0.0, st.lasers[i].1.channel)
  {
    Effect(st.(enabled := false), seq(|st.lasers|, i requires 0 <= i < |st.lasers| => Write(0.0, st.lasers[i].1.channel)))
  }

  /**
   * Because switching off keeps the intensities, switching on again right away writes what
   * the lines had before they were switched off.
   */
  lemma OffThenOnRestores(st: LaserControl)
    requires Valid(st) && st.controller != OtherController
    ensures ApplyVoltage(VoltageOff(st).state).0.writes == ApplyVoltage(st).0.writes
    ensures ApplyVoltage(VoltageOff(st).state).0.state == ApplyVoltage(st).0.state
  {
  }

  /**
   * update_intensity_dict: the key takes the value (a new key is added, as a dict
   * assignment does); when the lasers are on the intensities are applied at once, and a
   * KeyError from that is caught, keeping whatever was written.
   */
  function UpdateIntensityDict(st: LaserControl, key: string, value: real): (r: Effect)
    ensures PyDict.Get(r.state.intensity, key) == Some(value)
    ensures forall k :: k != key ==> PyDict.Get(r.state.intensity, k) == PyDict.Get(st.intensity, k)
    ensures r.state.enabled == st.enabled && r.state.lasers == st.lasers
    ensures !st.enabled ==> r.writes == []
    ensures Valid(st) ==> Valid(r.state)
    ensures Valid(st) && st.enabled ==> r.writes == ApplyVoltage(r.state).0.writes && ApplyVoltage(r.state).1.None?
  {
    var st1 := st.(intensity := PyDict.Set(st.intensity, key, value));
    if st.enabled then ApplyVoltage(st1).0 else Effect(st1, [])
  }

  /** The intensity just set is what the line gets when the lasers are switched on. */
  lemma UpdateThenApply(st: LaserControl, key: string, value: real, i: nat)
    requires Valid(st) && st.controller == Daq && i < |st.lasers| && st.lasers[i].0 == key
    ensures var on := ApplyVoltage(UpdateIntensityDict(st, key, value).state).0;
      i < |on.writes| && on.writes[i] == Write(value * st.lasers[i].1.voltageRange.value.1 / 100.0, st.lasers[i].1.channel)
  {
  }

  /** stop_laser_output: switches off only lasers that are on; otherwise nothing happens. */
  function StopLaserOutput(st: LaserControl): (r: Effect)
    ensures !r.state.enabled
    ensures st.enabled ==> r == VoltageOff(st)
    ensures !st.enabled ==> r == Effect(st, [])
  {
    if st.enabled then VoltageOff(st) else Effect(st, [])
  }

  /** Activation gives a consistent state: every laser line has an intensity. */
  lemma ActivateValid(controller: ControllerType, lasers: PyDict.Dict<string, LaserEntry>)
    requires PyDict.Valid(lasers)
    requires controller == Daq ==> forall i :: 0 <= i < |lasers| ==> lasers[i].1.voltageRange.Some?
    ensures Valid(Activate(controller, lasers))
  {
  }
}

=== FILE: lasercontrol_interface.dfy ===
/**
 * What a laser controller (a DAQ or an FPGA) tells the laser-control logic about its
 * lines, and what the logic asks it to write.
 */
module LaserControlInterface {
  import opened Wrappers

  /**
   * One entry of the laser dict: 'label', 'wavelength', 'channel' and, for a DAQ, the
   * 'ao_voltage_range' (an FPGA entry has none).
   */
  datatype LaserEntry = LaserEntry(labelName: string, wavelength: string, channel: string,
                                   voltageRange: Option<(real, real)>)

  /** One `apply_voltage(voltage, channel)` call on the controller. */
  datatype Write = Write(voltage: real, channel: string)
}

=== FILE: merfish.dfy ===
/**
 * The injection-sequence editor (logic/merfish_logic.py): buffers by valve number and
 * probes by position, each held in a dict mirrored by the rows of a list model, and the
 * hybridization and photobleaching step lists mirrored by their sequence models.
 */
module Merfish {
  import opened Wrappers
  import PyDict

  // ---- buffers and probes ----

  /** A dict number -> name and the list model rows (name, number). */
  datatype KeyedEditor = KeyedEditor(dict: PyDict.Dict<int, string>, items: seq<(string, int)>)

  /** The rows of the list model built from the dict: `[(d[k], k) for k in d]`. */
  function Rows(d: PyDict.Dict<int, string>): (rows: seq<(string, int)>)
    ensures |rows| == |d|
  {
    seq(|d|, i requires 0 <= i < |d| => (d[i].1, d[i].0))
  }

  /** The list model mirrors the dict row for row. */
  predicate Mirrors(e: KeyedEditor)
  {
    PyDict.Valid(e.dict) && e.items == Rows(e.dict)
  }

  /**
   * add_buffer / add_probe: the number now holds the name (replacing any previous name, so
   * a number is used once) and the list model is rebuilt from the dict.
   */
  function AddEntry(e: KeyedEditor, name: string, number: int): (r: KeyedEditor)
    ensures PyDict.Get(r.dict, number) == Some(name)
    ensures forall k :: k != number ==> PyDict.Get(r.dict, k) == PyDict.Get(e.dict, k)
    ensures PyDict.Valid(e.dict) ==> Mirrors(r)
    ensures (name, number) in r.items
  {
    var d := PyDict.Set(e.dict, number, name);
    var i := PyDict.Find(d, number);
    assert Rows(d)[i] == (name, number);
    KeyedEditor(d, Rows(d))
  }

  /**
   * delete_buffer / delete_probe: the number of the selected row is deleted from the dict
   * and the row from the list model; an out-of-range row raises IndexError and a number
   * missing from the dict KeyError.
   */
  function DeleteEntry(e: KeyedEditor, row: nat): (r: Result<KeyedEditor>)
    ensures row >= |e.items| ==> r == Err(IndexError)
    ensures Mirrors(e) && row < |e.items| ==>
      r.Ok? && Mirrors(r.value)
      && PyDict.KeySet(r.value.dict) == PyDict.KeySet(e.dict) - {e.items[row].1}
      && r.value.items == e.items[..row] + e.items[row + 1..]
  {
    if row >= |e.items| then Err(IndexError)
    else
      var key := e.items[row].1;
      if key !in PyDict.KeySet(e.dict) then Err(KeyError)
      else
        var d := PyDict.Remove(e.dict, key);
        var items := e.items[..row] + e.items[row + 1..];
        if Mirrors(e) then
          DeleteRowKeepsMirror(e, row);
          Ok(KeyedEditor(d, items))
        else Ok(KeyedEditor(d, items))
  }

  lemma DeleteRowKeepsMirror(e: KeyedEditor, row: nat)
    requires Mirrors(e) && row < |e.items|
    ensures var key := e.items[row].1;
      PyDict.Remove(e.dict, key) == e.dict[..row] + e.dict[row + 1..]
      && Rows(PyDict.Remove(e.dict, key)) == e.items[..row] + e.items[row + 1..]
  {
    var key := e.items[row].1;
    assert e.dict[row].0 == key;
    assert PyDict.Find(e.dict, key) == row by {
      forall j | 0 <= j < row ensures e.dict[j].0 != key {
        assert PyDict.Keys(e.dict)[j] != PyDict.Keys(e.dict)[row];
      }
    }
  }

  // ---- injection steps ----

  datatype Step = Step(stepNumber: int, procedure: string, product: Option<string>,
                       volume: Option<real>, flowrate: Option<real>, time: Option<int>)

  /** A row of the sequence model: (procedure, product, volume, flowrate, time). */
  type ModelItem = (string, Option<string>, Option<real>, Option<real>, Option<int>)

  function ItemOf(s: Step): ModelItem
  {
    (s.procedure, s.product, s.volume, s.flowrate, s.time)
  }

  /** A step list and the sequence model that displays it. */
  datatype StepSeq = StepSeq(steps: seq<Step>, model: seq<ModelItem>)

  /** The model shows exactly the steps of the list. */
  predicate InSync(s: StepSeq)
  {
    |s.steps| == |s.model| && forall i :: 0 <= i < |s.steps| ==> ItemOf(s.steps[i]) == s.model[i]
  }

  const Hybridization: string := "Hybridization"
  const Photobleaching: string := "Photobleaching"

  datatype Editor = Editor(buffers: KeyedEditor, probes: KeyedEditor,
                           hybridization: StepSeq, photobleaching: StepSeq)

  predicate Valid(e: Editor)
  {
    Mirrors(e.buffers) && Mirrors(e.probes) && InSync(e.hybridization) && InSync(e.photobleaching)
  }

  /** make_dict_entry. */
  function MakeEntry(stepNumber: int, procedure: string, product: Option<string>,
                     volume: Option<real>, flowrate: Option<real>, time: Option<int>): Step
  {
    Step(stepNumber, procedure, product, volume, flowrate, time)
  }

  /** Appends one step to a list and its model; its number is the model length + 1. */
  function AppendStep(s: StepSeq, procedure: string, product: Option<string>,
                      volume: Option<real>, flowrate: Option<real>, time: Option<int>): (r: StepSeq)
    ensures |r.steps| == |s.steps| + 1 && r.steps[..|s.steps|] == s.steps
    ensures r.steps[|s.steps|] == Step(|s.model| + 1, procedure, product, volume, flowrate, time)
    ensures r.model == s.model + [(procedure, product, volume, flowrate, time)]
    ensures InSync(s) ==> InSync(r)
  {
    var entry := MakeEntry(|s.model| + 1, procedure, product, volume, flowrate, time);
    StepSeq(s.steps + [entry], s.model + [ItemOf(entry)])
  }

  /**
   * add_injection_step: a step with product, volume and flowrate and no time, appended to
   * the hybridization or photobleaching sequence by procedure; any other procedure changes
   * nothing.
   */
  function AddInjectionStep(e: Editor, procedure: string, product: string, volume: real, flowrate: real)
    : (r: Editor)
    ensures procedure != Hybridization && procedure != Photobleaching ==> r == e
    ensures procedure == Hybridization ==>
      r == e.(hybridization := AppendStep(e.hybridization, procedure, Some(product), Some(volume), Some(flowrate), None))
    ensures procedure == Photobleaching ==>
      r == e.(photobleaching := AppendStep(e.photobleaching, procedure, Some(product), Some(volume), Some(flowrate), None))
    ensures Valid(e) ==> Valid(r)
  {
    if procedure == Hybridization then
      e.(hybridization := AppendStep(e.hybridization, procedure, Some(product), Some(volume), Some(flowrate), None))
    else if procedure == Photobleaching then
      e.(photobleaching := AppendStep(e.photobleaching, procedure, Some(product), Some(volume), Some(flowrate), None))
    else e
  }

  /**
   * add_incubation_step: a waiting step with only a time (no product, volume or flowrate),
   * appended by procedure like an injection step.
   */
  function AddIncubationStep(e: Editor, procedure: string, time: int): (r: Editor)
    ensures procedure != Hybridization && procedure != Photobleaching ==> r == e
    ensures procedure == Hybridization ==>
      r == e.(hybridization := AppendStep(e.hybridization, procedure, None, None, None, Some(time)))
    ensures procedure == Photobleaching ==>
      r == e.(photobleaching := AppendStep(e.photobleaching, procedure, None, None, None, Some(time)))
    ensures Valid(e) ==> Valid(r)
  {
    if procedure == Hybridization then
      e.(hybridization := AppendStep(e.hybridization, procedure, None, None, None, Some(time)))
    else if procedure == Photobleaching then
      e.(photobleaching := AppendStep(e.photobleaching, procedure, None, None, None, Some(time)))
    else e
  }

  /** Adding a step on a synced sequence appends exactly that step to both the list and the model. */
  lemma AddedStepIsLast(e: Editor, procedure: string, product: string, volume: real, flowrate: real)
    requires Valid(e) && procedure == Hybridization
    ensures var r := AddInjectionStep(e, procedure, product, volume, flowrate).hybridization;
      |r.steps| == |e.hybridization.steps| + 1
      && r.steps[|r.steps| - 1] == Step(|e.hybridization.steps| + 1, procedure, Some(product), Some(volume), Some(flowrate), None)
  {
  }

  /** The outcome of an operation that can raise after changing part of the state. */
  datatype Outcome<S> = Outcome(state: S, raised: Option<PyError>)

  /**
   * delete_hybr_step / delete_photobl_step: the row goes from the model first, then from
   * the list; a row beyond the list raises IndexError after the model row is gone.
   */
  function DeleteStep(s: StepSeq, row: nat): (r: Outcome<StepSeq>)
    ensures row >= |s.model| ==> r == Outcome(s, Some(IndexError))
    ensures InSync(s) && row < |s.model| ==>
      r.raised.None? && InSync(r.state)
      && r.state.steps == s.steps[..row] + s.steps[row + 1..]
      && r.state.model == s.model[..row] + s.model[row + 1..]
  {
    if row >= |s.model| then Outcome(s, Some(IndexError))
    else
      var model := s.model[..row] + s.model[row + 1..];
      if row >= |s.steps| then Outcome(s.(model := model), Some(IndexError))
      else
        var r := StepSeq(s.steps[..row] + s.steps[row + 1..], model);
        assert InSync(s) ==> InSync(r) by {
          if InSync(s) {
            forall i | 0 <= i < |r.steps| ensures ItemOf(r.steps[i]) == r.model[i] {
              if i >= row { assert r.steps[i] == s.steps[i + 1] && r.model[i] == s.model[i + 1]; }
            }
          }
        }
        Outcome(r, None)
  }

  function DeleteHybridizationStep(e: Editor, row: nat): (r: Outcome<Editor>)
    ensures r.state.buffers == e.buffers && r.state.probes == e.probes
    ensures r.state.photobleaching == e.photobleaching
    ensures r.state.hybridization == DeleteStep(e.hybridization, row).state
    ensures r.raised == DeleteStep(e.hybridization, row).raised
  {
    var o := DeleteStep(e.hybridization, row);
    Outcome(e.(hybridization := o.state), o.raised)
  }

  function DeletePhotobleachingStep(e: Editor, row: nat): (r: Outcome<Editor>)
    ensures r.state.buffers == e.buffers && r.state.probes == e.probes
    ensures r.state.hybridization == e.hybridization
    ensures r.state.photobleaching == DeleteStep(e.photobleaching, row).state
    ensures r.raised == DeleteStep(e.photobleaching, row).raised
  {
    var o := DeleteStep(e.photobleaching, row);
    Outcome(e.(photobleaching := o.state), o.raised)
  }

  /** delete_hybr_all: both the model and the list are emptied. */
  function DeleteHybridizationAll(e: Editor): (r: Editor)
    ensures r.hybridization.steps == [] && r.hybridization.model == []
    ensures r.buffers == e.buffers && r.probes == e.probes && r.photobleaching == e.photobleaching
    ensures Valid(e) ==> Valid(r)
  {
    e.(hybridization := StepSeq([], []))
  }

  /**
   * delete_photobl_all as written: the model is emptied, but the list is assigned to a
   * misspelt attribute (`photobleachin_list`), so the photobleaching list keeps its steps.
   */
  function DeletePhotobleachingAllAsWritten(e: Editor): (r: Editor)
    ensures r.photobleaching.model == [] && r.photobleaching.steps == e.photobleaching.steps
    ensures r.buffers == e.buffers && r.probes == e.probes && r.hybridization == e.hybridization
  {
    e.(photobleaching := e.photobleaching.(model := []))
  }

  /** On any editor with a photobleaching step, the as-written delete-all breaks the sync. */
  lemma DeletePhotobleachingAllDesyncs(e: Editor)
    requires |e.photobleaching.steps| > 0
    ensures !InSync(DeletePhotobleachingAllAsWritten(e).photobleaching)
    ensures !Valid(DeletePhotobleachingAllAsWritten(e))
  {
  }

  /** delete_photobl_all as intended: both the model and the list are emptied. */
  function DeletePhotobleachingAll(e: Editor): (r: Editor)
    ensures r.photobleaching.steps == [] && r.photobleaching.model == []
    ensures r.buffers == e.buffers && r.probes == e.probes && r.hybridization == e.hybridization
    ensures Valid(e) ==> Valid(r)
  {
    e.(photobleaching := StepSeq([], []))
  }

  // ---- loading a saved sequence ----

  /** The document keys 'buffer', 'probes', 'hybridization list', 'photobleaching list'. */
  datatype Document = Document(buffer: Option<PyDict.Dict<int, string>>, probes: Option<PyDict.Dict<int, string>>,
                               hybridization: Option<seq<Step>>, photobleaching: Option<seq<Step>>)

  function Items(steps: seq<Step>): (m: seq<ModelItem>)
    ensures |m| == |steps| && forall i :: 0 <= i < |steps| ==> m[i] == ItemOf(steps[i])
  {
    seq(|steps|, i requires 0 <= i < |steps| => ItemOf(steps[i]))
  }

  /**
   * load_injections as written: the four entries are assigned in order until the first
   * missing key (KeyError, caught and logged, leaving the earlier assignments in place);
   * then the buffer and probe models are rebuilt, while each step model gets the loaded
   * steps APPENDED to its current rows.
   */
  function LoadInjectionsAsWritten(e: Editor, doc: Document): (r: Editor)
    ensures doc.buffer.Some? && doc.probes.Some? && doc.hybridization.Some? && doc.photobleaching.Some? ==>
      r.hybridization.steps == doc.hybridization.value
      && r.hybridization.model == e.hybridization.model + Items(doc.hybridization.value)
      && r.photobleaching.model == e.photobleaching.model + Items(doc.photobleaching.value)
      && r.buffers.items == Rows(doc.buffer.value)
  {
    if doc.buffer.None? then e
    else
      var e1 := e.(buffers := e.buffers.(dict := doc.buffer.value));
      if doc.probes.None? then e1
      else
        var e2 := e1.(probes := e1.probes.(dict := doc.probes.value));
        if doc.hybridization.None? then e2
        else
          var e3 := e2.(hybridization := e2.hybridization.(steps := doc.hybridization.value));
          if doc.photobleaching.None? then e3
          else
            var e4 := e3.(photobleaching := e3.photobleaching.(steps := doc.photobleaching.value));
            Editor(KeyedEditor(e4.buffers.dict, Rows(e4.buffers.dict)),
                   KeyedEditor(e4.probes.dict, Rows(e4.probes.dict)),
                   e4.hybridization.(model := e4.hybridization.model + Items(e4.hybridization.steps)),
                   e4.photobleaching.(model := e4.photobleaching.model + Items(e4.photobleaching.steps)))
  }

  /**
   * Loading a complete document into an editor that already shows a hybridization step
   * leaves the hybridization model longer than the list.
   */
  lemma LoadInjectionsAsWrittenDesyncs(e: Editor, doc: Document)
    requires doc.buffer.Some? && doc.probes.Some? && doc.hybridization.Some? && doc.photobleaching.Some?
    requires |e.hybridization.model| > 0
    ensures !InSync(LoadInjectionsAsWritten(e, doc).hybridization)
  {
  }

  /**
   * load_injections as intended: the same order of assignments, but every model is rebuilt
   * from the loaded data, as the buffer and probe models are.
   */
  function LoadInjections(e: Editor, doc: Document): (r: Editor)
    ensures doc.buffer.Some? && doc.probes.Some? && doc.hybridization.Some? && doc.photobleaching.Some? ==>
      r.hybridization.steps == doc.hybridization.value
      && r.photobleaching.steps == doc.photobleaching.value
      && r.buffers.dict == doc.buffer.value && r.probes.dict == doc.probes.value
      && InSync(r.hybridization) && InSync(r.photobleaching)
      && (PyDict.Valid(doc.buffer.value) && PyDict.Valid(doc.probes.value) ==> Valid(r))
    ensures doc.buffer.None? ==> r == e
  {
    if doc.buffer.None? then e
    else
      var e1 := e.(buffers := e.buffers.(dict := doc.buffer.value));
      if doc.probes.None? then e1
      else
        var e2 := e1.(probes := e1.probes.(dict := doc.probes.value));
        if doc.hybridization.None? then e2
        else
          var e3 := e2.(hybridization := e2.hybridization.(steps := doc.hybridization.value));
          if doc.photobleaching.None? then e3
          else
            var e4 := e3.(photobleaching := e3.photobleaching.(steps := doc.photobleaching.value));
            Editor(KeyedEditor(e4.buffers.dict, Rows(e4.buffers.dict)),
                   KeyedEditor(e4.probes.dict, Rows(e4.probes.dict)),
                   StepSeq(e4.hybridization.steps, Items(e4.hybridization.steps)),
                   StepSeq(e4.photobleaching.steps, Items(e4.photobleaching.steps)))
  }

  /** save_injections: the four entries written under their document keys. */
  function SaveInjections(e: Editor): (doc: Document)
    ensures doc.buffer.Some? && doc.probes.Some? && doc.hybridization.Some? && doc.photobleaching.Some?
  {
    Document(Some(e.buffers.dict), Some(e.probes.dict), Some(e.hybridization.steps), Some(e.photobleaching.steps))
  }

  /** Loading what was saved from a consistent editor restores that editor, whatever was shown before. */
  lemma LoadSavedInjections(before: Editor, e: Editor)
    requires Valid(e)
    ensures LoadInjections(before, SaveInjections(e)) == e
  {
    var r := LoadInjections(before, SaveInjections(e));
    assert r.hybridization.model == e.hybridization.model;
    assert r.photobleaching.model == e.photobleaching.model;
  }
}

=== FILE: ni_daq.dfy ===
/**
 * The rules of the National Instruments DAQ driver (hardware/daq/national_instruments_daq.py)
 * that do not depend on the instrument: the laser dict built from the configuration, the
 * range guards of the piezo and the rinsing pump, and the trigger check.
 */
module NiDaq {
  import opened Wrappers
  import PyDict
  import Labels
  import opened LaserControlInterface

  /** The configuration error logged at activation: channel and wavelength counts differ. */
  predicate ChannelCountMismatch(lasercontrol: bool, wavelengths: seq<string>, channels: seq<string>)
  {
    lasercontrol && |channels| != |wavelengths|
  }

  function Entries(wavelengths: seq<string>, channels: seq<string>, range: (real, real)): (es: seq<LaserEntry>)
    requires |channels| >= |wavelengths|
    ensures |es| == |wavelengths|
  {
    seq(|wavelengths|, i requires 0 <= i < |wavelengths| =>
      LaserEntry(Labels.Numbered("laser", i + 1), wavelengths[i], channels[i], Some(range)))
  }

  /**
   * get_dict: 'laser{i+1}' maps to the i-th wavelength, the i-th channel and the analog
   * output range, in configuration order; fewer channels than wavelengths raise IndexError.
   */
  function GetDict(wavelengths: seq<string>, channels: seq<string>, range: (real, real))
    : (r: Result<PyDict.Dict<string, LaserEntry>>)
    ensures r.Err? <==> |channels| < |wavelengths|
    ensures r.Err? ==> r.error == IndexError
    ensures r.Ok? ==> PyDict.Valid(r.value) && |r.value| == |wavelengths|
    ensures r.Ok? ==> forall i :: 0 <= i < |wavelengths| ==>
      r.value[i].0 == Labels.Numbered("laser", i + 1) && r.value[i].1.labelName == r.value[i].0
      && r.value[i].1.wavelength == wavelengths[i] && r.value[i].1.channel == channels[i]
      && r.value[i].1.voltageRange == Some(range)
  {
    if |channels| < |wavelengths| then Err(IndexError)
    else Ok(Labels.NumberedDict("laser", Entries(wavelengths, channels, range)))
  }

  /** Without the logged mismatch, the laser dict has one entry per configured wavelength. */
  lemma GetDictConfigured(wavelengths: seq<string>, channels: seq<string>, range: (real, real), n: nat)
    requires !ChannelCountMismatch(true, wavelengths, channels)
    requires 1 <= n <= |wavelengths|
    ensures GetDict(wavelengths, channels, range).Ok?
    ensures PyDict.Get(GetDict(wavelengths, channels, range).value, Labels.Numbered("laser", n))
      == Some(LaserEntry(Labels.Numbered("laser", n), wavelengths[n - 1], channels[n - 1], Some(range)))
  {
    Labels.NumberedDictGet("laser", Entries(wavelengths, channels, range), n);
  }

  /** move_piezo: the voltage written (pos/10) for a position in 0..90, nothing otherwise. */
  function MovePiezo(pos: real): (v: Option<real>)
    ensures v.Some? <==> 0.0 <= pos <= 90.0
    ensures v.Some? ==> 0.0 <= v.value <= 9.0 && v.value * 10.0 == pos
  {
    if 0.0 <= pos <= 90.0 then Some(pos / 10.0) else None
  }

  /** write_to_rinsing_pump_channel: the voltage written when it lies in -10..10. */
  function RinsingPump(voltage: real): (v: Option<real>)
    ensures v.Some? <==> -10.0 <= voltage <= 10.0
    ensures v.Some? ==> v.value == voltage
  {
    if -10.0 <= voltage <= 10.0 then Some(voltage) else None
  }

  /** The fire-trigger level above which the camera's answer counts as received. */
  const FireThreshold: real := 2.5

  /** What the trigger check does: the digital output values written, and the error code. */
  datatype TriggerCheck = TriggerCheck(digitalOut: seq<int>, code: Option<int>)

  /**
   * send_trigger_and_control_ai: without an analog input task nothing is written and
   * nothing returned; otherwise the line goes 0, 1, (read), 0 and the result is 0 when
   * the input read exceeds 2.5 V and -1 otherwise.
   */
  function SendTriggerAndControlAi(hasInputTask: bool, aiRead: real): (r: TriggerCheck)
    ensures !hasInputTask ==> r == TriggerCheck([], None)
    ensures hasInputTask ==> r.digitalOut == [0, 1, 0]
    ensures hasInputTask ==> (r.code == Some(0) <==> aiRead > FireThreshold)
    ensures hasInputTask ==> (r.code == Some(-1) <==> aiRead <= FireThreshold)
  {
    if !hasInputTask then TriggerCheck([], None)
    else if aiRead > FireThreshold then TriggerCheck([0, 1, 0], Some(0))
    else TriggerCheck([0, 1, 0], Some(-1))
  }

  /** Whatever the camera answers, the trigger line is left low. */
  lemma TriggerEndsLow(hasInputTask: bool, aiRead: real)
    requires hasInputTask
    ensures var out := SendTriggerAndControlAi(hasInputTask, aiRead).digitalOut;
      |out| > 0 && out[|out| - 1] == 0
  {
  }
}

=== FILE: ni_fpga.dfy ===
/**
 * The laser side of the National Instruments FPGA driver (hardware/fpga/ni_fpga.py):
 * percent-to-int16 conversion, the register a channel name selects, and the laser dict.
 */
module NiFpga {
  import opened Wrappers
  import PyDict
  import Labels
  import Numeric
  import opened LaserControlInterface

  /** The largest int16 value, 2**15 - 1. */
  const Int16Max: int := 32767

  /** convert_value: percent of the maximum output to int16, capped at the maximum. */
  function ConvertValue(value: real): (n: int)
    ensures n <= Int16Max
    ensures 0.0 <= value ==> 0 <= n
    ensures 0.0 <= value <= 100.0 ==> n == Numeric.Trunc(value / 100.0 * Int16Max as real)
    ensures value >= 100.0 ==> n == Int16Max
  {
    var t := Numeric.Trunc(value / 100.0 * Int16Max as real);
    if value >= 100.0 then
      Numeric.TruncInt(Int16Max);
      Numeric.TruncMonotone(Int16Max as real, value / 100.0 * Int16Max as real);
      if t < Int16Max then t else Int16Max
    else if t < Int16Max then t else Int16Max
  }

  /** A larger percentage never gives a smaller register value. */
  lemma ConvertValueMonotone(x: real, y: real)
    requires x <= y
    ensures ConvertValue(x) <= ConvertValue(y)
  {
    Numeric.TruncMonotone(x / 100.0 * Int16Max as real, y / 100.0 * Int16Max as real);
  }

  /** A register write: one of the four laser registers (0..3), or the update register. */
  datatype RegisterWrite = LaserRegister(index: nat, value: int) | UpdateRegister

  /** The first of the four laser registers named `channel`, if any. */
  function RegisterIndex(registers: seq<string>, channel: string): (i: Option<nat>)
    requires |registers| >= 4
    ensures i.Some? ==>
      i.value < 4 && registers[i.value] == channel && forall j :: 0 <= j < i.value ==> registers[j] != channel
    ensures i.None? ==> forall j :: 0 <= j < 4 ==> registers[j] != channel
  {
    if registers[0] == channel then Some(0)
    else if registers[1] == channel then Some(1)
    else if registers[2] == channel then Some(2)
    else if registers[3] == channel then Some(3)
    else None
  }

  /**
   * apply_voltage: a negative voltage counts as 0; the converted value goes to the laser
   * register whose name is the channel (the first match), and the update register is
   * written in every case. `registers` are the configured laser registers, the four laser
   * lines followed by the update register, as bound at activation.
   */
  function ApplyVoltage(registers: seq<string>, voltage: real, channel: string): (w: seq<RegisterWrite>)
    requires |registers| >= 5
    ensures |w| >= 1 && w[|w| - 1] == UpdateRegister
    ensures (forall j :: 0 <= j < 4 ==> registers[j] != channel) ==> w == [UpdateRegister]
    ensures forall i :: 0 <= i < 4 && registers[i] == channel && (forall j :: 0 <= j < i ==> registers[j] != channel) ==>
      w == [LaserRegister(i, ConvertValue(if voltage < 0.0 then 0.0 else voltage)), UpdateRegister]
    ensures forall k :: 0 <= k < |w| - 1 ==> w[k].LaserRegister? && 0 <= w[k].value <= Int16Max
  {
    var value := if voltage < 0.0 then 0.0 else voltage;
    match RegisterIndex(registers, channel)
    case Some(i) => [LaserRegister(i, ConvertValue(value)), UpdateRegister]
    case None => [UpdateRegister]
  }

  /** A negative request writes the same as a request of 0 percent. */
  lemma NegativeIsOff(registers: seq<string>, voltage: real, channel: string)
    requires |registers| >= 5 && voltage < 0.0
    ensures ApplyVoltage(registers, voltage, channel) == ApplyVoltage(registers, 0.0, channel)
    ensures forall k :: 0 <= k < |ApplyVoltage(registers, voltage, channel)| - 1 ==>
      ApplyVoltage(registers, voltage, channel)[k].value == 0
  {
  }

  /**
   * get_dict: 'laser{i+1}' maps to the i-th wavelength and the i-th laser register, in
   * configuration order; an FPGA entry has no voltage range. Fewer registers than
   * wavelengths raise IndexError.
   */
  function GetDict(wavelengths: seq<string>, registers: seq<string>): (r: Result<PyDict.Dict<string, LaserEntry>>)
    ensures r.Err? <==> |registers| < |wavelengths|
    ensures r.Ok? ==> PyDict.Valid(r.value) && |r.value| == |wavelengths|
    ensures r.Ok? ==> forall i :: 0 <= i < |wavelengths| ==>
      r.value[i] == (Labels.Numbered("laser", i + 1),
                     LaserEntry(Labels.Numbered("laser", i + 1), wavelengths[i], registers[i], None))
  {
    if |registers| < |wavelengths| then Err(IndexError)
    else
      Ok(Labels.NumberedDict("laser", seq(|wavelengths|, i requires 0 <= i < |wavelengths| =>
        LaserEntry(Labels.Numbered("laser", i + 1), wavelengths[i], registers[i], None))))
  }
}

=== FILE: numeric.dfy ===
/**
 * The numeric conversions of Python and numpy that the modelled code relies on:
 * `int(x)` of a float (truncation toward zero), `np.round` (round half to even),
 * `min(max(x, lo), hi)` clamping, and `int(a / b)` of two integers.
 */
module Numeric {

  /** `int(x)`: drops the fraction, toward zero. */
  function Trunc(x: real): (n: int)
    ensures x >= 0.0 ==> 0 <= n && n as real <= x < n as real + 1.0
    ensures x < 0.0 ==> n <= 0 && n as real - 1.0 < x <= n as real
  {
    if x >= 0.0 then x.Floor else -((-x).Floor)
  }

  /** Truncation keeps the order of its arguments. */
  lemma TruncMonotone(x: real, y: real)
    requires x <= y
    ensures Trunc(x) <= Trunc(y)
  {
    if x >= 0.0 {
      assert x.Floor <= y.Floor by { FloorMonotone(x, y); }
    } else if y < 0.0 {
      FloorMonotone(-y, -x);
    }
  }

  lemma FloorMonotone(x: real, y: real)
    requires x <= y
    ensures x.Floor <= y.Floor
  {
  }

  /** An integer is its own truncation. */
  lemma TruncInt(n: int)
    ensures Trunc(n as real) == n
  {
  }

  /** `int(a / b)`: the quotient of two integers, truncated toward zero. */
  function TruncDiv(a: int, b: int): (q: int)
    requires b != 0
    ensures a >= 0 && b > 0 ==> q == a / b
  {
    if a >= 0 && b > 0 then
      FloorOfQuotient(a, b);
      Trunc(a as real / b as real)
    else Trunc(a as real / b as real)
  }

  lemma FloorOfQuotient(a: int, b: int)
    requires a >= 0 && b > 0
    ensures (a as real / b as real).Floor == a / b
  {
    var q, r := a / b, a % b;
    assert a as real == q as real * b as real + r as real;
    assert a as real / b as real == q as real + r as real / b as real;
    assert 0.0 <= r as real / b as real < 1.0;
  }

  /** `np.round(x)`: to the nearest integer, ties to the even one. */
  function RoundHalfEven(x: real): (n: int)
    ensures n as real - x <= 0.5 && x - n as real <= 0.5
    ensures (n as real - x == 0.5 || x - n as real == 0.5) ==> n % 2 == 0
  {
    var f := x.Floor;
    var frac := x - f as real;
    if frac < 0.5 then f
    else if frac > 0.5 then f + 1
    else if f % 2 == 0 then f
    else f + 1
  }

  /** A value nearer than one half to an integer rounds to that integer. */
  lemma RoundNear(x: real, m: int)
    requires m as real - x < 0.5 && x - m as real < 0.5
    ensures RoundHalfEven(x) == m
  {
  }

  /** `min(max(x, lo), hi)`. */
  function Clamp(x: int, lo: int, hi: int): (r: int)
    requires lo <= hi
    ensures lo <= r <= hi
    ensures lo <= x <= hi ==> r == x
    ensures x < lo ==> r == lo
    ensures x > hi ==> r == hi
  {
    if x < lo then lo else if x > hi then hi else x
  }

  /** Clamping a clamped value changes nothing. */
  lemma ClampIdempotent(x: int, lo: int, hi: int)
    requires lo <= hi
    ensures Clamp(Clamp(x, lo, hi), lo, hi) == Clamp(x, lo, hi)
  {
  }
}

=== FILE: palm_task.dfy ===
/**
 * The multicolour PALM scan task (logic/tasks/multicolor_scan_task_PALM.py): the lookup of
 * laser labels in nested configuration dicts, the check that no laser of the imaging
 * sequence is blocked by the selected filter, and the z stack acquired plane by plane, each
 * image repeated until its camera trigger is not missed.
 */
module PalmTask {
  import opened Wrappers
  import PyDict
  import Text
  import Labels

  // ---- nested configuration dicts ----

  /** A configuration dict of dicts, such as the laser dict or the filter dict. */
  type Nested = PyDict.Dict<string, PyDict.Dict<string, string>>

  /** How many entries of an inner dict hold the value `val`. */
  function Matches(inner: PyDict.Dict<string, string>, val: string): nat
  {
    if inner == [] then 0
    else Matches(inner[..|inner| - 1], val) + (if inner[|inner| - 1].1 == val then 1 else 0)
  }

  /** The positions of the inner dicts that hold `val` somewhere, in iteration order. */
  function Matching(nested: Nested, val: string): (ms: seq<nat>)
    ensures Lists(nested, val, ms)
  {
    if nested == [] then []
    else
      var n := |nested| - 1;
      var init := Matching(nested[..n], val);
      MatchingSnoc(nested, val, init, n);
      init + (if Matches(nested[n].1, val) > 0 then [n] else [])
  }

  /** `ms` lists, in increasing order, exactly the positions of the inner dicts holding `val`. */
  predicate Lists(nested: Nested, val: string, ms: seq<nat>)
  {
    (forall j :: 0 <= j < |ms| ==> ms[j] < |nested| && Matches(nested[ms[j]].1, val) > 0)
    && (forall i :: 0 <= i < |nested| && Matches(nested[i].1, val) > 0 ==> i in ms)
    && (forall j, k :: 0 <= j < k < |ms| ==> ms[j] < ms[k])
  }

  /** The positions listed for all but the last inner dict, and the last one if it holds `val`. */
  lemma MatchingSnoc(nested: Nested, val: string, ms: seq<nat>, n: nat)
    requires n + 1 == |nested| && Lists(nested[..n], val, ms)
    ensures Lists(nested, val, ms + (if Matches(nested[n].1, val) > 0 then [n] else []))
  {
    forall j | 0 <= j < |ms| ensures ms[j] < n && Matches(nested[ms[j]].1, val) > 0 {
      assert nested[..n][ms[j]] == nested[ms[j]];
    }
    forall i | 0 <= i < n && Matches(nested[i].1, val) > 0 ensures i in ms {
      assert nested[..n][i] == nested[i];
    }
  }

  /** Every inner dict holding `val` holds it once and has an `entry` key. */
  predicate Unambiguous(nested: Nested, val: string, entry: string)
  {
    forall i :: 0 <= i < |nested| && Matches(nested[i].1, val) > 0 ==>
      Matches(nested[i].1, val) == 1 && entry in PyDict.KeySet(nested[i].1)
  }

  /**
   * get_entry_nested_dict: the `entry` value of every inner dict holding `val`, in
   * iteration order. An inner dict holding `val` without an `entry` key raises KeyError;
   * one holding `val` twice passes two items to `list.append`, a TypeError.
   */
  function NestedEntries(nested: Nested, val: string, entry: string): (r: Result<seq<string>>)
    ensures r.Err? ==> r.error == KeyError || r.error == TypeError
  {
    if nested == [] then Ok([])
    else
      var n := |nested| - 1;
      var init := NestedEntries(nested[..n], val, entry);
      if init.Err? then init
      else
        var inner := nested[n].1;
        var m := Matches(inner, val);
        if m == 0 then init
        else
          match PyDict.Get(inner, entry)
          case None => Err(KeyError)
          case Some(e) => if m > 1 then Err(TypeError) else Ok(init.value + [e])
  }

  /**
   * The lookup succeeds exactly when every inner dict holding `val` holds it once and has
   * an `entry` key, and then lists the `entry` of each such inner dict in order.
   */
  lemma {:induction false} NestedEntriesSpec(nested: Nested, val: string, entry: string)
    ensures var r := NestedEntries(nested, val, entry);
      (r.Ok? <==> Unambiguous(nested, val, entry))
      && (r.Ok? ==>
        var ms := Matching(nested, val);
        |r.value| == |ms|
        && forall j :: 0 <= j < |ms| ==> Some(r.value[j]) == PyDict.Get(nested[ms[j]].1, entry))
  {
    if nested != [] {
      var n := |nested| - 1;
      var init := nested[..n];
      NestedEntriesSpec(init, val, entry);
      UnambiguousSnoc(nested, val, entry);
      if NestedEntries(nested, val, entry).Ok? {
        NestedEntriesSnoc(nested, val, entry);
      }
    }
  }

  /** The entries found in all inner dicts extend those found in all but the last. */
  lemma NestedEntriesSnoc(nested: Nested, val: string, entry: string)
    requires nested != [] && NestedEntries(nested, val, entry).Ok?
    requires var init := nested[..|nested| - 1];
      var r' := NestedEntries(init, val, entry);
      r'.Ok? && |r'.value| == |Matching(init, val)|
      && forall j :: 0 <= j < |Matching(init, val)| ==> Some(r'.value[j]) == PyDict.Get(init[Matching(init, val)[j]].1, entry)
    ensures var r := NestedEntries(nested, val, entry);
      var ms := Matching(nested, val);
      |r.value| == |ms| && forall j :: 0 <= j < |ms| ==> Some(r.value[j]) == PyDict.Get(nested[ms[j]].1, entry)
  {
    var n := |nested| - 1;
    var init := nested[..n];
    var ms, ms' := Matching(nested, val), Matching(init, val);
    var r, r' := NestedEntries(nested, val, entry).value, NestedEntries(init, val, entry).value;
    EntriesOfInit(nested, n, ms', r', entry);
    if Matches(nested[n].1, val) == 0 {
      assert ms == ms' && r == r';
    } else {
      var e := PyDict.Get(nested[n].1, entry);
      assert ms == ms' + [n] && e.Some? && r == r' + [e.value];
      EntriesSnoc(nested, ms', r', n, e.value, entry);
    }
  }

  /** Entries found among the first n inner dicts are found at the same positions of all of them. */
  lemma EntriesOfInit(nested: Nested, n: nat, ms: seq<nat>, r: seq<string>, entry: string)
    requires n <= |nested| && |r| == |ms|
    requires forall j :: 0 <= j < |ms| ==> ms[j] < n
    requires forall j :: 0 <= j < |ms| ==> Some(r[j]) == PyDict.Get(nested[..n][ms[j]].1, entry)
    ensures forall j :: 0 <= j < |ms| ==> Some(r[j]) == PyDict.Get(nested[ms[j]].1, entry)
  {
    forall j | 0 <= j < |ms| ensures Some(r[j]) == PyDict.Get(nested[ms[j]].1, entry) {
      assert nested[..n][ms[j]] == nested[ms[j]];
    }
  }

  /** One more matching inner dict adds its entry at the end. */
  lemma EntriesSnoc(nested: Nested, ms: seq<nat>, r: seq<string>, n: nat, e: string, entry: string)
    requires n < |nested| && |r| == |ms|
    requires forall j :: 0 <= j < |ms| ==> ms[j] < |nested| && Some(r[j]) == PyDict.Get(nested[ms[j]].1, entry)
    requires Some(e) == PyDict.Get(nested[n].1, entry)
    ensures forall j :: 0 <= j < |ms| + 1 ==> Some((r + [e])[j]) == PyDict.Get(nested[(ms + [n])[j]].1, entry)
  {
  }

  /** An inner dict more at the end keeps the lookup unambiguous when it is itself unambiguous. */
  lemma UnambiguousSnoc(nested: Nested, val: string, entry: string)
    requires nested != []
    ensures var n := |nested| - 1;
      Unambiguous(nested, val, entry) <==>
        Unambiguous(nested[..n], val, entry)
        && (Matches(nested[n].1, val) > 0 ==> Matches(nested[n].1, val) == 1 && entry in PyDict.KeySet(nested[n].1))
  {
    var n := |nested| - 1;
    assert forall i :: 0 <= i < n ==> nested[..n][i] == nested[i];
  }

  // ---- the imaging sequence ----

  /**
   * A step of the imaging sequence: the tuple `(*labels, intensity)` built from the labels
   * found for the step's wavelength (normally exactly one).
   */
  datatype Step = Step(labels: seq<string>, intensity: int)

  /** The first item of the step's tuple when it is a label. */
  function Head(s: Step): Option<string>
  {
    if s.labels == [] then None else Some(s.labels[0])
  }

  /**
   * load_user_parameters: each (wavelength, intensity) of the raw sequence becomes the
   * labels of the laser dict entries with that wavelength, followed by the intensity.
   */
  function ImagingSequence(laserDict: Nested, raw: seq<(string, int)>): (r: Result<seq<Step>>)
    ensures r.Ok? <==> forall i :: 0 <= i < |raw| ==> NestedEntries(laserDict, raw[i].0, "label").Ok?
    ensures r.Ok? ==>
      |r.value| == |raw|
      && forall i :: 0 <= i < |raw| ==>
        r.value[i] == Step(NestedEntries(laserDict, raw[i].0, "label").value, raw[i].1)
  {
    if raw == [] then Ok([])
    else
      var n := |raw| - 1;
      assert forall i :: 0 <= i < n ==> raw[..n][i] == raw[i];
      var init := ImagingSequence(laserDict, raw[..n]);
      if init.Err? then init
      else
        var labels := NestedEntries(laserDict, raw[n].0, "label");
        if labels.Err? then Err(labels.error) else Ok(init.value + [Step(labels.value, raw[n].1)])
  }

  // ---- filter / laser check ----

  /** The label of the laser at index i of a filter's laser list: 'laser{i+1}'. */
  function LaserLabel(i: nat): string
  {
    Labels.Numbered("laser", i + 1)
  }

  /** The labels of the lasers the filter blocks, in list order. */
  function Forbidden(lasers: seq<bool>): (fs: seq<string>)
    ensures forall i :: 0 <= i < |lasers| && !lasers[i] ==> LaserLabel(i) in fs
    ensures forall j :: 0 <= j < |fs| ==> exists i :: 0 <= i < |lasers| && !lasers[i] && fs[j] == LaserLabel(i)
  {
    if lasers == [] then []
    else
      var n := |lasers| - 1;
      var init := Forbidden(lasers[..n]);
      assert forall i :: 0 <= i < n ==> lasers[..n][i] == lasers[i];
      var fs := init + (if lasers[n] then [] else [LaserLabel(n)]);
      assert forall j :: 0 <= j < |init| ==> fs[j] == init[j];
      fs
  }

  /** The key of a filter position in the filter dict: 'filter{pos}'. */
  function FilterKey(filterPos: int): string
  {
    "filter" + Text.IntToString(filterPos)
  }

  /**
   * control_user_parameters: the lasers are allowed unless some step of the imaging
   * sequence starts with the label of a laser the selected filter blocks; a filter
   * position missing from the filter dict raises KeyError.
   */
  method ControlUserParameters(filterLasers: PyDict.Dict<string, seq<bool>>, filterPos: int, sequence: seq<Step>)
    returns (r: Result<bool>)
    ensures PyDict.Get(filterLasers, FilterKey(filterPos)).None? ==> r == Err(KeyError)
    ensures PyDict.Get(filterLasers, FilterKey(filterPos)).Some? ==>
      var lasers := PyDict.Get(filterLasers, FilterKey(filterPos)).value;
      r.Ok? && (r.value <==> forall i, j :: 0 <= i < |lasers| && !lasers[i] && 0 <= j < |sequence| ==>
        Head(sequence[j]) != Some(LaserLabel(i)))
  {
    var found := PyDict.Get(filterLasers, FilterKey(filterPos));
    if found.None? {
      return Err(KeyError);
    }
    var lasers := found.value;
    var forbidden := Forbidden(lasers);
    var heads := seq(|sequence|, j requires 0 <= j < |sequence| => Head(sequence[j]));
    var allowed := NoneUsed(forbidden, heads);
    ForbiddenUsed(lasers, sequence, heads);
    return Ok(allowed);
  }

  /** The loop over the forbidden labels, stopping at the first one some step starts with. */
  method NoneUsed(forbidden: seq<string>, heads: seq<Option<string>>) returns (allowed: bool)
    ensures allowed <==> forall m :: 0 <= m < |forbidden| ==> Some(forbidden[m]) !in heads
  {
    allowed := true;
    var k := 0;
    while k < |forbidden|
      invariant 0 <= k <= |forbidden|
      invariant forall m :: 0 <= m < k ==> Some(forbidden[m]) !in heads
    {
      if Some(forbidden[k]) in heads {
        allowed := false;
        return;
      }
      k := k + 1;
    }
  }

  /** `heads` holds the first entry of every step of the sequence. */
  predicate HeadsOf(sequence: seq<Step>, heads: seq<Option<string>>)
  {
    |heads| == |sequence| && forall j :: 0 <= j < |heads| ==> heads[j] == Head(sequence[j])
  }

  /** None of the labels heads a step. */
  predicate NoneHeads(labels: seq<string>, heads: seq<Option<string>>)
  {
    forall m :: 0 <= m < |labels| ==> Some(labels[m]) !in heads
  }

  /** No laser the filter blocks has its label at the head of a step. */
  predicate NoBlockedHead(lasers: seq<bool>, sequence: seq<Step>)
  {
    forall i, j :: 0 <= i < |lasers| && !lasers[i] && 0 <= j < |sequence| ==> Head(sequence[j]) != Some(LaserLabel(i))
  }

  /** No blocked laser's label heads a step exactly when no step heads with a label the filter forbids. */
  lemma ForbiddenUsed(lasers: seq<bool>, sequence: seq<Step>, heads: seq<Option<string>>)
    requires heads == seq(|sequence|, j requires 0 <= j < |sequence| => Head(sequence[j]))
    ensures NoneHeads(Forbidden(lasers), heads) <==> NoBlockedHead(lasers, sequence)
  {
    assert HeadsOf(sequence, heads);
    if NoneHeads(Forbidden(lasers), heads) {
      ForbiddenUnusedBlocked(lasers, sequence, heads);
    }
    if NoBlockedHead(lasers, sequence) {
      BlockedUnusedForbidden(lasers, sequence, heads);
    }
  }

  /** When no forbidden label heads a step, no blocked laser's label does. */
  lemma ForbiddenUnusedBlocked(lasers: seq<bool>, sequence: seq<Step>, heads: seq<Option<string>>)
    requires HeadsOf(sequence, heads) && NoneHeads(Forbidden(lasers), heads)
    ensures NoBlockedHead(lasers, sequence)
  {
    var fs := Forbidden(lasers);
    forall i, j | 0 <= i < |lasers| && !lasers[i] && 0 <= j < |sequence|
      ensures Head(sequence[j]) != Some(LaserLabel(i))
    {
      var m :| 0 <= m < |fs| && fs[m] == LaserLabel(i);
      assert Some(fs[m]) !in heads;
      assert heads[j] == Head(sequence[j]);
    }
  }

  /** When no blocked laser's label heads a step, no forbidden label does. */
  lemma BlockedUnusedForbidden(lasers: seq<bool>, sequence: seq<Step>, heads: seq<Option<string>>)
    requires HeadsOf(sequence, heads) && NoBlockedHead(lasers, sequence)
    ensures NoneHeads(Forbidden(lasers), heads)
  {
    var fs := Forbidden(lasers);
    forall m | 0 <= m < |fs| ensures Some(fs[m]) !in heads {
      var i :| 0 <= i < |lasers| && !lasers[i] && fs[m] == LaserLabel(i);
      forall j | 0 <= j < |heads| ensures heads[j] != Some(fs[m]) {
        assert heads[j] == Head(sequence[j]);
      }
    }
  }

  /**
   * When every step starts with a laser label 'laserK', the check passes exactly when the
   * filter lets through every laser K of the sequence that it lists.
   */
  lemma AllowedLabels(lasers: seq<bool>, sequence: seq<Step>, ks: seq<nat>)
    requires |ks| == |sequence| && forall j :: 0 <= j < |sequence| ==> Head(sequence[j]) == Some(LaserLabel(ks[j]))
    ensures (forall i, j :: 0 <= i < |lasers| && !lasers[i] && 0 <= j < |sequence| ==> Head(sequence[j]) != Some(LaserLabel(i)))
      <==> forall j :: 0 <= j < |sequence| && ks[j] < |lasers| ==> lasers[ks[j]]
  {
    forall i, j | 0 <= i < |lasers| && 0 <= j < |sequence| && Head(sequence[j]) == Some(LaserLabel(i))
      ensures i == ks[j]
    {
      Labels.NumberedInjective("laser", i + 1, ks[j] + 1);
    }
  }

  // ---- the z stack ----

  /** The frames the camera is prepared for: one per step, frame and plane. */
  function Frames(sequence: seq<Step>, numFrames: int, numZPlanes: int): int
  {
    |sequence| * numFrames * numZPlanes
  }

  /**
   * runTaskStep, plane part: the step counter goes up by one and the piezo goes to
   * start + (counter - 1) * z_step; the run goes on while the counter is below the number
   * of planes. When the laser check failed, nothing moves and the run ends.
   */
  function RunTaskStep(laserAllowed: bool, counter: nat, start: real, zStep: real, numZPlanes: int)
    : (r: (nat, Option<real>, bool))
    ensures !laserAllowed ==> r == (counter, None, false)
    ensures laserAllowed ==> r.0 == counter + 1 && r.1 == Some(start + counter as real * zStep)
    ensures laserAllowed ==> (r.2 <==> counter + 1 < numZPlanes)
  {
    if !laserAllowed then (counter, None, false)
    else
      var c := counter + 1;
      var position := start + counter as real * zStep;
      (c, Some(position), c < numZPlanes)
  }

  /**
   * The whole run: the planes at start, start + z_step, ... , one per plane, and at least
   * one even when the number of planes is not positive; none when the laser check failed.
   */
  method RunTask(laserAllowed: bool, start: real, zStep: real, numZPlanes: int) returns (positions: seq<real>)
    ensures !laserAllowed ==> positions == []
    ensures laserAllowed ==> |positions| == (if numZPlanes >= 1 then numZPlanes else 1)
    ensures forall k :: 0 <= k < |positions| ==> positions[k] == start + k as real * zStep
  {
    var counter := 0;
    positions := [];
    var more := true;
    var planes := if numZPlanes >= 1 then numZPlanes else 1;
    while more
      invariant counter == |positions| <= planes
      invariant !laserAllowed ==> counter == 0
      invariant more ==> counter < planes
      invariant !more && laserAllowed ==> counter == planes
      invariant forall k :: 0 <= k < |positions| ==> positions[k] == start + k as real * zStep
      decreases planes - counter, more
    {
      var (c, position, goOn) := RunTaskStep(laserAllowed, counter, start, zStep, numZPlanes);
      if position.Some? {
        positions := positions + [position.value];
      }
      counter, more := c, goOn;
    }
  }

  /** With at least one plane, the camera is prepared for exactly the images the run takes. */
  lemma FramesMatchPlanes(sequence: seq<Step>, numFrames: nat, numZPlanes: int)
    requires numZPlanes >= 1
    ensures Frames(sequence, numFrames, numZPlanes) == numZPlanes * (|sequence| * numFrames)
  {
  }

  /** How many of the trigger results report success (err >= 0). */
  function Successes(errs: seq<int>): nat
  {
    if errs == [] then 0 else Successes(errs[..|errs| - 1]) + (if errs[|errs| - 1] >= 0 then 1 else 0)
  }

  /** The step after step `a`: the next one, or the first after the last. */
  function NextStep(a: nat, numSteps: nat): nat
  {
    if a + 1 < numSteps then a + 1 else 0
  }

  /**
   * Each image attempt after a missed trigger repeats the same step; after a successful one
   * it moves to the next step; `next` follows the last attempt.
   */
  predicate ChainedTo(attempts: seq<nat>, errs: seq<int>, numSteps: nat, next: nat)
    requires |attempts| <= |errs|
  {
    forall k :: 0 <= k < |attempts| ==>
      (if k + 1 < |attempts| then attempts[k + 1] else next)
        == (if errs[k] < 0 then attempts[k] else NextStep(attempts[k], numSteps))
  }

  /**
   * The trigger results up to the first None: send_trigger_and_control_ai returns None
   * when no analog input task is configured, and only the results before that one can be
   * compared with 0.
   */
  function Known(errs: seq<Option<int>>): (r: seq<int>)
    ensures |r| <= |errs|
    ensures forall k :: 0 <= k < |r| ==> errs[k] == Some(r[k])
    ensures |r| < |errs| ==> errs[|r|].None?
  {
    if errs == [] || errs[0].None? then []
    else
      var rest := Known(errs[1..]);
      assert forall k :: 1 <= k < |rest| + 1 ==> errs[k] == errs[1..][k - 1];
      [errs[0].value] + rest
  }

  /**
   * runTaskStep, imaging part: `num_frames` passes over the steps of the sequence; each
   * trigger's result `err` is read from `errs`, and a step is repeated while its trigger is
   * missed (err < 0). Returns the step of every attempt whose result was compared, and
   * Ok(true) when the plane was finished, Ok(false) when the trigger results ran out first,
   * or TypeError when a result was None (`None < 0` in Python 3).
   */
  method AcquirePlane(numSteps: nat, numFrames: int, errs: seq<Option<int>>)
    returns (attempts: seq<nat>, r: Result<bool>)
    ensures |attempts| <= |Known(errs)|
    ensures forall k :: 0 <= k < |attempts| ==> attempts[k] < numSteps
    ensures attempts != [] ==> attempts[0] == 0
    ensures forall k :: 0 <= k < |attempts| - 1 ==>
      attempts[k + 1] == (if Known(errs)[k] < 0 then attempts[k] else NextStep(attempts[k], numSteps))
    ensures r == Ok(true) ==>
      Successes(Known(errs)[..|attempts|]) == (if numFrames > 0 then numFrames else 0) * numSteps
      && (attempts != [] ==> Known(errs)[|attempts| - 1] >= 0)
    ensures r != Ok(true) ==> |attempts| == |Known(errs)| && Successes(Known(errs)) < numSteps * numFrames
    ensures r.Err? ==> r.error == TypeError && |attempts| < |errs| && errs[|attempts|].None?
    ensures r.Ok? && !r.value ==> |attempts| == |errs|
  {
    attempts, r := PlanePass(numSteps, numFrames, errs);
    if r == Ok(true) {
      PlaneDone(errs, numSteps, numFrames, attempts);
    }
  }

  /** The loop over the frames of a plane, stopping at the first frame cut short. */
  method PlanePass(numSteps: nat, numFrames: int, errs: seq<Option<int>>)
    returns (attempts: seq<nat>, r: Result<bool>)
    ensures r == Ok(true) ==> PlaneProgress(Known(errs), numSteps, attempts, if numFrames > 0 then numFrames else 0)
    ensures r != Ok(true) ==> PlaneCut(errs, numSteps, numFrames, attempts, r)
  {
    var known := Known(errs);
    attempts := [];
    var frames := if numFrames > 0 then numFrames else 0;
    var j := 0;
    while j < frames
      invariant 0 <= j <= frames
      invariant PlaneProgress(known, numSteps, attempts, j)
    {
      var before := attempts;
      var end;
      attempts, end := AcquireFrame(numSteps, errs, attempts);
      if end != Ok(true) {
        PlaneStopped(errs, numSteps, numFrames, j, before, attempts, end);
        return attempts, end;
      }
      PlaneStep(known, numSteps, before, attempts, j);
      j := j + 1;
    }
    return attempts, Ok(true);
  }

  /**
   * A plane cut short: every trigger result before the first None was used, with fewer
   * successes than frames * steps, and the outcome says why the results ran out.
   */
  predicate PlaneCut(errs: seq<Option<int>>, numSteps: nat, numFrames: int, attempts: seq<nat>, r: Result<bool>)
  {
    |attempts| == |Known(errs)|
    && (forall m :: 0 <= m < |attempts| ==> attempts[m] < numSteps)
    && (attempts != [] ==> attempts[0] == 0)
    && (forall k :: 0 <= k < |attempts| - 1 ==>
      attempts[k + 1] == (if Known(errs)[k] < 0 then attempts[k] else NextStep(attempts[k], numSteps)))
    && Successes(Known(errs)) < numSteps * numFrames
    && (r.Err? ==> r.error == TypeError && |attempts| < |errs| && errs[|attempts|].None?)
    && (r.Ok? && !r.value ==> |attempts| == |errs|)
  }

  /**
   * After `j` finished frames: `j` successful triggers per step, every attempt at a step of
   * the sequence, the first at step 0, the last one successful, and each following the one before.
   */
  predicate PlaneProgress(errs: seq<int>, numSteps: nat, attempts: seq<nat>, j: nat)
  {
    |attempts| <= |errs|
    && Successes(errs[..|attempts|]) == j * numSteps
    && (forall m :: 0 <= m < |attempts| ==> attempts[m] < numSteps)
    && (attempts != [] ==> attempts[0] == 0 && errs[|attempts| - 1] >= 0)
    && ChainedTo(attempts, errs, numSteps, 0)
  }

  /** The plane is finished after all its frames. */
  lemma PlaneDone(errs: seq<Option<int>>, numSteps: nat, numFrames: int, attempts: seq<nat>)
    requires PlaneProgress(Known(errs), numSteps, attempts, if numFrames > 0 then numFrames else 0)
    ensures forall k :: 0 <= k < |attempts| - 1 ==>
      attempts[k + 1] == (if Known(errs)[k] < 0 then attempts[k] else NextStep(attempts[k], numSteps))
    ensures Successes(Known(errs)[..|attempts|]) == (if numFrames > 0 then numFrames else 0) * numSteps
      && (attempts != [] ==> Known(errs)[|attempts| - 1] >= 0)
  {
    ChainedConsecutive(attempts, Known(errs), numSteps, 0);
  }

  /** A frame cut short in frame `j` cuts the plane short with fewer successes than frames * steps. */
  lemma PlaneStopped(errs: seq<Option<int>>, numSteps: nat, numFrames: int, j: nat, before: seq<nat>,
                     attempts: seq<nat>, r: Result<bool>)
    requires j < numFrames && PlaneProgress(Known(errs), numSteps, before, j)
    requires forall m :: 0 <= m < |attempts| ==> attempts[m] < numSteps
    requires attempts != [] ==> attempts[0] == 0
    requires |attempts| == |Known(errs)| && Successes(Known(errs)) < Successes(Known(errs)[..|before|]) + numSteps
      && forall k :: 0 <= k < |attempts| - 1 ==>
        attempts[k + 1] == (if Known(errs)[k] < 0 then attempts[k] else NextStep(attempts[k], numSteps))
    requires r.Err? ==> r.error == TypeError && |attempts| < |errs| && errs[|attempts|].None?
    requires r.Ok? && !r.value ==> |attempts| == |errs|
    ensures PlaneCut(errs, numSteps, numFrames, attempts, r)
  {
    FramesLeft(j, numFrames, numSteps, Successes(Known(errs)) - j * numSteps);
  }

  /** A finished frame after `j` finished frames leaves `j + 1` finished frames. */
  lemma PlaneStep(errs: seq<int>, numSteps: nat, before: seq<nat>, attempts: seq<nat>, j: nat)
    requires PlaneProgress(errs, numSteps, before, j)
    requires |attempts| <= |errs|
    requires forall m :: 0 <= m < |attempts| ==> attempts[m] < numSteps
    requires attempts != [] ==> attempts[0] == 0
    requires Successes(errs[..|attempts|]) == Successes(errs[..|before|]) + numSteps
    requires attempts != [] ==> errs[|attempts| - 1] >= 0
    requires ChainedTo(attempts, errs, numSteps, 0)
    ensures PlaneProgress(errs, numSteps, attempts, j + 1)
  {
    NextFrame(j, numSteps);
  }

  /**
   * One pass over the steps of the sequence, after the attempts of the earlier passes:
   * Ok(true) once every step had a successful trigger, Ok(false) when the trigger results
   * ran out first, TypeError when the next result was None.
   */
  method AcquireFrame(numSteps: nat, errs: seq<Option<int>>, before: seq<nat>)
    returns (attempts: seq<nat>, r: Result<bool>)
    requires |before| <= |Known(errs)|
    requires forall m :: 0 <= m < |before| ==> before[m] < numSteps
    requires before != [] ==> before[0] == 0 && Known(errs)[|before| - 1] >= 0
    requires ChainedTo(before, Known(errs), numSteps, 0)
    ensures |before| <= |attempts| <= |Known(errs)| && attempts[..|before|] == before
    ensures forall m :: 0 <= m < |attempts| ==> attempts[m] < numSteps
    ensures attempts != [] ==> attempts[0] == 0
    ensures r == Ok(true) ==>
      Successes(Known(errs)[..|attempts|]) == Successes(Known(errs)[..|before|]) + numSteps
      && (attempts != [] ==> Known(errs)[|attempts| - 1] >= 0)
      && ChainedTo(attempts, Known(errs), numSteps, 0)
    ensures r != Ok(true) ==>
      |attempts| == |Known(errs)| && Successes(Known(errs)) < Successes(Known(errs)[..|before|]) + numSteps
      && forall k :: 0 <= k < |attempts| - 1 ==>
        attempts[k + 1] == (if Known(errs)[k] < 0 then attempts[k] else NextStep(attempts[k], numSteps))
    ensures r.Err? ==> r.error == TypeError && |attempts| < |errs| && errs[|attempts|].None?
    ensures r.Ok? && !r.value ==> |attempts| == |errs|
  {
    var known := Known(errs);
    var i;
    attempts, i := FramePass(known, numSteps, before);
    if i < numSteps {
      FrameStopped(known, numSteps, before, attempts, i);
      r := if |known| < |errs| then Err(TypeError) else Ok(false);
    } else {
      FrameDone(errs, numSteps, before, attempts);
      r := Ok(true);
    }
  }

  /**
   * The loop of one pass: attempt the current step until every step had a successful
   * trigger or the trigger results run out.
   */
  method FramePass(errs: seq<int>, numSteps: nat, before: seq<nat>) returns (attempts: seq<nat>, i: nat)
    requires FrameProgress(errs, numSteps, before, before, 0)
    ensures FrameProgress(errs, numSteps, before, attempts, i)
    ensures i < numSteps ==> |attempts| == |errs|
  {
    attempts := before;
    i := 0;
    while i < numSteps && |attempts| < |errs|
      invariant FrameProgress(errs, numSteps, before, attempts, i)
      decreases |errs| - |attempts|
    {
      FrameProgressStep(errs, numSteps, before, attempts, i);
      attempts, i := attempts + [i], if errs[|attempts|] >= 0 then i + 1 else i;
    }
  }

  /**
   * Part way through a frame, after the attempts `before` of the earlier frames: `i` steps
   * have had a successful trigger, every attempt is at a step of the sequence, the first
   * is at step 0, and each follows the one before; the next attempt will be at step `i`.
   */
  predicate FrameProgress(errs: seq<int>, numSteps: nat, before: seq<nat>, attempts: seq<nat>, i: nat)
  {
    i <= numSteps
    && |before| <= |attempts| <= |errs| && attempts[..|before|] == before
    && Successes(errs[..|attempts|]) == Successes(errs[..|before|]) + i
    && (forall m :: 0 <= m < |attempts| ==> attempts[m] < numSteps)
    && (attempts != [] ==> attempts[0] == 0)
    && (attempts != [] && i == numSteps ==> errs[|attempts| - 1] >= 0)
    && ChainedTo(attempts, errs, numSteps, if i < numSteps then i else 0)
  }

  /** A frame is finished once every step had a successful trigger. */
  lemma FrameDone(errs: seq<Option<int>>, numSteps: nat, before: seq<nat>, attempts: seq<nat>)
    requires FrameProgress(Known(errs), numSteps, before, attempts, numSteps)
    ensures Successes(Known(errs)[..|attempts|]) == Successes(Known(errs)[..|before|]) + numSteps
      && (attempts != [] ==> Known(errs)[|attempts| - 1] >= 0)
      && ChainedTo(attempts, Known(errs), numSteps, 0)
  {
  }

  /** A frame cut short by the end of the trigger results has fewer successes than steps. */
  lemma FrameStopped(errs: seq<int>, numSteps: nat, before: seq<nat>, attempts: seq<nat>, i: nat)
    requires FrameProgress(errs, numSteps, before, attempts, i) && i < numSteps && |attempts| == |errs|
    ensures Successes(errs) < Successes(errs[..|before|]) + numSteps
    ensures forall k :: 0 <= k < |attempts| - 1 ==>
      attempts[k + 1] == (if errs[k] < 0 then attempts[k] else NextStep(attempts[k], numSteps))
  {
    assert errs[..|attempts|] == errs;
    ChainedConsecutive(attempts, errs, numSteps, i);
  }

  /** One more attempt at step `i` moves on to the next step exactly when its trigger succeeds. */
  lemma FrameProgressStep(errs: seq<int>, numSteps: nat, before: seq<nat>, attempts: seq<nat>, i: nat)
    requires FrameProgress(errs, numSteps, before, attempts, i) && i < numSteps && |attempts| < |errs|
    ensures FrameProgress(errs, numSteps, before, attempts + [i], if errs[|attempts|] >= 0 then i + 1 else i)
  {
    SuccessesSnoc(errs, |attempts|);
    StepsBelowSnoc(before, attempts, i, numSteps);
    ChainStep(attempts, errs, numSteps, i);
  }

  /** Part way through frame j of `frames`, fewer than all images have been taken. */
  lemma FramesLeft(j: nat, frames: nat, numSteps: nat, i: int)
    requires j < frames && i < numSteps
    ensures j * numSteps + i < numSteps * frames
  {
    assert (j + 1) * numSteps <= frames * numSteps;
  }

  /** An attempt at a step of the sequence keeps every attempt at a step of the sequence, and the earlier ones. */
  lemma StepsBelowSnoc(before: seq<nat>, attempts: seq<nat>, i: nat, numSteps: nat)
    requires i < numSteps && forall m :: 0 <= m < |attempts| ==> attempts[m] < numSteps
    requires |before| <= |attempts| && attempts[..|before|] == before
    requires attempts != [] ==> attempts[0] == 0
    requires attempts == [] ==> i == 0
    ensures forall m :: 0 <= m < |attempts| + 1 ==> (attempts + [i])[m] < numSteps
    ensures (attempts + [i])[..|before|] == before && (attempts + [i])[0] == 0
  {
    assert (attempts + [i])[..|before|] == attempts[..|before|];
  }

  /** A finished frame adds one image per step. */
  lemma NextFrame(j: nat, numSteps: nat)
    ensures (j + 1) * numSteps == j * numSteps + numSteps
  {
  }

  lemma SuccessesSnoc(errs: seq<int>, k: nat)
    requires k < |errs|
    ensures Successes(errs[..k + 1]) == Successes(errs[..k]) + (if errs[k] >= 0 then 1 else 0)
  {
    assert errs[..k + 1][..k] == errs[..k];
  }

  /** One more attempt at step `i` keeps the chain, followed by the same step or the next. */
  lemma ChainStep(attempts: seq<nat>, errs: seq<int>, numSteps: nat, i: nat)
    requires i < numSteps && |attempts| < |errs|
    requires ChainedTo(attempts, errs, numSteps, i)
    ensures var i' := if errs[|attempts|] >= 0 then i + 1 else i;
      ChainedTo(attempts + [i], errs, numSteps, if i' < numSteps then i' else 0)
  {
    var a := attempts + [i];
    var next := if errs[|attempts|] >= 0 then NextStep(i, numSteps) else i;
    forall k | 0 <= k < |a|
      ensures (if k + 1 < |a| then a[k + 1] else next)
        == (if errs[k] < 0 then a[k] else NextStep(a[k], numSteps))
    {
      if k < |attempts| {
        assert a[k] == attempts[k];
        assert (if k + 1 < |attempts| then attempts[k + 1] else i)
          == (if errs[k] < 0 then attempts[k] else NextStep(attempts[k], numSteps));
        if k + 1 < |attempts| { assert a[k + 1] == attempts[k + 1]; }
      }
    }
  }

  lemma ChainedConsecutive(attempts: seq<nat>, errs: seq<int>, numSteps: nat, next: nat)
    requires |attempts| <= |errs|
    requires ChainedTo(attempts, errs, numSteps, next)
    ensures forall k :: 0 <= k < |attempts| - 1 ==>
      attempts[k + 1] == (if errs[k] < 0 then attempts[k] else NextStep(attempts[k], numSteps))
  {
  }
}

=== FILE: positioning.dfy ===
/**
 * The probe grid of the fluidics stage (logic/positioning_logic.py).
 *
 * Probes are numbered 1..num_x*num_y along a serpentine: even rows run in ascending x,
 * odd rows in descending x, rows in ascending y. Probe numbers map to grid points,
 * grid points scaled by the grid pitch and shifted by the origin map back to probe numbers,
 * and every stage movement goes through the z safety height.
 */
module Positioning {
  import opened Wrappers
  import PyDict

  /** Grid pitch in mm (class attributes delta_x, delta_y). */
  const DeltaX: real := 2.0
  const DeltaY: real := 2.0
  /** Default grid size (config options num_x, num_y). */
  const DefaultNumX: int := 10
  const DefaultNumY: int := 10

  type Coord = (int, int)
  type Pos3 = (real, real, real)

  /** Row `y` of the grid in the order the serpentine visits it. */
  function Row(nx: int, y: int): (r: seq<Coord>)
    ensures |r| == if nx > 0 then nx else 0
    ensures forall x :: 0 <= x < |r| ==> r[x] == (if y % 2 == 0 then x else nx - 1 - x, y)
  {
    if nx <= 0 then []
    else if y % 2 == 0 then seq(nx, x requires 0 <= x < nx => (x, y))
    else seq(nx, x requires 0 <= x < nx => (nx - 1 - x, y))
  }

  /**
   * The grid points sorted by y: even rows in ascending x, odd rows in descending x.
   * This is what sorting `list_even + list_odd` stably by the second component yields.
   */
  function Grid(nx: int, ny: int): seq<Coord>
    decreases if ny > 0 then ny else 0
  {
    if ny <= 0 then [] else Grid(nx, ny - 1) + Row(nx, ny - 1)
  }

  /** Closed form of the grid point of probe `k` (1-based). */
  function CoordOf(nx: int, k: int): Coord
    requires nx > 0 && k >= 1
  {
    var i := k - 1;
    var y := i / nx;
    (if y % 2 == 0 then i % nx else nx - 1 - i % nx, y)
  }

  /** Closed form of the probe number at grid point (x, y). */
  function ProbeAt(nx: int, c: Coord): int
  {
    c.1 * nx + (if c.1 % 2 == 0 then c.0 else nx - 1 - c.0) + 1
  }

  predicate InGrid(nx: int, ny: int, c: Coord)
  {
    0 <= c.0 < nx && 0 <= c.1 < ny
  }

  lemma MulAtLeast(d: int, n: int)
    requires n > 0 && d >= 1
    ensures d * n >= n
  {
    assert d * n == (d - 1) * n + n;
  }

  lemma DivModUnique(i: int, nx: int, q: int, j: int)
    requires nx > 0 && 0 <= j < nx && i == q * nx + j
    ensures i / nx == q && i % nx == j
  {
    var q' := i / nx;
    var j' := i % nx;
    assert i == q' * nx + j';
    if q' > q {
      assert (q' - q) * nx == q' * nx - q * nx;
      MulAtLeast(q' - q, nx);
    } else if q' < q {
      assert (q - q') * nx == q * nx - q' * nx;
      MulAtLeast(q - q', nx);
    }
  }

  lemma ProductSign(nx: int, ny: int)
    ensures nx < 0 && ny < 0 ==> nx * ny > 0
    ensures nx < 0 && ny > 0 ==> nx * ny < 0
    ensures nx > 0 && ny < 0 ==> nx * ny < 0
    ensures nx > 0 && ny > 0 ==> nx * ny > 0
    ensures nx == 0 || ny == 0 ==> nx * ny == 0
  {
    if nx < 0 && ny < 0 { assert nx * ny == (-nx) * (-ny); }
    if nx < 0 && ny > 0 { assert nx * ny == -((-nx) * ny); }
    if nx > 0 && ny < 0 { assert nx * ny == -(nx * (-ny)); }
  }

  lemma {:induction false} GridLength(nx: int, ny: int)
    ensures |Grid(nx, ny)| == if nx > 0 && ny > 0 then nx * ny else 0
    decreases if ny > 0 then ny else 0
  {
    if ny > 0 {
      GridLength(nx, ny - 1);
      if nx > 0 {
        assert nx * ny == nx * (ny - 1) + nx;
      }
    }
  }

  lemma {:induction false} GridSpec(nx: int, ny: int, i: int)
    requires nx > 0 && 0 <= i < |Grid(nx, ny)|
    ensures Grid(nx, ny)[i] == CoordOf(nx, i + 1)
    decreases if ny > 0 then ny else 0
  {
    var pre := Grid(nx, ny - 1);
    GridLength(nx, ny - 1);
    if i < |pre| {
      GridSpec(nx, ny - 1, i);
    } else {
      var j := i - |pre|;
      assert ny - 1 >= 0;
      assert |pre| == nx * (ny - 1);
      DivModUnique(i, nx, ny - 1, j);
      assert Grid(nx, ny)[i] == Row(nx, ny - 1)[j];
    }
  }

  /**
   * position_to_coordinates: probe k (1-based, k <= num_x*num_y) gets the k-th grid point.
   * If both sizes are negative the product is positive while the grid is empty: IndexError.
   */
  function PositionToCoordinates(nx: int, ny: int): Result<PyDict.Dict<int, Coord>>
  {
    var coords := Grid(nx, ny);
    var maxProbes := nx * ny;
    if maxProbes > |coords| then Err(IndexError)
    else
      var n := if maxProbes > 0 then maxProbes else 0;
      Ok(PyDict.FromPairs(seq(n, key requires 0 <= key < n => (key + 1, coords[key]))))
  }

  /** Independent closed form of the probe map: probe i+1 at the serpentine point CoordOf(i+1). */
  function ProbeMap(nx: int, ny: int): PyDict.Dict<int, Coord>
    requires nx > 0
  {
    var n := if ny > 0 then nx * ny else 0;
    seq(n, i requires 0 <= i < n => (i + 1, CoordOf(nx, i + 1)))
  }

  /** The closed-form probe map holds each probe number once. */
  lemma ProbeMapValid(nx: int, ny: int)
    requires nx > 0
    ensures PyDict.Valid(ProbeMap(nx, ny))
  {
    var ks := PyDict.Keys(ProbeMap(nx, ny));
    forall i, j | 0 <= i < j < |ks| ensures ks[i] != ks[j] {
      assert ks[i] == i + 1 && ks[j] == j + 1;
    }
  }

  /** Probe k is the entry at index k - 1 of the closed-form map. */
  lemma ProbeMapEntry(nx: int, ny: int, k: int)
    requires nx > 0 && 1 <= k <= |ProbeMap(nx, ny)|
    ensures ProbeMap(nx, ny)[k - 1] == (k, CoordOf(nx, k))
  {
  }

  lemma ProbeMapGet(nx: int, ny: int, k: int)
    requires nx > 0
    ensures 1 <= k <= |ProbeMap(nx, ny)| ==> PyDict.Get(ProbeMap(nx, ny), k) == Some(CoordOf(nx, k))
    ensures !(1 <= k <= |ProbeMap(nx, ny)|) ==> PyDict.Get(ProbeMap(nx, ny), k) == None
  {
    var d := ProbeMap(nx, ny);
    if 1 <= k <= |d| {
      ProbeMapValid(nx, ny);
      PyDict.GetAt(d, k - 1);
      ProbeMapEntry(nx, ny, k);
    } else {
      assert forall i :: 0 <= i < |d| ==> d[i].0 != k;
    }
  }

  /**
   * position_to_coordinates is an error exactly when both sizes are negative; otherwise it
   * is the closed-form probe map (empty when a size is not positive).
   */
  lemma PositionToCoordinatesSpec(nx: int, ny: int)
    ensures PositionToCoordinates(nx, ny).Err? <==> nx < 0 && ny < 0
    ensures nx <= 0 && !(nx < 0 && ny < 0) ==> PositionToCoordinates(nx, ny) == Ok([])
    ensures nx > 0 ==> PositionToCoordinates(nx, ny) == Ok(ProbeMap(nx, ny))
  {
    var coords := Grid(nx, ny);
    GridLength(nx, ny);
    ProductSign(nx, ny);
    if nx > 0 {
      var n := if ny > 0 then nx * ny else 0;
      var ps := seq(n, key requires 0 <= key < n => (key + 1, coords[key]));
      forall i | 0 <= i < n ensures ps[i] == ProbeMap(nx, ny)[i] {
        GridSpec(nx, ny, i);
      }
      assert ps == ProbeMap(nx, ny);
      assert PyDict.Distinct(PyDict.Keys(ps));
      PyDict.FromPairsDistinct(ps);
    }
  }

  /**
   * The probe map holds exactly the keys 1..num_x*num_y, ascending, each at its serpentine point.
   */
  lemma ProbeMapKeys(nx: int, ny: int)
    requires nx > 0 && ny > 0
    ensures PositionToCoordinates(nx, ny).Ok?
    ensures var d := PositionToCoordinates(nx, ny).value;
      |d| == nx * ny && forall i :: 0 <= i < |d| ==> PyDict.Keys(d)[i] == i + 1
  {
    PositionToCoordinatesSpec(nx, ny);
  }

  /** The closed forms are inverse to each other: probe numbering is a bijection onto the grid. */
  lemma ProbeAtCoordOf(nx: int, ny: int, k: int)
    requires nx > 0 && ny > 0 && 1 <= k <= nx * ny
    ensures InGrid(nx, ny, CoordOf(nx, k))
    ensures ProbeAt(nx, CoordOf(nx, k)) == k
  {
    var i := k - 1;
    var q := i / nx;
    assert i == q * nx + i % nx;
    if q >= ny {
      assert false;
    }
  }

  lemma CoordOfProbeAt(nx: int, ny: int, c: Coord)
    requires InGrid(nx, ny, c)
    ensures 1 <= ProbeAt(nx, c) <= nx * ny
    ensures CoordOf(nx, ProbeAt(nx, c)) == c
  {
    var j := if c.1 % 2 == 0 then c.0 else nx - 1 - c.0;
    var i := c.1 * nx + j;
    assert ProbeAt(nx, c) == i + 1;
    DivModUnique(i, nx, c.1, j);
    assert c.1 * nx >= 0;
    MulAtLeast(ny - c.1, nx);
    assert (ny - c.1) * nx == ny * nx - c.1 * nx;
  }

  /** Consecutive probes are neighbours on the grid (the serpentine never jumps). */
  lemma ConsecutiveProbesAdjacent(nx: int, ny: int, k: int)
    requires nx > 0 && ny > 0 && 1 <= k < nx * ny
    ensures var a := CoordOf(nx, k); var b := CoordOf(nx, k + 1);
      (a.1 == b.1 && (a.0 - b.0 == 1 || b.0 - a.0 == 1)) || (a.0 == b.0 && b.1 == a.1 + 1)
  {
    var i := k - 1;
    var q := i / nx;
    var j := i % nx;
    assert i == q * nx + j;
    if j < nx - 1 {
      DivModUnique(i + 1, nx, q, j + 1);
    } else {
      assert i + 1 == (q + 1) * nx + 0;
      DivModUnique(i + 1, nx, q + 1, 0);
    }
  }

  /** Within a row, x ascends on even rows and descends on odd rows. */
  lemma RowDirection(nx: int, ny: int, k: int)
    requires nx > 0 && ny > 0 && 1 <= k < nx * ny
    requires CoordOf(nx, k).1 == CoordOf(nx, k + 1).1
    ensures CoordOf(nx, k).1 % 2 == 0 ==> CoordOf(nx, k + 1).0 == CoordOf(nx, k).0 + 1
    ensures CoordOf(nx, k).1 % 2 == 1 ==> CoordOf(nx, k + 1).0 == CoordOf(nx, k).0 - 1
  {
    var i := k - 1;
    var q := i / nx;
    var j := i % nx;
    assert i == q * nx + j;
    if j < nx - 1 {
      DivModUnique(i + 1, nx, q, j + 1);
    } else {
      assert i + 1 == (q + 1) * nx + 0;
      DivModUnique(i + 1, nx, q + 1, 0);
    }
  }

  /** get_coordinates: a plain dict lookup, KeyError for an unknown probe. */
  function GetCoordinates(d: PyDict.Dict<int, Coord>, target: int): (r: Result<Coord>)
    ensures r.Err? <==> target !in PyDict.KeySet(d)
    ensures r.Err? ==> r.error == KeyError
    ensures r.Ok? ==> (target, r.value) in d
  {
    match PyDict.Get(d, target)
    case None => Err(KeyError)
    case Some(c) => Ok(c)
  }

  /** The metric xy position of a grid point for a given origin. */
  function XYPosition(origin: Pos3, c: Coord): (real, real)
  {
    (c.0 as real * DeltaX + origin.0, c.1 as real * DeltaY + origin.1)
  }

  /** Every probe of the dict paired with its metric xy position. */
  function XYPairs(d: PyDict.Dict<int, Coord>, origin: Pos3): seq<(int, (real, real))>
  {
    seq(|d|, i requires 0 <= i < |d| => (d[i].0, XYPosition(origin, d[i].1)))
  }

  /**
   * set_origin: map every probe to its metric xy position, then invert, so that a metric
   * position looks up its probe number.
   */
  function SetOrigin(d: PyDict.Dict<int, Coord>, origin: Pos3): PyDict.Dict<(real, real), int>
  {
    PyDict.Invert(XYPairs(d, origin))
  }

  /** Different grid points have different metric positions. */
  lemma XYPositionApart(origin: Pos3, a: Coord, b: Coord)
    requires a != b
    ensures XYPosition(origin, a) != XYPosition(origin, b)
  {
  }

  /** Two different probes of the closed-form map sit at different metric positions. */
  lemma ProbesApart(nx: int, ny: int, origin: Pos3, a: int, b: int)
    requires nx > 0 && ny > 0 && 0 <= a < b < nx * ny
    ensures XYPosition(origin, CoordOf(nx, a + 1)) != XYPosition(origin, CoordOf(nx, b + 1))
  {
    ProbeAtCoordOf(nx, ny, a + 1);
    ProbeAtCoordOf(nx, ny, b + 1);
    XYPositionApart(origin, CoordOf(nx, a + 1), CoordOf(nx, b + 1));
  }

  lemma XYPairsDistinct(nx: int, ny: int, origin: Pos3)
    requires nx > 0 && ny > 0
    ensures PyDict.Distinct(PyDict.Values(XYPairs(ProbeMap(nx, ny), origin)))
  {
    var d := ProbeMap(nx, ny);
    var vs := PyDict.Values(XYPairs(d, origin));
    forall a, b | 0 <= a < b < |vs| ensures vs[a] != vs[b] {
      assert vs[a] == XYPosition(origin, CoordOf(nx, a + 1));
      assert vs[b] == XYPosition(origin, CoordOf(nx, b + 1));
      ProbesApart(nx, ny, origin, a, b);
    }
  }

  /**
   * On the probe map built by position_to_coordinates, the xy lookup built by set_origin
   * sends the metric position of probe k back to k.
   */
  lemma SetOriginLookup(nx: int, ny: int, origin: Pos3, k: int)
    requires nx > 0 && ny > 0 && 1 <= k <= nx * ny
    ensures PositionToCoordinates(nx, ny).Ok?
    ensures var d := PositionToCoordinates(nx, ny).value;
      PyDict.Get(SetOrigin(d, origin), XYPosition(origin, CoordOf(nx, k))) == Some(k)
  {
    PositionToCoordinatesSpec(nx, ny);
    var d := ProbeMap(nx, ny);
    var xy := XYPairs(d, origin);
    XYPairsDistinct(nx, ny, origin);
    PyDict.InvertGet(xy, k - 1);
    ProbeMapEntry(nx, ny, k);
    assert xy[k - 1] == (d[k - 1].0, XYPosition(origin, d[k - 1].1));
  }

  /** A metric position that is no probe's position is not in the xy lookup. */
  lemma SetOriginOffGrid(d: PyDict.Dict<int, Coord>, origin: Pos3, p: (real, real))
    requires forall i :: 0 <= i < |d| ==> XYPosition(origin, d[i].1) != p
    ensures PyDict.Get(SetOrigin(d, origin), p) == None
  {
    PyDict.InvertMissing(XYPairs(d, origin), p);
  }

  // ---- stage movements ----

  /** One `move_abs` call: z alone, or x and y together. */
  datatype Move = MoveZ(z: real) | MoveXY(x: real, y: real)

  function Step(m: Move, p: Pos3): Pos3
  {
    match m
    case MoveZ(z) => (p.0, p.1, z)
    case MoveXY(x, y) => (x, y, p.2)
  }

  /** The stage position after the moves, from `p`. */
  function Apply(moves: seq<Move>, p: Pos3): Pos3
  {
    if moves == [] then p else Apply(moves[1..], Step(moves[0], p))
  }

  /** Every xy movement happens while z stands at the safety height. */
  predicate XYAtSafeHeight(moves: seq<Move>, z: real, safety: real)
  {
    moves == [] ||
    match moves[0]
    case MoveZ(z') => XYAtSafeHeight(moves[1..], z', safety)
    case MoveXY(_, _) => z == safety && XYAtSafeHeight(moves[1..], z, safety)
  }

  /** The moving flag and the `move_abs` calls of one movement request. */
  datatype Movement = Movement(moving: bool, moves: seq<Move>)

  function SafeMoves(safety: real, target: Pos3): seq<Move>
  {
    [MoveZ(safety), MoveXY(target.0, target.1), MoveZ(target.2)]
  }

  /** Whatever the start, the three moves end at the target and move xy only at the safety height. */
  lemma SafeMovesReachTarget(safety: real, target: Pos3)
    ensures forall start: Pos3 :: Apply(SafeMoves(safety, target), start) == target
    ensures forall z :: XYAtSafeHeight(SafeMoves(safety, target), z, safety)
  {
    var m := SafeMoves(safety, target);
    assert m[1..][1..][1..] == [];
    forall start: Pos3 ensures Apply(m, start) == target {
      var p1 := Step(m[0], start);
      var p2 := Step(m[1], p1);
      var p3 := Step(m[2], p2);
      assert Apply(m[1..][1..][1..], p3) == p3;
      assert Apply(m[1..][1..], p2) == p3;
      assert Apply(m[1..], p1) == p3;
    }
    forall z ensures XYAtSafeHeight(m, z, safety) {
      assert XYAtSafeHeight(m[1..][1..][1..], target.2, safety);
      assert XYAtSafeHeight(m[1..][1..], safety, safety);
    }
  }

  /**
   * move_stage: a position that is not of length 3 is refused and nothing moves; otherwise
   * z goes to the safety height, then xy, then z, and the moving flag is cleared at the end.
   */
  function MoveStage(moving: bool, position: seq<real>, safety: real): (r: Movement)
    ensures |position| != 3 ==> r == Movement(moving, [])
    ensures |position| == 3 ==> !r.moving
    ensures |position| == 3 ==> forall start: Pos3 ::
      Apply(r.moves, start) == (position[0], position[1], position[2])
    ensures forall z :: XYAtSafeHeight(r.moves, z, safety)
  {
    if |position| != 3 then Movement(moving, [])
    else
      var target := (position[0], position[1], position[2]);
      SafeMovesReachTarget(safety, target);
      Movement(false, SafeMoves(safety, target))
  }

  /**
   * move_to_target: the target is x = ox + cx*delta_x, y = oy + cy*delta_y at the origin's
   * height. An unknown probe raises KeyError and a missing origin TypeError, both after the
   * moving flag was set and before any move, so the flag stays set. The result is the
   * movement together with the error raised, if any.
   */
  function MoveToTarget(d: PyDict.Dict<int, Coord>, origin: Option<Pos3>, target: int, safety: real)
    : (r: (Movement, Option<PyError>))
    ensures r.1.None? <==> target in PyDict.KeySet(d) && origin.Some?
    ensures target !in PyDict.KeySet(d) ==> r == (Movement(true, []), Some(KeyError))
    ensures target in PyDict.KeySet(d) && origin.None? ==> r == (Movement(true, []), Some(TypeError))
    ensures r.1.None? ==> !r.0.moving && PyDict.Get(d, target).Some?
    ensures r.1.None? ==>
      var c := PyDict.Get(d, target).value;
      forall start: Pos3 :: Apply(r.0.moves, start) ==
        (origin.value.0 + c.0 as real * DeltaX, origin.value.1 + c.1 as real * DeltaY, origin.value.2)
    ensures forall z :: XYAtSafeHeight(r.0.moves, z, safety)
  {
    match GetCoordinates(d, target)
    case Err(e) => (Movement(true, []), Some(e))
    case Ok(c) =>
      if origin.None? then (Movement(true, []), Some(TypeError))
      else
        var o := origin.value;
        var goal := (o.0 + c.0 as real * DeltaX, o.1 + c.1 as real * DeltaY, o.2);
        SafeMovesReachTarget(safety, goal);
        (Movement(false, SafeMoves(safety, goal)), None)
  }

  /** Moving to probe k of the computed grid lands on the position the xy lookup knows as k. */
  lemma MoveToTargetLooksUpBack(nx: int, ny: int, origin: Pos3, safety: real, k: int, start: Pos3)
    requires nx > 0 && ny > 0 && 1 <= k <= nx * ny
    ensures PositionToCoordinates(nx, ny).Ok?
    ensures var d := PositionToCoordinates(nx, ny).value;
      var r := MoveToTarget(d, Some(origin), k, safety);
      r.1.None? && var p := Apply(r.0.moves, start);
        PyDict.Get(SetOrigin(d, origin), (p.0, p.1)) == Some(k)
  {
    PositionToCoordinatesSpec(nx, ny);
    SetOriginLookup(nx, ny, origin, k);
    ProbeMapGet(nx, ny, k);
    MoveToTargetLands(ProbeMap(nx, ny), origin, k, safety, start, CoordOf(nx, k));
  }

  /** Moving to a known probe puts the stage at that probe's metric xy position. */
  lemma MoveToTargetLands(d: PyDict.Dict<int, Coord>, origin: Pos3, k: int, safety: real, start: Pos3, c: Coord)
    requires PyDict.Get(d, k) == Some(c)
    ensures MoveToTarget(d, Some(origin), k, safety).1.None?
    ensures var p := Apply(MoveToTarget(d, Some(origin), k, safety).0.moves, start);
      (p.0, p.1) == XYPosition(origin, c)
  {
  }
}

=== FILE: pydict.dfy ===
/**
 * Python's insertion-ordered `dict`, as a sequence of key/value pairs.
 *
 * Assigning to a present key keeps its position; assigning to an absent key appends it;
 * `dict(pairs)` assigns the pairs in order, so a later duplicate key wins but keeps the
 * position of its first occurrence.
 */
module PyDict {
  import opened Wrappers

  type Dict<K, V> = seq<(K, V)>

  /** The keys in iteration order (`list(d)`). */
  function Keys<K, V>(d: Dict<K, V>): seq<K>
  {
    seq(|d|, i requires 0 <= i < |d| => d[i].0)
  }

  /** The values in iteration order (`list(d.values())`). */
  function Values<K, V>(d: Dict<K, V>): seq<V>
  {
    seq(|d|, i requires 0 <= i < |d| => d[i].1)
  }

  function KeySet<K, V>(d: Dict<K, V>): set<K>
  {
    set i | 0 <= i < |d| :: d[i].0
  }

  predicate Distinct<T(==)>(s: seq<T>)
  {
    forall i, j :: 0 <= i < j < |s| ==> s[i] != s[j]
  }

  /** A well-formed dict holds every key once. */
  predicate Valid<K(==,!new), V>(d: Dict<K, V>)
  {
    Distinct(Keys(d))
  }

  /** Position of the first pair with key `k`, or -1. */
  function Find<K(==,!new), V>(d: Dict<K, V>, k: K): (i: int)
    ensures -1 <= i < |d|
    ensures 0 <= i ==> d[i].0 == k
    ensures forall j :: 0 <= j < |d| && (i < 0 || j < i) ==> d[j].0 != k
  {
    if d == [] then -1
    else if d[0].0 == k then 0
    else
      var r := Find(d[1..], k);
      if r < 0 then -1 else r + 1
  }

  /** `d.get(k)`: the value stored under `k`, if any. */
  function Get<K(==,!new), V>(d: Dict<K, V>, k: K): (r: Option<V>)
    ensures r.Some? <==> k in KeySet(d)
    ensures r.Some? ==> (k, r.value) in d
  {
    var i := Find(d, k);
    if i < 0 then
      assert forall p | p in d :: p.0 != k;
      None
    else Some(d[i].1)
  }

  /** `d[k] = v`. */
  function Set<K(==,!new), V>(d: Dict<K, V>, k: K, v: V): (r: Dict<K, V>)
    ensures Get(r, k) == Some(v)
    ensures forall k' :: k' != k ==> Get(r, k') == Get(d, k')
    ensures KeySet(r) == KeySet(d) + {k}
    ensures Keys(r) == if k in KeySet(d) then Keys(d) else Keys(d) + [k]
    ensures k !in KeySet(d) ==> r == d + [(k, v)]
    ensures Valid(d) ==> Valid(r)
  {
    var i := Find(d, k);
    if i < 0 then
      var r := d + [(k, v)];
      assert r[|d|] == (k, v);
      assert Keys(r) == Keys(d) + [k];
      assert forall k' :: k' != k ==> Find(r, k') == Find(d, k') by {
        forall k' | k' != k ensures Find(r, k') == Find(d, k') { FindAppend(d, (k, v), k'); }
      }
      assert forall p | p in d :: p.0 != k;
      assert KeySet(r) == KeySet(d) + {k} by {
        forall j | 0 <= j < |d| ensures d[j].0 in KeySet(r) { assert r[j] == d[j]; }
      }
      r
    else
      var r := d[i := (k, v)];
      assert Keys(r) == Keys(d);
      assert Find(r, k) == i by { FindSame(d, r, k); }
      assert forall k' :: k' != k ==> Find(r, k') == Find(d, k') by {
        forall k' | k' != k ensures Find(r, k') == Find(d, k') { FindSame(d, r, k'); }
      }
      assert KeySet(r) == KeySet(d) by {
        assert forall p | p in r :: p.0 in KeySet(d) by {
          forall p | p in r ensures p.0 in KeySet(d) {
            var j :| 0 <= j < |r| && r[j] == p;
            assert d[j] in d;
          }
        }
        assert forall p | p in d :: p.0 in KeySet(r) by {
          forall p | p in d ensures p.0 in KeySet(r) {
            var j :| 0 <= j < |d| && d[j] == p;
            assert r[j] in r;
          }
        }
      }
      r
  }

  /** `del d[k]` when `k` is present; the dict is unchanged otherwise. */
  function Remove<K(==,!new), V>(d: Dict<K, V>, k: K): (r: Dict<K, V>)
    ensures k in KeySet(d) ==> |r| == |d| - 1
    ensures k !in KeySet(d) ==> r == d
    ensures Valid(d) ==> Valid(r) && Get(r, k) == None
    ensures Valid(d) ==> forall k' :: k' != k ==> Get(r, k') == Get(d, k')
    ensures Valid(d) ==> KeySet(r) == KeySet(d) - {k}
  {
    var i := Find(d, k);
    if i < 0 then
      assert forall p | p in d :: p.0 != k;
      d
    else
      var r := d[..i] + d[i + 1..];
      assert Keys(r) == Keys(d)[..i] + Keys(d)[i + 1..];
      if Valid(d) then
        RemoveAt(d, i);
        r
      else r
  }

  /** `dict(pairs)`: the pairs assigned left to right. */
  function FromPairs<K(==,!new), V>(ps: seq<(K, V)>): (r: Dict<K, V>)
    ensures Valid(r)
    ensures KeySet(r) == KeySet(ps)
  {
    if ps == [] then []
    else
      var n := |ps| - 1;
      var init := FromPairs(ps[..n]);
      KeySetSnoc(ps);
      Set(init, ps[n].0, ps[n].1)
  }

  /** The keys of all pairs are the keys of all but the last, and the last key. */
  lemma KeySetSnoc<K, V>(ps: seq<(K, V)>)
    requires ps != []
    ensures KeySet(ps) == KeySet(ps[..|ps| - 1]) + {ps[|ps| - 1].0}
  {
    var n := |ps| - 1;
    assert ps == ps[..n] + [ps[n]];
    forall i | 0 <= i < n ensures ps[..n][i].0 in KeySet(ps) {
      assert ps[..n][i] == ps[i];
    }
  }

  /** Building a dict from pairs with distinct keys keeps the pairs as they are. */
  lemma {:induction false} FromPairsDistinct<K(!new), V>(ps: seq<(K, V)>)
    requires Distinct(Keys(ps))
    ensures FromPairs(ps) == ps
  {
    if ps != [] {
      var init := ps[..|ps| - 1];
      var last := ps[|ps| - 1];
      DistinctInit(ps);
      FromPairsDistinct(init);
      FromPairsSnoc(ps, |ps| - 1);
      SetAbsent(init, last.0, last.1);
      assert ps == init + [last];
    }
  }

  /** Dropping the last pair keeps the keys distinct, and the last key is not among the others. */
  lemma DistinctInit<K, V>(ps: seq<(K, V)>)
    requires Distinct(Keys(ps)) && ps != []
    ensures Distinct(Keys(ps[..|ps| - 1]))
    ensures ps[|ps| - 1].0 !in KeySet(ps[..|ps| - 1])
  {
    var init := ps[..|ps| - 1];
    forall i, j | 0 <= i < j < |init| ensures Keys(init)[i] != Keys(init)[j] {
      assert Keys(init)[i] == Keys(ps)[i] && Keys(init)[j] == Keys(ps)[j];
    }
    forall j | 0 <= j < |init| ensures init[j].0 != ps[|ps| - 1].0 {
      assert Keys(ps)[j] != Keys(ps)[|ps| - 1];
    }
  }

  /** `dict((v, k) for k, v in d.items())`. */
  function Invert<K, V(==,!new)>(d: Dict<K, V>): Dict<V, K>
  {
    FromPairs(Swapped(d))
  }

  /** The items of `d` as (value, key) pairs, in order. */
  function Swapped<K, V>(d: Dict<K, V>): seq<(V, K)>
  {
    seq(|d|, i requires 0 <= i < |d| => (d[i].1, d[i].0))
  }

  /** The value `dict(pairs)` holds for a key is the one of the LAST pair with that key. */
  lemma {:induction false} FromPairsGet<K(!new), V>(ps: seq<(K, V)>, i: nat)
    requires i < |ps|
    requires forall j :: i < j < |ps| ==> ps[j].0 != ps[i].0
    ensures Get(FromPairs(ps), ps[i].0) == Some(ps[i].1)
    decreases |ps|
  {
    var last := |ps| - 1;
    if i < last {
      var init := ps[..last];
      FromPairsSnoc(ps, last);
      assert init[i] == ps[i];
      assert forall j :: i < j < |init| ==> init[j].0 != init[i].0 by {
        forall j | i < j < |init| ensures init[j].0 != init[i].0 {
          assert init[j] == ps[j];
        }
      }
      FromPairsGet(init, i);
      GetSetOther(FromPairs(init), ps[last].0, ps[last].1, ps[i].0);
    } else {
      FromPairsSnoc(ps, i);
      GetSetSame(FromPairs(ps[..i]), ps[i].0, ps[i].1);
    }
  }

  /** `dict(pairs)` is `dict` of all but the last pair, with the last pair assigned. */
  lemma FromPairsSnoc<K(!new), V>(ps: seq<(K, V)>, n: nat)
    requires n + 1 == |ps|
    ensures FromPairs(ps) == Set(FromPairs(ps[..n]), ps[n].0, ps[n].1)
  {
  }

  /** Assigning a key makes it find the assigned value. */
  lemma GetSetSame<K(!new), V>(d: Dict<K, V>, k: K, v: V)
    ensures Get(Set(d, k, v), k) == Some(v)
  {
  }

  /** Assigning one key leaves what another key finds. */
  lemma GetSetOther<K(!new), V>(d: Dict<K, V>, k: K, v: V, other: K)
    requires other != k
    ensures Get(Set(d, k, v), other) == Get(d, other)
  {
  }

  /** Assigning an absent key appends the pair. */
  lemma SetAbsent<K(!new), V>(d: Dict<K, V>, k: K, v: V)
    requires k !in KeySet(d)
    ensures Set(d, k, v) == d + [(k, v)]
  {
  }

  /**
   * Inverting a dict whose values are pairwise distinct maps each value back to its key.
   */
  lemma InvertGet<K, V(!new)>(d: Dict<K, V>, i: nat)
    requires i < |d|
    requires Distinct(Values(d))
    ensures Get(Invert(d), d[i].1) == Some(d[i].0)
  {
    var ps := Swapped(d);
    assert forall j :: i < j < |ps| ==> ps[j].0 != ps[i].0 by {
      forall j | i < j < |ps| ensures ps[j].0 != ps[i].0 {
        assert Values(d)[j] == d[j].1 && Values(d)[i] == d[i].1;
      }
    }
    FromPairsGet(ps, i);
  }

  /** A value not stored in the dict is absent from its inversion. */
  lemma InvertMissing<K, V(!new)>(d: Dict<K, V>, v: V)
    requires forall i :: 0 <= i < |d| ==> d[i].1 != v
    ensures Get(Invert(d), v) == None
  {
    var ps := Swapped(d);
    assert v !in set p | p in ps :: p.0;
  }

  lemma KeysMember<K, V>(d: Dict<K, V>, k: K)
    ensures k in Keys(d) <==> k in KeySet(d)
  {
    if k in KeySet(d) {
      var i :| 0 <= i < |d| && d[i].0 == k;
      assert Keys(d)[i] == k;
    }
  }

  /** `d.update(ps)`: the pairs assigned one after the other. */
  function SetAll<K(==,!new), V>(d: Dict<K, V>, ps: seq<(K, V)>): (r: Dict<K, V>)
    ensures KeySet(r) == KeySet(d) + KeySet(ps)
    ensures Valid(d) ==> Valid(r)
  {
    if ps == [] then d
    else
      var init := ps[..|ps| - 1];
      assert KeySet(ps) == KeySet(init) + {ps[|ps| - 1].0} by {
        assert forall i :: 0 <= i < |init| ==> init[i] == ps[i];
      }
      Set(SetAll(d, init), ps[|ps| - 1].0, ps[|ps| - 1].1)
  }

  /** A key none of the pairs assigns keeps its value. */
  lemma {:induction false} SetAllOther<K(!new), V>(d: Dict<K, V>, ps: seq<(K, V)>, k: K)
    requires k !in KeySet(ps)
    ensures Get(SetAll(d, ps), k) == Get(d, k)
  {
    if ps != [] {
      var init := ps[..|ps| - 1];
      assert ps[|ps| - 1].0 != k;
      assert k !in KeySet(init) by {
        assert forall i :: 0 <= i < |init| ==> init[i] == ps[i];
      }
      SetAllOther(d, init, k);
    }
  }

  /** A key takes the value of the last pair that assigns it. */
  lemma {:induction false} SetAllLast<K(!new), V>(d: Dict<K, V>, ps: seq<(K, V)>, i: nat)
    requires i < |ps| && forall j :: i < j < |ps| ==> ps[j].0 != ps[i].0
    ensures Get(SetAll(d, ps), ps[i].0) == Some(ps[i].1)
  {
    if i < |ps| - 1 {
      var init := ps[..|ps| - 1];
      assert init[i] == ps[i];
      SetAllLast(d, init, i);
    }
  }

  /** In a dict without repeated keys, the key of entry i finds entry i's value. */
  lemma GetAt<K(!new), V>(d: Dict<K, V>, i: nat)
    requires Valid(d) && i < |d|
    ensures Get(d, d[i].0) == Some(d[i].1)
  {
    var f := Find(d, d[i].0);
    assert f >= 0;
    assert Keys(d)[f] == d[f].0 && Keys(d)[i] == d[i].0;
  }

  /** Two dicts with the same key sequence have the same key set. */
  lemma SameKeys<K, V, W>(d: Dict<K, V>, r: Dict<K, W>)
    requires Keys(d) == Keys(r)
    ensures KeySet(d) == KeySet(r)
  {
    forall k | k in KeySet(d) ensures k in KeySet(r) { KeysMember(d, k); KeysMember(r, k); }
    forall k | k in KeySet(r) ensures k in KeySet(d) { KeysMember(d, k); KeysMember(r, k); }
  }

  // ---- helpers about Find ----

  lemma FindAppend<K(!new), V>(d: Dict<K, V>, p: (K, V), k: K)
    requires p.0 != k
    ensures Find(d + [p], k) == Find(d, k)
  {
    assert (d + [p])[|d|] == p;
    assert forall j :: 0 <= j < |d| ==> (d + [p])[j] == d[j];
  }

  /** Find depends only on the keys. */
  lemma FindSame<K(!new), V>(d: Dict<K, V>, r: Dict<K, V>, k: K)
    requires |d| == |r|
    requires forall j :: 0 <= j < |d| ==> d[j].0 == r[j].0
    ensures Find(r, k) == Find(d, k)
  {
  }

  lemma RemoveAtIndex<K, V>(d: Dict<K, V>, i: nat)
    requires i < |d|
    ensures var r := d[..i] + d[i + 1..];
      |r| == |d| - 1 && forall j :: 0 <= j < |r| ==> r[j] == d[if j < i then j else j + 1]
  {
  }

  lemma RemoveAtValid<K(!new), V>(d: Dict<K, V>, i: nat)
    requires Valid(d) && i < |d|
    ensures var r := d[..i] + d[i + 1..];
      Valid(r) && forall j :: 0 <= j < |r| ==> r[j].0 != d[i].0
  {
    var r := d[..i] + d[i + 1..];
    RemoveAtIndex(d, i);
    forall j | 0 <= j < |r| ensures r[j].0 != d[i].0 {
      var j' := if j < i then j else j + 1;
      assert Keys(d)[j'] != Keys(d)[i];
    }
    forall a, b | 0 <= a < b < |r| ensures Keys(r)[a] != Keys(r)[b] {
      var a' := if a < i then a else a + 1;
      var b' := if b < i then b else b + 1;
      assert Keys(r)[a] == Keys(d)[a'] && Keys(r)[b] == Keys(d)[b'];
    }
  }

  lemma RemoveAtGet<K(!new), V>(d: Dict<K, V>, i: nat, k': K)
    requires Valid(d) && i < |d| && k' != d[i].0
    ensures Get(d[..i] + d[i + 1..], k') == Get(d, k')
  {
    var r := d[..i] + d[i + 1..];
    RemoveAtIndex(d, i);
    var fr := Find(r, k');
    var fd := Find(d, k');
    if 0 <= fd {
      var e := if fd < i then fd else fd - 1;
      assert r[e] == d[fd];
    }
  }

  lemma RemoveAtKeySet<K(!new), V>(d: Dict<K, V>, i: nat)
    requires Valid(d) && i < |d|
    ensures KeySet(d[..i] + d[i + 1..]) == KeySet(d) - {d[i].0}
  {
    var r := d[..i] + d[i + 1..];
    RemoveAtIndex(d, i);
    RemoveAtValid(d, i);
    forall j | 0 <= j < |d| && d[j].0 != d[i].0 ensures d[j].0 in KeySet(r) {
      var e := if j < i then j else j - 1;
      assert r[e] == d[j];
    }
    forall j | 0 <= j < |r| ensures r[j].0 in KeySet(d) {
      var back := if j < i then j else j + 1;
      assert d[back] == r[j];
    }
  }

  lemma RemoveAt<K(!new), V>(d: Dict<K, V>, i: nat)
    requires Valid(d) && i < |d|
    ensures var r := d[..i] + d[i + 1..];
      Valid(r) && Get(r, d[i].0) == None
      && (forall k' :: k' != d[i].0 ==> Get(r, k') == Get(d, k'))
      && KeySet(r) == KeySet(d) - {d[i].0}
  {
    RemoveAtValid(d, i);
    RemoveAtKeySet(d, i);
    forall k' | k' != d[i].0 ensures Get(d[..i] + d[i + 1..], k') == Get(d, k') {
      RemoveAtGet(d, i, k');
    }
  }
}

=== FILE: roilist.dfy ===
/**
 * RegionOfInterestList and RegionOfInterest (logic/roi_logic.py): a named, timestamped,
 * insertion-ordered collection of ROI positions keyed by generated names 'ROI_001', ...
 *
 * The list origin is fixed at (0, 0, 0), so stored and reported positions coincide.
 */
module RoiList {
  import opened Wrappers
  import PyDict
  import Text
  import PyDateTime

  type Pos3 = (real, real, real)

  datatype RegionOfInterestList = RegionOfInterestList(
    name: string,
    created: PyDateTime.DateTime,
    rois: PyDict.Dict<string, Pos3>)

  /** What every list built through the constructor and the operations satisfies. */
  predicate Valid(l: RegionOfInterestList)
  {
    l.name != [] && PyDateTime.Valid(l.created) && PyDict.Valid(l.rois)
    && forall i :: 0 <= i < |l.rois| ==> l.rois[i].0 != []
  }

  /** The position setter: anything but three coordinates raises ValueError. */
  function ToPos3(p: seq<real>): (r: Result<Pos3>)
    ensures r.Ok? <==> |p| == 3
    ensures r.Err? ==> r.error == ValueError
    ensures r.Ok? ==> r.value == (p[0], p[1], p[2])
  {
    if |p| != 3 then Err(ValueError) else Ok((p[0], p[1], p[2]))
  }

  /**
   * `position - origin` with numpy, then the position setter: the origin is the length-3
   * zero vector, so a single coordinate is broadcast to all three axes, three coordinates
   * are kept, and any other length fails to broadcast (ValueError).
   */
  function Broadcast(p: seq<real>): (r: Result<Pos3>)
    ensures r.Ok? <==> |p| == 1 || |p| == 3
    ensures r.Err? ==> r.error == ValueError
    ensures |p| == 3 ==> r == ToPos3(p)
    ensures |p| == 1 ==> r == Ok((p[0], p[0], p[0]))
  {
    if |p| == 1 then Ok((p[0] - 0.0, p[0] - 0.0, p[0] - 0.0))
    else if |p| == 3 then ToPos3([p[0] - 0.0, p[1] - 0.0, p[2] - 0.0])
    else Err(ValueError)
  }

  /** The generated ROI name 'ROI_' + str(index).zfill(3). */
  function RoiName(index: nat): string
  {
    "ROI_" + Text.ZFill(Text.NatToString(index), 3)
  }

  /** Different indices give different names. */
  lemma RoiNameInjective(a: nat, b: nat)
    requires RoiName(a) == RoiName(b)
    ensures a == b
  {
    var za := Text.ZFill(Text.NatToString(a), 3);
    var zb := Text.ZFill(Text.NatToString(b), 3);
    assert za == RoiName(a)[4..] && zb == RoiName(b)[4..];
    Text.ZFillNat(a, 3);
    Text.ZFillNat(b, 3);
  }

  function RoiNames(l: RegionOfInterestList): seq<string>
  {
    PyDict.Keys(l.rois)
  }

  /**
   * The constructor: an empty or missing creation time means `now`; a text one is read with
   * '%Y-%m-%d %H:%M:%S.%f' (ValueError if it does not parse); an empty or missing name is
   * replaced by the default name of the creation time; ROI instances are stored by name.
   */
  function New(name: Option<string>, creationTime: Option<string>, rois: seq<(string, Pos3)>,
               now: PyDateTime.DateTime): (r: Result<RegionOfInterestList>)
    ensures r.Err? <==> creationTime.Some? && creationTime.value != []
                        && PyDateTime.Parse(creationTime.value).None?
    ensures r.Err? ==> r.error == ValueError
    ensures r.Ok? && name.Some? && name.value != [] ==> r.value.name == name.value
    ensures r.Ok? && (name.None? || name.value == []) ==>
      r.value.name == PyDateTime.DefaultListName(r.value.created)
    ensures r.Ok? && (creationTime.None? || creationTime.value == []) ==> r.value.created == now
    ensures r.Ok? && creationTime.Some? && creationTime.value != [] ==>
      PyDateTime.Parse(creationTime.value) == Some(r.value.created)
    ensures r.Ok? ==> PyDict.Valid(r.value.rois) && PyDict.KeySet(r.value.rois) == PyDict.KeySet(rois)
  {
    var created :=
      if creationTime.None? || creationTime.value == [] then Some(now)
      else PyDateTime.Parse(creationTime.value);
    if created.None? then Err(ValueError)
    else
      var n := if name.Some? && name.value != [] then name.value
               else PyDateTime.DefaultListName(created.value);
      Ok(RegionOfInterestList(n, created.value, PyDict.FromPairs(rois)))
  }

  /** Each given ROI is stored under its name, unless a later ROI of the same name replaces it. */
  lemma NewStoresRois(name: Option<string>, creationTime: Option<string>, rois: seq<(string, Pos3)>,
                      now: PyDateTime.DateTime, i: nat)
    requires New(name, creationTime, rois, now).Ok?
    requires i < |rois| && forall j :: i < j < |rois| ==> rois[j].0 != rois[i].0
    ensures PyDict.Get(New(name, creationTime, rois, now).value.rois, rois[i].0) == Some(rois[i].1)
  {
    PyDict.FromPairsGet(rois, i);
  }

  /** A creation time written with unpadded fields and a short fraction is read, not refused. */
  lemma NewReadsUnpadded(stamp: string, now: PyDateTime.DateTime)
    requires stamp == "2021-1- 5 9:3:7.5"
    ensures New(None, Some(stamp), [], now).Ok?
    ensures New(None, Some(stamp), [], now).value.created == PyDateTime.DateTime(2021, 1, 5, 9, 3, 7, 500000)
  {
    PyDateTime.ParseUnpadded(stamp);
  }

  /**
   * add_roi with a position: the ROI is stored as 'ROI_' + zfill3(count + 1). A name already
   * present is overwritten in place.
   */
  function AddRoi(l: RegionOfInterestList, position: seq<real>): (r: Result<RegionOfInterestList>)
    ensures r.Err? <==> |position| != 1 && |position| != 3
    ensures r.Err? ==> r.error == ValueError
    ensures r.Ok? ==> r.value.name == l.name && r.value.created == l.created
    ensures r.Ok? ==> PyDict.Get(r.value.rois, RoiName(|l.rois| + 1)) == Some(Broadcast(position).value)
    ensures r.Ok? ==> forall n :: n != RoiName(|l.rois| + 1) ==>
                      PyDict.Get(r.value.rois, n) == PyDict.Get(l.rois, n)
    ensures r.Ok? ==> PyDict.KeySet(r.value.rois) == PyDict.KeySet(l.rois) + {RoiName(|l.rois| + 1)}
    ensures r.Ok? && Valid(l) ==> Valid(r.value)
  {
    match Broadcast(position)
    case Err(e) => Err(e)
    case Ok(p) => Ok(l.(rois := PyDict.Set(l.rois, RoiName(|l.rois| + 1), p)))
  }

  /** The generated names of the indices 1 .. i-1. */
  function NamesBelow(i: nat): set<string>
  {
    set j | 1 <= j < i :: RoiName(j)
  }

  /** The first index from `i` on whose generated name is not taken. */
  function FirstFreeIndex(rois: PyDict.Dict<string, Pos3>, i: nat): (j: nat)
    requires i >= 1
    ensures j >= i && RoiName(j) !in PyDict.KeySet(rois)
    ensures forall m :: i <= m < j ==> RoiName(m) in PyDict.KeySet(rois)
    decreases PyDict.KeySet(rois) - NamesBelow(i)
  {
    if RoiName(i) !in PyDict.KeySet(rois) then i
    else
      assert RoiName(i) !in NamesBelow(i) by {
        forall j | 1 <= j < i ensures RoiName(j) != RoiName(i) {
          if RoiName(j) == RoiName(i) { RoiNameInjective(j, i); }
        }
      }
      assert NamesBelow(i + 1) == NamesBelow(i) + {RoiName(i)};
      FirstFreeIndex(rois, i + 1)
  }

  /**
   * add_roi as its authors' own commented-out revision writes it: the index counts up from
   * count + 1 until the generated name is free, so no existing ROI is overwritten.
   */
  function AddRoiFresh(l: RegionOfInterestList, position: seq<real>): (r: Result<RegionOfInterestList>)
    ensures r.Err? <==> |position| != 1 && |position| != 3
    ensures r.Err? ==> r.error == ValueError
    ensures r.Ok? ==> r.value.name == l.name && r.value.created == l.created
    ensures r.Ok? ==>
      exists k :: k >= |l.rois| + 1 && RoiName(k) !in PyDict.KeySet(l.rois)
        && r.value.rois == l.rois + [(RoiName(k), Broadcast(position).value)]
    ensures r.Ok? && Valid(l) ==> Valid(r.value)
  {
    match Broadcast(position)
    case Err(e) => Err(e)
    case Ok(p) =>
      var k := FirstFreeIndex(l.rois, |l.rois| + 1);
      Ok(l.(rois := PyDict.Set(l.rois, RoiName(k), p)))
  }

  /** delete_roi: KeyError for an absent name, otherwise that ROI alone is removed. */
  function DeleteRoi(l: RegionOfInterestList, name: string): (r: Result<RegionOfInterestList>)
    requires Valid(l)
    ensures r.Err? <==> name !in PyDict.KeySet(l.rois)
    ensures r.Err? ==> r.error == KeyError
    ensures r.Ok? ==> Valid(r.value) && r.value.name == l.name && r.value.created == l.created
    ensures r.Ok? ==> PyDict.KeySet(r.value.rois) == PyDict.KeySet(l.rois) - {name}
    ensures r.Ok? ==> |r.value.rois| == |l.rois| - 1
    ensures r.Ok? ==> forall n :: n != name ==> PyDict.Get(r.value.rois, n) == PyDict.Get(l.rois, n)
  {
    if name !in PyDict.KeySet(l.rois) then Err(KeyError)
    else
      var rois := PyDict.Remove(l.rois, name);
      assert forall i :: 0 <= i < |rois| ==> rois[i].0 != [] by {
        forall i | 0 <= i < |rois| ensures rois[i].0 != [] {
          assert rois[i].0 in PyDict.KeySet(rois);
        }
      }
      Ok(l.(rois := rois))
  }

  /** get_roi_position: KeyError for an absent name; the origin is zero. */
  function GetRoiPosition(l: RegionOfInterestList, name: string): (r: Result<Pos3>)
    ensures r.Err? <==> name !in PyDict.KeySet(l.rois)
    ensures r.Err? ==> r.error == KeyError
    ensures r.Ok? ==> (name, r.value) in l.rois
  {
    match PyDict.Get(l.rois, name)
    case None => Err(KeyError)
    case Some(p) => Ok(p)
  }

  /**
   * set_roi_position: KeyError for an absent name, then the broadcast against the origin
   * (ValueError unless the position has one or three coordinates); the ROI keeps its place
   * in the list.
   */
  function SetRoiPosition(l: RegionOfInterestList, name: string, position: seq<real>)
    : (r: Result<RegionOfInterestList>)
    ensures name !in PyDict.KeySet(l.rois) ==> r == Err(KeyError)
    ensures name in PyDict.KeySet(l.rois) && |position| != 1 && |position| != 3 ==> r == Err(ValueError)
    ensures name in PyDict.KeySet(l.rois) && (|position| == 1 || |position| == 3) ==> r.Ok?
    ensures r.Ok? ==> RoiNames(r.value) == RoiNames(l) && r.value.name == l.name
    ensures r.Ok? ==> forall n :: n != name ==> PyDict.Get(r.value.rois, n) == PyDict.Get(l.rois, n)
    ensures r.Ok? && Valid(l) ==> Valid(r.value)
  {
    if name !in PyDict.KeySet(l.rois) then Err(KeyError)
    else match Broadcast(position)
      case Err(e) => Err(e)
      case Ok(p) => Ok(l.(rois := PyDict.Set(l.rois, name, p)))
  }

  /** Setting a position and reading it back gives the new position. */
  lemma SetThenGetRoiPosition(l: RegionOfInterestList, name: string, position: seq<real>)
    requires name in PyDict.KeySet(l.rois) && (|position| == 1 || |position| == 3)
    ensures SetRoiPosition(l, name, position).Ok?
    ensures |position| == 3 ==>
      GetRoiPosition(SetRoiPosition(l, name, position).value, name) == Ok((position[0], position[1], position[2]))
    ensures |position| == 1 ==>
      GetRoiPosition(SetRoiPosition(l, name, position).value, name) == Ok((position[0], position[0], position[0]))
  {
  }

  // ---- dictionary representation ----

  /** `{'name': ..., 'position': ...}`; a missing key is `None`. */
  datatype RoiRepr = RoiRepr(name: Option<string>, position: Option<seq<real>>)

  /**
   * `{'name': ..., 'creation_time': ..., 'rois': [...]}`; a missing key is `None`. A 'rois'
   * key present with the value None (which Python would try to iterate) is not representable.
   */
  datatype ListRepr = ListRepr(name: Option<string>, creationTime: Option<string>,
                               rois: Option<seq<RoiRepr>>)

  function RoiToDict(n: string, p: Pos3): RoiRepr
  {
    RoiRepr(Some(n), Some([p.0, p.1, p.2]))
  }

  /** Every ROI of the list in its dictionary form, in list order. */
  function RoisToDict(rois: PyDict.Dict<string, Pos3>): seq<RoiRepr>
  {
    seq(|rois|, i requires 0 <= i < |rois| => RoiToDict(rois[i].0, rois[i].1))
  }

  /** to_dict: name, creation time as text, and every ROI in list order. */
  function ToDict(l: RegionOfInterestList): ListRepr
  {
    ListRepr(Some(l.name), Some(PyDateTime.Format(l.created)),
             Some(RoisToDict(l.rois)))
  }

  /**
   * RegionOfInterest.from_dict, i.e. RegionOfInterest(**d): a missing position is a
   * TypeError, a wrong-length one ValueError, and an empty or missing name reaches the
   * name setter's generic branch, which reads an attribute the ROI does not have.
   */
  function RoiFromDict(d: RoiRepr): (r: Result<(string, Pos3)>)
    ensures r.Ok? <==> d.position.Some? && |d.position.value| == 3 && d.name.Some? && d.name.value != []
    ensures r.Ok? ==> r.value == (d.name.value, (d.position.value[0], d.position.value[1], d.position.value[2]))
    ensures d.position.None? ==> r == Err(TypeError)
    ensures d.position.Some? && |d.position.value| != 3 ==> r == Err(ValueError)
    ensures d.position.Some? && |d.position.value| == 3 && (d.name.None? || d.name.value == []) ==>
      r == Err(AttributeError)
  {
    if d.position.None? then Err(TypeError)
    else match ToPos3(d.position.value)
      case Err(e) => Err(e)
      case Ok(p) =>
        if d.name.None? || d.name.value == [] then Err(AttributeError)
        else Ok((d.name.value, p))
  }

  /** The list comprehension over the ROI dicts: the first error stops it. */
  function RoisFromDict(ds: seq<RoiRepr>): (r: Result<seq<(string, Pos3)>>)
    ensures r.Ok? ==> |r.value| == |ds| && forall i :: 0 <= i < |ds| ==> RoiFromDict(ds[i]) == Ok(r.value[i])
    ensures r.Ok? <==> forall i :: 0 <= i < |ds| ==> RoiFromDict(ds[i]).Ok?
    ensures r.Err? ==> exists i :: 0 <= i < |ds| && RoiFromDict(ds[i]) == Err(r.error)
                        && forall j :: 0 <= j < i ==> RoiFromDict(ds[j]).Ok?
  {
    if ds == [] then Ok([])
    else match RoiFromDict(ds[0])
      case Err(e) => Err(e)
      case Ok(x) =>
        match RoisFromDict(ds[1..])
        case Err(e) =>
          ghost var i :| 0 <= i < |ds[1..]| && RoiFromDict(ds[1..][i]) == Err(e)
                         && forall j :: 0 <= j < i ==> RoiFromDict(ds[1..][j]).Ok?;
          assert RoiFromDict(ds[i + 1]) == Err(e);
          assert forall j :: 0 <= j < i + 1 ==> RoiFromDict(ds[j]).Ok? by {
            forall j | 0 <= j < i + 1 ensures RoiFromDict(ds[j]).Ok? {
              if j > 0 { assert ds[j] == ds[1..][j - 1]; }
            }
          }
          Err(e)
        case Ok(xs) =>
          assert forall i :: 0 <= i < |ds[1..]| ==> RoiFromDict(ds[1..][i]).Ok?;
          Ok([x] + xs)
  }

  /** from_dict: the ROIs are built first, then the list itself. */
  function FromDict(d: ListRepr, now: PyDateTime.DateTime): (r: Result<RegionOfInterestList>)
  {
    var rois := if d.rois.None? then Ok([]) else RoisFromDict(d.rois.value);
    match rois
    case Err(e) => Err(e)
    case Ok(rs) => New(d.name, d.creationTime, rs, now)
  }

  /**
   * Saving a list to its dictionary form and reading it back gives the same list: name,
   * creation time, and every ROI name and position in order.
   */
  lemma FromDictToDict(l: RegionOfInterestList, now: PyDateTime.DateTime)
    requires Valid(l)
    ensures FromDict(ToDict(l), now) == Ok(l)
  {
    var d := ToDict(l);
    RoisFromDictAllOk(l.rois);
    assert FromDict(d, now) == New(d.name, d.creationTime, l.rois, now);
    assert PyDateTime.Format(l.created) != [] by {
      assert |PyDateTime.Format(l.created)| >= 1;
    }
    PyDateTime.ParseFormat(l.created);
    PyDict.FromPairsDistinct(l.rois);
  }

  lemma {:induction false} RoisFromDictAllOk(rois: PyDict.Dict<string, Pos3>)
    requires forall i :: 0 <= i < |rois| ==> rois[i].0 != []
    ensures RoisFromDict(RoisToDict(rois)) == Ok(rois)
  {
    var ds := RoisToDict(rois);
    if rois != [] {
      var tail := rois[1..];
      RoisFromDictAllOk(tail);
      assert ds[1..] == RoisToDict(tail);
      assert rois == [rois[0]] + tail;
    }
  }

  // ---- the generated name can collide ----

  /**
   * As written, add_roi after deleting any but the last ROI overwrites an existing one:
   * with ROI_001 and ROI_002 present, deleting ROI_001 and adding a ROI stores it as
   * ROI_002 again, so the list still holds one ROI and the old ROI_002 position is lost.
   */
  lemma AddRoiOverwritesAfterDelete(now: PyDateTime.DateTime, p1: Pos3, p2: Pos3, p3: Pos3)
    requires PyDateTime.Valid(now) && p2 != p3
    ensures var l := RegionOfInterestList("roilist", now, [("ROI_001", p1), ("ROI_002", p2)]);
      Valid(l)
      && DeleteRoi(l, "ROI_001") == Ok(l.(rois := [("ROI_002", p2)]))
      && AddRoi(l.(rois := [("ROI_002", p2)]), [p3.0, p3.1, p3.2]) == Ok(l.(rois := [("ROI_002", p3)]))
  {
    var l := RegionOfInterestList("roilist", now, [("ROI_001", p1), ("ROI_002", p2)]);
    assert Text.NatToString(2) == "2";
    assert RoiName(2) == "ROI_002" by {
      assert Text.Zeros(2) == "00";
      assert Text.ZFill("2", 3) == "002";
    }
    assert PyDict.Keys(l.rois) == ["ROI_001", "ROI_002"];
    assert "ROI_001" in PyDict.KeySet(l.rois) by { assert l.rois[0].0 == "ROI_001"; }
    assert PyDict.Find(l.rois, "ROI_001") == 0;
    assert PyDict.Remove(l.rois, "ROI_001") == l.rois[..0] + l.rois[1..];
    assert l.rois[..0] + l.rois[1..] == [("ROI_002", p2)];
    var l2 := l.(rois := [("ROI_002", p2)]);
    assert PyDict.Find(l2.rois, "ROI_002") == 0;
    assert PyDict.Set(l2.rois, "ROI_002", p3) == [("ROI_002", p3)];
  }
}

=== FILE: roilogic.dfy ===
/**
 * RoiLogic (logic/roi_logic.py): the ROI list of the session plus the name of the active
 * ROI, and the operations the GUI triggers on them.
 */
module RoiLogic {
  import opened Wrappers
  import PyDict
  import PyDateTime
  import opened RoiList

  datatype RoiLogicState = RoiLogicState(roiList: RegionOfInterestList, active: Option<string>)

  /** The active ROI, when set, names a ROI of the list. */
  predicate ActiveInList(st: RoiLogicState)
  {
    st.active.Some? ==> st.active.value in PyDict.KeySet(st.roiList.rois)
  }

  predicate Valid(st: RoiLogicState)
  {
    RoiList.Valid(st.roiList) && ActiveInList(st)
  }

  /**
   * set_active_roi: None or '' clears the active ROI, a known name becomes active, and an
   * unknown name is only logged.
   */
  function SetActiveRoi(st: RoiLogicState, name: Option<string>): (r: RoiLogicState)
    ensures r.roiList == st.roiList
    ensures name.None? || name.value == [] ==> r.active == None
    ensures name.Some? && name.value != [] && name.value in PyDict.KeySet(st.roiList.rois) ==>
      r.active == name
    ensures name.Some? && name.value != [] && name.value !in PyDict.KeySet(st.roiList.rois) ==>
      r.active == st.active
    ensures ActiveInList(st) ==> ActiveInList(r)
  {
    if name.None? || name.value == [] then st.(active := None)
    else if name.value in RoiNames(st.roiList) then
      PyDict.KeysMember(st.roiList.rois, name.value);
      st.(active := name)
    else
      PyDict.KeysMember(st.roiList.rois, name.value);
      st
  }

  /**
   * delete_roi: with no ROIs nothing happens; no name means the active ROI (nothing happens
   * when there is none); an unknown name raises KeyError from the list. Deleting the active
   * ROI makes the first remaining ROI active, or none when the list became empty.
   */
  function DeleteRoi(st: RoiLogicState, name: Option<string>): (r: Result<RoiLogicState>)
    requires RoiList.Valid(st.roiList)
    ensures st.roiList.rois == [] ==> r == Ok(st)
    ensures st.roiList.rois != [] && name.None? && st.active.None? ==> r == Ok(st)
    ensures r.Err? <==> st.roiList.rois != [] && (name.Some? || st.active.Some?)
                        && name.GetOr(st.active.GetOr([])) !in PyDict.KeySet(st.roiList.rois)
    ensures r.Err? ==> r.error == KeyError
    ensures r.Ok? && st.roiList.rois != [] && (name.Some? || st.active.Some?) ==>
      var gone := name.GetOr(st.active.GetOr([]));
      PyDict.KeySet(r.value.roiList.rois) == PyDict.KeySet(st.roiList.rois) - {gone}
      && (st.active == Some(gone) ==>
            r.value.active == (if r.value.roiList.rois == [] then None
                               else Some(r.value.roiList.rois[0].0)))
      && (st.active != Some(gone) ==> r.value.active == st.active)
    ensures r.Ok? ==> RoiList.Valid(r.value.roiList)
    ensures r.Ok? && ActiveInList(st) ==> ActiveInList(r.value)
  {
    if st.roiList.rois == [] then Ok(st)
    else if name.None? && st.active.None? then Ok(st)
    else
      var gone := if name.Some? then name.value else st.active.value;
      match RoiList.DeleteRoi(st.roiList, gone)
      case Err(e) => Err(e)
      case Ok(l) =>
        var st' := st.(roiList := l);
        if st.active == Some(gone) then
          if |RoiNames(l)| > 0 then
            assert l.rois[0].0 in PyDict.KeySet(l.rois);
            Ok(SetActiveRoi(st', Some(RoiNames(l)[0])))
          else Ok(SetActiveRoi(st', None))
        else Ok(st')
  }

  /** delete_all_roi: the active ROI is cleared and every ROI deleted. */
  function DeleteAllRoi(st: RoiLogicState): (r: RoiLogicState)
    ensures r.roiList.rois == [] && r.active == None
    ensures r.roiList.name == st.roiList.name && r.roiList.created == st.roiList.created
  {
    RoiLogicState(st.roiList.(rois := []), None)
  }

  /**
   * add_roi as written: it passes `name=` to RegionOfInterestList.add_roi, whose only
   * parameter is `position`, so every call raises TypeError and nothing changes.
   */
  function AddRoiAsWritten(st: RoiLogicState, position: Option<seq<real>>, stagePosition: seq<real>)
    : (r: Result<RoiLogicState>)
    ensures r == Err(TypeError)
  {
    var _ := if position.None? then stagePosition else position.value;
    Err(TypeError)
  }

  /**
   * add_roi as intended: the position (or the current stage position) is added under a free
   * generated name, which is the one name new to the list and becomes the active ROI.
   */
  function AddRoi(st: RoiLogicState, position: Option<seq<real>>, stagePosition: seq<real>)
    : (r: Result<RoiLogicState>)
    requires Valid(st)
    ensures var p := if position.None? then stagePosition else position.value;
      (r.Err? <==> |p| != 1 && |p| != 3) && (r.Err? ==> r.error == ValueError)
    ensures r.Ok? ==> Valid(r.value) && r.value.active.Some?
    ensures r.Ok? ==> var n := r.value.active.value;
      n !in PyDict.KeySet(st.roiList.rois)
      && PyDict.KeySet(r.value.roiList.rois) == PyDict.KeySet(st.roiList.rois) + {n}
      && RoiNames(r.value.roiList) == RoiNames(st.roiList) + [n]
  {
    var p := if position.None? then stagePosition else position.value;
    match AddRoiFresh(st.roiList, p)
    case Err(e) => Err(e)
    case Ok(l) =>
      var n := l.rois[|l.rois| - 1].0;
      assert l.rois == st.roiList.rois + [l.rois[|l.rois| - 1]];
      assert RoiNames(l) == RoiNames(st.roiList) + [n];
      assert PyDict.KeySet(l.rois) == PyDict.KeySet(st.roiList.rois) + {n};
      var st' := st.(roiList := l);
      assert n in PyDict.KeySet(l.rois);
      Ok(SetActiveRoi(st', Some(n)))
  }

  /** Adding with the intended add_roi and then deleting the new ROI restores the ROIs. */
  lemma AddThenDeleteRoi(st: RoiLogicState, position: seq<real>, stagePosition: seq<real>)
    requires Valid(st) && (|position| == 1 || |position| == 3)
    ensures AddRoi(st, Some(position), stagePosition).Ok?
    ensures var a := AddRoi(st, Some(position), stagePosition).value;
      var d := DeleteRoi(a, None);
      d.Ok? && d.value.roiList.rois == st.roiList.rois
  {
    var a := AddRoi(st, Some(position), stagePosition).value;
    var n := a.active.value;
    var l := a.roiList;
    assert l.rois == st.roiList.rois + [l.rois[|l.rois| - 1]];
    assert PyDict.Keys(l.rois) == PyDict.Keys(st.roiList.rois) + [n];
    assert PyDict.Find(l.rois, n) == |l.rois| - 1 by {
      assert l.rois[|l.rois| - 1].0 == n;
      forall j | 0 <= j < |l.rois| - 1 ensures l.rois[j].0 != n {
        assert l.rois[j] == st.roiList.rois[j];
        assert st.roiList.rois[j].0 in PyDict.KeySet(st.roiList.rois);
      }
    }
    assert PyDict.Remove(l.rois, n) == st.roiList.rois;
  }

  /**
   * rename_roi_list: an empty name is refused with an error message; any other name
   * replaces the list name.
   */
  function RenameRoiList(st: RoiLogicState, newName: string): (r: RoiLogicState)
    ensures newName == [] ==> r == st
    ensures newName != [] ==>
      r.roiList.name == newName && r.roiList.rois == st.roiList.rois && r.active == st.active
    ensures RoiList.Valid(st.roiList) ==> RoiList.Valid(r.roiList)
  {
    if newName == [] then st else st.(roiList := st.roiList.(name := newName))
  }

  /**
   * _move_stage: a position that is not of length 3 is refused; otherwise x, y and z are
   * sent to the stage together.
   */
  function MoveStage(position: seq<real>): (r: Option<Pos3>)
    ensures r.Some? <==> |position| == 3
    ensures r.Some? ==> r.value == (position[0], position[1], position[2])
  {
    if |position| != 3 then None else Some((position[0], position[1], position[2]))
  }

  /**
   * go_to_roi: no name means the active ROI; with neither nothing moves; an unknown name
   * raises KeyError; otherwise the stage goes to the ROI's position.
   */
  function GoToRoi(st: RoiLogicState, name: Option<string>): (r: Result<Option<Pos3>>)
    ensures name.None? && st.active.None? ==> r == Ok(None)
    ensures var n := name.GetOr(st.active.GetOr([]));
      (name.Some? || st.active.Some?) ==>
        (n !in PyDict.KeySet(st.roiList.rois) ==> r == Err(KeyError))
        && (n in PyDict.KeySet(st.roiList.rois) ==>
              r.Ok? && r.value.Some? && (n, r.value.value) in st.roiList.rois)
  {
    var n := if name.Some? then name else st.active;
    if n.None? then Ok(None)
    else match GetRoiPosition(st.roiList, n.value)
      case Err(e) => Err(e)
      case Ok(p) => Ok(MoveStage([p.0, p.1, p.2]))
  }

  /** reset_roi_list: a fresh unnamed list created now, and no active ROI. */
  function ResetRoiList(now: PyDateTime.DateTime): (r: RoiLogicState)
    requires PyDateTime.Valid(now)
    ensures Valid(r) && r.roiList.rois == [] && r.active == None
    ensures r.roiList.created == now && r.roiList.name == PyDateTime.DefaultListName(now)
  {
    var l := New(None, None, [], now);
    RoiLogicState(l.value, None)
  }

  /**
   * load_roi_list: no path leaves everything as is; otherwise the list is read from its
   * dictionary form (errors propagate and change nothing) and its first ROI, if any,
   * becomes active.
   */
  function LoadRoiList(st: RoiLogicState, d: Option<ListRepr>, now: PyDateTime.DateTime)
    : (r: Result<RoiLogicState>)
    ensures d.None? ==> r == Ok(st)
    ensures d.Some? ==> (r.Ok? <==> FromDict(d.value, now).Ok?)
    ensures d.Some? && r.Ok? ==>
      r.value.roiList == FromDict(d.value, now).value
      && r.value.active == (if r.value.roiList.rois == [] then None else Some(r.value.roiList.rois[0].0))
  {
    if d.None? then Ok(st)
    else match FromDict(d.value, now)
      case Err(e) => Err(e)
      case Ok(l) =>
        var st' := st.(roiList := l);
        if |RoiNames(l)| == 0 then Ok(SetActiveRoi(st', None))
        else
          assert l.rois[0].0 in PyDict.KeySet(l.rois);
          if l.rois[0].0 == [] then Ok(st'.(active := None))
          else Ok(SetActiveRoi(st', Some(RoiNames(l)[0])))
  }

  /** Saving the session's list and loading it back restores the list, with its first ROI active. */
  lemma SaveThenLoad(st: RoiLogicState, now: PyDateTime.DateTime)
    requires Valid(st)
    ensures LoadRoiList(st, Some(ToDict(st.roiList)), now).Ok?
    ensures var r := LoadRoiList(st, Some(ToDict(st.roiList)), now).value;
      r.roiList == st.roiList && ActiveInList(r)
  {
    FromDictToDict(st.roiList, now);
  }
}

=== FILE: scanner.dfy ===
/**
 * The bookkeeping rules of the confocal scanner logic (logic/scanner_3D_logic.py): range
 * checks, the recorded current position, the gating of a move, the start-up checks of an
 * image scan and the names of the per-line data files.
 *
 * The scan ranges are an ordered dict with the axes x, y and z; the recorded position holds
 * x, y, z and a fourth axis "a" that has no range. The hardware move of one axis is a
 * parameter `hw` that gives the return code of that move.
 */
module Scanner3D {
  import opened Wrappers
  import PyDict
  import Text
  import Numeric

  // ---- ranges ----

  /** `x` pushed into the bounds; a missing bound does not push. */
  function ClampTo(x: real, lo: Option<real>, hi: Option<real>): real
  {
    if lo.Some? && x < lo.value then lo.value
    else if hi.Some? && x > hi.value then hi.value
    else x
  }

  /** in_range: a bound of None is no bound. */
  function InRange(x: real, lo: Option<real>, hi: Option<real>): (b: bool)
    ensures b <==> ClampTo(x, lo, hi) == x
    ensures b && lo.Some? && hi.Some? ==> lo.value <= hi.value
  {
    (lo.None? || lo.value <= x) && (hi.None? || hi.value >= x)
  }

  /** The points between two points of a range are in it too. */
  lemma InRangeBetween(a: real, b: real, x: real, lo: Option<real>, hi: Option<real>)
    requires InRange(a, lo, hi) && InRange(b, lo, hi) && a <= x <= b
    ensures InRange(x, lo, hi)
  {
  }

  /** The position range of one axis, as the hardware reports it. */
  datatype Span = Span(lo: real, hi: real)

  /** One range per axis x, y and z. */
  datatype Box = Box(x: Span, y: Span, z: Span)

  predicate Within(s: Span, v: real)
  {
    InRange(v, Some(s.lo), Some(s.hi))
  }

  /** The ordered dict of scan ranges built at activation. */
  function AxisRanges(b: Box): (d: PyDict.Dict<string, Span>)
    ensures PyDict.Valid(d) && PyDict.Keys(d) == ["x", "y", "z"]
  {
    [("x", b.x), ("y", b.y), ("z", b.z)]
  }

  /** The position recorded at activation: x, y and z at their lower bounds, and "a" at 0. */
  function InitialPosition(b: Box): (d: PyDict.Dict<string, real>)
    ensures PyDict.Valid(d) && PyDict.Keys(d) == ["x", "y", "z", "a"]
  {
    [("x", b.x.lo), ("y", b.y.lo), ("z", b.z.lo), ("a", 0.0)]
  }

  /**
   * _check_if_pos_in_range: 0 when the position lies in the axis's range, -1 when it does
   * not; an axis without a range raises KeyError.
   */
  function CheckIfPosInRange(ranges: PyDict.Dict<string, Span>, position: real, axis: string): (r: Result<int>)
    ensures r == Err(KeyError) <==> axis !in PyDict.KeySet(ranges)
    ensures r == Ok(0) <==> axis in PyDict.KeySet(ranges) && Within(PyDict.Get(ranges, axis).value, position)
    ensures r.Ok? ==> r.value == 0 || r.value == -1
  {
    match PyDict.Get(ranges, axis)
    case None => Err(KeyError)
    case Some(s) => if !InRange(position, Some(s.lo), Some(s.hi)) then Ok(-1) else Ok(0)
  }

  /** At activation the recorded position of every ranged axis passes its range check. */
  lemma InitialPositionInRange(b: Box, axis: string)
    requires b.x.lo <= b.x.hi && b.y.lo <= b.y.hi && b.z.lo <= b.z.hi
    requires axis in PyDict.KeySet(AxisRanges(b))
    ensures axis in PyDict.KeySet(InitialPosition(b))
    ensures CheckIfPosInRange(AxisRanges(b), PyDict.Get(InitialPosition(b), axis).value, axis) == Ok(0)
  {
    PyDict.KeysMember(AxisRanges(b), axis);
    assert axis == "x" || axis == "y" || axis == "z";
    assert PyDict.Keys(InitialPosition(b))[if axis == "x" then 0 else if axis == "y" then 1 else 2] == axis;
    PyDict.KeysMember(InitialPosition(b), axis);
  }

  // ---- the recorded position ----

  /**
   * update_current_position: each axis of the update that the recorded position already
   * has takes the new value; other axes of the update are only logged.
   */
  function UpdateCurrentPosition(current: PyDict.Dict<string, real>, update: PyDict.Dict<string, real>): (r: PyDict.Dict<string, real>)
    requires PyDict.Valid(update)
    ensures PyDict.Keys(r) == PyDict.Keys(current)
    ensures forall k :: PyDict.Get(r, k)
                        == if k in PyDict.KeySet(current) && k in PyDict.KeySet(update) then PyDict.Get(update, k)
                           else PyDict.Get(current, k)
  {
    if update == [] then current
    else
      var init := update[..|update| - 1];
      var (key, value) := update[|update| - 1];
      SnocGets(update);
      var prev := UpdateCurrentPosition(current, init);
      if key in PyDict.KeySet(current) then
        PyDict.KeysMember(current, key);
        PyDict.KeysMember(prev, key);
        PyDict.Set(prev, key, value)
      else prev
  }

  /** In a dict without repeated keys the last pair is the one its key finds, and no other key moves. */
  lemma SnocGets<K(!new), V>(d: PyDict.Dict<K, V>)
    requires PyDict.Valid(d) && d != []
    ensures PyDict.Valid(d[..|d| - 1])
    ensures PyDict.Get(d, d[|d| - 1].0) == Some(d[|d| - 1].1)
    ensures PyDict.KeySet(d) == PyDict.KeySet(d[..|d| - 1]) + {d[|d| - 1].0}
    ensures forall k :: k != d[|d| - 1].0 ==> PyDict.Get(d, k) == PyDict.Get(d[..|d| - 1], k)
  {
    var init := d[..|d| - 1];
    assert d == init + [d[|d| - 1]];
    assert forall i :: 0 <= i < |init| ==> init[i] == d[i] && PyDict.Keys(init)[i] == PyDict.Keys(d)[i];
    PyDict.GetAt(d, |d| - 1);
    forall k | k != d[|d| - 1].0 ensures PyDict.Get(d, k) == PyDict.Get(init, k) {
      PyDict.FindAppend(init, d[|d| - 1], k);
    }
  }

  /** Two dicts with the same keys in the same order and the same lookups are equal. */
  lemma DictExt<K(!new), V>(a: PyDict.Dict<K, V>, b: PyDict.Dict<K, V>)
    requires PyDict.Valid(a) && PyDict.Keys(a) == PyDict.Keys(b)
    requires forall k :: PyDict.Get(a, k) == PyDict.Get(b, k)
    ensures a == b
  {
    assert |a| == |PyDict.Keys(a)| == |PyDict.Keys(b)| == |b|;
    forall i | 0 <= i < |a| ensures a[i] == b[i] {
      assert PyDict.Keys(a)[i] == a[i].0 && PyDict.Keys(b)[i] == b[i].0;
      PyDict.GetAt(a, i);
      PyDict.GetAt(b, i);
    }
  }

  /** Applying the same update twice records the same position as applying it once. */
  lemma UpdateIdempotent(current: PyDict.Dict<string, real>, update: PyDict.Dict<string, real>)
    requires PyDict.Valid(current) && PyDict.Valid(update)
    ensures UpdateCurrentPosition(UpdateCurrentPosition(current, update), update) == UpdateCurrentPosition(current, update)
  {
    var once := UpdateCurrentPosition(current, update);
    PyDict.SameKeys(once, current);
    DictExt(once, UpdateCurrentPosition(once, update));
  }

  // ---- moving ----

  /** The range of `axis` admits `v`. */
  predicate Admits(ranges: PyDict.Dict<string, Span>, axis: string, v: real)
  {
    match PyDict.Get(ranges, axis)
    case None => false
    case Some(s) => Within(s, v)
  }

  /** The failure test of move_to_position as written: a positive return code. */
  predicate AsWrittenFailure(code: int) { 0 < code }

  /** The failure test the return-code convention (0 OK, -1 error) calls for. */
  predicate Failure(code: int) { code < 0 }

  /**
   * move_to_position, for a given failure test: the requested axes in order; an unknown
   * axis, an unchanged value and a value out of range are skipped; an axis the recorded
   * position has but the ranges do not raises KeyError; otherwise the axis is moved, and a
   * move whose code fails the test ends the call with -1 before the value is recorded.
   * The recorded position is returned with the outcome, since the axes moved before a
   * KeyError or a failed move stay recorded.
   */
  function MoveWith(current: PyDict.Dict<string, real>, ranges: PyDict.Dict<string, Span>,
                    request: PyDict.Dict<string, real>, hw: (string, real) -> int,
                    failed: int -> bool): (r: (PyDict.Dict<string, real>, Result<int>))
    ensures PyDict.Keys(r.0) == PyDict.Keys(current)
    ensures r.1.Ok? ==> r.1.value == 0 || r.1.value == -1
    ensures r.1.Err? ==> r.1.error == KeyError
    decreases |request|
  {
    if request == [] then (current, Ok(0))
    else
      var (key, value) := request[0];
      var rest := request[1..];
      match PyDict.Get(current, key)
      case None => MoveWith(current, ranges, rest, hw, failed)
      case Some(now) =>
        if value == now then MoveWith(current, ranges, rest, hw, failed)
        else
          match PyDict.Get(ranges, key)
          case None => (current, Err(KeyError))
          case Some(s) =>
            if !InRange(value, Some(s.lo), Some(s.hi)) then MoveWith(current, ranges, rest, hw, failed)
            else if failed(hw(key, value)) then (current, Ok(-1))
            else
              PyDict.KeysMember(current, key);
              MoveWith(PyDict.Set(current, key, value), ranges, rest, hw, failed)
  }

  /** move_to_position as written: only a positive code counts as a failure. */
  function MoveToPositionAsWritten(current: PyDict.Dict<string, real>, ranges: PyDict.Dict<string, Span>,
                                   request: PyDict.Dict<string, real>, hw: (string, real) -> int)
    : (r: (PyDict.Dict<string, real>, Result<int>))
    ensures PyDict.Keys(r.0) == PyDict.Keys(current)
    ensures r.1.Err? ==> r.1.error == KeyError
  {
    MoveWith(current, ranges, request, hw, AsWrittenFailure)
  }

  /** move_to_position with a negative code counted as the failure it reports. */
  function MoveToPosition(current: PyDict.Dict<string, real>, ranges: PyDict.Dict<string, Span>,
                          request: PyDict.Dict<string, real>, hw: (string, real) -> int)
    : (r: (PyDict.Dict<string, real>, Result<int>))
    ensures PyDict.Keys(r.0) == PyDict.Keys(current)
    ensures r.1.Err? ==> r.1.error == KeyError
  {
    MoveWith(current, ranges, request, hw, Failure)
  }

  /** Axis `k` was requested at a value its range admits, and its move passed the test. */
  predicate MovedTo(request: PyDict.Dict<string, real>, ranges: PyDict.Dict<string, Span>,
                    hw: (string, real) -> int, failed: int -> bool, d: PyDict.Dict<string, real>, k: string)
  {
    match PyDict.Get(request, k)
    case None => false
    case Some(v) => PyDict.Get(d, k) == Some(v) && Admits(ranges, k, v) && !failed(hw(k, v))
  }

  /** The first pair of a dict without repeated keys is what its key finds; the rest keep the other keys. */
  lemma TailGets<K(!new), V>(d: PyDict.Dict<K, V>)
    requires PyDict.Valid(d) && d != []
    ensures PyDict.Valid(d[1..])
    ensures PyDict.Get(d, d[0].0) == Some(d[0].1) && PyDict.Get(d[1..], d[0].0) == None
    ensures forall k :: k != d[0].0 ==> PyDict.Get(d[1..], k) == PyDict.Get(d, k)
  {
    assert forall i :: 0 <= i < |d| - 1 ==> PyDict.Keys(d[1..])[i] == PyDict.Keys(d)[i + 1];
    PyDict.GetAt(d, 0);
    assert d[0].0 !in PyDict.KeySet(d[1..]) by {
      forall i | 0 <= i < |d| - 1 ensures d[1..][i].0 != d[0].0 {
        assert PyDict.Keys(d)[0] == d[0].0 && PyDict.Keys(d)[i + 1] == d[i + 1].0;
      }
    }
  }

  /** The request has an axis that is recorded, has no range, and still holds its recorded value in `d`. */
  predicate UnrangedAxis(request: PyDict.Dict<string, real>, ranges: PyDict.Dict<string, Span>,
                         current: PyDict.Dict<string, real>, d: PyDict.Dict<string, real>)
  {
    exists i :: 0 <= i < |request| && request[i].0 in PyDict.KeySet(current) && request[i].0 !in PyDict.KeySet(ranges)
      && PyDict.Get(d, request[i].0) == PyDict.Get(current, request[i].0)
  }

  /** The request has an axis whose admitted move failed the test, and that still holds its recorded value in `d`. */
  predicate FailedAxis(request: PyDict.Dict<string, real>, ranges: PyDict.Dict<string, Span>,
                       hw: (string, real) -> int, failed: int -> bool,
                       current: PyDict.Dict<string, real>, d: PyDict.Dict<string, real>)
  {
    exists i :: 0 <= i < |request| && failed(hw(request[i].0, request[i].1)) && Admits(ranges, request[i].0, request[i].1)
      && PyDict.Get(d, request[i].0) == PyDict.Get(current, request[i].0)
  }

  /** Every requested axis that is recorded and whose range admits the value holds that value in `d`. */
  predicate AllAdmittedMoved(request: PyDict.Dict<string, real>, ranges: PyDict.Dict<string, Span>,
                             current: PyDict.Dict<string, real>, d: PyDict.Dict<string, real>)
  {
    forall k :: k in PyDict.KeySet(current) && PyDict.Get(request, k).Some? && Admits(ranges, k, PyDict.Get(request, k).value) ==>
      PyDict.Get(d, k) == PyDict.Get(request, k)
  }

  /** A recorded value in `d` differs from `current` only for an axis that was moved to. */
  ghost predicate OnlyMoved(request: PyDict.Dict<string, real>, ranges: PyDict.Dict<string, Span>,
                      hw: (string, real) -> int, failed: int -> bool,
                      current: PyDict.Dict<string, real>, d: PyDict.Dict<string, real>)
  {
    forall k :: PyDict.Get(d, k) == PyDict.Get(current, k) || MovedTo(request, ranges, hw, failed, d, k)
  }

  /**
   * What a move records, for any failure test and whatever the outcome: a recorded value
   * differs from before only for an axis requested at an admitted value whose move passed
   * the test. A result of 0 means every requested axis the recorded position has and whose
   * range admits the value is now at that value; a result of -1 names a requested axis
   * whose move failed the test and that kept its recorded value; KeyError names a
   * requested, recorded axis with no range that kept its recorded value, the axes moved
   * before it staying recorded.
   */
  lemma {:induction false} MoveSpec(current: PyDict.Dict<string, real>, ranges: PyDict.Dict<string, Span>,
                                    request: PyDict.Dict<string, real>, hw: (string, real) -> int, failed: int -> bool)
    requires PyDict.Valid(request)
    ensures var r := MoveWith(current, ranges, request, hw, failed);
      OnlyMoved(request, ranges, hw, failed, current, r.0)
    ensures var r := MoveWith(current, ranges, request, hw, failed);
      r.1 == Ok(0) ==> AllAdmittedMoved(request, ranges, current, r.0)
    ensures var r := MoveWith(current, ranges, request, hw, failed);
      r.1 == Ok(-1) ==> FailedAxis(request, ranges, hw, failed, current, r.0)
    ensures var r := MoveWith(current, ranges, request, hw, failed);
      r.1.Err? ==> r.1.error == KeyError && UnrangedAxis(request, ranges, current, r.0)
    decreases |request|
  {
    if request != [] {
      var (key, value) := request[0];
      var rest := request[1..];
      TailGets(request);
      assert forall i :: 0 <= i < |rest| ==> rest[i] == request[i + 1];
      match PyDict.Get(current, key) {
        case None =>
          MoveSpec(current, ranges, rest, hw, failed);
          MoveSkip(current, ranges, request, hw, failed, MoveWith(current, ranges, rest, hw, failed));
        case Some(now) =>
          if value == now {
            MoveSpec(current, ranges, rest, hw, failed);
            MoveSkip(current, ranges, request, hw, failed, MoveWith(current, ranges, rest, hw, failed));
          } else {
            match PyDict.Get(ranges, key) {
              case None =>
                PyDict.KeysMember(current, key);
                assert request[0] == (key, value);
              case Some(s) =>
                if !InRange(value, Some(s.lo), Some(s.hi)) {
                  MoveSpec(current, ranges, rest, hw, failed);
                  MoveSkip(current, ranges, request, hw, failed, MoveWith(current, ranges, rest, hw, failed));
                } else if failed(hw(key, value)) {
                  assert request[0] == (key, value);
                } else {
                  PyDict.KeysMember(current, key);
                  var next := PyDict.Set(current, key, value);
                  MoveSpec(next, ranges, rest, hw, failed);
                  MoveStep(current, ranges, request, hw, failed, next, MoveWith(next, ranges, rest, hw, failed));
                }
            }
          }
      }
    }
  }

  /** A skipped first pair: the rest of the request decides, and the first axis keeps its value. */
  lemma MoveSkip(current: PyDict.Dict<string, real>, ranges: PyDict.Dict<string, Span>,
                 request: PyDict.Dict<string, real>, hw: (string, real) -> int, failed: int -> bool,
                 r: (PyDict.Dict<string, real>, Result<int>))
    requires PyDict.Valid(request) && request != []
    requires var (key, value) := request[0];
      PyDict.Get(current, key).None? || PyDict.Get(current, key) == Some(value)
      || (PyDict.Get(ranges, key).Some? && !Admits(ranges, key, value))
    requires OnlyMoved(request[1..], ranges, hw, failed, current, r.0)
    requires r.1 == Ok(0) ==> AllAdmittedMoved(request[1..], ranges, current, r.0)
    requires r.1 == Ok(-1) ==> FailedAxis(request[1..], ranges, hw, failed, current, r.0)
    requires r.1.Err? ==> UnrangedAxis(request[1..], ranges, current, r.0)
    ensures OnlyMoved(request, ranges, hw, failed, current, r.0)
    ensures r.1 == Ok(0) ==> AllAdmittedMoved(request, ranges, current, r.0)
    ensures r.1 == Ok(-1) ==> FailedAxis(request, ranges, hw, failed, current, r.0)
    ensures r.1.Err? ==> UnrangedAxis(request, ranges, current, r.0)
  {
    TailGets(request);
    var key := request[0].0;
    forall k ensures PyDict.Get(r.0, k) == PyDict.Get(current, k) || MovedTo(request, ranges, hw, failed, r.0, k) {
      if k != key {
        assert MovedTo(request[1..], ranges, hw, failed, r.0, k) == MovedTo(request, ranges, hw, failed, r.0, k);
      } else {
        assert !MovedTo(request[1..], ranges, hw, failed, r.0, k);
      }
    }
    if r.1 == Ok(0) {
      forall k | k in PyDict.KeySet(current) && PyDict.Get(request, k).Some? && Admits(ranges, k, PyDict.Get(request, k).value)
        ensures PyDict.Get(r.0, k) == PyDict.Get(request, k)
      {
        if k == key {
          assert PyDict.Get(r.0, k) == PyDict.Get(current, k) by {
            assert !MovedTo(request[1..], ranges, hw, failed, r.0, k);
          }
        }
      }
    }
    if r.1 == Ok(-1) {
      ShiftFailedAxis(request, ranges, hw, failed, current, current, r.0);
    }
    if r.1.Err? {
      ShiftUnrangedAxis(request, ranges, current, current, r.0);
    }
  }

  /** A witness in the rest of the request, for an axis other than the first, is one for the whole. */
  lemma ShiftFailedAxis(request: PyDict.Dict<string, real>, ranges: PyDict.Dict<string, Span>,
                        hw: (string, real) -> int, failed: int -> bool,
                        current: PyDict.Dict<string, real>, next: PyDict.Dict<string, real>, d: PyDict.Dict<string, real>)
    requires PyDict.Valid(request) && request != []
    requires forall k :: k != request[0].0 ==> PyDict.Get(next, k) == PyDict.Get(current, k)
    requires FailedAxis(request[1..], ranges, hw, failed, next, d)
    ensures FailedAxis(request, ranges, hw, failed, current, d)
  {
    var rest := request[1..];
    var i :| 0 <= i < |rest| && failed(hw(rest[i].0, rest[i].1)) && Admits(ranges, rest[i].0, rest[i].1)
      && PyDict.Get(d, rest[i].0) == PyDict.Get(next, rest[i].0);
    assert request[i + 1] == rest[i];
    assert rest[i].0 != request[0].0 by {
      assert PyDict.Keys(request)[i + 1] == rest[i].0 && PyDict.Keys(request)[0] == request[0].0;
    }
  }

  /** The same for an axis without a range. */
  lemma ShiftUnrangedAxis(request: PyDict.Dict<string, real>, ranges: PyDict.Dict<string, Span>,
                          current: PyDict.Dict<string, real>, next: PyDict.Dict<string, real>, d: PyDict.Dict<string, real>)
    requires PyDict.Valid(request) && request != []
    requires PyDict.KeySet(next) == PyDict.KeySet(current)
    requires forall k :: k != request[0].0 ==> PyDict.Get(next, k) == PyDict.Get(current, k)
    requires UnrangedAxis(request[1..], ranges, next, d)
    ensures UnrangedAxis(request, ranges, current, d)
  {
    var rest := request[1..];
    var i :| 0 <= i < |rest| && rest[i].0 in PyDict.KeySet(next) && rest[i].0 !in PyDict.KeySet(ranges)
      && PyDict.Get(d, rest[i].0) == PyDict.Get(next, rest[i].0);
    assert request[i + 1] == rest[i];
    assert rest[i].0 != request[0].0 by {
      assert PyDict.Keys(request)[i + 1] == rest[i].0 && PyDict.Keys(request)[0] == request[0].0;
    }
  }

  /** A moved first axis: it holds its new value afterwards, and the rest of the request decides the others. */
  lemma MoveStep(current: PyDict.Dict<string, real>, ranges: PyDict.Dict<string, Span>,
                 request: PyDict.Dict<string, real>, hw: (string, real) -> int, failed: int -> bool,
                 next: PyDict.Dict<string, real>, r: (PyDict.Dict<string, real>, Result<int>))
    requires PyDict.Valid(request) && request != []
    requires var (key, value) := request[0];
      key in PyDict.KeySet(current) && Admits(ranges, key, value) && !failed(hw(key, value))
    requires next == PyDict.Set(current, request[0].0, request[0].1)
    requires OnlyMoved(request[1..], ranges, hw, failed, next, r.0)
    requires r.1 == Ok(0) ==> AllAdmittedMoved(request[1..], ranges, next, r.0)
    requires r.1 == Ok(-1) ==> FailedAxis(request[1..], ranges, hw, failed, next, r.0)
    requires r.1.Err? ==> UnrangedAxis(request[1..], ranges, next, r.0)
    ensures OnlyMoved(request, ranges, hw, failed, current, r.0)
    ensures r.1 == Ok(0) ==> AllAdmittedMoved(request, ranges, current, r.0)
    ensures r.1 == Ok(-1) ==> FailedAxis(request, ranges, hw, failed, current, r.0)
    ensures r.1.Err? ==> UnrangedAxis(request, ranges, current, r.0)
  {
    MoveStepKeeps(current, ranges, request, hw, failed, r.0);
    MoveStepStops(current, ranges, request, hw, failed, next, r);
    if r.1 == Ok(0) {
      MoveStepDone(current, ranges, request, r.0);
    }
  }

  /** After moving the first axis, a failure or KeyError in the rest is one of the whole request. */
  lemma MoveStepStops(current: PyDict.Dict<string, real>, ranges: PyDict.Dict<string, Span>,
                      request: PyDict.Dict<string, real>, hw: (string, real) -> int, failed: int -> bool,
                      next: PyDict.Dict<string, real>, r: (PyDict.Dict<string, real>, Result<int>))
    requires PyDict.Valid(request) && request != []
    requires request[0].0 in PyDict.KeySet(current)
    requires next == PyDict.Set(current, request[0].0, request[0].1)
    requires r.1 == Ok(-1) ==> FailedAxis(request[1..], ranges, hw, failed, next, r.0)
    requires r.1.Err? ==> UnrangedAxis(request[1..], ranges, next, r.0)
    ensures r.1 == Ok(-1) ==> FailedAxis(request, ranges, hw, failed, current, r.0)
    ensures r.1.Err? ==> UnrangedAxis(request, ranges, current, r.0)
  {
    if r.1 == Ok(-1) {
      ShiftFailedAxis(request, ranges, hw, failed, current, next, r.0);
    }
    if r.1.Err? {
      ShiftUnrangedAxis(request, ranges, current, next, r.0);
    }
  }

  /** After moving the first axis, a value that differs from before was moved to. */
  lemma MoveStepKeeps(current: PyDict.Dict<string, real>, ranges: PyDict.Dict<string, Span>,
                      request: PyDict.Dict<string, real>, hw: (string, real) -> int, failed: int -> bool,
                      d: PyDict.Dict<string, real>)
    requires PyDict.Valid(request) && request != []
    requires var (key, value) := request[0];
      Admits(ranges, key, value) && !failed(hw(key, value))
    requires var next := PyDict.Set(current, request[0].0, request[0].1);
      OnlyMoved(request[1..], ranges, hw, failed, next, d)
    ensures PyDict.Get(d, request[0].0) == Some(request[0].1)
    ensures OnlyMoved(request, ranges, hw, failed, current, d)
  {
    TailGets(request);
    var (key, value) := request[0];
    var rest := request[1..];
    assert PyDict.Get(d, key) == Some(value) by {
      assert !MovedTo(rest, ranges, hw, failed, d, key);
    }
    forall k ensures PyDict.Get(d, k) == PyDict.Get(current, k) || MovedTo(request, ranges, hw, failed, d, k) {
      if k != key {
        assert MovedTo(rest, ranges, hw, failed, d, k) == MovedTo(request, ranges, hw, failed, d, k);
      }
    }
  }

  /** After moving the first axis, every admitted requested axis that the rest reached holds its request. */
  lemma MoveStepDone(current: PyDict.Dict<string, real>, ranges: PyDict.Dict<string, Span>,
                     request: PyDict.Dict<string, real>, d: PyDict.Dict<string, real>)
    requires PyDict.Valid(request) && request != []
    requires request[0].0 in PyDict.KeySet(current) && PyDict.Get(d, request[0].0) == Some(request[0].1)
    requires AllAdmittedMoved(request[1..], ranges, PyDict.Set(current, request[0].0, request[0].1), d)
    ensures AllAdmittedMoved(request, ranges, current, d)
  {
    TailGets(request);
  }

  /** With the intended test, an axis whose recorded value changed was moved without an error code. */
  lemma MoveRecordsOnlySuccess(current: PyDict.Dict<string, real>, ranges: PyDict.Dict<string, Span>,
                               request: PyDict.Dict<string, real>, hw: (string, real) -> int, k: string)
    requires PyDict.Valid(request)
    ensures var d := MoveToPosition(current, ranges, request, hw).0;
      PyDict.Get(d, k) != PyDict.Get(current, k) ==>
        PyDict.Get(request, k).Some? && PyDict.Get(d, k) == PyDict.Get(request, k)
        && Admits(ranges, k, PyDict.Get(request, k).value) && hw(k, PyDict.Get(request, k).value) >= 0
  {
    MoveSpec(current, ranges, request, hw, Failure);
  }

  /**
   * As written, a move that reports the error code -1 still records the new value and the
   * call reports success; with the intended test the call reports -1 and records nothing.
   */
  lemma MoveAsWrittenIgnoresFailure()
    ensures MoveToPositionAsWritten([("x", 0.0)], [("x", Span(0.0, 10.0))], [("x", 5.0)], (k: string, v: real) => -1)
            == ([("x", 5.0)], Ok(0))
    ensures MoveToPosition([("x", 0.0)], [("x", Span(0.0, 10.0))], [("x", 5.0)], (k: string, v: real) => -1)
            == ([("x", 0.0)], Ok(-1))
  {
    var hw := (k: string, v: real) => -1;
    var request: PyDict.Dict<string, real> := [("x", 5.0)];
    assert request[1..] == [];
    assert PyDict.Set([("x", 0.0)], "x", 5.0) == [("x", 5.0)];
  }

  /**
   * The axis "a" is recorded at activation but has no scan range, so a request to move it
   * to a new value raises KeyError, with nothing moved.
   */
  lemma MoveAxisWithoutRange(b: Box, v: real, hw: (string, real) -> int)
    requires v != 0.0
    ensures MoveToPosition(InitialPosition(b), AxisRanges(b), [("a", v)], hw) == (InitialPosition(b), Err(KeyError))
  {
    var current := InitialPosition(b);
    assert PyDict.Keys(current)[3] == "a";
    PyDict.GetAt(current, 3);
    assert PyDict.Get(AxisRanges(b), "a") == None by {
      assert "a" !in PyDict.KeySet(AxisRanges(b));
    }
  }

  /**
   * An axis moved before the KeyError stays recorded: from the activation position of the
   * box [0, 10] on every axis, a request for x = 5 and then "a" = 1 moves x, then raises.
   */
  lemma MoveKeyErrorKeepsEarlierAxes(hw: (string, real) -> int)
    requires hw("x", 5.0) == 0
    ensures var b := Box(Span(0.0, 10.0), Span(0.0, 10.0), Span(0.0, 10.0));
      MoveToPosition(InitialPosition(b), AxisRanges(b), [("x", 5.0), ("a", 1.0)], hw)
        == ([("x", 5.0), ("y", 0.0), ("z", 0.0), ("a", 0.0)], Err(KeyError))
  {
    var b := Box(Span(0.0, 10.0), Span(0.0, 10.0), Span(0.0, 10.0));
    var current := InitialPosition(b);
    var request: PyDict.Dict<string, real> := [("x", 5.0), ("a", 1.0)];
    var next: PyDict.Dict<string, real> := [("x", 5.0), ("y", 0.0), ("z", 0.0), ("a", 0.0)];
    PyDict.GetAt(current, 0);
    assert PyDict.Set(current, "x", 5.0) == next;
    assert request[1..] == [("a", 1.0)];
    assert MoveWith(current, AxisRanges(b), request, hw, Failure) == MoveWith(next, AxisRanges(b), [("a", 1.0)], hw, Failure);
    UnrangedRaises(next, AxisRanges(b), 3, 1.0, hw);
  }

  /** A request for one recorded axis without a range, at a new value, raises KeyError with nothing moved. */
  lemma UnrangedRaises(current: PyDict.Dict<string, real>, ranges: PyDict.Dict<string, Span>, i: nat,
                       v: real, hw: (string, real) -> int)
    requires PyDict.Valid(current) && i < |current| && current[i].1 != v && current[i].0 !in PyDict.KeySet(ranges)
    ensures MoveToPosition(current, ranges, [(current[i].0, v)], hw) == (current, Err(KeyError))
  {
    PyDict.GetAt(current, i);
  }

  // ---- image initialisation ----

  /** The outcome of initialize_image: -1, or the numbers of x and y points of the scan grid. */
  datatype Init = Rejected | Initialized(xPoints: int, yPoints: int)

  /** The default points per scan line. */
  const DefaultResolution := 100

  /** Whether each image bound is outside its axis's scan range, in the order x1, x2, y1, y2, z1, z2. */
  function Outside(scan: Box, image: Box): (o: seq<bool>)
    ensures |o| == 6
    ensures true !in o <==> Within(scan.x, image.x.lo) && Within(scan.x, image.x.hi) && Within(scan.y, image.y.lo)
                            && Within(scan.y, image.y.hi) && Within(scan.z, image.z.lo) && Within(scan.z, image.z.hi)
  {
    [!Within(scan.x, image.x.lo), !Within(scan.x, image.x.hi), !Within(scan.y, image.y.lo),
     !Within(scan.y, image.y.hi), !Within(scan.z, image.z.lo), !Within(scan.z, image.z.hi)]
  }

  function Max(a: int, b: int): int { if a >= b then a else b }

  /** The length of a range. */
  function Extent(s: Span): real { s.hi - s.lo }

  /** The points of the shorter side: the resolution scaled by short/long, truncated, at least 2. */
  function ShortPoints(resolution: int, short: real, long: real): int
    requires long > 0.0
  {
    Max(Numeric.Trunc(resolution as real * short / long), 2)
  }

  /**
   * The x and y point counts of an ordered image: the longer side gets the resolution
   * (at least 2) and the shorter one the resolution scaled by the aspect ratio. Two empty
   * sides divide by zero.
   */
  function GridPoints(image: Box, resolution: int): (r: Result<Init>)
    requires image.x.lo <= image.x.hi && image.y.lo <= image.y.hi
  {
    var dx := Extent(image.x);
    var dy := Extent(image.y);
    if dx >= dy then
      if dx == 0.0 then Err(ZeroDivisionError)
      else Ok(Initialized(Max(resolution, 2), ShortPoints(resolution, dy, dx)))
    else Ok(Initialized(ShortPoints(resolution, dx, dy), Max(resolution, 2)))
  }

  /** `n` scaled by a ratio between 0 and 1 and truncated is at most max(n, 2) once raised to 2. */
  lemma ScaledAtMost(n: int, ratio: real)
    requires 0.0 <= ratio <= 1.0
    ensures Max(Numeric.Trunc(n as real * ratio), 2) <= Max(n, 2)
  {
    if n >= 0 {
      assert n as real * ratio <= n as real;
      Numeric.TruncMonotone(n as real * ratio, n as real);
      Numeric.TruncInt(n);
    } else {
      assert n as real * ratio <= 0.0;
      Numeric.TruncMonotone(n as real * ratio, 0.0);
      Numeric.TruncInt(0);
    }
  }

  /**
   * The shorter side has at least 2 and at most max(resolution, 2) points, and above 2 it
   * has the whole part of resolution * short / long: the grid keeps the image's aspect ratio.
   */
  lemma ShortSide(resolution: int, short: real, long: real)
    requires 0.0 <= short <= long && long > 0.0
    ensures var n := ShortPoints(resolution, short, long);
      2 <= n <= Max(resolution, 2)
      && (n > 2 ==> n as real <= resolution as real * short / long < n as real + 1.0)
  {
    var x := resolution as real * short / long;
    assert ShortPoints(resolution, short, long) == Max(Numeric.Trunc(x), 2);
    var ratio := short / long;
    Ratio(short, long);
    MulDiv(resolution as real, short, long);
    assert x == resolution as real * ratio;
    ScaledAtMost(resolution, ratio);
    assert Max(Numeric.Trunc(x), 2) <= Max(resolution, 2);
  }

  lemma Ratio(short: real, long: real)
    requires 0.0 <= short <= long && long > 0.0
    ensures 0.0 <= short / long <= 1.0
  {
    assert (short / long) * long == short;
  }

  lemma MulDiv(a: real, b: real, c: real)
    requires c > 0.0
    ensures a * b / c == a * (b / c)
  {
    var q := b / c;
    var p := a * b / c;
    assert q * c == b;
    assert p * c == a * b;
    assert (a * q) * c == a * (q * c);
    assert (p - a * q) * c == 0.0;
  }

  /**
   * The grid: both sides have at least 2 points, the longer side has max(resolution, 2) and
   * the shorter side no more; only two empty sides fail, with ZeroDivisionError.
   */
  lemma GridPointsSpec(image: Box, resolution: int)
    requires image.x.lo <= image.x.hi && image.y.lo <= image.y.hi
    ensures var r := GridPoints(image, resolution);
      (r.Err? <==> Extent(image.x) == 0.0 && Extent(image.y) == 0.0)
      && (r.Err? ==> r.error == ZeroDivisionError)
      && (r.Ok? ==> r.value.Initialized? && r.value.xPoints >= 2 && r.value.yPoints >= 2)
      && (r.Ok? && Extent(image.x) >= Extent(image.y) ==>
            r.value.xPoints == Max(resolution, 2) && r.value.yPoints <= r.value.xPoints)
      && (r.Ok? && Extent(image.x) < Extent(image.y) ==>
            r.value.yPoints == Max(resolution, 2) && r.value.xPoints <= r.value.yPoints)
  {
    var dx := Extent(image.x);
    var dy := Extent(image.y);
    if dx >= dy && dx != 0.0 {
      ShortSide(resolution, dy, dx);
    } else if dx < dy {
      ShortSide(resolution, dx, dy);
    }
  }

  /**
   * initialize_image as written: the image is refused when all six of its bounds are out
   * of range (the checks are joined by `and`), or when x2 < x1 or y2 < y1.
   */
  function InitializeImageAsWritten(scan: Box, image: Box, resolution: int): (r: Result<Init>)
    ensures image.x.hi < image.x.lo || image.y.hi < image.y.lo ==> r == Ok(Rejected)
    ensures r == Ok(Rejected) <==> false !in Outside(scan, image) || image.x.hi < image.x.lo || image.y.hi < image.y.lo
  {
    if false !in Outside(scan, image) then Ok(Rejected)
    else if image.x.hi < image.x.lo then Ok(Rejected)
    else if image.y.hi < image.y.lo then Ok(Rejected)
    else
      GridPointsSpec(image, resolution);
      GridPoints(image, resolution)
  }

  /**
   * initialize_image as the return-code convention intends it: the image is refused when any
   * of its six bounds is out of range, or when x2 < x1 or y2 < y1; a refused image makes no grid.
   */
  function InitializeImage(scan: Box, image: Box, resolution: int): (r: Result<Init>)
    ensures image.x.hi < image.x.lo || image.y.hi < image.y.lo ==> r == Ok(Rejected)
    ensures r == Ok(Rejected) <==> true in Outside(scan, image) || image.x.hi < image.x.lo || image.y.hi < image.y.lo
    ensures r.Ok? && r.value.Initialized? ==>
      Within(scan.x, image.x.lo) && Within(scan.x, image.x.hi) && Within(scan.y, image.y.lo)
      && Within(scan.y, image.y.hi) && Within(scan.z, image.z.lo) && Within(scan.z, image.z.hi)
    ensures r.Err? <==> true !in Outside(scan, image) && image.x.lo == image.x.hi && image.y.lo == image.y.hi
  {
    if true in Outside(scan, image) then Ok(Rejected)
    else if image.x.hi < image.x.lo then Ok(Rejected)
    else if image.y.hi < image.y.lo then Ok(Rejected)
    else
      GridPointsSpec(image, resolution);
      GridPoints(image, resolution)
  }

  /**
   * As written, an image whose x start lies outside the x range is still scanned, because
   * the other five bounds are in range; the intended check refuses it.
   */
  lemma InitializeImageAsWrittenAcceptsOutside()
    ensures var scan := Box(Span(0.0, 10.0), Span(0.0, 10.0), Span(0.0, 10.0));
      var image := Box(Span(-5.0, 5.0), Span(0.0, 10.0), Span(0.0, 10.0));
      InitializeImageAsWritten(scan, image, DefaultResolution) == Ok(Initialized(100, 100))
      && InitializeImage(scan, image, DefaultResolution) == Ok(Rejected)
  {
    var image := Box(Span(-5.0, 5.0), Span(0.0, 10.0), Span(0.0, 10.0));
    assert 100 as real * 10.0 / 10.0 == 100.0;
    Numeric.TruncInt(100);
    assert ShortPoints(DefaultResolution, 10.0, 10.0) == 100;
    assert GridPoints(image, DefaultResolution) == Ok(Initialized(100, 100));
  }

  // ---- per-line data files ----

  /** The zeros save_to_npy puts before the line number. */
  function LinePadding(line: int): string
  {
    if line < 10 then "000"
    else if line < 100 then "00"
    else if line < 1000 then "0"
    else ""
  }

  /** save_to_npy: the path of the file that holds the data of one scan line. */
  function NpyPath(filePathRaw: string, filename: string, name: string, line: int): string
  {
    filePathRaw + "/" + filename + "_" + name + "_line_" + LineField(line)
  }

  /** The line number with its padding, as it ends the file name. */
  function LineField(line: int): string
  {
    LinePadding(line) + Text.IntToString(line)
  }

  /**
   * For a line number from 0 on, the padded field is `str(line).zfill(4)`: digits only, read
   * back as the line number, and exactly 4 characters below 10000.
   */
  lemma NpyLineField(line: nat)
    ensures LineField(line) == Text.ZFill(Text.NatToString(line), 4)
    ensures Text.AllDigits(LineField(line))
    ensures Text.ParseDigits(LineField(line)) == line
    ensures line < 10000 ==> |LineField(line)| == 4
  {
    PaddingIsZFill(line);
    Text.ZFillNat(line, 4);
    if line < 10000 {
      assert Text.Pow10(4) == 10000;
      Text.NatToStringLength(line, 4);
    }
  }

  /** The padding tops the digits of a line number up to 4 characters. */
  lemma PaddingIsZFill(line: nat)
    ensures LineField(line) == Text.ZFill(Text.NatToString(line), 4)
  {
    var s := Text.NatToString(line);
    assert Text.IntToString(line) == s;
    assert Text.IsDigit(s[0]);
    assert Text.Pow10(1) == 10 && Text.Pow10(2) == 100 && Text.Pow10(3) == 1000;
    if line < 10 {
      assert LinePadding(line) == Text.Zeros(3);
    } else if line < 100 {
      Text.NatToStringExactLength(line, 2);
      assert LinePadding(line) == Text.Zeros(2);
    } else if line < 1000 {
      Text.NatToStringExactLength(line, 3);
      assert LinePadding(line) == Text.Zeros(1);
    } else {
      Text.AtLeastDigits(line, 4);
    }
  }

  /** Two lines from 0 on with the same file path are the same line. */
  lemma NpyPathsDistinct(filePathRaw: string, filename: string, name: string, a: nat, b: nat)
    requires NpyPath(filePathRaw, filename, name, a) == NpyPath(filePathRaw, filename, name, b)
    ensures a == b
  {
    var head := filePathRaw + "/" + filename + "_" + name + "_line_";
    var fa := LineField(a);
    var fb := LineField(b);
    assert fa == (head + fa)[|head|..] && fb == (head + fb)[|head|..];
    assert fa == fb;
    NpyLineField(a);
    NpyLineField(b);
  }
}

=== FILE: text.dfy ===
/**
 * The string operations of Python that the modelled code uses: `str(n)` of an integer,
 * `int(s)` of a decimal string, `str.zfill`, `str.join`, `str.split()`,
 * `str.split(c)` and `str.replace(' ', '%20')`.
 */
module Text {

  predicate IsDigit(c: char) { '0' <= c <= '9' }

  predicate AllDigits(s: string) { forall i :: 0 <= i < |s| ==> IsDigit(s[i]) }

  function DigitChar(d: nat): (c: char)
    requires d < 10
    ensures IsDigit(c) && c as int - '0' as int == d
  {
    ('0' as int + d) as char
  }

  function DigitValue(c: char): (d: nat)
    requires IsDigit(c)
    ensures d < 10 && DigitChar(d) == c
  {
    c as int - '0' as int
  }

  /** `str(n)` for a non-negative integer: decimal digits without leading zeros. */
  function NatToString(n: nat): (s: string)
    ensures |s| >= 1 && AllDigits(s)
    ensures |s| > 1 ==> s[0] != '0'
    ensures n < 10 <==> |s| == 1
  {
    if n < 10 then [DigitChar(n)]
    else NatToString(n / 10) + [DigitChar(n % 10)]
  }

  /** `str(i)` for any integer. */
  function IntToString(i: int): (s: string)
    ensures |s| >= 1
    ensures i < 0 <==> s[0] == '-'
  {
    if i < 0 then "-" + NatToString(-i) else NatToString(i)
  }

  /** `int(s)` for a string of decimal digits (the empty string reads as 0). */
  function ParseDigits(s: string): nat
    requires AllDigits(s)
  {
    if s == [] then 0
    else ParseDigits(s[..|s| - 1]) * 10 + DigitValue(s[|s| - 1])
  }

  /** Reading back the decimal form of `n` gives `n`. */
  lemma {:induction false} ParseNatToString(n: nat)
    ensures ParseDigits(NatToString(n)) == n
  {
    var s := NatToString(n);
    if n >= 10 {
      ParseNatToString(n / 10);
      assert s[..|s| - 1] == NatToString(n / 10);
      assert DigitValue(s[|s| - 1]) == n % 10;
      assert n == n / 10 * 10 + n % 10;
    } else {
      assert DigitValue(s[0]) == n;
    }
  }

  /** Different numbers have different decimal forms. */
  lemma NatToStringInjective(m: nat, n: nat)
    requires NatToString(m) == NatToString(n)
    ensures m == n
  {
    ParseNatToString(m);
    ParseNatToString(n);
  }

  function Pow10(w: nat): (p: nat)
    ensures p >= 1
  {
    if w == 0 then 1 else 10 * Pow10(w - 1)
  }

  /** A number below 10^w has at most w digits. */
  lemma {:induction false} NatToStringLength(n: nat, w: nat)
    requires w >= 1 && n < Pow10(w)
    ensures |NatToString(n)| <= w
  {
    if n >= 10 {
      assert w >= 2;
      NatToStringLength(n / 10, w - 1);
    }
  }

  /** A number with exactly w digits, 10^(w-1) <= n < 10^w, prints as w characters. */
  lemma {:induction false} NatToStringExactLength(n: nat, w: nat)
    requires w >= 1 && Pow10(w - 1) <= n < Pow10(w)
    ensures |NatToString(n)| == w
  {
    if w >= 2 {
      assert Pow10(w - 1) == 10 * Pow10(w - 2);
      assert n >= 10;
      assert Pow10(w - 2) <= n / 10 < Pow10(w - 1);
      NatToStringExactLength(n / 10, w - 1);
    }
  }

  /** A number of at least 10^(w-1) prints as at least w characters. */
  lemma {:induction false} AtLeastDigits(n: nat, w: nat)
    requires w >= 1 && n >= Pow10(w - 1)
    ensures |NatToString(n)| >= w
  {
    if w >= 2 {
      assert Pow10(w - 1) == 10 * Pow10(w - 2);
      assert n >= 10;
      assert n / 10 >= Pow10(w - 2);
      AtLeastDigits(n / 10, w - 1);
    }
  }

  function Zeros(n: nat): (s: string)
    ensures |s| == n && forall i :: 0 <= i < n ==> s[i] == '0'
  {
    if n == 0 then [] else Zeros(n - 1) + ['0']
  }

  /**
   * `s.zfill(width)`: pad with '0' on the left up to `width`, after a leading sign.
   */
  function ZFill(s: string, width: int): (r: string)
    ensures |r| == if |s| >= width then |s| else width
    ensures |s| >= width ==> r == s
    ensures |s| < width && (s == [] || (s[0] != '+' && s[0] != '-')) ==> r == Zeros(width - |s|) + s
    ensures |s| < width && s != [] && (s[0] == '+' || s[0] == '-') ==>
      r == [s[0]] + Zeros(width - |s|) + s[1..]
  {
    if |s| >= width then s
    else if s != [] && (s[0] == '+' || s[0] == '-') then [s[0]] + Zeros(width - |s|) + s[1..]
    else Zeros(width - |s|) + s
  }

  /** Leading zeros do not change the value of a digit string. */
  lemma {:induction false} ParseLeadingZeros(n: nat, s: string)
    requires AllDigits(s)
    ensures AllDigits(Zeros(n) + s)
    ensures ParseDigits(Zeros(n) + s) == ParseDigits(s)
    decreases |s|, n
  {
    var z := Zeros(n) + s;
    if s == [] {
      assert z == Zeros(n);
      if n > 0 {
        assert z[..|z| - 1] == Zeros(n - 1) + [];
        ParseLeadingZeros(n - 1, []);
      }
    } else {
      assert z[..|z| - 1] == Zeros(n) + s[..|s| - 1];
      ParseLeadingZeros(n, s[..|s| - 1]);
    }
  }

  /** A string of w digits reads as a number below 10^w. */
  lemma {:induction false} ParseBelow(s: string)
    requires AllDigits(s)
    ensures ParseDigits(s) < Pow10(|s|)
  {
    if s != [] {
      ParseBelow(s[..|s| - 1]);
      assert ParseDigits(s[..|s| - 1]) + 1 <= Pow10(|s| - 1);
      assert ParseDigits(s[..|s| - 1]) * 10 + 10 <= Pow10(|s| - 1) * 10;
    }
  }

  /** Trailing zeros multiply the value of a digit string by a power of ten. */
  lemma {:induction false} ParseTrailingZeros(s: string, n: nat)
    requires AllDigits(s)
    ensures AllDigits(s + Zeros(n))
    ensures ParseDigits(s + Zeros(n)) == ParseDigits(s) * Pow10(n)
  {
    if n == 0 {
      assert s + Zeros(0) == s;
    } else {
      ParseTrailingZeros(s, n - 1);
      var z := s + Zeros(n);
      assert z[..|z| - 1] == s + Zeros(n - 1);
      assert ParseDigits(s) * Pow10(n) == ParseDigits(s) * Pow10(n - 1) * 10;
    }
  }

  /** `str(n).zfill(w)` reads back as `n` and has at least `w` characters. */
  lemma ZFillNat(n: nat, width: int)
    ensures AllDigits(ZFill(NatToString(n), width))
    ensures ParseDigits(ZFill(NatToString(n), width)) == n
    ensures |ZFill(NatToString(n), width)| >= width
  {
    ParseNatToString(n);
    ZFillDigits(NatToString(n), width);
  }

  /** A digit string has no sign, so `zfill` only pads it with zeros, which keep its value. */
  lemma ZFillDigits(s: string, width: int)
    requires s != [] && AllDigits(s)
    ensures AllDigits(ZFill(s, width)) && ParseDigits(ZFill(s, width)) == ParseDigits(s)
  {
    if |s| < width {
      assert IsDigit(s[0]);
      var z := Zeros(width - |s|) + s;
      ParseLeadingZeros(width - |s|, s);
      assert ZFill(s, width) == z;
    }
  }

  /** `sep.join(parts)`. */
  function Join(parts: seq<string>, sep: string): (r: string)
    ensures parts == [] ==> r == []
    ensures |parts| == 1 ==> r == parts[0]
  {
    if parts == [] then []
    else if |parts| == 1 then parts[0]
    else Join(parts[..|parts| - 1], sep) + sep + parts[|parts| - 1]
  }

  function Count(s: string, c: char): nat
  {
    if s == [] then 0 else (if s[0] == c then 1 else 0) + Count(s[1..], c)
  }

  /** `s.replace(' ', '%20')`. */
  function EncodeSpaces(s: string): (r: string)
    ensures ' ' !in r
    ensures |r| == |s| + 2 * Count(s, ' ')
  {
    if s == [] then []
    else if s[0] == ' ' then "%20" + EncodeSpaces(s[1..])
    else [s[0]] + EncodeSpaces(s[1..])
  }

  /** Replaces every "%20" with a space: the reading a web server applies. */
  function DecodeSpaces(s: string): string
  {
    if s == [] then []
    else if |s| >= 3 && s[..3] == "%20" then " " + DecodeSpaces(s[3..])
    else [s[0]] + DecodeSpaces(s[1..])
  }

  /** Encoding loses nothing when the command itself holds no '%'. */
  lemma {:induction false} DecodeEncodeSpaces(s: string)
    requires '%' !in s
    ensures DecodeSpaces(EncodeSpaces(s)) == s
  {
    if s != [] {
      DecodeEncodeSpaces(s[1..]);
      var e := EncodeSpaces(s);
      if s[0] == ' ' {
        assert e[..3] == "%20" && e[3..] == EncodeSpaces(s[1..]);
      } else {
        assert e[1..] == EncodeSpaces(s[1..]);
      }
    }
  }

  /** `sep.join` of two or more parts, read from the front. */
  lemma {:induction false} JoinFront(parts: seq<string>, sep: string)
    requires |parts| >= 2
    ensures Join(parts, sep) == parts[0] + sep + Join(parts[1..], sep)
  {
    var n := |parts|;
    if n > 2 {
      JoinFront(parts[..n - 1], sep);
      assert parts[..n - 1][1..] == parts[1..][..n - 2];
    }
  }

  /** The ASCII whitespace `str.split()` separates on. */
  predicate IsSpace(c: char)
  {
    c == ' ' || c == '\t' || c == '\n' || c == '\r' || c == 11 as char || c == 12 as char
  }

  predicate NoSpace(s: string) { forall i :: 0 <= i < |s| ==> !IsSpace(s[i]) }

  /** The longest prefix of `s` without whitespace. */
  function FirstWord(s: string): (w: string)
    ensures |w| <= |s| && w == s[..|w|] && NoSpace(w)
    ensures |w| < |s| ==> IsSpace(s[|w|])
  {
    if s == [] || IsSpace(s[0]) then [] else [s[0]] + FirstWord(s[1..])
  }

  /** `s.split()`: the maximal runs of non-whitespace characters, in order. */
  function Split(s: string): (ws: seq<string>)
    ensures forall i :: 0 <= i < |ws| ==> ws[i] != [] && NoSpace(ws[i])
    decreases |s|
  {
    if s == [] then []
    else if IsSpace(s[0]) then Split(s[1..])
    else
      var w := FirstWord(s);
      [w] + Split(s[|w|..])
  }

  lemma {:induction false} FirstWordOf(w: string, rest: string)
    requires NoSpace(w) && (rest == [] || IsSpace(rest[0]))
    ensures FirstWord(w + rest) == w
  {
    if w != [] {
      assert (w + rest)[1..] == w[1..] + rest;
      FirstWordOf(w[1..], rest);
    }
  }

  /** Splitting the words joined by single spaces gives the words back. */
  lemma {:induction false} SplitJoin(parts: seq<string>)
    requires forall i :: 0 <= i < |parts| ==> parts[i] != [] && NoSpace(parts[i])
    ensures Split(Join(parts, " ")) == parts
  {
    if |parts| == 1 {
      var w := parts[0];
      FirstWordOf(w, []);
      assert w + [] == w;
      assert !IsSpace(w[0]);
      assert w[|w|..] == [];
      assert Split(w) == [w] + Split([]);
    } else if |parts| >= 2 {
      JoinFront(parts, " ");
      var w, rest := parts[0], Join(parts[1..], " ");
      var s := w + " " + rest;
      assert s == w + (" " + rest);
      FirstWordOf(w, " " + rest);
      assert s[|w|..] == " " + rest;
      assert (" " + rest)[1..] == rest;
      SplitJoin(parts[1..]);
    }
  }

  /** `[int(w) for w in words if w.isdigit()]`. */
  function DigitWords(ws: seq<string>): (ns: seq<nat>)
    ensures |ns| <= |ws|
  {
    if ws == [] then []
    else (if ws[0] != [] && AllDigits(ws[0]) then [ParseDigits(ws[0])] else []) + DigitWords(ws[1..])
  }

  /** `[str(n) for n in ns]`. */
  function Decimals(ns: seq<nat>): (ws: seq<string>)
    ensures |ws| == |ns| && forall i :: 0 <= i < |ns| ==> ws[i] == NatToString(ns[i])
  {
    if ns == [] then [] else [NatToString(ns[0])] + Decimals(ns[1..])
  }

  /** The decimal forms of natural numbers read back as those numbers. */
  lemma {:induction false} DigitWordsOfNats(ns: seq<nat>)
    ensures DigitWords(Decimals(ns)) == ns
  {
    if ns != [] {
      var ws := Decimals(ns);
      ParseNatToString(ns[0]);
      assert ws[0] == NatToString(ns[0]) && ws[1..] == Decimals(ns[1..]);
      DigitWordsOfNats(ns[1..]);
      assert ns == [ns[0]] + ns[1..];
    }
  }

  /** The longest prefix of `s` without the character `c`. */
  function Before(s: string, c: char): (w: string)
    ensures |w| <= |s| && w == s[..|w|] && c !in w
    ensures |w| < |s| ==> s[|w|] == c
  {
    if s == [] || s[0] == c then [] else [s[0]] + Before(s[1..], c)
  }

  /** `s.split(c)`: the pieces between the occurrences of `c`, empty pieces included. */
  function SplitOn(s: string, c: char): (parts: seq<string>)
    ensures |parts| >= 1
    ensures forall i :: 0 <= i < |parts| ==> c !in parts[i]
    decreases |s|
  {
    var w := Before(s, c);
    if |w| == |s| then [s] else [w] + SplitOn(s[|w| + 1..], c)
  }

  lemma {:induction false} BeforeOf(w: string, c: char, rest: string)
    requires c !in w
    ensures Before(w + [c] + rest, c) == w
  {
    if w != [] {
      assert (w + [c] + rest)[1..] == w[1..] + [c] + rest;
      BeforeOf(w[1..], c, rest);
    }
  }

  /** A first piece without `c`, followed by `c`, is the first part of the split. */
  lemma SplitOnFront(w: string, c: char, rest: string)
    requires c !in w
    ensures SplitOn(w + [c] + rest, c) == [w] + SplitOn(rest, c)
  {
    var s := w + [c] + rest;
    BeforeOf(w, c, rest);
    assert s[|w| + 1..] == rest;
  }

  /** Splitting on `c` the pieces joined by `c` gives the pieces back. */
  lemma {:induction false} SplitOnJoin(parts: seq<string>, c: char)
    requires |parts| >= 1 && forall i :: 0 <= i < |parts| ==> c !in parts[i]
    ensures SplitOn(Join(parts, [c]), c) == parts
  {
    if |parts| == 1 {
      assert Join(parts, [c]) == parts[0];
    } else {
      JoinFront(parts, [c]);
      SplitOnFront(parts[0], c, Join(parts[1..], [c]));
      SplitOnJoin(parts[1..], c);
      assert parts == [parts[0]] + parts[1..];
    }
  }
}

=== FILE: thorlabs_wheel.dfy ===
/**
 * The Thorlabs fast filter wheel (hardware/wheels/thorlabs_fast_filter_wheel.py): filter
 * positions 1..n sit at motor angles 0, 360 - 360/n, 360 - 2*360/n, ..., and the position
 * is read back by looking the rounded motor angle up in the inverted angle table.
 */
module ThorlabsWheel {
  import opened Wrappers
  import PyDict
  import Numeric

  /** The configured number of filters and the motor angle, in degrees. */
  datatype ThorlabsWheel = ThorlabsWheel(numFilters: int, motorAngle: real)

  /** The angle of position i+1 (i counted from 0): -360/n*i, plus 360 from the second position on. */
  function Angle(n: int, i: int): (a: real)
    requires n >= 1 && 0 <= i < n
    ensures 0.0 <= a < 360.0
    ensures a == 0.0 <==> i == 0
    ensures i >= 1 ==> 360.0 / n as real <= a <= 360.0 - 360.0 / n as real
  {
    var step := 360.0 / n as real;
    if i == 0 then -step * i as real
    else
      assert step * i as real <= step * (n - 1) as real;
      assert step * (n - 1) as real == 360.0 - step;
      -step * i as real + 360.0
  }

  /** init_position_dict: position i+1 maps to Angle(n, i), for i from 0 to n-1. */
  function PositionDict(n: int): (d: PyDict.Dict<int, real>)
    ensures n <= 0 ==> d == []
    ensures n >= 1 ==> |d| == n && forall i :: 0 <= i < n ==> d[i] == (i + 1, Angle(n, i))
    ensures PyDict.Valid(d)
  {
    if n <= 0 then []
    else
      var d := seq(n, i requires 0 <= i < n => (i + 1, Angle(n, i)));
      assert forall i, j :: 0 <= i < j < n ==> PyDict.Keys(d)[i] != PyDict.Keys(d)[j];
      d
  }

  /** Two different positions are at least 360/n degrees apart. */
  lemma AnglesApart(n: int, i: int, j: int)
    requires n >= 1 && 0 <= i < j < n
    ensures Angle(n, i) - Angle(n, j) >= 360.0 / n as real || Angle(n, j) - Angle(n, i) >= 360.0 / n as real
  {
    var step := 360.0 / n as real;
    var ai, aj := Angle(n, i), Angle(n, j);
    if i >= 1 {
      assert ai == -step * i as real + 360.0;
      assert aj == -step * j as real + 360.0;
      var d := j as real - i as real;
      assert ai - aj == step * d;
      MulAtLeastOne(step, d);
    }
  }

  lemma MulAtLeastOne(a: real, b: real)
    requires a >= 0.0 && b >= 1.0
    ensures a * b >= a
  {
    assert a * b - a == a * (b - 1.0);
  }

  /** The angles are distinct, so the inverted table is well defined. */
  lemma AnglesDistinct(n: int)
    requires n >= 1
    ensures PyDict.Distinct(PyDict.Values(PositionDict(n)))
  {
    var vs := PyDict.Values(PositionDict(n));
    forall i, j | 0 <= i < j < |vs| ensures vs[i] != vs[j] {
      AnglesApart(n, i, j);
    }
  }

  /** The position whose table angle is `angle`, looked up in the inverted table (0 when none is). */
  function LookUp(n: int, angle: real): int
  {
    match PyDict.Get(PyDict.Invert(PositionDict(n)), angle)
    case Some(p) => p
    case None => 0
  }

  /** The lookup finds the position at that angle, and reports 0 only when no position is there. */
  lemma LookUpSpec(n: int, angle: real)
    requires n >= 1
    ensures var pos := LookUp(n, angle);
      (pos == 0 || (1 <= pos <= n && Angle(n, pos - 1) == angle))
      && (pos == 0 <==> forall i :: 0 <= i < n ==> Angle(n, i) != angle)
  {
    var d := PositionDict(n);
    match PyDict.Get(PyDict.Invert(d), angle)
    case Some(p) =>
      var i := SwappedIndex(d, angle, p);
      assert d[i] == (i + 1, Angle(n, i));
    case None =>
      forall i | 0 <= i < n ensures Angle(n, i) != angle {
        AnglesDistinct(n);
        PyDict.InvertGet(d, i);
      }
  }

  /** A pair of the inverted dict is the swap of some item of the dict. */
  lemma SwappedIndex<K(!new), V(!new)>(d: PyDict.Dict<K, V>, v: V, k: K) returns (i: nat)
    requires PyDict.Get(PyDict.Invert(d), v) == Some(k)
    ensures i < |d| && d[i] == (k, v)
  {
    FromPairsMember(PyDict.Swapped(d), v, k);
    var ps := PyDict.Swapped(d);
    i :| 0 <= i < |ps| && ps[i] == (v, k);
  }

  /** Every pair of the dict built from pairs is one of those pairs. */
  lemma {:induction false} FromPairsMember<K(!new), V>(ps: seq<(K, V)>, k: K, v: V)
    requires (k, v) in PyDict.FromPairs(ps)
    ensures (k, v) in ps
  {
    if ps != [] {
      var init := ps[..|ps| - 1];
      var last := ps[|ps| - 1];
      if (k, v) != last {
        SetMember(PyDict.FromPairs(init), last.0, last.1, k, v);
        FromPairsMember(init, k, v);
      }
    }
  }

  /** A pair of a dict after one assignment is the assigned pair or was already there. */
  lemma SetMember<K(!new), V>(d: PyDict.Dict<K, V>, key: K, val: V, k: K, v: V)
    requires (k, v) in PyDict.Set(d, key, val) && (k, v) != (key, val)
    ensures (k, v) in d
  {
  }

  /**
   * get_position: the position whose table angle equals the motor angle rounded to a whole
   * degree (half to even, as numpy rounds), or 0 when no angle matches.
   */
  function GetPosition(w: ThorlabsWheel): (pos: int)
    ensures w.numFilters >= 1 ==>
      (pos == 0 || (1 <= pos <= w.numFilters && Angle(w.numFilters, pos - 1) == Numeric.RoundHalfEven(w.motorAngle) as real))
    ensures w.numFilters >= 1 ==>
      (pos == 0 <==> forall i :: 0 <= i < w.numFilters ==> Angle(w.numFilters, i) != Numeric.RoundHalfEven(w.motorAngle) as real)
  {
    if w.numFilters >= 1 then
      LookUpSpec(w.numFilters, Numeric.RoundHalfEven(w.motorAngle) as real);
      LookUp(w.numFilters, Numeric.RoundHalfEven(w.motorAngle) as real)
    else
    LookUp(w.numFilters, Numeric.RoundHalfEven(w.motorAngle) as real)
  }

  /**
   * set_position: a target above n gives -1 and no move; otherwise the motor is sent to
   * the target's table angle and the code is 0, except that a target below 1 is not in the
   * table and raises KeyError.
   */
  function SetPosition(w: ThorlabsWheel, target: int): (r: Result<(ThorlabsWheel, int)>)
    ensures target >= w.numFilters + 1 ==> r == Ok((w, -1))
    ensures target < 1 && target < w.numFilters + 1 ==> r == Err(KeyError)
    ensures 1 <= target <= w.numFilters ==> r == Ok((w.(motorAngle := Angle(w.numFilters, target - 1)), 0))
  {
    if target >= w.numFilters + 1 then Ok((w, -1))
    else if target < 1 then Err(KeyError)
    else Ok((w.(motorAngle := Angle(w.numFilters, target - 1)), 0))
  }

  /** When the target's angle is a whole number of degrees, the position reads back after a move. */
  lemma SetThenGetWholeAngle(w: ThorlabsWheel, target: int, a: int)
    requires 1 <= target <= w.numFilters && Angle(w.numFilters, target - 1) == a as real
    ensures GetPosition(SetPosition(w, target).value.0) == target
  {
    var moved := SetPosition(w, target).value.0;
    assert moved.motorAngle == a as real;
    Numeric.RoundNear(a as real, a);
    ReadsPositionAt(moved, a, target - 1);
  }

  /** A motor angle that rounds to the whole-degree angle of position i+1 reads as i+1. */
  lemma ReadsPositionAt(w: ThorlabsWheel, a: int, i: int)
    requires 0 <= i < w.numFilters && Angle(w.numFilters, i) == a as real
    requires Numeric.RoundHalfEven(w.motorAngle) == a
    ensures GetPosition(w) == i + 1
  {
    var n := w.numFilters;
    var p := GetPosition(w);
    assert p != 0 by {
      assert Angle(n, i) == Numeric.RoundHalfEven(w.motorAngle) as real;
    }
    assert 1 <= p <= n && Angle(n, p - 1) == a as real;
    AngleInjective(n, p - 1, i);
  }

  lemma AngleInjective(n: int, i: int, j: int)
    requires n >= 1 && 0 <= i < n && 0 <= j < n && Angle(n, i) == Angle(n, j)
    ensures i == j
  {
    if i < j { AnglesApart(n, i, j); }
    else if j < i { AnglesApart(n, j, i); }
  }

  /**
   * With 7 filters, position 2 sits at 360 - 360/7 = 308.57... degrees; the rounded motor
   * angle 309 is not in the table, so the wheel reports 0 right after moving to 2.
   */
  lemma SetThenGetSevenFilters()
    ensures SetPosition(ThorlabsWheel(7, 0.0), 2).Ok?
    ensures GetPosition(SetPosition(ThorlabsWheel(7, 0.0), 2).value.0) == 0
  {
    var a := Angle(7, 1);
    assert a == 360.0 - 360.0 / 7.0;
    Numeric.RoundNear(a, 309);
    assert forall i :: 0 <= i < 7 ==> Angle(7, i) != 309.0 by {
      forall i | 0 <= i < 7 ensures Angle(7, i) != 309.0 {
        if i >= 1 {
          assert Angle(7, i) == 360.0 - 360.0 / 7.0 * i as real;
        }
      }
    }
  }

  /**
   * get_position as intended: the rounded motor angle is compared with the rounded table
   * angles, so a position whose angle is not a whole number is still found.
   */
  function GetPositionRounded(w: ThorlabsWheel): (pos: int)
    ensures pos == 0 || (1 <= pos <= w.numFilters
                         && Numeric.RoundHalfEven(Angle(w.numFilters, pos - 1)) == Numeric.RoundHalfEven(w.motorAngle))
    ensures pos == 0 ==> forall i :: 0 <= i < w.numFilters ==>
      Numeric.RoundHalfEven(Angle(w.numFilters, i)) != Numeric.RoundHalfEven(w.motorAngle)
  {
    FirstRounded(w.numFilters, Numeric.RoundHalfEven(w.motorAngle), 0)
  }

  /** The first position from i+1 on whose rounded angle is `r`, or 0. */
  function FirstRounded(n: int, r: int, i: nat): (pos: int)
    decreases n - i
    ensures pos == 0 || (i + 1 <= pos <= n && Numeric.RoundHalfEven(Angle(n, pos - 1)) == r)
    ensures pos == 0 ==> forall j :: i <= j < n ==> Numeric.RoundHalfEven(Angle(n, j)) != r
    ensures pos != 0 ==> forall j :: i <= j < pos - 1 ==> Numeric.RoundHalfEven(Angle(n, j)) != r
  {
    if i >= n then 0
    else if Numeric.RoundHalfEven(Angle(n, i)) == r then i + 1
    else FirstRounded(n, r, i + 1)
  }

  /** Positions at least 2 degrees apart round to different whole degrees. */
  lemma RoundedApart(n: int, i: int, j: int)
    requires 1 <= n <= 180 && 0 <= i < n && 0 <= j < n && i != j
    ensures Numeric.RoundHalfEven(Angle(n, i)) != Numeric.RoundHalfEven(Angle(n, j))
  {
    assert 360.0 / n as real >= 2.0;
    if i < j { AnglesApart(n, i, j); } else { AnglesApart(n, j, i); }
  }

  /** With at most 180 filters, moving to any position and reading it back gives that position. */
  lemma SetThenGetRounded(w: ThorlabsWheel, target: int)
    requires 1 <= w.numFilters <= 180 && 1 <= target <= w.numFilters
    ensures GetPositionRounded(SetPosition(w, target).value.0) == target
  {
    var p := GetPositionRounded(SetPosition(w, target).value.0);
    if p != target && p != 0 {
      RoundedApart(w.numFilters, p - 1, target - 1);
    }
  }
}

=== FILE: validators.dfy ===
/**
 * The name validator of the GUI (gui/validators.py): input is accepted while it is made
 * of word characters (and, for paths, '/', '\' and ':'); `fixup` keeps the first run of
 * such characters. The regular expressions are the single-class patterns `[\w]+` and
 * `[/\\:\w]+`, modelled here as scans over the string. On `str` patterns `\w` is
 * Unicode-aware: besides the ASCII letters, digits and '_' it matches the characters the
 * Unicode database classes as alphanumeric, which the pattern carries as a set.
 */
module Validators {

  /** The answers of a Qt validator. */
  datatype State = Invalid | Intermediate | Acceptable

  /**
   * A compiled pattern: the name pattern or the path pattern, with the non-ASCII characters
   * that `\w` matches (those for which `str.isalnum()` holds).
   */
  datatype Pattern = Pattern(path: bool, wide: set<char>)

  /** `\w`: an ASCII letter, digit or '_', or a non-ASCII alphanumeric character. */
  predicate IsWordChar(wide: set<char>, c: char)
  {
    ('a' <= c <= 'z') || ('A' <= c <= 'Z') || ('0' <= c <= '9') || c == '_'
    || (c as int >= 0x80 && c in wide)
  }

  /** The characters the pattern accepts: word characters, plus '/', '\' and ':' for paths. */
  predicate Allowed(p: Pattern, c: char)
  {
    IsWordChar(p.wide, c) || (p.path && (c == '/' || c == '\\' || c == ':'))
  }

  predicate AllAllowed(p: Pattern, s: string)
  {
    forall i :: 0 <= i < |s| ==> Allowed(p, s[i])
  }

  /** The greedy match at the start of `s` (`pattern.match(s).group()`, or "" for no match). */
  function Run(p: Pattern, s: string): (m: string)
    ensures |m| <= |s| && m == s[..|m|] && AllAllowed(p, m)
    ensures |m| < |s| ==> !Allowed(p, s[|m|])
  {
    if s == [] || !Allowed(p, s[0]) then [] else [s[0]] + Run(p, s[1..])
  }

  /** The position of the first allowed character, or |s| when there is none. */
  function Skip(p: Pattern, s: string): (i: nat)
    ensures i <= |s| && forall j :: 0 <= j < i ==> !Allowed(p, s[j])
    ensures i < |s| ==> Allowed(p, s[i])
  {
    if s == [] || Allowed(p, s[0]) then 0 else 1 + Skip(p, s[1..])
  }

  /**
   * validate: an empty input is Acceptable when empty names are allowed and Intermediate
   * otherwise; an input that is all allowed characters is Acceptable and kept; otherwise
   * it is Invalid and replaced by its leading match ("" when there is none). The cursor
   * position is returned unchanged.
   */
  function Validate(emptyAllowed: bool, p: Pattern, s: string, position: int): (r: (State, string, int))
    ensures r.2 == position
    ensures r.0 == Acceptable <==> (s == [] && emptyAllowed) || (s != [] && AllAllowed(p, s))
    ensures r.0 == Intermediate <==> s == [] && !emptyAllowed
    ensures r.0 == Acceptable ==> r.1 == s
    ensures r.0 == Invalid ==> r.1 == Run(p, s) && |r.1| < |s| && !Allowed(p, s[|r.1|])
  {
    if s == [] then
      if emptyAllowed then (Acceptable, "", position) else (Intermediate, s, position)
    else
      var m := Run(p, s);
      if m == [] then (Invalid, "", position)
      else if m == s then (Acceptable, s, position)
      else (Invalid, m, position)
  }

  /** A path validator accepts every name a name validator accepts. */
  lemma PathAcceptsNames(emptyAllowed: bool, wide: set<char>, s: string, position: int)
    requires Validate(emptyAllowed, Pattern(false, wide), s, position).0 == Acceptable
    ensures Validate(emptyAllowed, Pattern(true, wide), s, position).0 == Acceptable
  {
  }

  /**
   * fixup: the first run of allowed characters anywhere in the text (`pattern.search`),
   * or "" when the text has none.
   */
  function Fixup(p: Pattern, text: string): (r: string)
    ensures AllAllowed(p, r)
    ensures r == [] <==> forall j :: 0 <= j < |text| ==> !Allowed(p, text[j])
  {
    var i := Skip(p, text);
    var m := Run(p, text[i..]);
    m
  }

  /** The run fixup returns is maximal: it starts at the first allowed character and cannot be extended. */
  lemma FixupMaximal(p: Pattern, text: string)
    ensures var i := Skip(p, text);
      var r := Fixup(p, text);
      i + |r| <= |text| && text[i..i + |r|] == r
      && (forall j :: 0 <= j < i ==> !Allowed(p, text[j]))
      && (i + |r| < |text| ==> !Allowed(p, text[i + |r|]))
  {
    var i := Skip(p, text);
    assert Fixup(p, text) == Run(p, text[i..]);
    RunFrom(p, text, i);
  }

  /** The leading match of a suffix, located in the whole text. */
  lemma RunFrom(p: Pattern, text: string, i: nat)
    requires i <= |text|
    ensures var r := Run(p, text[i..]);
      i + |r| <= |text| && text[i..i + |r|] == r
      && (i + |r| < |text| ==> !Allowed(p, text[i + |r|]))
  {
    var t := text[i..];
    var r := Run(p, t);
    assert r == t[..|r|];
    assert t[..|r|] == text[i..i + |r|];
    if i + |r| < |text| {
      assert t[|r|] == text[i + |r|];
    }
  }

  /** A fixed-up text that is not empty passes validation unchanged. */
  lemma FixupValidates(emptyAllowed: bool, p: Pattern, text: string, position: int)
    ensures var f := Fixup(p, text);
      f != [] ==> Validate(emptyAllowed, p, f, position) == (Acceptable, f, position)
  {
    var f := Fixup(p, text);
    if f != [] {
      RunAll(p, f);
    }
  }

  /** A string of allowed characters is its own leading match. */
  lemma {:induction false} RunAll(p: Pattern, s: string)
    requires AllAllowed(p, s)
    ensures Run(p, s) == s
  {
    if s != [] {
      RunAll(p, s[1..]);
    }
  }

  /** Fixing up twice is fixing up once. */
  lemma FixupIdempotent(p: Pattern, text: string)
    ensures Fixup(p, Fixup(p, text)) == Fixup(p, text)
  {
    var f := Fixup(p, text);
    if f != [] {
      assert Skip(p, f) == 0;
      RunAll(p, f);
      assert f[0..] == f;
    }
  }
}

=== FILE: valve_dummy.dfy ===
/**
 * The dummy valve positioner (hardware/valve/valve_dummy.py): instead of talking to a
 * daisy chain it keeps every valve's position in a dict, under the same range checks as
 * the Hamilton driver.
 */
module ValveDummy {
  import opened Wrappers
  import PyDict
  import opened ValvePositioner
  import HamiltonValve

  /** The position every valve is put to at activation. */
  const InitPos := 1

  /** The configuration and the stored position of each valve, by daisy-chain ID. */
  datatype ValveDummy = ValveDummy(config: ValveConfig, positions: PyDict.Dict<string, int>)

  /**
   * set_valve_position: an address that is not a configured ID, or a target above the
   * valve's number of outputs, leaves the positions as they are; any other target is
   * stored. Looking up the number of outputs raises as get_valve_dict does.
   */
  function SetValvePosition(v: ValveDummy, address: string, target: int): (r: Result<ValveDummy>)
    ensures address !in v.config.ids ==> r == Ok(v)
    ensures address in v.config.ids && MaxOutputs(v.config, address).Err? ==> r == Err(MaxOutputs(v.config, address).error)
    ensures address in v.config.ids && MaxOutputs(v.config, address).Ok? ==>
      r.Ok? && r.value.config == v.config
      && (target > MaxOutputs(v.config, address).value ==> r.value == v)
      && (target <= MaxOutputs(v.config, address).value ==>
            PyDict.Get(r.value.positions, address) == Some(target)
            && forall a :: a != address ==> PyDict.Get(r.value.positions, a) == PyDict.Get(v.positions, a))
    ensures r.Ok? && PyDict.Valid(v.positions) ==> PyDict.Valid(r.value.positions)
  {
    if address !in v.config.ids then Ok(v)
    else
      match MaxOutputs(v.config, address)
      case Err(e) => Err(e)
      case Ok(maxPos) =>
        if target > maxPos then Ok(v)
        else Ok(v.(positions := PyDict.Set(v.positions, address, target)))
  }

  /**
   * get_valve_position: the stored position of a configured valve (None for an address
   * that is not configured); a configured valve that was never set raises KeyError.
   */
  function GetValvePosition(v: ValveDummy, address: string): (r: Result<Option<int>>)
    ensures address !in v.config.ids ==> r == Ok(None)
    ensures address in v.config.ids ==>
      (r == Err(KeyError) <==> address !in PyDict.KeySet(v.positions))
    ensures address in v.config.ids && r.Ok? ==> r.value.Some? && (address, r.value.value) in v.positions
  {
    if address !in v.config.ids then Ok(None)
    else
      match PyDict.Get(v.positions, address)
      case None => Err(KeyError)
      case Some(p) => Ok(Some(p))
  }

  /** With distinct IDs, a target within valve i's outputs reads back after it is set. */
  lemma SetThenGet(v: ValveDummy, i: nat, target: int)
    requires DistinctIds(v.config) && i < Count(v.config) && target <= v.config.outputs[i]
    ensures SetValvePosition(v, v.config.ids[i], target).Ok?
    ensures GetValvePosition(SetValvePosition(v, v.config.ids[i], target).value, v.config.ids[i]) == Ok(Some(target))
  {
    MaxOutputsOf(v.config, i);
  }

  /** Setting one valve leaves the reading of every other valve as it was. */
  lemma SetOtherValve(v: ValveDummy, address: string, target: int, other: string)
    requires other != address && SetValvePosition(v, address, target).Ok?
    ensures GetValvePosition(SetValvePosition(v, address, target).value, other) == GetValvePosition(v, other)
  {
  }

  /**
   * on_activate: the first `k` configured valves (of num_valves) set to the initial
   * position, one after the other; an ID list shorter than num_valves raises IndexError.
   */
  function ActivateFirst(v: ValveDummy, k: nat): (r: Result<ValveDummy>)
    requires k <= Count(v.config)
    ensures r.Ok? ==> r.value.config == v.config
    ensures r.Ok? && PyDict.Valid(v.positions) ==> PyDict.Valid(r.value.positions)
    ensures k > 0 && k <= |v.config.ids| && ActivateFirst(v, k - 1).Ok? ==>
      r == SetValvePosition(ActivateFirst(v, k - 1).value, v.config.ids[k - 1], InitPos)
    decreases k
  {
    if k == 0 then Ok(v)
    else
      var prev := ActivateFirst(v, k - 1);
      if prev.Err? then prev
      else if k - 1 >= |v.config.ids| then Err(IndexError)
      else SetValvePosition(prev.value, v.config.ids[k - 1], InitPos)
  }

  function Activate(v: ValveDummy): (r: Result<ValveDummy>)
    ensures r.Ok? ==> r.value.config == v.config
  {
    ActivateFirst(v, Count(v.config))
  }

  /**
   * With distinct IDs and at least one output per valve, activation succeeds and every
   * configured valve then reads the initial position.
   */
  lemma ActivateFirstSets(v: ValveDummy, k: nat)
    requires DistinctIds(v.config) && k <= Count(v.config)
    requires forall i :: 0 <= i < Count(v.config) ==> v.config.outputs[i] >= InitPos
    ensures ActivateFirst(v, k).Ok?
    ensures forall i :: 0 <= i < k ==> GetValvePosition(ActivateFirst(v, k).value, v.config.ids[i]) == Ok(Some(InitPos))
  {
    ActivateFirstOk(v, k);
    forall i | 0 <= i < k
      ensures GetValvePosition(ActivateFirst(v, k).value, v.config.ids[i]) == Ok(Some(InitPos))
    {
      ActivatedReads(v, k, i);
    }
  }

  /** Setting the first k valves succeeds. */
  lemma {:induction false} ActivateFirstOk(v: ValveDummy, k: nat)
    requires DistinctIds(v.config) && k <= Count(v.config)
    requires forall i :: 0 <= i < Count(v.config) ==> v.config.outputs[i] >= InitPos
    ensures ActivateFirst(v, k).Ok?
  {
    if k > 0 {
      var j := k - 1;
      ActivateFirstOk(v, j);
      StepOk(ActivateFirst(v, j).value, j);
      ActivateFirstLast(v, k, j);
    }
  }

  /** After the first k valves are set, valve i (i < k) reads the initial position. */
  lemma {:induction false} ActivatedReads(v: ValveDummy, k: nat, i: nat)
    requires DistinctIds(v.config) && i < k <= Count(v.config)
    requires forall i :: 0 <= i < Count(v.config) ==> v.config.outputs[i] >= InitPos
    ensures ActivateFirst(v, k).Ok?
    ensures GetValvePosition(ActivateFirst(v, k).value, v.config.ids[i]) == Ok(Some(InitPos))
  {
    var j := k - 1;
    ActivateFirstOk(v, j);
    var w := ActivateFirst(v, j).value;
    ActivateFirstLast(v, k, j);
    if i == j {
      StepReads(w, i);
    } else {
      ActivatedReads(v, j, i);
      KeepsEarlier(w, j, i);
    }
  }

  /** Valve j can be set to the initial position. */
  lemma StepOk(w: ValveDummy, j: nat)
    requires DistinctIds(w.config) && j < Count(w.config) && w.config.outputs[j] >= InitPos
    ensures SetValvePosition(w, w.config.ids[j], InitPos).Ok?
  {
    SetThenGet(w, j, InitPos);
  }

  /** Valve j reads the initial position once it is set to it. */
  lemma StepReads(w: ValveDummy, j: nat)
    requires DistinctIds(w.config) && j < Count(w.config) && w.config.outputs[j] >= InitPos
    ensures SetValvePosition(w, w.config.ids[j], InitPos).Ok?
    ensures GetValvePosition(SetValvePosition(w, w.config.ids[j], InitPos).value, w.config.ids[j]) == Ok(Some(InitPos))
  {
    SetThenGet(w, j, InitPos);
  }

  /** Setting the first k = j + 1 valves is setting the first j and then valve j. */
  lemma ActivateFirstLast(v: ValveDummy, k: nat, j: nat)
    requires Complete(v.config) && j + 1 == k <= Count(v.config) && ActivateFirst(v, j).Ok?
    ensures ActivateFirst(v, k) == SetValvePosition(ActivateFirst(v, j).value, v.config.ids[j], InitPos)
  {
    assert k - 1 == j;
  }

  /** Setting valve j to the initial position keeps the reading of an earlier valve i. */
  lemma KeepsEarlier(w: ValveDummy, j: nat, i: nat)
    requires DistinctIds(w.config) && i < j < Count(w.config)
    requires SetValvePosition(w, w.config.ids[j], InitPos).Ok?
    ensures GetValvePosition(SetValvePosition(w, w.config.ids[j], InitPos).value, w.config.ids[i])
            == GetValvePosition(w, w.config.ids[i])
  {
    assert w.config.ids[i] != w.config.ids[j];
    SetOtherValve(w, w.config.ids[j], InitPos, w.config.ids[i]);
  }

  lemma ActivateSets(v: ValveDummy)
    requires DistinctIds(v.config)
    requires forall i :: 0 <= i < Count(v.config) ==> v.config.outputs[i] >= InitPos
    ensures Activate(v).Ok?
    ensures forall i :: 0 <= i < Count(v.config) ==> GetValvePosition(Activate(v).value, v.config.ids[i]) == Ok(Some(InitPos))
  {
    ActivateFirstSets(v, Count(v.config));
  }

  /** get_status: every configured ID (the whole ID list) reports 'Y', idle. */
  function GetStatus(c: ValveConfig): (r: PyDict.Dict<string, string>)
    ensures PyDict.Valid(r)
    ensures PyDict.KeySet(r) == set i | 0 <= i < |c.ids| :: c.ids[i]
    ensures forall k :: k in PyDict.KeySet(r) ==> PyDict.Get(r, k) == Some("Y")
  {
    var ps := seq(|c.ids|, i requires 0 <= i < |c.ids| => (c.ids[i], "Y"));
    var r := PyDict.FromPairs(ps);
    var fromPairs := set i | 0 <= i < |ps| :: ps[i].0;
    var configured := set i | 0 <= i < |c.ids| :: c.ids[i];
    assert fromPairs == configured by {
      forall k | k in configured ensures k in fromPairs {
        var i :| 0 <= i < |c.ids| && c.ids[i] == k;
        assert ps[i].0 == k;
      }
    }
    assert forall k :: k in PyDict.KeySet(r) ==> PyDict.Get(r, k) == Some("Y") by {
      forall k | k in PyDict.KeySet(r) ensures PyDict.Get(r, k) == Some("Y") {
        var j :| 0 <= j < |ps| && ps[j].0 == k;
        LastWithKey(ps, j);
      }
    }
    r
  }

  /** Among the pairs with the key of pair j, one is last. */
  lemma {:induction false} LastWithKey(ps: seq<(string, string)>, j: nat)
    requires j < |ps| && forall i :: 0 <= i < |ps| ==> ps[i].1 == "Y"
    ensures PyDict.Get(PyDict.FromPairs(ps), ps[j].0) == Some("Y")
    decreases |ps| - j
  {
    if forall i :: j < i < |ps| ==> ps[i].0 != ps[j].0 {
      PyDict.FromPairsGet(ps, j);
    } else {
      var i :| j < i < |ps| && ps[i].0 == ps[j].0;
      LastWithKey(ps, i);
    }
  }

  /**
   * The dummy stands in for the Hamilton chain: it stores a position exactly when the
   * Hamilton driver would send a move command for it, and both raise alike.
   */
  lemma StoresWhenHamiltonMoves(v: ValveDummy, address: string, target: int, startPos: int)
    ensures SetValvePosition(v, address, target).Err? <==> HamiltonValve.SetValvePosition(v.config, address, target, startPos).Err?
    ensures var h := HamiltonValve.SetValvePosition(v.config, address, target, startPos);
      h.Ok? && h.value.Some? ==>
        PyDict.Get(SetValvePosition(v, address, target).value.positions, address) == Some(target)
    ensures var h := HamiltonValve.SetValvePosition(v.config, address, target, startPos);
      h.Ok? && h.value.None? ==> SetValvePosition(v, address, target) == Ok(v)
  {
  }
}

=== FILE: valve_interface.dfy ===
/**
 * The configuration shared by the valve positioner drivers (the Hamilton MVP daisy chain
 * and its dummy): valves addressed by daisy-chain IDs, each with a name and a number of
 * outputs, and the valve dict both drivers build from it the same way.
 */
module ValvePositioner {
  import opened Wrappers
  import PyDict

  /** 'num_valves', 'name', 'daisychain_ID' and 'number_outputs' of the configuration. */
  datatype ValveConfig = ValveConfig(numValves: int, names: seq<string>, ids: seq<string>, outputs: seq<int>)

  datatype ValveEntry = ValveEntry(daisychainId: string, name: string, numberOutputs: int)

  /** The first `numValves` configured valves (none when the number is not positive). */
  function Count(c: ValveConfig): nat
  {
    if c.numValves < 0 then 0 else c.numValves
  }

  /** Every list of the configuration has an entry for each of the first `numValves` valves. */
  predicate Complete(c: ValveConfig)
  {
    Count(c) <= |c.names| && Count(c) <= |c.ids| && Count(c) <= |c.outputs|
  }

  /**
   * get_valve_dict: valve i (i below num_valves) is stored under its daisy-chain ID with
   * its name and number of outputs; a later valve with the same ID replaces an earlier one;
   * a configuration list shorter than num_valves raises IndexError.
   */
  function ValveDict(c: ValveConfig): (r: Result<PyDict.Dict<string, ValveEntry>>)
    ensures r.Err? <==> !Complete(c)
    ensures r.Ok? ==> PyDict.Valid(r.value)
    ensures r.Ok? ==> PyDict.KeySet(r.value) == set i | 0 <= i < Count(c) :: c.ids[i]
  {
    if !Complete(c) then Err(IndexError)
    else
      var ps := seq(Count(c), i requires 0 <= i < Count(c) => (c.ids[i], ValveEntry(c.ids[i], c.names[i], c.outputs[i])));
      var fromPairs := set i | 0 <= i < |ps| :: ps[i].0;
      var configured := set i | 0 <= i < Count(c) :: c.ids[i];
      assert fromPairs == configured by {
        forall k | k in configured ensures k in fromPairs {
          var i :| 0 <= i < Count(c) && c.ids[i] == k;
          assert ps[i].0 == k;
        }
      }
      Ok(PyDict.FromPairs(ps))
  }

  /** The IDs of the first `numValves` valves are all different. */
  predicate DistinctIds(c: ValveConfig)
  {
    Complete(c) && forall i, j :: 0 <= i < j < Count(c) ==> c.ids[i] != c.ids[j]
  }

  /**
   * `get_valve_dict()[address]['number_outputs']`: the number of outputs of the addressed
   * valve; an ID outside the dict raises KeyError.
   */
  function MaxOutputs(c: ValveConfig, address: string): (r: Result<int>)
    ensures !Complete(c) ==> r == Err(IndexError)
    ensures Complete(c) && (forall i :: 0 <= i < Count(c) ==> c.ids[i] != address) ==> r == Err(KeyError)
  {
    match ValveDict(c)
    case Err(e) => Err(e)
    case Ok(d) =>
      match PyDict.Get(d, address)
      case None => Err(KeyError)
      case Some(e) => Ok(e.numberOutputs)
  }

  /** With distinct IDs, valve i's ID finds valve i's number of outputs. */
  lemma MaxOutputsOf(c: ValveConfig, i: nat)
    requires DistinctIds(c) && i < Count(c)
    ensures MaxOutputs(c, c.ids[i]) == Ok(c.outputs[i])
  {
    var ps := seq(Count(c), j requires 0 <= j < Count(c) => (c.ids[j], ValveEntry(c.ids[j], c.names[j], c.outputs[j])));
    PyDict.FromPairsGet(ps, i);
  }
}

=== FILE: wrappers.dfy ===
/**
 * Option and Result values, and the Python exceptions the modelled code can raise.
 * An operation that raises in Python returns `Err(e)` here.
 */
module Wrappers {

  datatype Option<+T> = None | Some(value: T)
  {
    predicate IsNone() { None? }

    function GetOr(default: T): T
    {
      match this
      case None => default
      case Some(v) => v
    }
  }

  /** The built-in exceptions raised by the modelled code paths. */
  datatype PyError =
    | KeyError
    | ValueError
    | TypeError
    | IndexError
    | AttributeError
    | ZeroDivisionError

  datatype Result<+T> = Ok(value: T) | Err(error: PyError)
  {
    predicate IsFailure() { Err? }
  }
}
